=== FILE: README.md ===
# Portfolio site scripts, modelled in Dafny

This project models the decision logic of a personal portfolio site's
client-side JavaScript. The DOM, storage, the network, timers and
randomness are treated as inputs and outputs. The model covers:

- the service worker's cache. Install fills one named cache from a fixed asset
  list, and activate deletes every other cache. Fetch is cache-first: it stores
  only status-200 responses, and a page request that cannot reach the network
  falls back to the cached start page;
- the site search: keyword extraction, the substring search, ranking by a
  relevance score, excerpts, keyboard navigation through the results, and a
  most-recent-first history of ten queries;
- the security manager. It covers the Content-Security-Policy string, the
  hexadecimal CSRF token and the form-action allow-list. It also covers the
  SameSite cookie rewrite, the crypto-miner URL check and a newest-first event
  log of fifty entries;
- the state machines behind:
  - ad consent and ad retries;
  - the two theme managers;
  - the two analytics trackers (consent, event lists, scroll milestones and
    session pruning);
  - the lazy-loading and image-optimising bookkeeping;
- the pure classifiers:
  - the two form validators and the project-suggestion tables;
  - page, breadcrumb and structured-data derivation from the location;
  - the accessibility labels, focus wrapping and heading check;
  - the performance monitor's thresholds and resource summary.

There is one Dafny module per script. Scripts that update objects in place
are modelled as classes whose methods change fields, with `modifies` clauses.
Pure lookups and string logic are modelled as functions, with lemmas stating
what they promise. Shared pieces live in their own modules:

- `Js`: the JavaScript string and value helpers;
- `Dom`: the `<img>` element;
- `Forms`: the rules the two validators share;
- `Ordering`: the stable descending sort.

The service worker follows `sw.js` as written: a single cache-first handler
for every request.

## Model

| member | source | states |
|---|---|---|
| `ServiceWorker.FirstMatchSpec` | sw.js:51 | `caches.match` finds nothing exactly when no cache holds the URL; otherwise it returns the entry of the first cache, in creation order, that holds it |
| `ServiceWorker.FirstMatch` | sw.js:51 | the response for the URL in the first cache, in creation order, that has one |
| `ServiceWorker.GetRequest` | sw.js:51 | the GET request a bare URL stands for |
| `ServiceWorker.FirstMatchAfterStore` | sw.js:59-61 | a URL no cache held is found, once put into a listed cache, with the stored response |
| `ServiceWorker.FirstMatchAfterOpen` | sw.js:20 | opening a new empty cache changes no lookup |
| `ServiceWorker.FirstMatchOtherUrl` | sw.js:61 | a `put` under one URL leaves the lookups of every other URL as they were |
| `ServiceWorker.PutEach` | sw.js:23 | storing the fetched responses adds exactly the listed URLs to the cache, keeps every other entry, and with distinct URLs stores each URL's own response |
| `ServiceWorker.AddAll` | sw.js:23 | `cache.addAll` succeeds exactly when every fetch returned an ok response other than `206 Partial Content`; then the cache holds every asset with its response, otherwise nothing is stored |
| `ServiceWorker.PartialContentRejected` | sw.js:23 | a single `206` response, although ok, makes `addAll` reject and store nothing |
| `ServiceWorker.Without` | sw.js:36-40 | the cache names left after deleting a set are exactly the names not in it, in the same order and still distinct |
| `ServiceWorker.WithoutNothing` | sw.js:36-40 | deleting no names changes nothing |
| `ServiceWorker.WithoutTwice` | sw.js:36-40 | deleting two sets of names one after the other is deleting their union |
| `ServiceWorker.OnlyCurrentName` | sw.js:33-43 | once every name but `klaus-portfolio-v1` is deleted, the name list is that one name, or empty if it was absent |
| `ServiceWorker.OnlyCurrentCache` | sw.js:33-43 | removing the stale names from the storage map keeps only the current cache, with its contents |
| `ServiceWorker.Stale` | sw.js:33-43 | the cache names other than the current one |
| `ServiceWorker.CacheStorage.constructor` | sw.js:2 | an empty cache storage |
| `ServiceWorker.CacheStorage.Open` | sw.js:20 | opening an existing cache changes nothing; opening a new name creates an empty cache, last in creation order |
| `ServiceWorker.CacheStorage.Delete` | sw.js:39 | the name and its cache are gone and the other names keep their order |
| `ServiceWorker.CacheStorage.OpenAndAddAll` | sw.js:19-24 | the named cache exists afterwards; when every fetch delivered an ok, non-partial response it becomes exactly what `AddAll` gives from its earlier entries (kept, with each URL's response added), and otherwise it is unchanged; other caches are untouched |
| `ServiceWorker.CacheStorage.Install` | sw.js:17-27 | install completes exactly when every asset fetch delivered an ok, non-partial response; then `klaus-portfolio-v1` is exactly what `AddAll` gives from its earlier entries and the asset responses, and otherwise it is unchanged; other caches are untouched |
| `ServiceWorker.CacheStorage.Activate` | sw.js:30-46 | afterwards only `klaus-portfolio-v1` remains, with its contents, if it existed |
| `ServiceWorker.CacheStorage.Fetch` | sw.js:49-74 | a cache hit is served unchanged, without the network; a miss is served from the network and cached only when the status is exactly 200, so the next lookup finds it; with no network a document request gets the cached `/index.html` and anything else gets nothing |
| `ServiceWorker.CacheStorage.Store` | sw.js:59-62 | the response is put into `klaus-portfolio-v1`, opened if needed, and the next GET lookup of the request finds it |
| `ServiceWorker.CacheStorage.Match` | sw.js:51 | only GET requests match |
| `ServiceWorker.Stored` | sw.js:61 | a GET response is stored under its URL, every other entry is kept, and nothing else is added |
| `Security.DirectiveText` | security-manager.js:47-50 | a directive is written as its name, followed by its sources only when it has some |
| `Security.Texts` | security-manager.js:46-50 | one text per directive, in declaration order |
| `Security.Csp` | security-manager.js:44-51 | the directives in order, joined by `; ` |
| `Security.CspSplitsIntoDirectives` | security-manager.js:44-51 | cutting the policy header at `"; "` gives back each directive's text in order, so no directive is lost or merged |
| `Security.DirectiveSplitsIntoWords` | security-manager.js:47-50 | cutting a directive's text at its spaces gives its name followed by its sources |
| `Security.ToHex` | security-manager.js:224 | one byte written in base 16 takes one or two digits |
| `Security.PadStart` | security-manager.js:224 | padding on the left keeps the text as a suffix and reaches the requested length |
| `Security.ByteHex` | security-manager.js:224 | each byte gives exactly two lowercase hexadecimal digits, high nibble first |
| `Security.Token` | security-manager.js:224 | the token has two hexadecimal digits per byte |
| `Security.GenerateCsrfToken` | security-manager.js:221-225 | 32 random bytes give a 64-character token |
| `Security.HexValueDigit` | security-manager.js:224 | each digit reads back as the nibble it was written from |
| `Security.DecodeStep` | security-manager.js:224 | one byte's two digits read back as that byte, in front of the rest |
| `Security.TokenRoundTrip` | security-manager.js:221-225 | every token reads back as the bytes it was made from |
| `Security.TokenInjective` | security-manager.js:221-225 | different random bytes never give the same token |
| `Security.AllowedDomains` | security-manager.js:281-293 | a URL is allowed exactly when its host is the page's own host, `netlify.com` or `forms.netlify.com`; a URL that does not parse is refused |
| `Security.IsAllowedDomain` | security-manager.js:281-293 | the host is the page's own, `netlify.com` or `forms.netlify.com` |
| `Security.OtherSubdomainsRefused` | security-manager.js:284-289 | the host match is exact: any other subdomain of `netlify.com` is refused |
| `Security.SelfSubmitAllowed` | security-manager.js:200-202 | a form without an action posts to the page itself and is never blocked |
| `Security.UnparsableActionBlocked` | security-manager.js:200-205 | a form whose action does not parse as a URL is blocked |
| `Security.SubmitBlocked` | security-manager.js:200-205 | the action, or the page address when empty, is non-empty and not on an allowed domain |
| `Security.FormElement.constructor` | security-manager.js:192 | a form with the given action and inputs |
| `Security.AddCsrfToken` | security-manager.js:210-219 | a form that already has a `csrf_token` input is left alone; otherwise exactly one hidden `csrf_token` input holding a fresh token is appended; either way the form then has one |
| `Security.WithSameSite` | security-manager.js:379-382 | every stored cookie mentions `SameSite`; a value that already does is stored unchanged, and any other gets `; SameSite=Strict` appended |
| `Security.WithSameSiteIdempotent` | security-manager.js:379-382 | passing a cookie through the setter twice is the same as once |
| `Security.AnyContained` | security-manager.js:465 | some pattern matches exactly when the URL contains one of the names |
| `Security.CryptoMiningIgnoresCase` | security-manager.js:456-466 | the mining check gives the same answer for a URL and its lower-case form |
| `Security.IsCryptoMiningScript` | security-manager.js:456-466 | the lower-cased source contains a listed mining name |
| `Security.CryptoMiningFlagsEveryName` | security-manager.js:456-466 | a URL that contains any of the five names, in any mix of letter case, is flagged |
| `Security.Logged` | security-manager.js:607-614 | after one event the list starts with it, is followed by the older events in order, and never holds more than 50 |
| `Security.LoggedAll` | security-manager.js:599-621 | the log after several events in order |
| `Security.LoggedAllNewestFirst` | security-manager.js:599-621 | after a burst of events the list is the burst newest first, then the older events, cut to 50 |
| `Security.SecurityLog.constructor` | security-manager.js:606 | the log holds the stored events |
| `Security.SecurityLog.LogSecurityEvent` | security-manager.js:599-616 | the stored list becomes the new event followed by the first 49 older events |
| `Forms.RequiredControlsSelect` | contact-handler.js:370 | the selection keeps exactly the required controls whose tag is selected |
| `Forms.RequiredControls` | contact-handler.js:370 | the required controls with one of the given tags, in document order |
| `Forms.FirstAt` | contact-handler.js:325 | in a value with no `@` or white space before a given `@`, that is the first `@` found |
| `Forms.CheckMatchesPattern` | contact-handler.js:325-326 | every value that passes the address check matches `^[^\s@]+@[^\s@]+\.[^\s@]+$` |
| `Forms.PatternMatchesCheck` | contact-handler.js:325-326 | every value that matches the pattern passes the address check |
| `Forms.EmailPattern` | contact-handler.js:325-326 | the address check accepts exactly the values the pattern matches |
| `Forms.IsEmailAddress` | contact-handler.js:325-326 | no white space, one `@` not at the start, and a `.` inside the domain |
| `Forms.Failures` | contact-handler.js:318-339 | a value fails at most three rules: required, e-mail and minimum length, in that order |
| `Forms.LastFailure` | contact-handler.js:318-339 | the rule whose message stays on the field: the last one that fails, or none |
| `Forms.Passes` | contact-handler.js:313-344 | a control passes when no rule fails |
| `Forms.LastFailureIsLast` | contact-handler.js:313-344 | the value passes exactly when no rule fails; otherwise the message left is that of the last failed rule |
| `Forms.EmptyRequiredFailsOnlyRequired` | contact-handler.js:318-339 | an empty (after trimming) required value fails the required rule and nothing else |
| `Forms.EmptyOptionalPasses` | contact-handler.js:324-333 | an empty optional value passes, since the other rules are skipped |
| `Forms.FailuresSeeTrimmedValue` | contact-handler.js:314 | the rules see only the trimmed value, so surrounding white space never changes the verdict |
| `Forms.MinLengthFailsLast` | contact-handler.js:333-339 | a too-short value ends with the length failure, whatever failed before it |
| `Contact.MessageShownIffInvalid` | contact-handler.js:346-359 | a message is shown exactly when a rule failed |
| `Contact.ValidateField` | contact-handler.js:313-344 | the field is valid exactly when it passes every rule, and the message shown is that of the last failed rule, or none |
| `Contact.RequiredMessage` | contact-handler.js:318-321 | an empty required field reports that it is required |
| `Contact.EmailVerdict` | contact-handler.js:324-330 | a non-empty e-mail field without a length rule is valid exactly when it matches the pattern, and otherwise asks for a valid address |
| `Contact.MinLengthMessageWins` | contact-handler.js:333-339 | a too-short value reports the minimum length, whatever failed before it |
| `Contact.ShownMessage` | contact-handler.js:346-359 | the message a control is left with: that of its last failing rule |
| `Contact.ValidateEach` | contact-handler.js:372-379 | every control is validated in order, and the form is valid exactly when every control passes |
| `Contact.ValidateForm` | contact-handler.js:369-380 | the required inputs and text areas are validated in document order; `shown` holds the message each validation passes to `showFieldError` (its last failure's message); the form is valid exactly when none failed |
| `Contact.FirstMatch` | contact-handler.js:206-243 | an `if`/`else if` chain picks the result of the first row whose keyword occurs, or the default when none occurs |
| `Contact.AllMatchesEmpty` | contact-handler.js:245-257 | a run of independent `if`s adds nothing exactly when no row matches |
| `Contact.MvpScopeFirst` | contact-handler.js:206-215 | a prompt mentioning an MVP is scoped as one, whatever else it says |
| `Contact.ShopStackFirst` | contact-handler.js:217-232 | a shop prompt gets the shop stack even when it also mentions an app |
| `Contact.SimpleTimelineFirst` | contact-handler.js:234-243 | a prompt mentioning an MVP or something simple gets the short estimate, whatever else it says |
| `Contact.MatchesEither` | contact-handler.js:248 | a row with two keywords matches when the text contains either |
| `Contact.Group` | contact-handler.js:248-256 | each matching row adds a group of three features, or nothing |
| `Contact.FeatureGroups` | contact-handler.js:245-257 | the features are the three rows' groups, in table order |
| `Contact.SuggestFeatures` | contact-handler.js:245-264 | the three `if` tests and the default give exactly the features of the table |
| `Contact.MvpAdviceConsistent` | contact-handler.js:190-215 | an MVP prompt is given the MVP scope together with the short timeline |
| `Contact.DefaultFeaturesWhenNoGroup` | contact-handler.js:259-261 | the default list is proposed exactly when no row's keyword occurs |
| `Contact.AnalyzeScope` | contact-handler.js:206-215 | the first scope rule whose keyword the lower-cased prompt contains, else the standard scope |
| `Contact.SuggestTechStack` | contact-handler.js:217-232 | the first stack rule whose keyword the lower-cased prompt contains, else the default stack |
| `Contact.EstimateTimeline` | contact-handler.js:234-243 | the first timeline rule whose keyword the lower-cased prompt contains, else the default estimate |
| `Contact.Features` | contact-handler.js:245-264 | every matching feature group in table order, or the default list when none matches |
| `Contact.SuggestNextSteps` | contact-handler.js:266-277 | the fixed eight-step plan, whatever the prompt |
| `Contact.GenerateSuggestions` | contact-handler.js:190-204 | the scope, stack, timeline, features and next steps for one prompt, without the simulated delay |
| `Enhancements.AnimationsDistinct` | enhancements.js:94 | the four animations are different from one another |
| `Enhancements.AnimationOf` | enhancements.js:94-97 | the animation of the element at position `i`, cycling through the list |
| `Enhancements.AnimationPeriodic` | enhancements.js:96-97 | the animations are handed out in turn, repeating every four elements |
| `Enhancements.NeighboursDiffer` | enhancements.js:96-97 | two neighbouring elements never get the same animation |
| `Enhancements.AddAnimationClasses` | enhancements.js:93-101 | each selected element gets the animation at its position modulo four |
| `Enhancements.MessageShownIffInvalid` | enhancements.js:135-167 | an error is shown exactly when the field fails a rule, even for a field with neither name nor id |
| `Enhancements.ValidateField` | enhancements.js:135-167 | the field is valid exactly when it passes every rule, and the message shown is that of the last failed rule, or none |
| `Enhancements.RequiredMessageNamesField` | enhancements.js:142-145 | an empty required field is reported as `<name> is required`, using the name or else the id |
| `Enhancements.ShownMessage` | enhancements.js:135-167 | the message of the last failing rule, or none |
| `Enhancements.MinLengthMessageWins` | enhancements.js:157-163 | a too-short value reports the field and the minimum, whatever failed before it |
| `Enhancements.SameVerdictAsContact` | enhancements.js:135-167 | this validator and the contact page's agree on whether a field is valid; only the wording differs |
| `Enhancements.ValidateEach` | enhancements.js:126-130 | every control is validated, with no early exit, and the form is valid exactly when every control passes |
| `Enhancements.ValidateForm` | enhancements.js:122-133 | the required inputs, text areas and selects are validated in document order; `shown` holds the message each validation passes to `showFieldError` (its last failure's message); the form is valid exactly when none failed |
| `Enhancements.SelectIsTheOnlyDifference` | enhancements.js:123 | without required `select` controls, this form check selects the same controls as the contact page's |
| `Enhancements.ShortQueryHides` | enhancements.js:200-208 | a query shorter than two characters after trimming hides the results; any other schedules a search for the trimmed query |
| `Enhancements.OnSearchInput` | enhancements.js:200-208 | a trimmed query shorter than two characters hides the results; a longer one schedules a search |
| `Enhancements.Closest` | enhancements.js:242-248 | `closest` finds the nearest element up the chain that matches, or none when none does |
| `Enhancements.UrlFromNearestSection` | enhancements.js:241-245 | the nearest enclosing section with an id names the anchor, even when an element with an id is nearer |
| `Enhancements.UrlFromNearestId` | enhancements.js:247-251 | outside every section with an id, the nearest element with an id names the anchor |
| `Enhancements.UrlWithoutId` | enhancements.js:253 | without any id up the chain the anchor is `#` |
| `Enhancements.ElementUrl` | enhancements.js:240-254 | `#` and the id of the nearest section with an id, else of the nearest element with an id, else `#` alone |
| `Enhancements.MatchIgnoresCase` | enhancements.js:227-228 | a match does not depend on the letter case of the text or the query |
| `Enhancements.HitAt` | enhancements.js:229-233 | a result holds the element's position, its text and its anchor |
| `Enhancements.Found` | enhancements.js:226-235 | the hits among the first `n` elements, in order |
| `Enhancements.FoundAreHits` | enhancements.js:226-235 | every result comes from a matching element |
| `Enhancements.FoundInOrder` | enhancements.js:226-235 | the results keep document order |
| `Enhancements.FoundComplete` | enhancements.js:226-235 | no matching element is missed |
| `Enhancements.SearchFindsExactlyTheMatches` | enhancements.js:222-238 | the results are exactly the matching elements, in document order |
| `Enhancements.PerformSearch` | enhancements.js:222-238 | the loop pushes exactly the results of the search |
| `Enhancements.CookieFoundIffKeyOnce` | enhancements.js:353-357 | a value is returned exactly when `; <name>=` occurs once in the prefixed cookie string |
| `Enhancements.CookieKey` | enhancements.js:355-356 | the text `getCookie` splits at, which starts with `;` |
| `Js.SplitFirstPiece` | enhancements.js:356 | the first piece of a split at a one-character separator is the longest prefix without it, ending at the first separator or at the end; `getCookie` splits at `;` and `getElementSelector` at a space |
| `Enhancements.CookieValue` | enhancements.js:353-357 | the value returned is what follows the one occurrence of the key, up to the next `;` |
| `Enhancements.SecondOfTwo` | enhancements.js:356 | when a split gives two parts, the second is everything after the one separator |
| `Enhancements.CookieRoundTrip` | enhancements.js:353-363 | a cookie written as `name=value`, alone in the cookie string, reads back as its value |
| `Ordering.Insert` | advanced-search.js:277 | inserting one element keeps every element and adds exactly it |
| `Ordering.InsertSorted` | advanced-search.js:277 | inserting into a list sorted by non-increasing key keeps it sorted |
| `Ordering.SortDesc` | advanced-search.js:277 | the comparator sort returns a rearrangement of its input, sorted by non-increasing key |
| `Ordering.DistinctCount` | advanced-search.js:130 | a list without duplicates has as many distinct elements as positions |
| `Ordering.PermutationNoDuplicates` | advanced-search.js:130-131 | sorting a list without duplicates gives a list without duplicates |
| `Search.ListedIsIn` | advanced-search.js:136-139 | the stop-word lookup finds exactly the words on the list |
| `Search.IsStopWord` | advanced-search.js:136-139 | membership in the stop-word list |
| `Search.Runs` | advanced-search.js:117-119 | splitting the cleaned text gives non-empty words made only of word characters |
| `Search.Meaningful` | advanced-search.js:120-121 | the filters keep exactly the words longer than two characters that are not stop words, and keep their order |
| `Search.Candidates` | advanced-search.js:117-121 | every word that is counted is longer than two characters, not a stop word, and made of word characters |
| `Search.Dedup` | advanced-search.js:124-127 | the keys of the count table are the words, each once, in order of first occurrence |
| `Search.Entries` | advanced-search.js:130 | each table entry pairs a word with the number of its occurrences |
| `Search.Keywords` | advanced-search.js:132 | at most ten keywords are kept |
| `Search.CountWords` | advanced-search.js:124-127 | the count table has a key for every word, and only for words, holding its number of occurrences |
| `Search.ExtractKeywords` | advanced-search.js:115-134 | the loop and the sort give exactly the keywords of the text |
| `Search.RankedEntries` | advanced-search.js:124-131 | the ranked table holds exactly the counted words, each with its number of occurrences |
| `Search.Ranked` | advanced-search.js:124-131 | the counted words of a text, most frequent first |
| `Search.KeywordsAreMeaningful` | advanced-search.js:115-134 | every keyword is a counted word of the text |
| `Search.KeywordsNoDuplicates` | advanced-search.js:115-134 | no word is a keyword twice |
| `Search.KeywordsByFrequency` | advanced-search.js:130-133 | keywords come in order of non-increasing frequency |
| `Search.KeywordsAreMostFrequent` | advanced-search.js:130-133 | a counted word left out of the keywords occurs no more often than any keyword |
| `Search.BuildSearchIndex` | advanced-search.js:55-59 | one index entry per page, in page order, with the lower-cased title and content and the page's keywords |
| `Search.IndexEntry` | advanced-search.js:18-60 | one page's index record: the page, its lower-cased title and content, and their keywords |
| `Search.Matches` | advanced-search.js:239-242 | the searchable text or some keyword contains the query |
| `Search.IndexedTitleIsFound` | advanced-search.js:239-241 | every indexed page is found by any part of its lower-cased title |
| `Search.Found` | advanced-search.js:239-242 | the search keeps exactly the entries whose text or some keyword contains the query |
| `Search.KeywordHits` | advanced-search.js:266-270 | no keyword bonus exactly when no keyword contains the query |
| `Search.MatchCount` | advanced-search.js:273 | a non-empty query counts no match exactly when it does not occur; an empty one matches at every position |
| `Search.Score` | advanced-search.js:251-278 | title match 10, exact text 20, each keyword hit 5, plus the occurrence count |
| `Search.FoundScoresPositive` | advanced-search.js:251-278 | every entry the search keeps scores at least 1 |
| `Search.Scored` | advanced-search.js:252-276 | every result is paired with its own score |
| `Search.RankResults` | advanced-search.js:251-278 | ranking keeps every scored result and orders them by non-increasing score |
| `Search.RankedResultsAreScored` | advanced-search.js:251-278 | the ranked results are exactly the entries, each with its own score |
| `Search.Marks` | advanced-search.js:321-326 | removing the marks gives back the text, and every marked piece equals the query up to letter case |
| `Search.Highlight` | advanced-search.js:321-326 | without a query the text as it is, else every case-insensitive occurrence of the query wrapped in `<mark>` |
| `Search.Render` | advanced-search.js:325 | the text of the marked pieces |
| `Search.WindowHasMatch` | advanced-search.js:334-337 | a window around an occurrence of the query contains it |
| `Search.Window` | advanced-search.js:331-335 | there is a window exactly when the query occurs, ignoring case; it is at most 150 characters longer than the query and contains it |
| `Search.GetExcerpt` | advanced-search.js:328-342 | without a query or a match, the first 150 characters and an ellipsis; else the highlighted window around the first match |
| `Search.Cut` | advanced-search.js:338-341 | the cut-out text with an ellipsis on each side that was cut |
| `Search.ExcerptWithoutMatch` | advanced-search.js:328-332 | without a query, or when it does not occur, the excerpt is the first 150 characters followed by `...` |
| `Search.ExcerptShowsMatch` | advanced-search.js:328-342 | with a match, the excerpt is the highlighted cut, the cut contains the match, and it is bounded in length |
| `Search.MarksFindMatch` | advanced-search.js:324-325 | highlighting text that contains the query marks something |
| `Search.RenderShowsMarked` | advanced-search.js:325 | the highlighted text shows the text of each of its marks |
| `Search.DisplayedExcerpt` | advanced-search.js:298-300 | the result list's excerpt, as written, is always the first 150 characters followed by `...` |
| `Search.DisplayedExcerptMissesMatch` | advanced-search.js:298-300 | a page whose only mention of the query lies past the first 150 characters shows an excerpt without it |
| `Search.ResultExcerpt` | advanced-search.js:328-342 | the corrected excerpt, given the query, always shows a match when the content has one |
| `Search.Navigate` | advanced-search.js:378-394 | no selection without results; otherwise the new selection is a valid position |
| `Search.NavigateIsCyclic` | advanced-search.js:385-389 | down moves one step forward, wrapping to the first result; up moves one step back, wrapping to the last, and from no selection goes to the last |
| `Search.NavigateUpUndoesDown` | advanced-search.js:385-389 | up undoes down and down undoes up |
| `Search.Remove` | advanced-search.js:413 | the filter drops exactly the entries equal to the query and keeps the others in order |
| `Search.PushHistoryFacts` | advanced-search.js:409-419 | a blank query leaves the history alone; any other ends up first, only once, followed by the older entries in order, and the history keeps at most ten entries without duplicates |
| `Search.PushHistory` | advanced-search.js:409-426 | a blank query leaves the history; any other query moves to the front without duplicates and at most ten entries are kept |
| `Search.FilterResults` | advanced-search.js:366-373 | `all` keeps every result; any other filter keeps exactly the results of that category, and `page` also keeps those without one |
| `Search.KeptByFilter` | advanced-search.js:366-373 | `all` keeps everything, `page` keeps results without a category, any other filter keeps its own category |
| `Search.SearchBox.constructor` | advanced-search.js:3-16 | the box starts with the index of the pages, no results, no selection and the stored history |
| `Search.SearchBox.HandleSearch` | advanced-search.js:222-236 | a blank query replaces the shown results with the placeholder, so none are shown or selected, and leaves the history alone; any other query is lower-cased, searched and ranked, and added to the history |
| `Search.SearchBox.PerformSearch` | advanced-search.js:238-249 | the results become the ranked matching entries, the selection is cleared and the query joins the history |
| `Search.SearchBox.NavigateResults` | advanced-search.js:378-394 | with no results nothing changes; otherwise the selection moves as `navigateResults` says |
| `Privacy.SanitizeData` | privacy-analytics.js:434-454 | the copy keeps exactly the fields other than a truthy `email`, `phone` or `name`, each with its own value |
| `Privacy.SanitizeIdempotent` | privacy-analytics.js:434-454 | sanitizing twice is sanitizing once |
| `Privacy.SessionKeyIsOwn` | privacy-analytics.js:464 | a session record's key is never the consent or the settings key |
| `Privacy.KeptAreFirstTen` | privacy-analytics.js:480-482 | removing all but the first ten sorted session keys leaves exactly those ten |
| `Privacy.Prune` | privacy-analytics.js:480-482 | removes every session key after the first ten of the sorted list; `PruneKeepsNewest` gives what that leaves |
| `Privacy.PruneKeepsNewest` | privacy-analytics.js:473-483 | with more than ten session records, sorting newest first and removing the rest keeps exactly ten, none older than a removed one, and touches nothing else |
| `Privacy.Enumerate` | privacy-analytics.js:472 | the listed keys are the session keys, each once |
| `Privacy.CleanupOldData` | privacy-analytics.js:471-484 | nothing is added or changed and only session records are removed; ten or fewer records are left alone, and more are cut to the ten newest |
| `Privacy.CleanupAsWrittenThrows` | privacy-analytics.js:471-484 | as written, while consent is stored as `granted`, ten or more session records make the cleanup sort more than ten `analytics_` keys, one of which holds the plain string `granted`, which `JSON.parse` refuses |
| `Privacy.SaveKeepsOthers` | privacy-analytics.js:462-469 | saving the session and cleaning up keeps every entry that is not a session record, and changes no entry but the saved one |
| `Privacy.SavedOverStep` | privacy-analytics.js:462-469 | a further save of the same session after earlier ones still keeps every entry that is not a session record and leaves the newest record under the session key |
| `Privacy.SaveKeepsConsent` | privacy-analytics.js:462-469 | saving the session never changes whether consent is stored as granted |
| `Privacy.ScrollReportsStep` | privacy-analytics.js:391-399 | a run of scroll events reports what its first event reports, then what the rest report from the new maximum |
| `Privacy.ScrollStep` | privacy-analytics.js:391-399 | a new maximum becomes the maximum, and is reported when it is a multiple of 25 |
| `Privacy.ScrollReports` | privacy-analytics.js:389-399 | the percentages one listener reports over a run of scroll events |
| `Privacy.ScrollReportsAbove` | privacy-analytics.js:393-396 | every report is a multiple of 25 above the maximum before the run |
| `Privacy.ScrollReportsIncrease` | privacy-analytics.js:393-396 | the reports strictly increase, so no percentage is reported twice |
| `Privacy.ScrollAll` | privacy-analytics.js:389-399 | one scroll event reaches every listener, each with its own maximum |
| `Privacy.ScrollAllReports` | privacy-analytics.js:389-399 | how many listeners report one scroll event |
| `Privacy.ScrollEvent` | privacy-analytics.js:396 | the `scroll_depth` event one listener tracks |
| `Privacy.ReportsComeFromInput` | privacy-analytics.js:392-396 | every report is one of the percentages scrolled to |
| `Privacy.NoReportBelowMaximum` | privacy-analytics.js:393 | scrolling that never passes the deepest point reached reports nothing |
| `Privacy.ScrollAllPointwise` | privacy-analytics.js:389-399 | with several listeners, each moves on its own: its new maximum is the one it alone would reach |
| `Privacy.ScrollAllReportsCount` | privacy-analytics.js:389-399 | a scroll to a multiple of 25 is reported once by each listener whose maximum was below it, and any other scroll by none |
| `Privacy.ScrollLoopTurn` | privacy-analytics.js:389-399 | one more listener seeing the event moves the dispatch on by one, counting its report |
| `Privacy.ScrollLoopDone` | privacy-analytics.js:389-399 | after the last listener, the listeners and the number of reports are those the whole dispatch gives |
| `Privacy.ScrollSavedStep` | privacy-analytics.js:395-396 | one more listener reporting adds one more `scroll_depth` event and one more save of the session |
| `Privacy.PageViewOf` | privacy-analytics.js:312-325 | the page view recorded for the current page |
| `Privacy.SessionKey` | privacy-analytics.js:462-469 | the session record is stored under `analytics_` and the session id |
| `Privacy.PrivacyAnalytics.SaveLocalData` | privacy-analytics.js:462-469 | the session record is written under its key and the storage is then cleaned up; nothing else changes |
| `Privacy.PrivacyAnalytics.TrackPageView` | privacy-analytics.js:312-325 | nothing happens while tracking is off; otherwise exactly one page view with the page's address, title, time, referrer and browser is appended and the session saved |
| `Privacy.PrivacyAnalytics.TrackEvent` | privacy-analytics.js:327-339 | nothing happens while tracking is off; otherwise exactly one event with sanitized data is appended and the session saved |
| `Privacy.PrivacyAnalytics.TrackPerformance` | privacy-analytics.js:341-355 | nothing happens while tracking is off; otherwise the new timings are merged under the figures already held, which win, and the session saved |
| `Privacy.PrivacyAnalytics.TrackSessionEnd` | privacy-analytics.js:357-364 | nothing happens while tracking is off; otherwise the visit's duration is recorded and the session saved |
| `Privacy.PrivacyAnalytics.OnScroll` | privacy-analytics.js:389-399 | each scroll listener moves to its own new maximum; the session gets one `scroll_depth` event, and one save, for every listener that reports, which for a multiple of 25 is every listener whose maximum was below it; nothing is recorded while tracking is off, and the consent flags are kept |
| `Privacy.PrivacyAnalytics.ListenerStep` | privacy-analytics.js:391-397 | the listener at that position moves to its new maximum, and when it reports, one more event is recorded and the session saved once more |
| `Privacy.PrivacyAnalytics.EnableAnalytics` | privacy-analytics.js:232-238 | tracking is turned on, a page view is recorded and saved at once, and a new scroll listener starting from 0 is added to those already there |
| `Privacy.PrivacyAnalytics.constructor` | privacy-analytics.js:3-40 | the corrected start-up: a new session `session_<random>` starting now; tracking is on exactly when `granted` is stored, and then the session holds two page views of the page, one scroll listener exists, and the storage is the stored one with only the session record saved; otherwise nothing is recorded and the storage is untouched |
| `Privacy.PrivacyAnalytics.HandleConsent` | privacy-analytics.js:93-117 | `accept` turns tracking on, stores `granted`, records and saves a page view and adds a scroll listener; `deny` turns it off, stores `denied` and changes nothing else; any other action changes nothing |
| `Privacy.PrivacyAnalytics.SaveConsentSettings` | privacy-analytics.js:191-218 | the three choices are stored with the time and consent follows the anonymous-analytics choice; accepting stores `granted`, records and saves a page view and adds a scroll listener; refusing stores `denied` and changes nothing else |
| `Privacy.PrivacyAnalytics.ResetConsent` | privacy-analytics.js:556-562 | both stored choices are removed, both flags cleared, and the session and listeners are unchanged; the source's final call throws (see Left out) |
| `Privacy.StartUpAsWrittenFails` | privacy-analytics.js:3-40 | as written, the start-up runs to its end exactly when `denied` is stored; with nothing stored no consent banner is added; with `granted` stored one page view is recorded before it fails |
| `Privacy.StartUpAsWritten` | privacy-analytics.js:3-40 | the start-up as written: it throws at the missing `showConsentBanner` when nothing is stored and at the missing `setupPerformanceTracking` when `granted` is stored |
| `Ads.ConsentPriority` | ad-manager.js:79-96 | Do-Not-Track refuses consent whatever is stored; otherwise a stored `granted` or `denied` decides; the dialog is shown exactly when nothing decides and consent is required |
| `Ads.ConsentOnlyWhenGranted` | ad-manager.js:79-96 | with the site's settings, ads are consented to exactly when Do-Not-Track is off and `granted` is stored |
| `Ads.StoredChoice` | ad-manager.js:217-227 | a choice is stored as `granted` or `denied` |
| `Ads.StoredChoiceRoundTrip` | ad-manager.js:79-96 | a stored choice is read back as the same consent on the next visit, when Do-Not-Track is off |
| `Ads.ResolveConsent` | ad-manager.js:79-96 | `checkUserConsent`: Do-Not-Track, then a stored `granted` or `denied`, then the dialog when consent is required |
| `Ads.LoadOrder` | ad-manager.js:421-451 | the priority placements unless lazy loading is on without preloading, then the standard placements only without lazy loading |
| `Ads.ConfiguredLoadOrder` | ad-manager.js:421-451 | with the site's flags only the four script placements load eagerly, in priority order; without lazy loading the standard placements follow; with lazy loading and no preloading nothing loads |
| `Ads.LoadOrderDistinct` | ad-manager.js:425-426 | no placement is started twice in one pass |
| `Ads.Pending` | ad-manager.js:454-459 | the placements of the order that are not loaded yet and have a container, in order |
| `Ads.PendingMembers` | ad-manager.js:454-459 | a pass starts exactly the placements of the order that are not loaded yet and have a container, each once |
| `Ads.Succeeded` | ad-manager.js:489 | the placements of a pass whose load succeeds |
| `Ads.SucceededMembers` | ad-manager.js:489 | the placements marked loaded are exactly those whose load succeeded |
| `Ads.LoadStep` | ad-manager.js:429-435 | one more placement of the order adds it to the started list when it is pending, and to the loaded set when it succeeds |
| `Ads.PassedOverAppend` | ad-manager.js:429-435 | a pass followed by the load of a placement new to it gives the retry counts and errors of the pass over one more placement |
| `Ads.PassedOverStill` | ad-manager.js:429-435 | a load that starts nothing leaves the retry counts and errors of a pass as they were |
| `Ads.LoadTurn` | ad-manager.js:429-435 | one `loadAd` turn extends the pass over the first `i` placements of the order to the first `i + 1`, for the started list, the loaded set, the retry counts and the errors |
| `Ads.RetryDelays` | ad-manager.js:502-510 | the delays that consecutive failures schedule while the count is below the cap |
| `Ads.RetriesFromFresh` | ad-manager.js:502-510 | from a fresh count, failures are retried after 2, 4 and 6 seconds and then no more |
| `Ads.CountAfterLoad` | ad-manager.js:498-510 | a started load changes a placement's retry count by at most one and never raises it past three |
| `Ads.FailingPasses` | ad-manager.js:498-522 | after `k` failed loads in a row the retry count is the smaller of `k` and 3; one more failed load shows the error exactly when `k` is at least 3, and a successful one never does |
| `Ads.ErrorAfterLoad` | ad-manager.js:506-521 | a started load leaves the error showing when it fails at the cap |
| `Ads.AdManager.constructor` | ad-manager.js:3-96 | consent is what `checkUserConsent` decides, or off with the dialog shown; nothing is loaded, retried, failed or hidden |
| `Ads.AdManager.HandleAdLoadError` | ad-manager.js:498-522 | called for a placement that is not loaded, as in `loadAd`; without a container nothing happens; below three retries the count goes up by one and a retry is scheduled after 2 seconds times the new count; at three the placement shows the error and its count stays; other placements and the rest of the state are untouched |
| `Ads.AdManager.LoadAd` | ad-manager.js:453-496 | a load starts only with consent, for a placement not loaded yet that has a container, and is appended to the started list; success marks it loaded and clears its error; failure goes through the retry rule and returns the retry's delay; nothing else changes |
| `Ads.AdManager.LoadAllAds` | ad-manager.js:421-451 | without consent nothing changes; with it every pending placement of the load order is started in order, the successful ones are marked loaded, each started placement's retry count and error follow the retry rule, and every other placement, the dialog and the visibility are untouched |
| `Ads.AdManager.LoadInOrder` | ad-manager.js:429-435 | the `forEach` starts the pending placements of the order in order; the started list, the loaded set, the retry counts and the errors are those of that pass |
| `Ads.AdManager.LoadNext` | ad-manager.js:429-435 | one turn of the `forEach` turns the state of the pass over the first `i` placements into that of the pass over the first `i + 1` |
| `Ads.AdManager.HandleConsentChoice` | ad-manager.js:217-227 | only `accept` grants consent and the choice is stored; accepting runs the load pass of `loadAllAds`; any other choice hides every container and starts nothing; the dialog is left as it is |
| `Ads.AdManager.UpdateConsent` | ad-manager.js:586-596 | consent takes the new value and `granted` is stored exactly when it is on; turning it on shows every container and runs the load pass; turning it off hides them and starts nothing |
| `Ads.AdManager.RefreshAds` | ad-manager.js:606-612 | without consent nothing changes; with it the loaded set and the retry counts are cleared and every placement of the load order that has a container is started again; a restarted placement's error follows its new outcome, and the others keep theirs |
| `Breadcrumbs.CurrentPage` | breadcrumbs.js:37-69 | every path names some page |
| `Breadcrumbs.PageOfFile` | breadcrumbs.js:45-68 | the page a file name stands for in `pageMap` |
| `Breadcrumbs.InnerPage` | breadcrumbs.js:58-68 | a path that is not the home page never names the home page |
| `Breadcrumbs.HomeByFileName` | breadcrumbs.js:39-43 | the page is the home page exactly when the last path segment is empty or `index.html` |
| `Breadcrumbs.FoldersBeforeTable` | breadcrumbs.js:58-68 | a path under `/blog/` is an article and one under `/tutorials/` a tutorial, before the file-name table is consulted; a file name outside the table is `unknown` |
| `Breadcrumbs.PageTitle` | breadcrumbs.js:71-88 | every page has a non-empty title |
| `Breadcrumbs.TablePagesHaveTitles` | breadcrumbs.js:45-85 | every page the file-name table yields has a title of its own rather than `Page` |
| `Breadcrumbs.CurrentPageUrl` | breadcrumbs.js:90-92 | the page's URL is its last path segment, or `index.html` when that is empty, and never holds `/` |
| `Breadcrumbs.SpliceIndex` | breadcrumbs.js:247 | `splice` inserts at a position within the list, whatever position it is given |
| `Breadcrumbs.InsertAt` | breadcrumbs.js:247 | the new element sits at the index, with the elements before and after it unchanged |
| `Breadcrumbs.Trail` | breadcrumbs.js:16-35 | every trail starts with the home crumb |
| `Breadcrumbs.TrailShape` | breadcrumbs.js:16-35 | the trail is the home crumb alone exactly on the home page; on any other page it ends with that page's title and URL |
| `Breadcrumbs.NestedTrails` | breadcrumbs.js:94-112 | articles sit under the blog index and tutorials under the tutorials page; any other page sits directly under home |
| `Breadcrumbs.Render` | breadcrumbs.js:114-177 | nothing is shown for a trail of at most one crumb; otherwise one item per crumb, a link for every crumb but the last, which is the current page |
| `Breadcrumbs.OneCurrentItem` | breadcrumbs.js:114-177 | exactly one item, the last, is the current page |
| `Breadcrumbs.StructuredItems` | breadcrumbs.js:205-210 | the list items are numbered 1 to n in trail order, each with its crumb's label and absolute URL |
| `Breadcrumbs.BreadcrumbManager.Publish` | breadcrumbs.js:114-223 | the rendered items follow the trail, and the structured data is rewritten only when the trail has more than one crumb |
| `Breadcrumbs.BreadcrumbManager.constructor` | breadcrumbs.js:3-14 | the trail of the current path is built, rendered, and published except on the home page |
| `Breadcrumbs.BreadcrumbManager.UpdateBreadcrumbs` | breadcrumbs.js:231-238 | the trail becomes home followed by the given page, rendered and published |
| `Breadcrumbs.BreadcrumbManager.AddCustomBreadcrumb` | breadcrumbs.js:241-252 | the crumb is appended for position -1, or inserted where `splice` puts it; the other crumbs keep their order, and the trail is rendered again; the structured data is published again for a trail of more than one crumb and is otherwise unchanged |
| `Themes.BuiltinKeys` | enhanced-theme.js:4-102 | the built-in table holds exactly `light`, `dark`, `auto`, `sepia` and `highContrast` |
| `Themes.Builtin` | enhanced-theme.js:4-102 | the built-in theme table |
| `Themes.IsKnown` | enhanced-theme.js:254 | a built-in name or the name of a custom theme |
| `Themes.PreferredTheme` | enhanced-theme.js:114-122 | a stored built-in name is restored; anything else, or nothing stored, gives `auto` |
| `Themes.ThemeIcon` | enhanced-theme.js:344-347 | a built-in theme shows its own icon; any other name shows the palette |
| `Themes.IndexOfNameSpec` | enhanced-theme.js:351 | `indexOf` gives the first position holding the name, or -1 exactly when there is none |
| `Themes.IndexOfName` | enhanced-theme.js:351 | `names.indexOf(x)` |
| `Themes.NextIndex` | enhanced-theme.js:352 | the next index is always a valid position |
| `Themes.NextIndexIsMod` | enhanced-theme.js:352 | the next index is `(index + 1) % length`, including from -1 |
| `Themes.NextInOrder` | enhanced-theme.js:349-356 | each listed name is followed by the next one, and the last by the first |
| `Themes.NextInOutside` | enhanced-theme.js:349-356 | a name that is not listed is followed by the first one |
| `Themes.NextIn` | enhanced-theme.js:349-356 | the name after the current one, wrapping, and the first name when the current one is not listed |
| `Themes.BuiltinNamesDistinct` | enhanced-theme.js:350 | no built-in name is listed twice |
| `Themes.NextThemeBuiltin` | enhanced-theme.js:349-356 | cycling always lands on a built-in theme |
| `Themes.NextTheme` | enhanced-theme.js:349-356 | the built-in after the current one, wrapping, and `light` from any theme that is not built in |
| `Themes.CycleOrder` | enhanced-theme.js:349-356 | cycling moves from each built-in theme to the next in table order, and from the last to the first |
| `Themes.CycleFromCustom` | enhanced-theme.js:349-356 | cycling from a custom theme goes to `light` |
| `Themes.DarkToggleTarget` | enhanced-theme.js:358-363 | the toggle goes to `light` exactly when the page is dark now, explicitly or through `auto` and a dark system, and to `dark` otherwise |
| `Themes.DarkToggleTwice` | enhanced-theme.js:358-363 | toggling twice from an explicit light or dark theme comes back to it |
| `Themes.BodyClass` | enhanced-theme.js:280-282 | the class `applyTheme` leaves on the body: `theme-` and the lowercased name, or none when the name holds white space and `classList.add` throws; `BodyClassSpec` states it |
| `Themes.BodyClassSpec` | enhanced-theme.js:280-282 | a name without white space gives exactly the class `theme-` followed by its lowercased name; a name with white space leaves no theme class |
| `Themes.BodyClassAuto` | enhanced-theme.js:271-282 | `auto` ends with the class `theme-auto`, whatever the system prefers: the system theme's class is stripped again before it is added |
| `Themes.BodyClassNamesTheme` | enhanced-theme.js:282 | two names without white space give the same body class exactly when they agree up to case |
| `Themes.WithoutTheme` | enhanced-theme.js:529 | deleting a custom theme keeps exactly the other custom themes, in order |
| `Themes.AvailableThemesContents` | enhanced-theme.js:579-587 | the available names are the built-in keys and the custom names; a custom theme overrides a built-in one of the same name, and the last custom theme of a name wins |
| `Themes.AvailableThemes` | enhanced-theme.js:579-587 | the built-in table, then each custom theme under its name, later entries overriding earlier ones |
| `Themes.ThemeManager.constructor` | enhanced-theme.js:3-122 | the preferred theme is restored and its body class applied, `theme-auto` for `auto`; the stored custom themes are loaded and the storage is as found |
| `Themes.ThemeManager.ApplyTheme` | enhanced-theme.js:266-286 | a known theme sets the body class to the theme's own class; an unknown name changes nothing; the current theme and the storage are untouched |
| `Themes.ThemeManager.SetTheme` | enhanced-theme.js:253-264 | an unknown name changes nothing; a known one becomes current, is stored as the preference and sets the body class to its own class; the custom themes are untouched |
| `Themes.ThemeManager.CycleTheme` | enhanced-theme.js:349-356 | the next built-in theme becomes current, is stored and sets the body class; the custom themes are untouched |
| `Themes.ThemeManager.ToggleDarkMode` | enhanced-theme.js:358-363 | the toggle's target becomes current, is stored and sets the body class; the custom themes are untouched |
| `Themes.ThemeManager.DeleteCustomTheme` | enhanced-theme.js:527-538 | without confirmation nothing changes; with it the theme is removed and the rest stored, and if it was current the page switches to `light`, stored and with the `theme-light` class; otherwise the theme, preference and body class are kept |
| `Themes.ThemeManager.AddCustomTheme` | enhanced-theme.js:589-593 | the theme is appended and stored, the current theme, preference and body class are kept, and from then on `setTheme` accepts its name |
| `Accessibility.FindIndex` | accessibility.js:151 | the index of the first item that is the active element, or -1 exactly when none is |
| `Accessibility.ArrowTarget` | accessibility.js:154-158 | down moves to the next index or wraps to the first; up moves to the previous one or wraps to the last |
| `Accessibility.ArrowFocus` | accessibility.js:149-164 | the item that receives the focus, when the target index exists |
| `Accessibility.ArrowFocusSpec` | accessibility.js:149-164 | with no items nothing is focused; from outside the menu, down focuses the first item and up the last; inside it, down moves one forward and wraps from the last, and up moves one back and wraps from the first |
| `Accessibility.ArrowInverse` | accessibility.js:154-158 | up undoes down and down undoes up |
| `Accessibility.FirstLabel` | accessibility.js:337-358 | the label of the first table entry whose class occurs in the icon's class |
| `Accessibility.IconLabel` | accessibility.js:337-358 | `getIconLabel` over the site's icon table |
| `Accessibility.TrapFocus` | accessibility.js:181-202 | the focus is moved only when Tab leaves the last element, which goes to the first, or Shift+Tab leaves the first, which goes to the last |
| `Accessibility.TrapFocusCycles` | accessibility.js:181-202 | Tab from the last element and then Shift+Tab comes back to it, so the focus never leaves the container |
| `Accessibility.FirstLabelSpec` | accessibility.js:337-358 | no label exactly when no icon class of the table occurs; otherwise the label of the first entry, in table order, whose class occurs |
| `Accessibility.FormPurpose` | accessibility.js:541-552 | the class is checked for `contact`, `newsletter` and `search` before the id is compared |
| `Accessibility.FormPurposeSpec` | accessibility.js:541-552 | the generic `Form` is used exactly when no class word and no known id applies; the class is checked before the id, in the order contact, newsletter, search |
| `Accessibility.ElementLabel` | accessibility.js:565-588 | the aria-label, then the title, the trimmed text, the alt text and the placeholder, else the generic label |
| `Accessibility.ElementLabelSpec` | accessibility.js:565-588 | the label is never empty, and it is the first non-empty source among the ARIA label, title, trimmed text, alt text, placeholder and the default |
| `Accessibility.HeadingIssues` | accessibility.js:403-416 | the skipped levels among the first `n` headings, in document order |
| `Accessibility.SkippedLevelWarned` | accessibility.js:407-414 | every heading more than one level deeper than the one before it is warned about |
| `Accessibility.WarningsAreSkips` | accessibility.js:407-414 | every warning comes from a heading more than one level deeper than the one before it |
| `Accessibility.WellNestedOutline` | accessibility.js:403-416 | an outline that never goes down by more than one level gets no warning |
| `Accessibility.ValidateHeadingHierarchy` | accessibility.js:403-416 | the loop warns about exactly the skipped levels, in document order |
| `Accessibility.Spaced` | accessibility.js:269 | replacing dashes and underscores keeps the length |
| `Accessibility.Capitalised` | accessibility.js:269 | capitalising keeps the length |
| `Accessibility.NameLabel` | accessibility.js:269 | the label made from an input's name |
| `Accessibility.NameLabelSpec` | accessibility.js:269 | the label made from a name has no dash or underscore, puts spaces where they were, starts every word with a character that is not a lower-case letter, and keeps every other character |
| `Accessibility.NameLabelIdempotent` | accessibility.js:269 | making a label from a label changes nothing |
| `Accessibility.EnsureInputLabel` | accessibility.js:256-277 | only the ARIA label and the required flag of an input can change |
| `Accessibility.EnsureInputLabelSpec` | accessibility.js:256-277 | the label changes only on an unlabelled input with a placeholder or a name, taking the placeholder first and else the name label; the required flag is added exactly to a required input without one; doing it twice is doing it once |
| `Analytics.StoreConsent` | modules/analytics.js:44 | writing the choice adds only the consent key and keeps every other entry |
| `Analytics.GetConsent` | modules/analytics.js:39-41 | whether the stored choice is `granted` |
| `Analytics.ConsentRoundTrip` | modules/analytics.js:39-44 | reading the consent back gives the choice just written |
| `Analytics.VariantRange` | modules/analytics.js:499 | `r & 0x3 \| 0x8` is always between 8 and 11, the RFC 4122 variant |
| `Analytics.Fill` | modules/analytics.js:497-501 | filling the template keeps its length |
| `Analytics.FillAt` | modules/analytics.js:497-501 | fixed characters are kept, an `x` becomes a hexadecimal digit and a `y` one of `8`, `9`, `a`, `b` |
| `Analytics.TemplateShape` | modules/analytics.js:497 | the template has 36 characters, dashes at 8, 13, 18 and 23, the version digit at 14 and the variant slot at 19 |
| `Analytics.FillShape` | modules/analytics.js:497-501 | filling a template of that shape keeps the dashes and the version digit and puts a variant digit at 19 |
| `Analytics.GenerateIdShape` | modules/analytics.js:496-502 | every generated id is a version-4 UUID: 36 characters, dashes at 8, 13, 18 and 23, `4` at 14 and a variant digit at 19 |
| `Analytics.GenerateId` | modules/analytics.js:496-502 | fills the UUID template from the random draws; `GenerateIdShape` gives the shape of the result |
| `Analytics.SessionIdFor` | modules/analytics.js:487-494 | the stored id when there is a non-empty one, else a new id, which is stored |
| `Analytics.SessionIdStored` | modules/analytics.js:487-494 | the id returned is the one stored afterwards, and it is never empty |
| `Analytics.SessionIdStable` | modules/analytics.js:487-494 | a second call returns the same id, whatever it draws, and changes nothing |
| `Analytics.EventFor` | modules/analytics.js:141-149 | the caller's parameters, then the time stamp, the session id and the first 200 characters of the user agent, which win on a clash |
| `Analytics.EventForSpec` | modules/analytics.js:141-149 | the event keeps its name and the caller's parameters, and adds the time stamp, the session id and the first 200 characters of the user agent, which win on a clash |
| `Analytics.PageViewParams` | modules/analytics.js:118-136 | the path given, or the current path when none or an empty one is given, with the title, referrer and time stamp |
| `Analytics.ScrollEvent` | modules/analytics.js:256-258 | the `scroll_depth` event for one milestone |
| `Analytics.HitsSpec` | modules/analytics.js:253-260 | a milestone is reported exactly when it is on the list, reached by the scroll, and not reported before |
| `Analytics.Hits` | modules/analytics.js:253-260 | the milestones a scroll reaches that were not reached before, in order |
| `Analytics.MilestoneRun` | modules/analytics.js:245-262 | the milestones reported over a run of scroll events |
| `Analytics.MilestonesIncrease` | modules/analytics.js:242 | the milestones increase |
| `Analytics.HitsIncrease` | modules/analytics.js:253-260 | the milestones reported by one scroll come in increasing order |
| `Analytics.MilestonesOnce` | modules/analytics.js:240-265 | over any run of scroll events each milestone is reported at most once, and only one not reached before |
| `Analytics.TrackerRun` | modules/analytics.js:245-262 | a handler's run of events reports what its first event reports, then what the rest report from its new state |
| `Analytics.TrackerHits` | modules/analytics.js:250-260 | none unless the event is a new maximum, then the milestones it reaches for the first time |
| `Analytics.TrackerStep` | modules/analytics.js:250-260 | a handler's maximum and reached milestones after one scroll event |
| `Analytics.HitsOnce` | modules/analytics.js:253-260 | one handler never reports a milestone twice at one scroll event |
| `Analytics.AllHitsCount` | modules/analytics.js:240-265 | at one scroll event a milestone is reported once for each handler that newly passes it |
| `Analytics.StepAll` | modules/analytics.js:240-265 | every handler after one scroll event, which reaches them all |
| `Analytics.AllHits` | modules/analytics.js:240-265 | the milestones all handlers report for one scroll event, oldest handler first |
| `Analytics.TwoHandlersReportTwice` | modules/analytics.js:240-265 | two handlers, as two initialisations leave, both report the 25% milestone of a first scroll to 30% |
| `Analytics.ScrollLoopTurn` | modules/analytics.js:245-262 | one more handler seeing the event keeps the dispatch's state, its reports following those of the handlers before it |
| `Analytics.ScrollLoopEnd` | modules/analytics.js:245-262 | after the last handler, the handlers and the recorded events are those of the whole dispatch |
| `Analytics.AnalyticsManager.GetSessionId` | modules/analytics.js:487-494 | the session storage ends as `getSessionId` leaves it, and the id returned is the one it holds; nothing else changes |
| `Analytics.AnalyticsManager.TrackEvent` | modules/analytics.js:138-160 | nothing is recorded unless the tracker is enabled and consent is given; then exactly one event with the session id is appended |
| `Analytics.AnalyticsManager.TrackPageView` | modules/analytics.js:118-136 | the `page_view` event names the given path, or the current one when none or an empty one is given, with the title, referrer and time |
| `Analytics.AnalyticsManager.DisableAnalytics` | modules/analytics.js:523-534 | the tracker is switched off and nothing else changes |
| `Analytics.AnalyticsManager.SetConsent` | modules/analytics.js:43-52 | the choice is stored and becomes the consent setting; refusing switches the tracker off; granting with the script loaded adds a fresh scroll handler and, while the tracker is enabled, records a `page_view` event for the current page with the session id; in every other case no event is recorded and the session store is kept |
| `Analytics.AnalyticsManager.InitializeAnalytics` | modules/analytics.js:54-70 | once the script has loaded, a fresh scroll handler is added to those already there, and a `page_view` event for the current page is recorded exactly when the tracker is enabled and consent is given |
| `Analytics.AnalyticsManager.constructor` | modules/analytics.js:7-37 | the tracker starts enabled with the stored consent; when consent is stored and the script loads, one scroll handler is set up and exactly one `page_view` event for the current page is recorded with the session id, the session store left as `getSessionId` leaves it; otherwise nothing is recorded, no handler exists and the session store is untouched |
| `Analytics.AnalyticsManager.OnScroll` | modules/analytics.js:245-262 | every scroll handler sees the event, in the order they were set up, and moves to its own new state; the events recorded are the `scroll_depth` events of the milestones each handler newly passes, oldest handler first, while tracking is on |
| `Analytics.AnalyticsManager.TrackerScroll` | modules/analytics.js:245-262 | the handler at that position sees the event: on a new maximum it marks the milestones it newly passes, in order, and records one event for each while tracking is on; the other handlers are untouched |
| `Analytics.AnalyticsManager.PassMilestones` | modules/analytics.js:253-260 | the loop over a list without duplicates marks and reports exactly the newly passed milestones, in list order |
| `Analytics.AnalyticsManager.PassMilestone` | modules/analytics.js:254-258 | a milestone reached and not reached before is marked and reported once |
| `Analytics.ElementsSpec` | modules/analytics.js:243-255 | the reached set holds exactly the reported milestones |
| `Analytics.ScrollEventsReport` | modules/analytics.js:256-258 | each `scroll_depth` event names the milestone at the same position |
| `Analytics.ScrollEventsConcat` | modules/analytics.js:256-258 | the events of two runs of milestones are those of the first run followed by those of the second |
| `Analytics.ScrollTurn` | modules/analytics.js:253-260 | one turn of the milestone loop keeps the loop's state |
| `Analytics.MilestoneStep` | modules/analytics.js:253-260 | one more milestone is new to the hits so far and is added exactly when it is reached and not reached before |
| `Performance.CheckVitalThreshold` | performance-monitor.js:352-361 | a vital is reported exactly when its value is strictly above its threshold from the table, with the value and that threshold |
| `Performance.Threshold` | performance-monitor.js:14-20 | the monitor's thresholds table |
| `Performance.ThresholdIsStrict` | performance-monitor.js:352-361 | a value equal to the threshold is not reported, and every value above it is |
| `Performance.CheckThresholds` | performance-monitor.js:334-350 | a time to first byte above 600 ms yields exactly one slow-server issue; otherwise there is nothing to report |
| `Performance.CheckMemoryUsage` | performance-monitor.js:363-371 | memory is reported exactly when the used heap is above 80% of the limit |
| `Performance.ResourceTypeSpec` | performance-monitor.js:470-477 | a URL is `other` exactly when none of the five rules applies, and the first rule that applies wins: `.css` anywhere makes a stylesheet, and `.json` counts as a script |
| `Performance.ResourceType` | performance-monitor.js:470-477 | the kind of a resource by its URL: `.css`, then `.js`, then an image or font extension, then `/api/`, else `other` |
| `Performance.ResourceOf` | performance-monitor.js:58-64 | a recorded resource has the URL's type, its duration, and a size of 0 when the transfer size is missing |
| `Performance.FilterSpec` | performance-monitor.js:377-386 | the filter keeps exactly the resources that satisfy the predicate and never adds any |
| `Performance.Filter` | performance-monitor.js:377-386 | `resources.filter(p)`, in order |
| `Performance.CheckPerformanceIssues` | performance-monitor.js:373-397 | a slow-resources issue when some resource took over 3 s, then a large-resources issue when some resource is over 1 MB; none when neither |
| `Performance.CheckPerformanceIssuesReported` | performance-monitor.js:373-397 | issues are reported exactly when some resource took more than 3 s or is larger than 1 MB |
| `Performance.CheckPerformanceIssuesLists` | performance-monitor.js:373-397 | the slow-resources issue comes first and lists exactly the slow resources; the large-resources issue comes last and lists exactly the large ones |
| `Performance.KindsCounted` | performance-monitor.js:402-408 | a type gets an entry exactly when some resource has it, and every entry has a positive count |
| `Performance.AbsentTotalsZero` | performance-monitor.js:402-413 | a type no resource has adds nothing to any total |
| `Performance.CountBounded` | performance-monitor.js:410 | no type counts more resources than there are |
| `Performance.AnalyzeResourcePerformance` | performance-monitor.js:399-413 | the summary has one entry per type present, holding that type's count, total size and total duration |
| `Performance.GetRecommendations` | performance-monitor.js:565-608 | the list built with `push` is the recommendation list for the vitals |
| `Performance.RecommendationsSpec` | performance-monitor.js:565-608 | each vital's advice is given exactly when that vital was observed over its threshold; LCP advice comes first and CLS advice last; nothing observed gives no advice |
| `Performance.Recommendations` | performance-monitor.js:565-608 | one piece of advice per observed vital over its threshold, for LCP, FID and CLS in that order |
| `Performance.ElementSelectorSpec` | performance-monitor.js:484-490 | a missing element is `unknown`; the id wins with a `#`; then `.` and the first class, the prefix of the class list up to its first space or its end; then the lower-cased tag name |
| `Performance.ElementSelector` | performance-monitor.js:484-490 | `unknown` without an element, else `#` and the id, else `.` and the first class, else the lower-cased tag |
| `ModernCore.ThemeIndex` | modern-core.js:292 | `indexOf` gives the theme's position, or -1 exactly when the theme is not in the list |
| `ModernCore.NextTheme` | modern-core.js:291-295 | the theme after the current one in the list, wrapping |
| `ModernCore.NextThemeCycles` | modern-core.js:291-295 | toggling goes light, dark, auto and back to light; an unknown theme goes to light; three toggles return to a known theme |
| `ModernCore.DataThemeSpec` | modern-core.js:262-270 | `auto` shows dark exactly when the system prefers dark and light otherwise; any other theme shows itself |
| `ModernCore.DataTheme` | modern-core.js:262-270 | `auto` follows the system's dark preference; any other theme is written as it is |
| `ModernCore.StartingTheme` | modern-core.js:243 | a stored non-empty theme is used, and `auto` otherwise |
| `ModernCore.ThemeManager.constructor` | modern-core.js:241-252 | the manager starts from the stored theme or `auto`, applies it and stores it back, with the attribute showing it |
| `ModernCore.ThemeManager.ApplyTheme` | modern-core.js:262-274 | the theme becomes current and is stored under `portfolio-theme`, and the attribute shows it, following the system for `auto` |
| `ModernCore.ThemeManager.ToggleTheme` | modern-core.js:291-295 | the next theme in the cycle is applied and stored, and `data-theme` follows it; the dark-scheme preference is unchanged |
| `ModernCore.ThemeManager.SystemThemeChanged` | modern-core.js:276-283 | the attribute follows the new system preference only under `auto`; the theme and storage stay |
| `ModernCore.LoadModule` | modern-core.js:94-111 | an unknown name throws `not found`; a known one loads exactly when its import succeeds |
| `ModernCore.LoadedNamesSpec` | modern-core.js:82-90 | the names kept are exactly the ones that load, never more than were tried |
| `ModernCore.LoadedNames` | modern-core.js:82-90 | the names among the first `n` whose import succeeds, in list order |
| `ModernCore.ModulesRegistered` | modern-core.js:70-111 | a listed module is registered exactly when its import succeeds, and every listed name is known to the module map |
| `ModernCore.MapSet` | modern-core.js:85 | `Map.set` keeps the old keys in order and adds the new one, once |
| `ModernCore.Registry.constructor` | modern-core.js:82-85 | the registry starts empty |
| `ModernCore.Registry.InitializeModules` | modern-core.js:70-92 | afterwards a module is registered exactly when it was before or it is listed and loads; from empty, the registered names are the loaded ones in list order |
| `ModernCore.RegisteredTurn` | modern-core.js:82-90 | one turn of the loop, a load that succeeds or a failure caught, keeps the registry's invariant |
| `ModernCore.ErrorBoundary.constructor` | modern-core.js:529-532 | no errors are recorded at start |
| `ModernCore.ErrorBoundary.HandleError` | modern-core.js:544-555 | an error object adds exactly one record at the end with its message, stack and place, keeping the earlier ones; a missing error throws on `error.message` and records nothing |
| `ModernCore.ErrorBoundary.HandleRejection` | modern-core.js:539-541 | an unhandled rejection is recorded as from `Promise` at line 0, column 0; a missing reason throws and records nothing |
| `ModernCore.Navigation.constructor` | modern-core.js:367-371 | the menu starts closed |
| `ModernCore.Navigation.ToggleMenu` | modern-core.js:438-446 | the menu flips, and the `nav-open` class and `aria-expanded` follow it |
| `ModernCore.Navigation.CloseMenu` | modern-core.js:448-452 | the menu is closed, without the class and with `aria-expanded` false |
| `ModernCore.Navigation.OnEscape` | modern-core.js:387-391 | Escape closes an open menu and leaves a closed one untouched |
| `StructuredData.HomeFilenames` | structured-data.js:488-494 | the page is `home` exactly when the last path segment is empty or `index.html` |
| `StructuredData.CurrentPage` | structured-data.js:488-510 | the file name alone decides the page |
| `StructuredData.PageOfFilename` | structured-data.js:488-510 | an empty name or `index.html` is home, otherwise the file-name table, else `unknown` |
| `StructuredData.UnknownPage` | structured-data.js:496-509 | a file name is `unknown` exactly when it is neither empty, `index.html` nor in the page map; a mapped name gives its page, and `blog-index.html` is the blog |
| `StructuredData.PageTitleSpec` | structured-data.js:512-527 | a page gets the fallback title `Page` exactly when the title table does not know it, and no title is empty |
| `StructuredData.PageTitle` | structured-data.js:512-527 | the title of each page in the table, else `Page` |
| `StructuredData.PageDescriptionSpec` | structured-data.js:529-543 | exactly the titled pages other than `home` and `insights` have a description of their own; those two and every untitled page get the site's description |
| `StructuredData.PageDescription` | structured-data.js:529-543 | the page's own description, else the site description |
| `StructuredData.BuilderForSpec` | structured-data.js:70-96 | `blog` and `blog-index` share the blog builder, and a page falls to the default builder, registered as `page-<page>`, exactly when the switch does not name it |
| `StructuredData.BuilderFor` | structured-data.js:70-96 | the schema builder the page's `switch` picks |
| `StructuredData.SchemaId` | structured-data.js:70-96 | the id each builder registers its script under |
| `StructuredData.InitIdsDistinct` | structured-data.js:25-30 | the person, page, organization and website scripts registered at start have pairwise different ids, so none replaces another |
| `StructuredData.InitIds` | structured-data.js:25-30 | the person, the page's own schema, the organisation and the web site, in order |
| `StructuredData.DefaultSchema` | structured-data.js:272-288 | the default `WebPage` is named by the page's title followed by ` - ` and the site name, with the page's description, the current URL and the site's name |
| `StructuredData.RemoveFirstSpec` | structured-data.js:550-554 | removing the script found for an id drops exactly one script with that id when there is one, and leaves every other script, in order |
| `StructuredData.RemoveFirst` | structured-data.js:550-554 | the first script with the id leaves the head |
| `StructuredData.CountAppend` | structured-data.js:562 | appending a script adds one to the count of its own id only, and keeps the other scripts' order |
| `StructuredData.CountZero` | structured-data.js:551-552 | no script is found for an id exactly when no script carries it |
| `StructuredData.AddedSpec` | structured-data.js:549-563 | after adding, exactly one script carries the id, it is the last one and holds the new data, and every other script stays as it was |
| `StructuredData.Added` | structured-data.js:549-563 | the old script with the id removed and the new one appended |
| `StructuredData.Head.constructor` | structured-data.js:549-563 | the head starts with no structured-data scripts |
| `StructuredData.Head.AddStructuredData` | structured-data.js:549-563 | the head becomes the old head with the id's script replaced by one at the end, and no id is carried twice |
| `StructuredData.Head.UpdateStructuredData` | structured-data.js:566-568 | updating is adding: the same new head and the same invariant |
| `LazyLoading.Placeheld` | modules/lazy-loading.js:47-49 | an image without a source shows the placeholder and one with a source keeps it; the result is never empty |
| `LazyLoading.PlaceheldIdempotent` | modules/lazy-loading.js:47-49 | giving the placeholder twice is giving it once |
| `LazyLoading.ErrorSourceSpec` | modules/lazy-loading.js:120-132 | the new source differs from the image's current `src` property unless it is the error image; a fallback equal to that property, or none, gives the error image |
| `LazyLoading.FailedDataSrcTriedAgain` | modules/lazy-loading.js:120-132 | an image without a source of its own shows the placeholder, a `data:` URL that resolves to itself, so after a failed lazy load a fallback equal to the `data-src` that just failed is tried again |
| `LazyLoading.RelativeFallbackKept` | modules/lazy-loading.js:125-127 | a relative fallback equal to the `src` attribute is compared with the resolved URL, differs from it, and is used |
| `LazyLoading.ErrorSource` | modules/lazy-loading.js:120-132 | the fallback when there is one that differs from the current `src` property, the attribute resolved against the document's URL; else the error image |
| `LazyLoading.IsInViewportSpec` | modules/lazy-loading.js:190-198 | an element is in view exactly when its box meets the window grown by 200 pixels on every side, so everything visible counts |
| `LazyLoading.IsInViewport` | modules/lazy-loading.js:190-198 | the box, grown by 200 pixels on every side, meets the window |
| `LazyLoading.LazyLoadingManager.constructor` | modules/lazy-loading.js:7-13 | nothing is loaded or observed at start |
| `LazyLoading.LazyLoadingManager.InitializeImages` | modules/lazy-loading.js:43-57 | every lazy image is observed, keeps its other attributes, gets the placeholder when it has no source and the loading class |
| `LazyLoading.LazyLoadingManager.Prepare` | modules/lazy-loading.js:45-55 | one image is prepared, and preparing it again changes nothing |
| `LazyLoading.LazyLoadingManager.LoadImage` | modules/lazy-loading.js:59-90 | a loaded image is never loaded again and is left untouched; a successful load applies `data-src` and `data-srcset` and marks it loaded; a failure handles the error as `HandleImageError` states, against the resolved `src`, and leaves it unloaded; no other attribute of the image changes |
| `LazyLoading.LazyLoadingManager.OnIntersect` | modules/lazy-loading.js:33-40 | an image that comes into view stops being observed, and is loaded, applied or failed exactly as `LoadImage` states |
| `LazyLoading.LazyLoadingManager.ApplyImage` | modules/lazy-loading.js:92-118 | the loaded sources replace the image's, the class becomes `lazy-loaded`, the two data attributes are gone, and nothing else changes |
| `LazyLoading.LazyLoadingManager.HandleImageError` | modules/lazy-loading.js:120-132 | the class becomes `lazy-error`, the source switches to the fallback or the error image by comparing the fallback with the resolved `src`, and nothing else changes |
| `LazyLoading.LazyLoadingManager.EnableDataSaver` | modules/lazy-loading.js:282-297 | every image takes its data-saver source where it has one, and decorative images get the placeholder and the skipped class; nothing else changes |
| `LazyLoading.LazyLoadingManager.SaveData` | modules/lazy-loading.js:286-295 | one image is switched to data saving, and switching it again changes nothing |
| `LazyLoading.LazyLoadingManager.Destroy` | modules/lazy-loading.js:349-355 | nothing stays observed or loaded |
| `ImageOptimizer.MimeType` | image-optimizer.js:111 | the type is `image/` followed by the format, with `jpg` as `image/jpeg` |
| `ImageOptimizer.GenerateResponsiveSources` | image-optimizer.js:105-115 | one source per format, in the same order, each naming `<base>.<format>` with its MIME type; without formats, WebP, AVIF and JPEG in that order |
| `ImageOptimizer.FormatsOrDefault` | image-optimizer.js:105 | a call without formats gets `webp`, `avif` and `jpg`; a call with formats gets its own |
| `ImageOptimizer.SourceOf` | image-optimizer.js:44 | `data-src` is used when present and not empty, the image's own source otherwise |
| `ImageOptimizer.ImageOptimizer.constructor` | image-optimizer.js:3-8 | nothing is loaded or observed at start |
| `ImageOptimizer.ImageOptimizer.OptimizeExistingImages` | image-optimizer.js:34-41 | exactly the images whose source has not been loaded start being observed |
| `ImageOptimizer.ImageOptimizer.LoadImage` | image-optimizer.js:43-64 | a source already loaded is not loaded again and the image is untouched; a successful load sets the source, swaps `loading` for `loaded` and records the source; a failure shows the placeholder and its alt text with the `loading` and `error` classes and records nothing; nothing else changes |
| `ImageOptimizer.ImageOptimizer.HandleImageError` | image-optimizer.js:83-87 | a failed image gets the `error` class, the placeholder and its alt text, and nothing else changes |
| `ImageOptimizer.ImageOptimizer.PreloadCriticalImages` | image-optimizer.js:89-103 | the recorded sources grow by exactly the sources of the critical images that are not empty, were not loaded, and load; each such image shows that source, and nothing else changes |
| `ImageOptimizer.ImageOptimizer.PreloadAll` | image-optimizer.js:90-102 | the loop returns exactly the set of sources of the images it preloads, and each image changes only as preloading it says |
| `ImageOptimizer.ImageOptimizer.PreloadOne` | image-optimizer.js:92-100 | one critical image is preloaded, and doing it again changes nothing |
| `ImageOptimizer.Preloads` | image-optimizer.js:89-102 | a source is preloaded when it is not empty, was not loaded when preloading started, and loads |

## Left out

- Browser APIs are not modelled. This covers DOM construction, styling,
  `innerHTML` templates, listener registration, observers, `matchMedia`,
  `navigator`, `gtag`, `fetch` and script injection. What the logic reads
  from them is a parameter:
  - the system colour-scheme preference;
  - whether a load or import succeeds (`ok`, `loads`, `imports`);
  - the host a URL names;
  - the scroll percentage;
  - the clock and the user agent.
- Timers, debouncing and promise scheduling are not modelled. Each handler is
  one sequential step, and an unawaited `cache.put` completes before the
  handler returns. There is no concurrency.
- Randomness is not modelled. The CSRF token takes its random bytes as input,
  and the analytics id takes its random nibbles as input.
- Regular expressions are not modelled:
  - queries are matched as literal text;
  - the e-mail pattern is written out as a predicate;
  - `toLowerCase` is ASCII only;
  - the security manager's regex sanitisers and XSS detectors are left out
    because they need a regex semantics.
- `JSON.stringify` is not modelled: a structured-data script holds its data
  as an opaque string. The schema builders' object literals are reduced to
  the id they register under, except the default `WebPage` schema.
- Floating point is not modelled. The performance monitor's averages and the
  layout-shift computation are left out, and thresholds are compared as `real`.
- Whole files are not part of this model: `pwa-manager.js`, `web-vitals.js`,
  `core.js`, `script.js`, `advanced-animations.js` and `modules/animations.js`.
  They hold only DOM wiring, library callbacks or animation.
- The service worker's `sync` handler is not modelled: it is an empty stub.
  The scheme check `Cache.put` performs is also not modelled. The model
  stores only GET requests.
- `Search.Entries` keeps words in first-occurrence order. JavaScript lists
  integer-like keys first in ascending order. With equally frequent words,
  the two orders can pick different words for the top ten.
- `filterResults` returns early on `this.currentQuery`, which nothing
  assigns. As written, it never filters. `Search.FilterResults` models the
  category predicate alone.
- CleanupOldData (`Privacy.CleanupOldData`, with `Privacy.PruneKeepsNewest`)
  prunes session records only. The consent and settings keys also start with
  `analytics_`. The as-written cleanup, which parses them and throws, is
  under "## Findings".
- ResetConsent (`Privacy.PrivacyAnalytics.ResetConsent`): after removing
  both keys and clearing both flags, `resetConsent` calls
  `this.showConsentBanner()`, which the class does not define, so the source
  always throws there and no banner is shown. The model ends with the cleared
  state and models neither the throw nor a banner.
- The privacy tracker keeps only the browser and system names it derives from
  the user agent, passed in as values. `sendDataToServer` is not modelled.
- For the ad manager:
  - the retry's `setTimeout` is not modelled; the delay is returned, and a
    retry is a later `LoadAd` call;
  - custom script loading and the ad network's markup are not modelled;
  - the settings modal, `saveAdSettings`, the `ad_settings` preferences and
    the modal's reset button are not modelled.
- HandleConsentChoice (`Ads.AdManager.HandleConsentChoice`): the consent
  dialog is removed by its save button's click handler after
  `handleConsentChoice` returns, so the method leaves `dialogShown` as it was.
- `Contact.GenerateSuggestions` leaves out the simulated delay and the
  loading state. `formatAIResponse` builds HTML and is not modelled.
- The form validators read `minlength` as an integer that is already
  parsed. `parseInt` of the attribute is not modelled.
- The messages on the page are not modelled, only the message each
  validation passes to `showFieldError`. `showFieldError` first removes the
  first `.field-error` under the field's parent, so when two fields share a
  parent a later field's message can remove an earlier one's.
- The accessibility manager takes heading levels as parsed digits. Its
  announcements, skip links and focus styling are DOM only and not modelled.
- For the analytics module:
  - `trackWebVitals`, the engagement timer and the form listeners are not
    modelled;
  - loading the `gtag` script is an outcome passed in.
- `sanitizeUrl` in the performance monitor needs URL parsing, so a resource's
  name is its URL as given. `reportPerformanceIssues` sends data out and is
  not modelled.
- Parts of the modern core are not modelled:
  - feature detection, its performance monitor and the scroll effects;
  - keyboard navigation inside the menu, and the `focus` call;
  - closing the menu on an outside click, which needs `nav.contains`.
  - Modules are reduced to their names, and the dynamic import's outcome is
    a parameter.
- For the lazy-loading manager:
  - the fallback path without an `IntersectionObserver` is not modelled;
    the model assumes an observer exists;
  - progressive loading, background images, iframes, preload links, the
    slow-connection mode and the performance monitor are not modelled;
  - a load is one step that succeeds or fails.
- The image optimiser's `createPictureElement`, `supportsFormat`,
  `imageCache` and fade-in animation are not modelled. Its document-wide
  error listener is the same `HandleImageError`.
- The site data's person, organization and website schemas are constant
  object literals, and none of them is modelled.
- Plain-object lookups are modelled as lookups in a finite table. In the
  source, names inherited from `Object.prototype`, such as `__proto__` and
  `constructor`, are found in every object literal. The next lines name the
  members that treat them as ordinary names.
- CountWords (`Search.CountWords`): the source's counts live in `{}`, where
  the word `__proto__` is never counted and `constructor` starts from an
  inherited function, so its count is a string.
- ExtractKeywords (`Search.ExtractKeywords`): the keywords can include
  `__proto__`, which the source drops.
- PreferredTheme (`Themes.PreferredTheme`): a stored `constructor` passes
  `this.themes[saved]` in the source.
- IsKnown (`Themes.IsKnown`): a requested `constructor` passes the same
  lookup in `setTheme`.
- FoldersBeforeTable (`Breadcrumbs.FoldersBeforeTable`): a file named
  `constructor` or `__proto__` finds an inherited value in `pageMap` and is
  not `unknown`.
- PageOfFile (`Breadcrumbs.PageOfFile`): the table lookup behind the line
  above.
- UnknownPage (`StructuredData.UnknownPage`): the same holds for the
  file-name table it shares with the breadcrumbs.
- ThemeIcon (`Themes.ThemeIcon`): `getThemeIcon('constructor')` or
  `getThemeIcon('__proto__')` finds an inherited value in `this.themes`, which
  has no `icon`, so the source returns `undefined`; the model gives
  `fa-palette`.
- AvailableThemes (`Themes.AvailableThemes`): a custom theme named
  `__proto__` is assigned as the prototype of the `reduce` accumulator, which
  the spread does not copy, so the source drops it; the model lists it.
- AvailableThemesContents (`Themes.AvailableThemesContents`): the same
  `__proto__` custom theme is among the names it states, and the source's
  result does not have it.
- Lengths are counted in characters. JavaScript's `length`, `substring` and
  `slice` count UTF-16 code units, so text outside the Basic Multilingual
  Plane counts twice there. The next lines name the members this affects.
- FailsMinLength (`Forms.FailsMinLength`): the `minlength` comparison.
- MinLengthFailsLast (`Forms.MinLengthFailsLast`): the same comparison.
- MinLengthMessageWins (`Contact.MinLengthMessageWins` and
  `Enhancements.MinLengthMessageWins`): the same comparison, as each
  validator reports it.
- OnSearchInput (`Enhancements.OnSearchInput`): the two-character minimum of
  a query.
- ShortQueryHides (`Enhancements.ShortQueryHides`): the same minimum.
- Meaningful (`Search.Meaningful`): the minimum word length of a keyword.
- GetExcerpt (`Search.GetExcerpt`): the 150-character head.
- Window (`Search.Window`): the window offsets around a match.
- EventFor (`Analytics.EventFor`): the first 200 characters of the user
  agent.
- SetTheme (`Themes.ThemeManager.SetTheme`): for a name with white space,
  the source throws in `applyTheme` after `currentTheme` and storage are
  set, so the `updateThemeUI` call and the announcement that follow are
  skipped. The model leaves those two steps out in every case.
- BodyClass (`Themes.BodyClass`): the source strips `theme-\w+` from the
  body's class string, so a hyphenated class such as `theme-my-dark` leaves
  `-dark` behind. The model removes the whole theme class.
- The document's URL resolution, through which the `src` property reads
  the `src` attribute, is a parameter `resolve` of the lazy loader's
  `LoadImage`, `OnIntersect` and `HandleImageError`. The model assumes
  nothing about it beyond what each lemma requires.
- ErrorSourceSpec (`LazyLoading.ErrorSourceSpec`) states the rule the
  source has, not the one its comment suggests: the fallback is compared
  with the `src` property, not with the `data-src` that failed. For an image
  without a source of its own that property is the placeholder, so a
  fallback repeating the failed `data-src` is tried again
  (`LazyLoading.FailedDataSrcTriedAgain`). A relative fallback equal to the
  `src` attribute differs from the resolved URL and is used
  (`LazyLoading.RelativeFallbackKept`).
- Placeheld (`LazyLoading.Placeheld`): an image's `src` is its attribute
  text, and the empty text stands for a missing attribute. An `src`
  attribute that is present but empty reads as the document's URL in the
  source, which is truthy, so the source gives it no placeholder.

## Findings

| source | as written | input that shows it | evidently intended | confidence | as-written member | corrected member |
|---|---|---|---|---|---|---|
| advanced-search.js:298-300 | the result list's excerpt is taken around `this.currentQuery`, which nothing assigns, so every excerpt is the first 150 characters and `...` | a page of 160 `a` characters followed by `needle`, searched for `needle`: it is found, but its excerpt does not show `needle` | the excerpt is taken around the query being searched, so a page that mentions the query shows a match | medium, not executed | `Search.DisplayedExcerptMissesMatch` | `Search.ResultExcerpt` |
| privacy-analytics.js:28-40 | `checkConsent` calls `this.showConsentBanner()` when no choice is stored, and `enableAnalytics` calls `this.setupPerformanceTracking()`; the class defines neither, so the constructor throws at that call; `resetConsent` ends with the same missing `showConsentBanner` call and throws after clearing the stored choices; `handleConsent('accept')` (line 100) and `saveConsentSettings` (line 208) also throw inside `enableAnalytics`, so `hideConsentBanner` and `modal.remove()` never run | a first visit with nothing stored: no banner is ever added, so consent cannot be given; a visit with `granted` stored records one page view and sets up no consent manager | a first visit shows the consent banner, and a consenting visitor's start-up finishes | high, not executed | `Privacy.StartUpAsWrittenFails` | `Privacy.PrivacyAnalytics.constructor` |
| privacy-analytics.js:471-484 | `cleanupOldData` parses every `analytics_` key as a session record, including the consent key, whose value is the plain text `granted`; once there are more than ten such keys `JSON.parse` throws before any record is removed | consent granted and ten session records stored: the eleventh key makes the clean-up throw on each save, and old records are never removed | only session records are parsed and the ten newest are kept | high, not executed | `Privacy.CleanupAsWrittenThrows` | `Privacy.CleanupOldData` |

=== FILE: accessibility.dfy ===
/** The accessibility manager: keyboard navigation inside menus and modals,
    the labels it derives for icons, forms, inputs and interactive elements,
    and the heading-outline check. */
module Accessibility {
  import opened Js

  // ---------------------------------------------------------------- arrow keys

  /** `Array.from(items).findIndex(item => item === active)`: the first
      position of the focused element, or -1. */
  function FindIndex<T(==)>(items: seq<T>, active: T): (r: int)
    ensures -1 <= r < |items|
    ensures r == -1 <==> active !in items
    ensures r >= 0 ==> items[r] == active && active !in items[..r]
  {
    if items == [] then -1
    else if items[0] == active then 0
    else
      var rest := FindIndex(items[1..], active);
      assert items[1..][..if rest < 0 then 0 else rest] == items[1..if rest < 0 then 1 else rest + 1];
      if rest < 0 then -1 else rest + 1
  }

  /** The index `handleArrowKeyNavigation` moves to from `current` among
      `count` items: down goes to the next one or wraps to the first, up to
      the previous one or wraps to the last. */
  function ArrowTarget(current: int, count: nat, down: bool): int
  {
    if down then (if current < count - 1 then current + 1 else 0)
    else (if current > 0 then current - 1 else count - 1)
  }

  /** The item that receives the focus, if `items[newIndex]` exists. */
  function ArrowFocus<T(==)>(items: seq<T>, active: T, down: bool): Option<nat>
  {
    var target := ArrowTarget(FindIndex(items, active), |items|, down);
    if 0 <= target < |items| then Some(target) else None
  }

  /** Down moves on by one and wraps from the last item, or starts at the
      first item when nothing in the menu has the focus; up is the mirror
      image; an empty menu takes no focus. */
  lemma ArrowFocusSpec<T>(items: seq<T>, active: T)
    ensures items == [] ==> ArrowFocus(items, active, true).None? && ArrowFocus(items, active, false).None?
    ensures items != [] && active !in items ==>
      ArrowFocus(items, active, true) == Some(0) && ArrowFocus(items, active, false) == Some(|items| - 1)
    ensures items != [] && active in items ==>
      var i := FindIndex(items, active);
      && ArrowFocus(items, active, true) == Some(if i == |items| - 1 then 0 else i + 1)
      && ArrowFocus(items, active, false) == Some(if i == 0 then |items| - 1 else i - 1)
  {
  }

  /** On a menu of at least one item, up undoes down and down undoes up. */
  lemma ArrowInverse(i: nat, count: nat)
    requires i < count
    ensures ArrowTarget(ArrowTarget(i, count, true), count, false) == i
    ensures ArrowTarget(ArrowTarget(i, count, false), count, true) == i
  {
  }

  // ---------------------------------------------------------------- focus trap

  /** `trapFocus`: the element that receives the focus when Tab (or
      Shift+Tab) is pressed inside a modal, or `None` when the browser's own
      move stands. */
  function TrapFocus<T(==)>(focusable: seq<T>, active: T, shift: bool): (r: Option<T>)
    ensures r.Some? ==> r.value in focusable
    ensures r.Some? <==> focusable != [] && active == (if shift then focusable[0] else focusable[|focusable| - 1])
    ensures r.Some? ==> r.value == (if shift then focusable[|focusable| - 1] else focusable[0])
  {
    if focusable == [] then None
    else if shift then (if active == focusable[0] then Some(focusable[|focusable| - 1]) else None)
    else (if active == focusable[|focusable| - 1] then Some(focusable[0]) else None)
  }

  /** Tab on the last element and then Shift+Tab comes back to it, so the
      focus cycles inside the container. */
  lemma TrapFocusCycles<T>(focusable: seq<T>)
    requires focusable != []
    ensures var first := TrapFocus(focusable, focusable[|focusable| - 1], false);
      first == Some(focusable[0]) && TrapFocus(focusable, first.value, true) == Some(focusable[|focusable| - 1])
  {
  }

  // ---------------------------------------------------------------- icon labels

  /** The icon-class table of `getIconLabel`, in its written order. */
  const ICON_LABELS: seq<(string, string)> := [
    ("fa-close", "Close"), ("fa-times", "Close"), ("fa-menu", "Menu"), ("fa-bars", "Menu"),
    ("fa-search", "Search"), ("fa-download", "Download"), ("fa-arrow-right", "Next"),
    ("fa-arrow-left", "Previous"), ("fa-chevron-up", "Expand"), ("fa-chevron-down", "Collapse")]

  /** The label of the first entry whose class occurs in `iconClass`. */
  function FirstLabel(table: seq<(string, string)>, iconClass: string): Option<string>
  {
    if table == [] then None
    else if Contains(iconClass, table[0].0) then Some(table[0].1)
    else FirstLabel(table[1..], iconClass)
  }

  function IconLabel(iconClass: string): Option<string>
  {
    FirstLabel(ICON_LABELS, iconClass)
  }

  /** The label found is that of the first matching entry in table order;
      there is none exactly when no entry's class occurs. */
  lemma {:induction false} FirstLabelSpec(table: seq<(string, string)>, iconClass: string)
    ensures FirstLabel(table, iconClass).None? <==> forall i :: 0 <= i < |table| ==> !Contains(iconClass, table[i].0)
    ensures FirstLabel(table, iconClass).Some? ==>
      exists i :: 0 <= i < |table| && Contains(iconClass, table[i].0)
        && FirstLabel(table, iconClass).value == table[i].1
        && forall j :: 0 <= j < i ==> !Contains(iconClass, table[j].0)
  {
    if table != [] && !Contains(iconClass, table[0].0) {
      FirstLabelSpec(table[1..], iconClass);
      if FirstLabel(table, iconClass).Some? {
        var i :| 0 <= i < |table[1..]| && Contains(iconClass, table[1..][i].0)
          && FirstLabel(table[1..], iconClass).value == table[1..][i].1
          && forall j :: 0 <= j < i ==> !Contains(iconClass, table[1..][j].0);
        assert table[i + 1] == table[1..][i];
        assert forall j :: 0 <= j < i + 1 ==> !Contains(iconClass, table[j].0) by {
          forall j | 0 <= j < i + 1
            ensures !Contains(iconClass, table[j].0)
          {
            if j > 0 {
              assert table[j] == table[1..][j - 1];
            }
          }
        }
      } else {
        forall i | 0 <= i < |table|
          ensures !Contains(iconClass, table[i].0)
        {
          if i > 0 {
            assert table[i] == table[1..][i - 1];
          }
        }
      }
    }
  }

  // ---------------------------------------------------------------- form purpose

  /** `getFormPurpose`: the class name is checked for `contact`,
      `newsletter` and `search` before the id is compared with `contactForm`
      and `newsletterForm`. */
  function FormPurpose(formClass: string, formId: string): string
  {
    if Contains(formClass, "contact") then "Contact form"
    else if Contains(formClass, "newsletter") then "Newsletter subscription form"
    else if Contains(formClass, "search") then "Search form"
    else if formId == "contactForm" then "Contact form"
    else if formId == "newsletterForm" then "Newsletter subscription form"
    else "Form"
  }

  /** The generic label is used exactly when no rule applies, and a class
      rule wins over a contradicting id. */
  lemma FormPurposeSpec(formClass: string, formId: string)
    ensures FormPurpose(formClass, formId) == "Form" <==>
      !Contains(formClass, "contact") && !Contains(formClass, "newsletter") && !Contains(formClass, "search")
      && formId != "contactForm" && formId != "newsletterForm"
    ensures Contains(formClass, "search") && !Contains(formClass, "contact") && !Contains(formClass, "newsletter") ==>
      FormPurpose(formClass, formId) == "Search form"
    ensures Contains(formClass, "newsletter") && !Contains(formClass, "contact") ==>
      FormPurpose(formClass, formId) == "Newsletter subscription form"
  {
  }

  // ---------------------------------------------------------------- element label

  /** The sources `getElementLabel` reads; an absent attribute or property
      is the empty string, which is falsy like `null` and `undefined`. */
  datatype Labelled = Labelled(ariaLabel: string, title: string, text: string, alt: string, placeholder: string)

  const DEFAULT_LABEL := "Interactive element"

  /** `getElementLabel`. */
  function ElementLabel(e: Labelled): string
  {
    if e.ariaLabel != "" then e.ariaLabel
    else if e.title != "" then e.title
    else if Trim(e.text) != "" then Trim(e.text)
    else if e.alt != "" then e.alt
    else if e.placeholder != "" then e.placeholder
    else DEFAULT_LABEL
  }

  /** The label is never empty, and it is the first non-empty source in the
      order aria-label, title, trimmed text, alt, placeholder, with the
      generic label last. */
  lemma ElementLabelSpec(e: Labelled)
    ensures ElementLabel(e) != ""
    ensures var sources := [e.ariaLabel, e.title, Trim(e.text), e.alt, e.placeholder, DEFAULT_LABEL];
      exists k :: 0 <= k < |sources| && ElementLabel(e) == sources[k] && forall j :: 0 <= j < k ==> sources[j] == ""
  {
    var sources := [e.ariaLabel, e.title, Trim(e.text), e.alt, e.placeholder, DEFAULT_LABEL];
    var k := if e.ariaLabel != "" then 0 else if e.title != "" then 1 else if Trim(e.text) != "" then 2
             else if e.alt != "" then 3 else if e.placeholder != "" then 4 else 5;
    assert ElementLabel(e) == sources[k];
  }

  // ---------------------------------------------------------------- headings

  /** A skipped level: `h<current>` found after `h<previous>`. */
  datatype HeadingIssue = HeadingIssue(current: nat, previous: nat)

  /** The level before the i-th heading; 0 before the first. */
  function PreviousLevel(levels: seq<nat>, i: nat): nat
    requires i <= |levels|
  {
    if i == 0 then 0 else levels[i - 1]
  }

  /** The issues among the first `n` headings, in document order. */
  function HeadingIssues(levels: seq<nat>, n: nat): seq<HeadingIssue>
    requires n <= |levels|
  {
    if n == 0 then []
    else
      var previous := PreviousLevel(levels, n - 1);
      HeadingIssues(levels, n - 1)
        + (if levels[n - 1] > previous + 1 then [HeadingIssue(levels[n - 1], previous)] else [])
  }

  /** Every heading more than one level deeper than the one before it
      raises a warning. */
  lemma {:induction false} SkippedLevelWarned(levels: seq<nat>, n: nat)
    requires n <= |levels|
    ensures forall i :: 0 <= i < n && levels[i] > PreviousLevel(levels, i) + 1 ==>
      HeadingIssue(levels[i], PreviousLevel(levels, i)) in HeadingIssues(levels, n)
  {
    if n > 0 {
      SkippedLevelWarned(levels, n - 1);
      var last := if levels[n - 1] > PreviousLevel(levels, n - 1) + 1
                  then [HeadingIssue(levels[n - 1], PreviousLevel(levels, n - 1))] else [];
      assert HeadingIssues(levels, n) == HeadingIssues(levels, n - 1) + last;
      forall i | 0 <= i < n && levels[i] > PreviousLevel(levels, i) + 1
        ensures HeadingIssue(levels[i], PreviousLevel(levels, i)) in HeadingIssues(levels, n)
      {
        if i < n - 1 {
          assert HeadingIssue(levels[i], PreviousLevel(levels, i)) in HeadingIssues(levels, n - 1);
        } else {
          assert HeadingIssue(levels[i], PreviousLevel(levels, i)) in last;
        }
      }
    }
  }

  /** Every warning comes from a heading more than one level deeper than the
      one before it. */
  lemma {:induction false} WarningsAreSkips(levels: seq<nat>, n: nat)
    requires n <= |levels|
    ensures forall w :: w in HeadingIssues(levels, n) ==>
      exists i :: 0 <= i < n && w == HeadingIssue(levels[i], PreviousLevel(levels, i)) && w.current > w.previous + 1
  {
    if n > 0 {
      WarningsAreSkips(levels, n - 1);
      var last := if levels[n - 1] > PreviousLevel(levels, n - 1) + 1
                  then [HeadingIssue(levels[n - 1], PreviousLevel(levels, n - 1))] else [];
      assert HeadingIssues(levels, n) == HeadingIssues(levels, n - 1) + last;
      forall w | w in HeadingIssues(levels, n)
        ensures exists i :: 0 <= i < n && w == HeadingIssue(levels[i], PreviousLevel(levels, i)) && w.current > w.previous + 1
      {
        if w in HeadingIssues(levels, n - 1) {
          var i :| 0 <= i < n - 1 && w == HeadingIssue(levels[i], PreviousLevel(levels, i)) && w.current > w.previous + 1;
        } else {
          assert w in last;
          assert w == HeadingIssue(levels[n - 1], PreviousLevel(levels, n - 1));
        }
      }
    }
  }

  /** An outline that opens with `h1` and never skips a level going down
      raises no warning. */
  lemma {:induction false} WellNestedOutline(levels: seq<nat>, n: nat)
    requires n <= |levels|
    requires forall i :: 0 <= i < n ==> levels[i] <= PreviousLevel(levels, i) + 1
    ensures HeadingIssues(levels, n) == []
  {
    if n > 0 {
      WellNestedOutline(levels, n - 1);
    }
  }

  /** `validateHeadingHierarchy`, over the digits of the headings' tag
      names in document order: the warnings it prints, in order. */
  method ValidateHeadingHierarchy(levels: seq<nat>) returns (warnings: seq<HeadingIssue>)
    ensures warnings == HeadingIssues(levels, |levels|)
  {
    warnings := [];
    var previousLevel := 0;
    var i := 0;
    while i < |levels|
      invariant i <= |levels|
      invariant previousLevel == PreviousLevel(levels, i)
      invariant warnings == HeadingIssues(levels, i)
    {
      var currentLevel := levels[i];
      if currentLevel > previousLevel + 1 {
        warnings := warnings + [HeadingIssue(currentLevel, previousLevel)];
      }
      previousLevel := currentLevel;
      i := i + 1;
    }
  }

  // ---------------------------------------------------------------- input labels

  /** The parts of an input `ensureInputLabel` reads and writes: whether a
      `label[for]` points at it, its attributes (`None` when absent), and
      whether it has a `required` attribute. */
  datatype Input = Input(hasLabelFor: bool, ariaLabel: Option<string>, ariaLabelledBy: Option<string>,
                         placeholder: Option<string>, name: Option<string>, required: bool,
                         ariaRequired: Option<string>)

  /** An attribute that is present and not empty, as `getAttribute` reads in
      a condition. */
  predicate Given(a: Option<string>)
  {
    a.Some? && a.value != ""
  }

  /** `name.replace(/[-_]/g, ' ')`. */
  function Spaced(name: string): (r: string)
    ensures |r| == |name|
  {
    seq(|name|, i requires 0 <= i < |name| => if name[i] == '-' || name[i] == '_' then ' ' else name[i])
  }

  /** Whether position `i` starts a word (`\b\w`). */
  predicate WordStart(s: string, i: nat)
    requires i < |s|
  {
    IsWordChar(s[i]) && (i == 0 || !IsWordChar(s[i - 1]))
  }

  /** `.replace(/\b\w/g, l => l.toUpperCase())`: the first character of each
      word in upper case. */
  function Capitalised(s: string): (r: string)
    ensures |r| == |s|
  {
    seq(|s|, i requires 0 <= i < |s| => if WordStart(s, i) then UpperChar(s[i]) else s[i])
  }

  /** The label made from an input's name. */
  function NameLabel(name: string): string
  {
    Capitalised(Spaced(name))
  }

  /** The name label has no dash or underscore, keeps every other
      character's place, and starts every word with a capital. */
  lemma NameLabelSpec(name: string)
    ensures var r := NameLabel(name);
      && |r| == |name|
      && (forall i :: 0 <= i < |r| ==> r[i] != '-' && r[i] != '_')
      && (forall i :: 0 <= i < |r| && (name[i] == '-' || name[i] == '_') ==> r[i] == ' ')
      && (forall i :: 0 <= i < |r| && WordStart(Spaced(name), i) ==> !('a' <= r[i] <= 'z'))
      && (forall i :: 0 <= i < |r| && !WordStart(Spaced(name), i) && name[i] != '-' && name[i] != '_' ==> r[i] == name[i])
  {
  }

  /** Making a label from a label changes nothing. */
  lemma NameLabelIdempotent(name: string)
    ensures NameLabel(NameLabel(name)) == NameLabel(name)
  {
    var r := NameLabel(name);
    var s := Spaced(name);
    assert Spaced(r) == r;
    forall i | 0 <= i < |r|
      ensures WordStart(r, i) == WordStart(s, i)
    {
      assert IsWordChar(r[i]) == IsWordChar(s[i]);
      if i > 0 {
        assert IsWordChar(r[i - 1]) == IsWordChar(s[i - 1]);
      }
    }
    assert Capitalised(r) == r;
  }

  /** `ensureInputLabel`: an input with no label of any kind gets its
      placeholder as `aria-label`, or else the label made from its name; a
      required input without `aria-required` gets `aria-required="true"`. */
  function EnsureInputLabel(input: Input): (r: Input)
    ensures r.hasLabelFor == input.hasLabelFor && r.ariaLabelledBy == input.ariaLabelledBy
    ensures r.placeholder == input.placeholder && r.name == input.name && r.required == input.required
  {
    var labelled := input.hasLabelFor || Given(input.ariaLabel) || Given(input.ariaLabelledBy);
    var withLabel :=
      if labelled then input
      else if Given(input.placeholder) then input.(ariaLabel := input.placeholder)
      else if Given(input.name) then input.(ariaLabel := Some(NameLabel(input.name.value)))
      else input;
    if input.required && !Given(input.ariaRequired) then withLabel.(ariaRequired := Some("true"))
    else withLabel
  }

  /** The label is changed only on an unlabelled input that has a
      placeholder or a name, the placeholder is preferred, and the result is
      stable: a second pass changes nothing. */
  lemma EnsureInputLabelSpec(input: Input)
    ensures var r := EnsureInputLabel(input);
      var labelled := input.hasLabelFor || Given(input.ariaLabel) || Given(input.ariaLabelledBy);
      && (r.ariaLabel != input.ariaLabel ==> !labelled && (Given(input.placeholder) || Given(input.name)))
      && (!labelled && Given(input.placeholder) ==> r.ariaLabel == input.placeholder)
      && (!labelled && !Given(input.placeholder) && Given(input.name) ==> r.ariaLabel == Some(NameLabel(input.name.value)))
      && (r.ariaRequired != input.ariaRequired <==> input.required && !Given(input.ariaRequired))
    ensures EnsureInputLabel(EnsureInputLabel(input)) == EnsureInputLabel(input)
  {
    var r := EnsureInputLabel(input);
    if !(input.hasLabelFor || Given(input.ariaLabel) || Given(input.ariaLabelledBy))
       && !Given(input.placeholder) && Given(input.name) {
      NameLabelSpec(input.name.value);
      assert NameLabel(input.name.value) != "";
    }
  }
}

=== FILE: ads.dfy ===
/** The ad manager's consent and loading bookkeeping: how consent is resolved
    from Do-Not-Track and the stored choice, which placements a load pass
    starts and in what order, and the capped retry count after a failed load.
    Script injection and the ad network itself are outside the model: whether a
    placement's load succeeds is a parameter. */
module Ads {
  import opened Js

  // ---------------------------------------------------------------- configuration

  const PLACEMENTS: set<string> :=
    {"header", "sidebar", "footer", "inContent", "popunder", "socialBar", "smartlink", "campaign"}
  const PRIORITY_ORDER: seq<string> := ["campaign", "smartlink", "socialBar", "popunder"]
  const STANDARD_PLACEMENTS: seq<string> := ["header", "sidebar", "footer", "inContent"]

  const REQUIRE_CONSENT := true
  const RESPECT_DNT := true
  const LAZY_LOADING := true
  const PRELOAD_CRITICAL := true
  const MAX_RETRIES: nat := 3

  // ---------------------------------------------------------------- consent

  /** What `checkUserConsent` concludes: a consent value, or the consent dialog
      (which leaves consent as it was). */
  datatype ConsentOutcome = Decided(consent: bool) | AskUser

  /** `checkUserConsent` for the given privacy settings, stored `ad_consent`
      value and Do-Not-Track signal. */
  function ResolveConsent(stored: Option<string>, dnt: bool, respectDnt: bool, requireConsent: bool): ConsentOutcome
  {
    if respectDnt && dnt then Decided(false)
    else if stored == Some("granted") then Decided(true)
    else if stored == Some("denied") then Decided(false)
    else if requireConsent then AskUser
    else Decided(true)
  }

  /** Do-Not-Track overrides whatever is stored; otherwise a stored choice wins
      over the configuration; and only an absent or unrecognised value reaches
      the dialog. */
  lemma ConsentPriority(stored: Option<string>, dnt: bool, respectDnt: bool, requireConsent: bool)
    ensures respectDnt && dnt ==> ResolveConsent(stored, dnt, respectDnt, requireConsent) == Decided(false)
    ensures !(respectDnt && dnt) && stored == Some("granted") ==>
      ResolveConsent(stored, dnt, respectDnt, requireConsent) == Decided(true)
    ensures !(respectDnt && dnt) && stored == Some("denied") ==>
      ResolveConsent(stored, dnt, respectDnt, requireConsent) == Decided(false)
    ensures ResolveConsent(stored, dnt, respectDnt, requireConsent) == AskUser <==>
      !(respectDnt && dnt) && stored != Some("granted") && stored != Some("denied") && requireConsent
  {
  }

  /** With the site's settings, ads are consented to exactly when there is no
      Do-Not-Track signal and the stored choice is `granted`. */
  lemma ConsentOnlyWhenGranted(stored: Option<string>, dnt: bool)
    ensures ResolveConsent(stored, dnt, RESPECT_DNT, REQUIRE_CONSENT) == Decided(true) <==>
      !dnt && stored == Some("granted")
  {
  }

  /** The value stored for a consent choice. */
  function StoredChoice(consent: bool): (r: string)
    ensures r == "granted" || r == "denied"
  {
    if consent then "granted" else "denied"
  }

  /** A stored choice is read back as the same consent on the next visit when
      Do-Not-Track is off. */
  lemma StoredChoiceRoundTrip(consent: bool, respectDnt: bool, requireConsent: bool)
    ensures ResolveConsent(Some(StoredChoice(consent)), false, respectDnt, requireConsent) == Decided(consent)
  {
  }

  // ---------------------------------------------------------------- load order

  /** The placements `loadAllAds` starts, in order, for the performance flags:
      the priority placements unless lazy loading is on without critical
      preloading, then the standard placements only without lazy loading. */
  function LoadOrder(lazyLoading: bool, preloadCritical: bool): seq<string>
  {
    (if !lazyLoading || preloadCritical then PRIORITY_ORDER else [])
    + (if lazyLoading then [] else STANDARD_PLACEMENTS)
  }

  /** With the site's flags, only the four script placements are loaded eagerly,
      campaign first; with lazy loading off all eight are, priority first. */
  lemma ConfiguredLoadOrder()
    ensures LoadOrder(LAZY_LOADING, PRELOAD_CRITICAL) == ["campaign", "smartlink", "socialBar", "popunder"]
    ensures LoadOrder(false, PRELOAD_CRITICAL) == PRIORITY_ORDER + STANDARD_PLACEMENTS
    ensures LoadOrder(true, false) == []
  {
  }

  predicate Distinct(xs: seq<string>)
  {
    forall i, j :: 0 <= i < j < |xs| ==> xs[i] != xs[j]
  }

  lemma LoadOrderDistinct()
    ensures Distinct(LoadOrder(LAZY_LOADING, PRELOAD_CRITICAL))
  {
    assert LoadOrder(LAZY_LOADING, PRELOAD_CRITICAL) == PRIORITY_ORDER;
  }

  /** The placements of `order` a load pass actually starts: those not loaded
      yet whose container is on the page, in order. */
  function Pending(order: seq<string>, loaded: set<string>, containers: set<string>): seq<string>
    decreases |order|
  {
    if order == [] then []
    else
      var last := order[|order| - 1];
      Pending(order[..|order| - 1], loaded, containers) + (if last !in loaded && last in containers then [last] else [])
  }

  /** A pass starts exactly the placements of the order that are not loaded yet
      and have a container, each once. */
  lemma {:induction false} PendingMembers(order: seq<string>, loaded: set<string>, containers: set<string>)
    ensures forall p :: p in Pending(order, loaded, containers) <==> p in order && p !in loaded && p in containers
    ensures Distinct(order) ==> Distinct(Pending(order, loaded, containers))
    decreases |order|
  {
    if order != [] {
      var init := order[..|order| - 1];
      PendingMembers(init, loaded, containers);
      assert order == init + [order[|order| - 1]];
    }
  }

  lemma {:induction false} PendingWithin(order: seq<string>, loaded: set<string>, containers: set<string>, p: string)
    requires p !in order
    ensures p !in Pending(order, loaded, containers)
    decreases |order|
  {
    if order != [] {
      PendingWithin(order[..|order| - 1], loaded, containers, p);
    }
  }

  /** The placements of `ps` whose load succeeds. */
  function Succeeded(ps: seq<string>, succeeds: string -> bool): set<string>
    decreases |ps|
  {
    if ps == [] then {}
    else Succeeded(ps[..|ps| - 1], succeeds) + (if succeeds(ps[|ps| - 1]) then {ps[|ps| - 1]} else {})
  }

  lemma {:induction false} SucceededMembers(ps: seq<string>, succeeds: string -> bool)
    ensures forall p :: p in Succeeded(ps, succeeds) <==> p in ps && succeeds(p)
    decreases |ps|
  {
    if ps != [] {
      SucceededMembers(ps[..|ps| - 1], succeeds);
      assert ps == ps[..|ps| - 1] + [ps[|ps| - 1]];
    }
  }

  lemma {:induction false} SucceededWithin(ps: seq<string>, succeeds: string -> bool, p: string)
    requires p !in ps
    ensures p !in Succeeded(ps, succeeds)
    decreases |ps|
  {
    if ps != [] {
      SucceededWithin(ps[..|ps| - 1], succeeds, p);
    }
  }

  lemma SucceededAppend(ps: seq<string>, p: string, succeeds: string -> bool)
    ensures Succeeded(ps + [p], succeeds) == Succeeded(ps, succeeds) + (if succeeds(p) then {p} else {})
  {
    assert (ps + [p])[..|ps|] == ps;
  }

  /** What one more placement of a load order adds: the placement is new to
      the pass, and it is started (and, when its load succeeds, loaded) exactly
      when it is not loaded yet and has a container. */
  lemma LoadStep(order: seq<string>, i: nat, loaded: set<string>, containers: set<string>, succeeds: string -> bool)
    requires Distinct(order) && i < |order|
    ensures var p, before := order[i], Pending(order[..i], loaded, containers);
      p !in before && p !in Succeeded(before, succeeds)
      && Pending(order[..i + 1], loaded, containers)
         == before + (if p !in loaded && p in containers then [p] else [])
      && Succeeded(before + [p], succeeds) == Succeeded(before, succeeds) + (if succeeds(p) then {p} else {})
  {
    var p, before := order[i], Pending(order[..i], loaded, containers);
    assert order[..i + 1][..i] == order[..i];
    assert p !in order[..i];
    PendingWithin(order[..i], loaded, containers, p);
    SucceededWithin(before, succeeds, p);
    SucceededAppend(before, p, succeeds);
  }

  lemma UnionAssoc(a: set<string>, b: set<string>, c: set<string>)
    ensures (a + b) + c == a + (b + c)
  {
  }

  // ---------------------------------------------------------------- retries

  /** `retryCount.get(p) || 0` */
  function Count(retries: map<string, nat>, p: string): nat
  {
    if p in retries then retries[p] else 0
  }

  /** The retry delays that `k` consecutive failures schedule, starting from a
      count of `count`: one per failure while the count is below the cap. */
  function RetryDelays(count: nat, k: nat): seq<nat>
    decreases k
  {
    if k == 0 then []
    else if count < MAX_RETRIES then [2000 * (count + 1)] + RetryDelays(count + 1, k - 1)
    else []
  }

  /** From a fresh count, failures are retried after 2, 4 and 6 seconds, and
      never a fourth time. */
  lemma {:induction false} RetriesFromFresh(k: nat)
    ensures RetryDelays(0, k) == Take([2000, 4000, 6000], k)
  {
    assert RetryDelays(3, 0) == [] && (k > 3 ==> RetryDelays(3, k - 3) == []);
    if k >= 1 {
      assert RetryDelays(0, k) == [2000] + RetryDelays(1, k - 1);
      if k >= 2 {
        assert RetryDelays(1, k - 1) == [4000] + RetryDelays(2, k - 2);
        if k >= 3 {
          assert RetryDelays(2, k - 2) == [6000] + RetryDelays(3, k - 3);
        }
      }
    }
  }

  /** A placement's retry count after one started load with outcome `ok`: a
      failure below the cap schedules a retry and counts it. */
  function CountAfterLoad(count: nat, ok: bool): (r: nat)
    ensures r <= MAX_RETRIES || r == count
    ensures r == count || r == count + 1
  {
    if !ok && count < MAX_RETRIES then count + 1 else count
  }

  /** Whether a started load with outcome `ok` leaves the container showing the
      error: the load failed and the retries were used up. */
  predicate ErrorAfterLoad(count: nat, ok: bool)
  {
    !ok && count >= MAX_RETRIES
  }

  /** The retry counts and error containers after a load pass that started the
      placements of `ps`, each once, from `retries0` and `failed0`: a started
      placement's count and error follow its own outcome, every other
      placement keeps both. */
  ghost predicate PassedOver(ps: seq<string>, retries: map<string, nat>, failed: set<string>,
                             retries0: map<string, nat>, failed0: set<string>, succeeds: string -> bool)
  {
    forall p ::
      if p in ps then
        Count(retries, p) == CountAfterLoad(Count(retries0, p), succeeds(p))
        && (p in failed <==> ErrorAfterLoad(Count(retries0, p), succeeds(p)))
      else
        Count(retries, p) == Count(retries0, p) && (p in failed <==> p in failed0)
  }

  /** A pass followed by the load of one more placement, new to the pass, is
      the pass extended by that placement. */
  lemma PassedOverAppend(ps: seq<string>, p: string, retries0: map<string, nat>, failed0: set<string>,
                         retries1: map<string, nat>, failed1: set<string>, retries2: map<string, nat>, failed2: set<string>,
                         succeeds: string -> bool, ok: string -> bool)
    requires p !in ps && ok(p) == succeeds(p)
    requires PassedOver(ps, retries1, failed1, retries0, failed0, succeeds)
    requires PassedOver([p], retries2, failed2, retries1, failed1, ok)
    ensures PassedOver(ps + [p], retries2, failed2, retries0, failed0, succeeds)
  {
    forall q
      ensures if q in ps + [p] then
          Count(retries2, q) == CountAfterLoad(Count(retries0, q), succeeds(q))
          && (q in failed2 <==> ErrorAfterLoad(Count(retries0, q), succeeds(q)))
        else
          Count(retries2, q) == Count(retries0, q) && (q in failed2 <==> q in failed0)
    {
      assert q in [p] <==> q == p;
    }
  }

  /** A load that starts nothing leaves a pass as it was. */
  lemma PassedOverStill(ps: seq<string>, retries0: map<string, nat>, failed0: set<string>,
                        retries1: map<string, nat>, failed1: set<string>, retries2: map<string, nat>, failed2: set<string>,
                        succeeds: string -> bool, ok: string -> bool)
    requires PassedOver(ps, retries1, failed1, retries0, failed0, succeeds)
    requires PassedOver([], retries2, failed2, retries1, failed1, ok)
    ensures PassedOver(ps, retries2, failed2, retries0, failed0, succeeds)
  {
  }

  /** One turn of a load pass over `order`: after `loadAd(order[i])`, the
      bookkeeping is that of the pass over `order[..i + 1]`. */
  lemma LoadTurn(order: seq<string>, i: nat, containers: set<string>, succeeds: string -> bool,
                 loaded0: set<string>, started0: seq<string>, retries0: map<string, nat>, failed0: set<string>,
                 loaded1: set<string>, started1: seq<string>, retries1: map<string, nat>, failed1: set<string>,
                 loaded2: set<string>, started2: seq<string>, retries2: map<string, nat>, failed2: set<string>)
    requires Distinct(order) && i < |order|
    requires started1 == started0 + Pending(order[..i], loaded0, containers)
    requires loaded1 == loaded0 + Succeeded(Pending(order[..i], loaded0, containers), succeeds)
    requires PassedOver(Pending(order[..i], loaded0, containers), retries1, failed1, retries0, failed0, succeeds)
    requires var p := order[i]; var starts := p !in loaded1 && p in containers;
      started2 == started1 + (if starts then [p] else [])
      && loaded2 == loaded1 + (if starts && succeeds(p) then {p} else {})
      && PassedOver(if starts then [p] else [], retries2, failed2, retries1, failed1, _ => succeeds(p))
    ensures started2 == started0 + Pending(order[..i + 1], loaded0, containers)
    ensures loaded2 == loaded0 + Succeeded(Pending(order[..i + 1], loaded0, containers), succeeds)
    ensures PassedOver(Pending(order[..i + 1], loaded0, containers), retries2, failed2, retries0, failed0, succeeds)
  {
    var p := order[i];
    LoadStep(order, i, loaded0, containers, succeeds);
    var before := Pending(order[..i], loaded0, containers);
    assert p in loaded1 <==> p in loaded0;
    if p !in loaded0 && p in containers {
      assert Pending(order[..i + 1], loaded0, containers) == before + [p];
      UnionAssoc(loaded0, Succeeded(before, succeeds), if succeeds(p) then {p} else {});
      PassedOverAppend(before, p, retries0, failed0, retries1, failed1, retries2, failed2, succeeds, _ => succeeds(p));
    } else {
      assert Pending(order[..i + 1], loaded0, containers) == before;
      PassedOverStill(before, retries0, failed0, retries1, failed1, retries2, failed2, succeeds, _ => succeeds(p));
    }
  }

  /** The retries of one placement across its load passes: a placement that
      fails in every pass shows the error from its fourth pass on, and a
      successful pass always clears the error. */
  lemma {:induction false} FailingPasses(k: nat)
    ensures CountAfterFailures(k) == (if k <= MAX_RETRIES then k else MAX_RETRIES)
    ensures ErrorAfterLoad(CountAfterFailures(k), false) <==> k >= MAX_RETRIES
    ensures !ErrorAfterLoad(CountAfterFailures(k), true)
  {
    if k > 0 {
      FailingPasses(k - 1);
    }
  }

  /** The retry count after `k` failed loads from a fresh count. */
  function CountAfterFailures(k: nat): nat
  {
    if k == 0 then 0 else CountAfterLoad(CountAfterFailures(k - 1), false)
  }

  // ---------------------------------------------------------------- the manager

  class AdManager {
    var consentGiven: bool
    /** The `ad_consent` entry of local storage. */
    var storedConsent: Option<string>
    var dialogShown: bool
    /** Whether `hideAllAds` has set every container to `display: none` since
        `showAllAds` last showed them. */
    var adsHidden: bool
    var adsLoaded: set<string>
    var retryCount: map<string, nat>
    /** Placements whose container shows the "Advertisement unavailable" error. */
    var failed: set<string>
    /** Placements whose `ad-<name>` container is in the page. */
    const containers: set<string>
    /** Every load started, in order. */
    var started: seq<string>

    /** A container shows the error or an ad, never both. */
    predicate Valid()
      reads this
    {
      containers <= PLACEMENTS
      && adsLoaded <= containers
      && failed <= containers
      && adsLoaded !! failed
      && forall p :: p in retryCount ==> retryCount[p] <= MAX_RETRIES
    }

    /** The constructor's `checkUserConsent`. */
    constructor(stored: Option<string>, dnt: bool, containers: set<string>)
      requires containers <= PLACEMENTS
      ensures Valid()
      ensures ResolveConsent(stored, dnt, RESPECT_DNT, REQUIRE_CONSENT).Decided? ==>
        consentGiven == ResolveConsent(stored, dnt, RESPECT_DNT, REQUIRE_CONSENT).consent && !dialogShown
      ensures ResolveConsent(stored, dnt, RESPECT_DNT, REQUIRE_CONSENT).AskUser? ==> !consentGiven && dialogShown
      ensures storedConsent == stored && this.containers == containers && !adsHidden
      ensures adsLoaded == {} && retryCount == map[] && failed == {} && started == []
    {
      this.containers := containers;
      storedConsent := stored;
      adsHidden := false;
      adsLoaded := {};
      retryCount := map[];
      failed := {};
      started := [];
      var outcome := ResolveConsent(stored, dnt, RESPECT_DNT, REQUIRE_CONSENT);
      if outcome.Decided? {
        consentGiven := outcome.consent;
        dialogShown := false;
      } else {
        consentGiven := false;
        dialogShown := true;
      }
    }

    /** `handleAdLoadError(placement)`: returns the delay of the retry it
        schedules, if any. It is reached only from a load of a placement that
        is not loaded. */
    method HandleAdLoadError(placement: string) returns (retryDelay: Option<nat>)
      requires Valid() && placement !in adsLoaded
      modifies this
      ensures Valid()
      ensures consentGiven == old(consentGiven) && storedConsent == old(storedConsent) && adsHidden == old(adsHidden)
      ensures dialogShown == old(dialogShown) && started == old(started) && adsLoaded == old(adsLoaded)
      ensures forall q :: q != placement ==>
        Count(retryCount, q) == Count(old(retryCount), q) && (q in failed <==> q in old(failed))
      ensures placement !in containers ==> retryCount == old(retryCount) && failed == old(failed) && retryDelay == None
      ensures placement in containers && Count(old(retryCount), placement) < MAX_RETRIES ==>
        retryCount == old(retryCount)[placement := Count(old(retryCount), placement) + 1]
        && failed == old(failed)
        && retryDelay == Some(2000 * (Count(old(retryCount), placement) + 1))
      ensures placement in containers && Count(old(retryCount), placement) >= MAX_RETRIES ==>
        retryCount == old(retryCount) && failed == old(failed) + {placement} && retryDelay == None
    {
      if placement !in containers {
        return None;
      }
      var count := Count(retryCount, placement);
      if count < MAX_RETRIES {
        retryCount := retryCount[placement := count + 1];
        retryDelay := Some(2000 * (count + 1));
      } else {
        failed := failed + {placement};
        retryDelay := None;
      }
    }

    /** `loadAd(placement)`, with the outcome of the load given by `ok`. A load
        that starts empties the container, so it no longer shows the error.
        Returns the delay of the retry a failure schedules. */
    method LoadAd(placement: string, ok: bool) returns (retryDelay: Option<nat>)
      requires Valid()
      modifies this
      ensures Valid()
      ensures consentGiven == old(consentGiven) && storedConsent == old(storedConsent)
      ensures dialogShown == old(dialogShown) && adsHidden == old(adsHidden)
      ensures var starts := old(consentGiven) && placement !in old(adsLoaded) && placement in containers;
        started == old(started) + (if starts then [placement] else [])
        && adsLoaded == old(adsLoaded) + (if starts && ok then {placement} else {})
        && PassedOver(if starts then [placement] else [], retryCount, failed, old(retryCount), old(failed), _ => ok)
      ensures var starts := old(consentGiven) && placement !in old(adsLoaded) && placement in containers;
        retryDelay == (if starts && !ok && Count(old(retryCount), placement) < MAX_RETRIES
                       then Some(2000 * (Count(old(retryCount), placement) + 1)) else None)
    {
      retryDelay := None;
      if !consentGiven || placement in adsLoaded || placement !in containers {
        return;
      }
      started := started + [placement];
      failed := failed - {placement};
      if ok {
        adsLoaded := adsLoaded + {placement};
      } else {
        retryDelay := HandleAdLoadError(placement);
      }
    }

    /** `loadAllAds()`: with consent, starts every pending placement of the load
        order; `succeeds` gives each load's outcome. The retries that failures
        schedule are timers and are not followed. */
    method LoadAllAds(succeeds: string -> bool)
      requires Valid()
      modifies this
      ensures Valid()
      ensures consentGiven == old(consentGiven) && storedConsent == old(storedConsent)
      ensures dialogShown == old(dialogShown) && adsHidden == old(adsHidden)
      ensures !consentGiven ==>
        started == old(started) && adsLoaded == old(adsLoaded) && retryCount == old(retryCount) && failed == old(failed)
      ensures consentGiven ==>
        var pass := Pending(LoadOrder(LAZY_LOADING, PRELOAD_CRITICAL), old(adsLoaded), containers);
        started == old(started) + pass
        && adsLoaded == old(adsLoaded) + Succeeded(pass, succeeds)
        && PassedOver(pass, retryCount, failed, old(retryCount), old(failed), succeeds)
    {
      if !consentGiven {
        return;
      }
      LoadOrderDistinct();
      LoadInOrder(LoadOrder(LAZY_LOADING, PRELOAD_CRITICAL), succeeds);
    }

    /** The bookkeeping after the pass over `order[..n]`, from the state
        `loaded0`, `started0`, `retries0`, `failed0` it started in. */
    ghost predicate PassState(order: seq<string>, n: nat, succeeds: string -> bool, loaded0: set<string>,
                              started0: seq<string>, retries0: map<string, nat>, failed0: set<string>)
      requires n <= |order|
      reads this
    {
      var pass := Pending(order[..n], loaded0, containers);
      started == started0 + pass
      && adsLoaded == loaded0 + Succeeded(pass, succeeds)
      && PassedOver(pass, retryCount, failed, retries0, failed0, succeeds)
    }

    /** The `forEach` of `loadAllAds`: `loadAd` on each placement of `order`. */
    method LoadInOrder(order: seq<string>, succeeds: string -> bool)
      requires Valid() && consentGiven && Distinct(order)
      modifies this
      ensures Valid()
      ensures consentGiven == old(consentGiven) && storedConsent == old(storedConsent)
      ensures dialogShown == old(dialogShown) && adsHidden == old(adsHidden)
      ensures started == old(started) + Pending(order, old(adsLoaded), containers)
      ensures adsLoaded == old(adsLoaded) + Succeeded(Pending(order, old(adsLoaded), containers), succeeds)
      ensures PassedOver(Pending(order, old(adsLoaded), containers), retryCount, failed, old(retryCount), old(failed), succeeds)
    {
      ghost var loaded0, started0, retries0, failed0 := adsLoaded, started, retryCount, failed;
      ghost var stored0, dialog0, hidden0 := storedConsent, dialogShown, adsHidden;
      var i := 0;
      assert order[..0] == [];
      while i < |order|
        invariant 0 <= i <= |order|
        invariant Valid() && consentGiven
        invariant storedConsent == stored0 && dialogShown == dialog0 && adsHidden == hidden0
        invariant PassState(order, i, succeeds, loaded0, started0, retries0, failed0)
      {
        LoadNext(order, i, succeeds, loaded0, started0, retries0, failed0);
        i := i + 1;
      }
      assert order[..|order|] == order;
    }

    /** One turn of that `forEach`: `loadAd` on `order[i]`, which extends the
        pass by that placement when it is pending. */
    method LoadNext(order: seq<string>, i: nat, succeeds: string -> bool, ghost loaded0: set<string>,
                    ghost started0: seq<string>, ghost retries0: map<string, nat>, ghost failed0: set<string>)
      requires Valid() && consentGiven && Distinct(order) && i < |order|
      requires PassState(order, i, succeeds, loaded0, started0, retries0, failed0)
      modifies this
      ensures Valid() && consentGiven
      ensures storedConsent == old(storedConsent) && dialogShown == old(dialogShown) && adsHidden == old(adsHidden)
      ensures PassState(order, i + 1, succeeds, loaded0, started0, retries0, failed0)
    {
      var p := order[i];
      ghost var loaded1, started1, retries1, failed1 := adsLoaded, started, retryCount, failed;
      var _ := LoadAd(p, succeeds(p));
      LoadTurn(order, i, containers, succeeds, loaded0, started0, retries0, failed0,
               loaded1, started1, retries1, failed1, adsLoaded, started, retryCount, failed);
    }

    /** `handleConsentChoice(choice)`: only `accept` grants consent, which then
        starts a load pass; any other choice hides the ads. The dialog is
        removed by its button, not here. */
    method HandleConsentChoice(choice: string, succeeds: string -> bool)
      requires Valid()
      modifies this
      ensures Valid()
      ensures consentGiven <==> choice == "accept"
      ensures storedConsent == Some(StoredChoice(choice == "accept"))
      ensures dialogShown == old(dialogShown)
      ensures adsHidden == (old(adsHidden) || choice != "accept")
      ensures choice != "accept" ==>
        started == old(started) && adsLoaded == old(adsLoaded) && retryCount == old(retryCount) && failed == old(failed)
      ensures choice == "accept" ==>
        var pass := Pending(LoadOrder(LAZY_LOADING, PRELOAD_CRITICAL), old(adsLoaded), containers);
        started == old(started) + pass
        && adsLoaded == old(adsLoaded) + Succeeded(pass, succeeds)
        && PassedOver(pass, retryCount, failed, old(retryCount), old(failed), succeeds)
    {
      consentGiven := choice == "accept";
      storedConsent := Some(StoredChoice(consentGiven));
      if consentGiven {
        LoadAllAds(succeeds);
      } else {
        adsHidden := true;
      }
    }

    /** `updateConsent(consent)`: stores `granted` exactly for `true`; consent
        shows the ads and loads them, refusal hides them. */
    method UpdateConsent(consent: bool, succeeds: string -> bool)
      requires Valid()
      modifies this
      ensures Valid()
      ensures consentGiven == consent && adsHidden == !consent
      ensures storedConsent == Some("granted") <==> consent
      ensures storedConsent == Some(StoredChoice(consent))
      ensures dialogShown == old(dialogShown)
      ensures !consent ==>
        started == old(started) && adsLoaded == old(adsLoaded) && retryCount == old(retryCount) && failed == old(failed)
      ensures consent ==>
        var pass := Pending(LoadOrder(LAZY_LOADING, PRELOAD_CRITICAL), old(adsLoaded), containers);
        started == old(started) + pass
        && adsLoaded == old(adsLoaded) + Succeeded(pass, succeeds)
        && PassedOver(pass, retryCount, failed, old(retryCount), old(failed), succeeds)
    {
      consentGiven := consent;
      storedConsent := Some(StoredChoice(consent));
      if consent {
        adsHidden := false;
        LoadAllAds(succeeds);
      } else {
        adsHidden := true;
      }
    }

    /** `refreshAds()`: with consent, forgets what was loaded and every retry
        count, then loads again; each reloaded container loses its error. */
    method RefreshAds(succeeds: string -> bool)
      requires Valid()
      modifies this
      ensures Valid()
      ensures consentGiven == old(consentGiven) && storedConsent == old(storedConsent)
      ensures dialogShown == old(dialogShown) && adsHidden == old(adsHidden)
      ensures !consentGiven ==>
        adsLoaded == old(adsLoaded) && retryCount == old(retryCount) && started == old(started) && failed == old(failed)
      ensures consentGiven ==>
        var pass := Pending(LoadOrder(LAZY_LOADING, PRELOAD_CRITICAL), {}, containers);
        started == old(started) + pass
        && adsLoaded == Succeeded(pass, succeeds)
        && PassedOver(pass, retryCount, failed, map[], old(failed), succeeds)
    {
      if !consentGiven {
        return;
      }
      adsLoaded := {};
      retryCount := map[];
      LoadAllAds(succeeds);
    }
  }
}

=== FILE: analytics.dfy ===
/** The analytics manager module: consent kept in local storage, a session id
    kept in session storage, events recorded only while the tracker is
    enabled and consent is given, and the scroll-depth milestones. */
module Analytics {
  import opened Js
  import Security
  import opened Ordering

  // ---------------------------------------------------------------- consent

  const CONSENT_KEY := "analytics-consent"
  const SESSION_KEY := "analytics-session"

  /** `getConsent`: whether the stored choice is `granted`. */
  predicate GetConsent(store: map<string, string>)
  {
    CONSENT_KEY in store && store[CONSENT_KEY] == "granted"
  }

  /** The store after `setConsent(granted)` has written the choice. */
  function StoreConsent(store: map<string, string>, granted: bool): (r: map<string, string>)
    ensures r.Keys == store.Keys + {CONSENT_KEY}
    ensures forall k :: k in store && k != CONSENT_KEY ==> r[k] == store[k]
  {
    store[CONSENT_KEY := if granted then "granted" else "denied"]
  }

  /** Reading the consent back gives the choice just written. */
  lemma ConsentRoundTrip(store: map<string, string>, granted: bool)
    ensures GetConsent(StoreConsent(store, granted)) == granted
  {
  }

  // ---------------------------------------------------------------- ids

  /** A value of `Math.random() * 16 | 0`. */
  type Nibble = x: int | 0 <= x < 16

  /** A run of `n` random-digit slots. */
  function XRun(n: nat): string
  {
    seq(n, _ => 'x')
  }

  /** The UUID template `xxxxxxxx-xxxx-4xxx-yxxx-xxxxxxxxxxxx`, written as its
      groups of slots. */
  const ID_TEMPLATE := XRun(8) + "-" + XRun(4) + "-4" + XRun(3) + "-y" + XRun(3) + "-" + XRun(12)

  /** `r & 0x3 | 0x8`: the RFC 4122 variant digit. */
  function Variant(r: Nibble): Nibble
  {
    (((r as bv8) & 3) | 8) as int
  }

  lemma VariantRange(r: Nibble)
    ensures 8 <= Variant(r) <= 11
  {
  }

  /** `template.replace(/[xy]/g, …)`: each `x` becomes the hexadecimal digit
      of the next random nibble, each `y` that of its variant, and every
      other character stays.  `random(k)` is the k-th nibble drawn. */
  function Fill(t: string, random: nat -> Nibble, k: nat): (id: string)
    ensures |id| == |t|
    decreases |t|
  {
    if t == [] then []
    else if t[0] == 'x' then [Security.HexDigit(random(k))] + Fill(t[1..], random, k + 1)
    else if t[0] == 'y' then [Security.HexDigit(Variant(random(k)))] + Fill(t[1..], random, k + 1)
    else [t[0]] + Fill(t[1..], random, k)
  }

  /** Position by position: fixed characters are kept, an `x` gives a
      hexadecimal digit and a `y` one of `8`, `9`, `a`, `b`. */
  lemma {:induction false} FillAt(t: string, random: nat -> Nibble, k: nat, i: nat)
    requires i < |t|
    ensures t[i] != 'x' && t[i] != 'y' ==> Fill(t, random, k)[i] == t[i]
    ensures t[i] == 'x' ==> Fill(t, random, k)[i] in Security.HEX_DIGITS
    ensures t[i] == 'y' ==> Fill(t, random, k)[i] in "89ab"
    decreases |t|
  {
    if i == 0 {
      if t[0] == 'y' {
        VariantRange(random(k));
        assert Security.HexDigit(Variant(random(k))) == Security.HEX_DIGITS[Variant(random(k))];
      }
    } else {
      var next := if t[0] == 'x' || t[0] == 'y' then k + 1 else k;
      FillAt(t[1..], random, next, i - 1);
      assert Fill(t, random, k)[i] == Fill(t[1..], random, next)[i - 1];
    }
  }

  /** `generateId`: a version-4 UUID built from random nibbles. */
  function GenerateId(random: nat -> Nibble): string
  {
    Fill(ID_TEMPLATE, random, 0)
  }

  /** Where the template puts its fixed characters and its variant slot. */
  lemma TemplateShape()
    ensures |ID_TEMPLATE| == 36
    ensures ID_TEMPLATE[8] == '-' && ID_TEMPLATE[13] == '-' && ID_TEMPLATE[18] == '-' && ID_TEMPLATE[23] == '-'
    ensures ID_TEMPLATE[14] == '4' && ID_TEMPLATE[19] == 'y'
  {
  }

  /** Filling a template of that shape keeps the dashes and the version digit
      and puts a variant digit in the variant slot. */
  lemma FillShape(t: string, random: nat -> Nibble)
    requires |t| == 36 && t[8] == '-' && t[13] == '-' && t[18] == '-' && t[23] == '-'
    requires t[14] == '4' && t[19] == 'y'
    ensures var id := Fill(t, random, 0);
      && |id| == 36
      && id[8] == '-' && id[13] == '-' && id[18] == '-' && id[23] == '-'
      && id[14] == '4'
      && id[19] in "89ab"
  {
    FillAt(t, random, 0, 8);
    FillAt(t, random, 0, 13);
    FillAt(t, random, 0, 14);
    FillAt(t, random, 0, 18);
    FillAt(t, random, 0, 19);
    FillAt(t, random, 0, 23);
  }

  /** The id has 36 characters, dashes at 8, 13, 18 and 23, the version digit
      `4` at 14 and a variant digit at 19. */
  lemma GenerateIdShape(random: nat -> Nibble)
    ensures var id := GenerateId(random);
      && |id| == 36
      && id[8] == '-' && id[13] == '-' && id[18] == '-' && id[23] == '-'
      && id[14] == '4'
      && id[19] in "89ab"
  {
    TemplateShape();
    FillShape(ID_TEMPLATE, random);
  }

  /** `getSessionId`: the stored id when there is a non-empty one; otherwise a
      new id, which is stored.  Returns the id and the session store after. */
  function SessionIdFor(store: map<string, string>, random: nat -> Nibble): (string, map<string, string>)
  {
    if SESSION_KEY in store && store[SESSION_KEY] != "" then (store[SESSION_KEY], store)
    else
      var id := GenerateId(random);
      (id, store[SESSION_KEY := id])
  }

  /** The id returned is the one stored afterwards, and it is never empty. */
  lemma SessionIdStored(store: map<string, string>, random: nat -> Nibble)
    ensures var (id, after) := SessionIdFor(store, random);
      SESSION_KEY in after && after[SESSION_KEY] == id && id != ""
  {
    GenerateIdShape(random);
  }

  /** A second call returns the same id, whatever nibbles it draws, and
      stores nothing new. */
  lemma SessionIdStable(store: map<string, string>, random: nat -> Nibble, later: nat -> Nibble)
    ensures var (id, after) := SessionIdFor(store, random);
      SessionIdFor(after, later) == (id, after)
  {
    SessionIdStored(store, random);
  }

  // ---------------------------------------------------------------- events

  /** The browser facts a tracking call reads: the clock, the page path,
      title and referrer, the user-agent string, and the random source. */
  datatype Env = Env(now: int, pathname: string, title: string, referrer: string, userAgent: string,
                     random: nat -> Nibble)

  datatype TrackedEvent = TrackedEvent(name: string, parameters: map<string, Value>)

  /** The recorded parameters: the caller's, then the time stamp, the session
      id and the first 200 characters of the user agent, which win on a
      clash. */
  function EventFor(name: string, parameters: map<string, Value>, env: Env, sessionId: string): TrackedEvent
  {
    TrackedEvent(name, parameters + map["timestamp" := Num(env.now), "session_id" := Str(sessionId),
                                        "user_agent" := Str(Take(env.userAgent, 200))])
  }

  /** The event keeps its name and the caller's parameters except the three
      added ones, which carry the time, the session id and the user agent cut
      to 200 characters. */
  lemma EventForSpec(name: string, parameters: map<string, Value>, env: Env, sessionId: string)
    ensures var e := EventFor(name, parameters, env, sessionId);
      && e.name == name
      && (forall k :: k in parameters && k !in {"timestamp", "session_id", "user_agent"} ==>
            k in e.parameters && e.parameters[k] == parameters[k])
      && e.parameters.Keys == parameters.Keys + {"timestamp", "session_id", "user_agent"}
      && e.parameters["session_id"] == Str(sessionId) && e.parameters["timestamp"] == Num(env.now)
      && e.parameters["user_agent"] == Str(Take(env.userAgent, 200)) && |Take(env.userAgent, 200)| <= 200
  {
  }

  /** The milestones the scroll handler reports. */
  const MILESTONES: seq<int> := [25, 50, 75, 90, 100]

  /** The milestones in `ms` a scroll to `percent` reaches that were not
      reached before, in order. */
  function Hits(ms: seq<int>, percent: int, reached: set<int>): seq<int>
  {
    if ms == [] then []
    else
      var m := ms[|ms| - 1];
      Hits(ms[..|ms| - 1], percent, reached) + (if percent >= m && m !in reached then [m] else [])
  }

  /** A milestone is a hit exactly when it is in the list, reached, and not
      reached before. */
  lemma {:induction false} HitsSpec(ms: seq<int>, percent: int, reached: set<int>)
    ensures forall x :: x in Hits(ms, percent, reached) <==> x in ms && x <= percent && x !in reached
  {
    if ms != [] {
      HitsSpec(ms[..|ms| - 1], percent, reached);
      assert ms == ms[..|ms| - 1] + [ms[|ms| - 1]];
    }
  }

  /** The milestones come in increasing order. */
  lemma MilestonesIncrease()
    ensures forall i, j :: 0 <= i < j < |MILESTONES| ==> MILESTONES[i] < MILESTONES[j]
  {
  }

  /** The hits of an increasing list increase too, so none repeats. */
  lemma {:induction false} HitsIncrease(ms: seq<int>, percent: int, reached: set<int>)
    requires forall i, j :: 0 <= i < j < |ms| ==> ms[i] < ms[j]
    ensures forall i, j :: 0 <= i < j < |Hits(ms, percent, reached)| ==>
              Hits(ms, percent, reached)[i] < Hits(ms, percent, reached)[j]
  {
    if ms != [] {
      var init := ms[..|ms| - 1];
      var m := ms[|ms| - 1];
      HitsIncrease(init, percent, reached);
      HitsSpec(init, percent, reached);
      var h := Hits(init, percent, reached);
      var r := Hits(ms, percent, reached);
      forall i, j | 0 <= i < j < |r|
        ensures r[i] < r[j]
      {
        if j < |h| {
          assert r[i] == h[i] && r[j] == h[j];
        } else {
          assert r[i] == h[i] && h[i] in init && r[j] == m;
          var k :| 0 <= k < |init| && init[k] == h[i];
          assert init[k] == ms[k];
        }
      }
    }
  }

  /** The milestones reported over a run of scroll events, from the given
      maximum and set of milestones already reached. */
  function MilestoneRun(maxScroll: int, reached: set<int>, percents: seq<int>): seq<int>
    decreases |percents|
  {
    if percents == [] then []
    else if percents[0] > maxScroll then
      var hits := Hits(MILESTONES, percents[0], reached);
      hits + MilestoneRun(percents[0], reached + Elements(hits), percents[1..])
    else MilestoneRun(maxScroll, reached, percents[1..])
  }

  /** Over any run, each milestone is reported at most once, and only one not
      reached before the run. */
  lemma {:induction false} MilestonesOnce(maxScroll: int, reached: set<int>, percents: seq<int>)
    ensures forall x :: x in MilestoneRun(maxScroll, reached, percents) ==> x in MILESTONES && x !in reached
    ensures NoDuplicates(MilestoneRun(maxScroll, reached, percents))
    decreases |percents|
  {
    if percents != [] {
      if percents[0] > maxScroll {
        var hits := Hits(MILESTONES, percents[0], reached);
        var now := reached + Elements(hits);
        HitsSpec(MILESTONES, percents[0], reached);
        ElementsSpec(hits);
        MilestonesOnce(percents[0], now, percents[1..]);
        MilestonesIncrease();
        HitsIncrease(MILESTONES, percents[0], reached);
        var tail := MilestoneRun(percents[0], now, percents[1..]);
        var run := hits + tail;
        forall i, j | 0 <= i < j < |run|
          ensures run[i] != run[j]
        {
          if j < |hits| {
            assert run[i] == hits[i] && run[j] == hits[j];
          } else if i < |hits| {
            assert run[i] in hits && run[j] == tail[j - |hits|] && run[j] in tail;
          } else {
            assert run[i] == tail[i - |hits|] && run[j] == tail[j - |hits|];
          }
        }
      } else {
        MilestonesOnce(maxScroll, reached, percents[1..]);
      }
    }
  }

  // ---------------------------------------------------------------- scroll handlers

  /** One scroll handler set up by `trackScrollDepth`: its own deepest point
      and the milestones it has reported. */
  datatype ScrollTracker = ScrollTracker(maxScroll: int, reached: set<int>)

  /** A handler as `trackScrollDepth` sets it up. */
  const FRESH := ScrollTracker(0, {})

  /** The milestones a handler reports for one scroll event: none unless the
      event is a new maximum, then those it reaches for the first time. */
  function TrackerHits(t: ScrollTracker, percent: int): seq<int>
  {
    if percent > t.maxScroll then Hits(MILESTONES, percent, t.reached) else []
  }

  /** The handler after one scroll event. */
  function TrackerStep(t: ScrollTracker, percent: int): ScrollTracker
  {
    ScrollTracker(if percent > t.maxScroll then percent else t.maxScroll, t.reached + Elements(TrackerHits(t, percent)))
  }

  /** A handler's run of events reports what its first event reports, then
      what the rest report from the state that event leaves. */
  lemma TrackerRun(t: ScrollTracker, percent: int, rest: seq<int>)
    ensures var next := TrackerStep(t, percent);
      MilestoneRun(t.maxScroll, t.reached, [percent] + rest)
        == TrackerHits(t, percent) + MilestoneRun(next.maxScroll, next.reached, rest)
  {
    assert ([percent] + rest)[1..] == rest;
    if percent <= t.maxScroll {
      assert TrackerStep(t, percent) == t;
    }
  }

  /** Every handler after one scroll event, which reaches them all. */
  function StepAll(ts: seq<ScrollTracker>, percent: int): seq<ScrollTracker>
  {
    seq(|ts|, i requires 0 <= i < |ts| => TrackerStep(ts[i], percent))
  }

  /** The runs one after the other. */
  function Concat(parts: seq<seq<int>>): seq<int>
    decreases |parts|
  {
    if parts == [] then [] else Concat(parts[..|parts| - 1]) + parts[|parts| - 1]
  }

  /** How many of the runs hold `m`. */
  function Holding(parts: seq<seq<int>>, m: int): nat
    decreases |parts|
  {
    if parts == [] then 0 else Holding(parts[..|parts| - 1], m) + (if m in parts[|parts| - 1] then 1 else 0)
  }

  /** When no run repeats a value, a value occurs in the whole once for each
      run that holds it. */
  lemma {:induction false} ConcatCount(parts: seq<seq<int>>, m: int)
    requires forall i :: 0 <= i < |parts| ==> multiset(parts[i])[m] <= 1
    ensures multiset(Concat(parts))[m] == Holding(parts, m)
    decreases |parts|
  {
    if parts != [] {
      var n := |parts| - 1;
      var init := parts[..n];
      assert forall i :: 0 <= i < n ==> init[i] == parts[i];
      ConcatCount(init, m);
      assert multiset(Concat(parts)) == multiset(Concat(init)) + multiset(parts[n]);
      assert m in parts[n] <==> m in multiset(parts[n]);
    }
  }

  /** The milestones all handlers report for one scroll event, oldest handler
      first. */
  function AllHits(ts: seq<ScrollTracker>, percent: int): seq<int>
  {
    Concat(seq(|ts|, i requires 0 <= i < |ts| => TrackerHits(ts[i], percent)))
  }

  /** A handler never reports a milestone twice at one event. */
  lemma HitsOnce(t: ScrollTracker, percent: int, m: int)
    ensures multiset(TrackerHits(t, percent))[m] == if m in TrackerHits(t, percent) then 1 else 0
  {
    MilestonesIncrease();
    HitsIncrease(MILESTONES, percent, t.reached);
    NoDuplicatesCount(TrackerHits(t, percent));
  }

  /** A milestone is reported, at one scroll event, once by every handler
      that reaches it for the first time: after several initialisations the
      same milestone is reported several times. */
  lemma AllHitsCount(ts: seq<ScrollTracker>, percent: int, m: int)
    ensures multiset(AllHits(ts, percent))[m] == Holding(seq(|ts|, i requires 0 <= i < |ts| => TrackerHits(ts[i], percent)), m)
  {
    var parts := seq(|ts|, i requires 0 <= i < |ts| => TrackerHits(ts[i], percent));
    forall i | 0 <= i < |parts|
      ensures multiset(parts[i])[m] <= 1
    {
      HitsOnce(ts[i], percent, m);
    }
    ConcatCount(parts, m);
  }

  /** Two handlers, as two initialisations leave, both report the first
      milestone at a scroll to 30%. */
  lemma TwoHandlersReportTwice()
    ensures multiset(AllHits([FRESH, FRESH], 30))[25] == 2
  {
    HitsSpec(MILESTONES, 30, {});
    AllHitsCount([FRESH, FRESH], 30, 25);
    var parts := seq(2, i requires 0 <= i < 2 => TrackerHits([FRESH, FRESH][i], 30));
    assert 25 in parts[0] && 25 in parts[1] && parts[..1][0] == parts[0] && parts[..1][..0] == [];
    assert Holding(parts[..1], 25) == 1;
  }

  /** The events and the session store after the milestones `hits` have been
      reported from `events0` and `store0`: with tracking on, one
      `scroll_depth` event each, and the session id stored once one is
      recorded. */
  ghost predicate HitsRecorded(hits: seq<int>, env: Env, on: bool, id: string, after: map<string, string>,
                               events0: seq<TrackedEvent>, store0: map<string, string>,
                               events: seq<TrackedEvent>, store: map<string, string>)
  {
    && events == events0 + (if on then ScrollEvents(hits, env, id) else [])
    && store == StoreAfter(on && hits != [], store0, after)
  }

  /** Two reports in a row are one report of both runs. */
  lemma HitsRecordedAppend(hits: seq<int>, more: seq<int>, env: Env, on: bool, id: string, after: map<string, string>,
                           events0: seq<TrackedEvent>, store0: map<string, string>,
                           events1: seq<TrackedEvent>, store1: map<string, string>,
                           events2: seq<TrackedEvent>, store2: map<string, string>)
    requires HitsRecorded(hits, env, on, id, after, events0, store0, events1, store1)
    requires HitsRecorded(more, env, on, id, after, events1, store1, events2, store2)
    ensures HitsRecorded(hits + more, env, on, id, after, events0, store0, events2, store2)
  {
    ScrollEventsConcat(hits, more, env, id);
  }

  /** A scroll event part-way through the handlers: the first `i` have seen
      it, the rest are as they were. */
  ghost predicate TrackerLoop(all: seq<ScrollTracker>, i: nat, percent: int, trackers: seq<ScrollTracker>)
  {
    && i <= |all| && |trackers| == |all|
    && trackers == StepAll(all[..i], percent) + all[i..]
  }

  /** The handler at `i` seeing the event moves the loop on by one. */
  lemma TrackerLoopTurn(all: seq<ScrollTracker>, i: nat, percent: int, trackers: seq<ScrollTracker>)
    requires TrackerLoop(all, i, percent, trackers) && i < |all|
    ensures trackers[i] == all[i]
    ensures TrackerLoop(all, i + 1, percent, trackers[i := TrackerStep(all[i], percent)])
  {
    assert all[..i + 1][..i] == all[..i];
    assert StepAll(all[..i + 1], percent) == StepAll(all[..i], percent) + [TrackerStep(all[i], percent)];
    assert trackers[i := TrackerStep(all[i], percent)] == StepAll(all[..i + 1], percent) + all[i + 1..];
  }

  /** The handler at `i` reporting its hits after those before it have
      reported theirs. */
  lemma HitsLoopTurn(all: seq<ScrollTracker>, i: nat, percent: int, env: Env, on: bool, id: string,
                     after: map<string, string>, events0: seq<TrackedEvent>, store0: map<string, string>,
                     events1: seq<TrackedEvent>, store1: map<string, string>,
                     events2: seq<TrackedEvent>, store2: map<string, string>)
    requires i < |all|
    requires HitsRecorded(AllHits(all[..i], percent), env, on, id, after, events0, store0, events1, store1)
    requires HitsRecorded(TrackerHits(all[i], percent), env, on, id, after, events1, store1, events2, store2)
    ensures HitsRecorded(AllHits(all[..i + 1], percent), env, on, id, after, events0, store0, events2, store2)
  {
    var parts := seq(i + 1, j requires 0 <= j < i + 1 => TrackerHits(all[..i + 1][j], percent));
    assert parts[..i] == seq(i, j requires 0 <= j < i => TrackerHits(all[..i][j], percent));
    assert AllHits(all[..i + 1], percent) == AllHits(all[..i], percent) + TrackerHits(all[i], percent);
    HitsRecordedAppend(AllHits(all[..i], percent), TrackerHits(all[i], percent), env, on, id, after,
                       events0, store0, events1, store1, events2, store2);
  }

  /** The scroll event part-way through the handlers: the first `i` have
      seen it and reported their hits. */
  ghost predicate ScrollLoopState(all: seq<ScrollTracker>, i: nat, percent: int, env: Env, on: bool, id: string,
                                  after: map<string, string>, events0: seq<TrackedEvent>, store0: map<string, string>,
                                  trackers: seq<ScrollTracker>, events: seq<TrackedEvent>, store: map<string, string>)
  {
    && TrackerLoop(all, i, percent, trackers)
    && HitsRecorded(AllHits(all[..i], percent), env, on, id, after, events0, store0, events, store)
    && SessionIdFor(store, env.random) == (id, after)
  }

  /** One turn of the handlers' loop keeps its state. */
  lemma ScrollLoopTurn(all: seq<ScrollTracker>, i: nat, percent: int, env: Env, on: bool, id: string,
                       after: map<string, string>, events0: seq<TrackedEvent>, store0: map<string, string>,
                       trackers: seq<ScrollTracker>, events: seq<TrackedEvent>, store: map<string, string>,
                       trackers': seq<ScrollTracker>, events': seq<TrackedEvent>, store': map<string, string>)
    requires ScrollLoopState(all, i, percent, env, on, id, after, events0, store0, trackers, events, store)
    requires i < |all|
    requires trackers' == trackers[i := TrackerStep(trackers[i], percent)]
    requires HitsRecorded(TrackerHits(trackers[i], percent), env, on, id, after, events, store, events', store')
    requires SessionIdFor(store', env.random) == (id, after)
    ensures ScrollLoopState(all, i + 1, percent, env, on, id, after, events0, store0, trackers', events', store')
  {
    TrackerLoopTurn(all, i, percent, trackers);
    HitsLoopTurn(all, i, percent, env, on, id, after, events0, store0, events, store, events', store');
  }

  /** After the last handler, the handlers and the reports are those of the
      whole event. */
  lemma ScrollLoopEnd(all: seq<ScrollTracker>, percent: int, env: Env, on: bool, id: string,
                      after: map<string, string>, events0: seq<TrackedEvent>, store0: map<string, string>,
                      trackers: seq<ScrollTracker>, events: seq<TrackedEvent>, store: map<string, string>)
    requires ScrollLoopState(all, |all|, percent, env, on, id, after, events0, store0, trackers, events, store)
    ensures trackers == StepAll(all, percent)
    ensures HitsRecorded(AllHits(all, percent), env, on, id, after, events0, store0, events, store)
  {
    TrackerLoopDone(all, percent, trackers);
  }

  /** Once every handler has seen the event, the handlers are those of the
      whole step. */
  lemma TrackerLoopDone(all: seq<ScrollTracker>, percent: int, trackers: seq<ScrollTracker>)
    requires TrackerLoop(all, |all|, percent, trackers)
    ensures trackers == StepAll(all, percent) && all[..|all|] == all
  {
    assert all[..|all|] == all;
  }

  // ---------------------------------------------------------------- the manager

  /** The parameters of the `page_view` event for the given path, or for the
      current path when none (or an empty one) is given. */
  function PageViewParams(path: Option<string>, env: Env): map<string, Value>
  {
    var pagePath := if path.Some? && path.value != "" then path.value else env.pathname;
    map["path" := Str(pagePath), "title" := Str(env.title), "referrer" := Str(env.referrer), "timestamp" := Num(env.now)]
  }

  /** `AnalyticsManager`: the `enabled` and `consent` settings, the recorded
      events, the browser's local and session storage, and the scroll
      handlers set up so far, oldest first. */
  class AnalyticsManager {
    var enabled: bool
    var consent: bool
    var events: seq<TrackedEvent>
    var localStore: map<string, string>
    var sessionStore: map<string, string>
    var trackers: seq<ScrollTracker>

    /** The consent setting always matches the stored choice. */
    ghost predicate Valid()
      reads this
    {
      consent == GetConsent(localStore)
    }

    /** `getSessionId`, on the session storage. */
    method GetSessionId(random: nat -> Nibble) returns (id: string)
      requires Valid()
      modifies this
      ensures Valid()
      ensures (id, sessionStore) == SessionIdFor(old(sessionStore), random)
      ensures enabled == old(enabled) && consent == old(consent) && events == old(events)
      ensures localStore == old(localStore) && trackers == old(trackers)
    {
      if SESSION_KEY in sessionStore && sessionStore[SESSION_KEY] != "" {
        id := sessionStore[SESSION_KEY];
      } else {
        id := GenerateId(random);
        sessionStore := sessionStore[SESSION_KEY := id];
      }
    }

    /** `trackEvent`: nothing unless the tracker is enabled and consent is
        given; otherwise exactly one event appended. */
    method TrackEvent(name: string, parameters: map<string, Value>, env: Env)
      requires Valid()
      modifies this
      ensures Valid()
      ensures enabled == old(enabled) && consent == old(consent)
      ensures localStore == old(localStore) && trackers == old(trackers)
      ensures !(old(enabled) && old(consent)) ==> events == old(events) && sessionStore == old(sessionStore)
      ensures old(enabled) && old(consent) ==>
        var (id, after) := SessionIdFor(old(sessionStore), env.random);
        events == old(events) + [EventFor(name, parameters, env, id)] && sessionStore == after
    {
      if !enabled || !consent {
        return;
      }
      var sessionId := GetSessionId(env.random);
      var event := TrackedEvent(name, parameters + map["timestamp" := Num(env.now), "session_id" := Str(sessionId),
                                                       "user_agent" := Str(Take(env.userAgent, 200))]);
      events := events + [event];
    }

    /** `trackPageView`: a `page_view` event for the given path, or for the
        current path when none (or an empty one) is given. */
    method TrackPageView(path: Option<string>, env: Env)
      requires Valid()
      modifies this
      ensures Valid()
      ensures enabled == old(enabled) && consent == old(consent)
      ensures localStore == old(localStore) && trackers == old(trackers)
      ensures !(old(enabled) && old(consent)) ==> events == old(events) && sessionStore == old(sessionStore)
      ensures old(enabled) && old(consent) ==>
        var (id, after) := SessionIdFor(old(sessionStore), env.random);
        events == old(events) + [EventFor("page_view", PageViewParams(path, env), env, id)] && sessionStore == after
    {
      TrackEvent("page_view", PageViewParams(path, env), env);
    }

    /** `disableAnalytics`: the tracker is switched off for good. */
    method DisableAnalytics()
      requires Valid()
      modifies this
      ensures Valid()
      ensures !enabled
      ensures consent == old(consent) && events == old(events) && localStore == old(localStore)
      ensures sessionStore == old(sessionStore) && trackers == old(trackers)
    {
      enabled := false;
    }

    /** `initializeAnalytics`, once the analytics script has loaded: a new
        scroll handler, then a page view. */
    method InitializeAnalytics(env: Env)
      requires Valid()
      modifies this
      ensures Valid()
      ensures enabled == old(enabled) && consent == old(consent) && localStore == old(localStore)
      ensures trackers == old(trackers) + [FRESH]
      ensures var (id, after) := SessionIdFor(old(sessionStore), env.random);
        if old(enabled) && old(consent) then
          events == old(events) + [EventFor("page_view", PageViewParams(None, env), env, id)] && sessionStore == after
        else events == old(events) && sessionStore == old(sessionStore)
    {
      trackers := trackers + [FRESH];
      TrackPageView(None, env);
    }

    /** `setConsent(granted)`: the choice stored and copied into the settings;
        granting initialises the tracker once the analytics script has loaded
        (`scriptLoads`), refusing disables it. */
    method SetConsent(granted: bool, scriptLoads: bool, env: Env)
      modifies this
      ensures Valid() && consent == granted
      ensures localStore == StoreConsent(old(localStore), granted)
      ensures enabled == (old(enabled) && granted)
      ensures trackers == old(trackers) + (if granted && scriptLoads then [FRESH] else [])
      ensures var (id, after) := SessionIdFor(old(sessionStore), env.random);
        if granted && scriptLoads && old(enabled) then
          events == old(events) + [EventFor("page_view", PageViewParams(None, env), env, id)] && sessionStore == after
        else events == old(events) && sessionStore == old(sessionStore)
    {
      localStore := StoreConsent(localStore, granted);
      consent := granted;
      ConsentRoundTrip(old(localStore), granted);
      if granted {
        if scriptLoads {
          InitializeAnalytics(env);
        }
      } else {
        DisableAnalytics();
      }
    }

    /** The tracker as the page starts it: enabled, with the stored consent,
        and, when consent was given and the script loads, initialised. */
    constructor(localStore: map<string, string>, sessionStore: map<string, string>, scriptLoads: bool, env: Env)
      ensures Valid() && enabled && consent == GetConsent(localStore) && this.localStore == localStore
      ensures trackers == if GetConsent(localStore) && scriptLoads then [FRESH] else []
      ensures var (id, after) := SessionIdFor(sessionStore, env.random);
        if GetConsent(localStore) && scriptLoads then
          events == [EventFor("page_view", PageViewParams(None, env), env, id)] && this.sessionStore == after
        else events == [] && this.sessionStore == sessionStore
    {
      enabled := true;
      consent := GetConsent(localStore);
      events := [];
      this.localStore := localStore;
      this.sessionStore := sessionStore;
      trackers := [];
      new;
      if consent && scriptLoads {
        InitializeAnalytics(env);
      }
    }

    /** One scroll event, which reaches every scroll handler in turn: each
        moves on as `TrackerStep` says and reports its hits. */
    method OnScroll(percent: int, env: Env)
      requires Valid()
      modifies this
      ensures Valid()
      ensures enabled == old(enabled) && consent == old(consent) && localStore == old(localStore)
      ensures trackers == StepAll(old(trackers), percent)
      ensures var (id, after) := SessionIdFor(old(sessionStore), env.random);
        HitsRecorded(AllHits(old(trackers), percent), env, enabled && consent, id, after,
                     old(events), old(sessionStore), events, sessionStore)
    {
      ghost var all, events0, store0 := trackers, events, sessionStore;
      ghost var (id, after) := SessionIdFor(sessionStore, env.random);
      ghost var en, co, ls := enabled, consent, localStore;
      ghost var on := enabled && consent;
      var i := 0;
      assert all[..0] == [];
      while i < |trackers|
        invariant ScrollLoopState(all, i, percent, env, on, id, after, events0, store0, trackers, events, sessionStore)
        invariant enabled == en && consent == co && localStore == ls
      {
        ghost var t, e, st := trackers, events, sessionStore;
        var hits := TrackerScroll(i, percent, env, id, after);
        ScrollLoopTurn(all, i, percent, env, on, id, after, events0, store0, t, e, st, trackers, events, sessionStore);
        i := i + 1;
      }
      ScrollLoopEnd(all, percent, env, on, id, after, events0, store0, trackers, events, sessionStore);
    }

    /** The handler at `i` seeing one scroll event: on a new maximum, each
        milestone it reaches for the first time is marked and reported, in
        order. */
    method TrackerScroll(i: nat, percent: int, env: Env, ghost id: string, ghost after: map<string, string>)
      returns (ghost hits: seq<int>)
      requires i < |trackers| && SessionIdFor(sessionStore, env.random) == (id, after)
      requires Valid()
      modifies this
      ensures Valid()
      ensures enabled == old(enabled) && consent == old(consent) && localStore == old(localStore)
      ensures trackers == old(trackers)[i := TrackerStep(old(trackers)[i], percent)]
      ensures hits == TrackerHits(old(trackers)[i], percent)
      ensures HitsRecorded(hits, env, enabled && consent, id, after, old(events), old(sessionStore), events, sessionStore)
      ensures SessionIdFor(sessionStore, env.random) == (id, after)
    {
      var t := trackers[i];
      if percent <= t.maxScroll {
        assert TrackerStep(t, percent) == t;
        hits := [];
        return;
      }
      MilestonesIncrease();
      var reached := PassMilestones(MILESTONES, percent, env, t.reached, id, after);
      assert MILESTONES[..|MILESTONES|] == MILESTONES;
      trackers := trackers[i := ScrollTracker(percent, reached)];
      hits := Hits(MILESTONES, percent, t.reached);
    }

    /** The handler's loop over the milestones, for any list without
        repetitions. */
    method PassMilestones(milestones: seq<int>, percent: int, env: Env, reached0: set<int>,
                          ghost id: string, ghost after: map<string, string>)
      returns (reached: set<int>)
      requires NoDuplicates(milestones)
      requires SessionIdFor(sessionStore, env.random) == (id, after)
      requires Valid()
      modifies this
      ensures Valid()
      ensures enabled == old(enabled) && consent == old(consent) && localStore == old(localStore)
      ensures trackers == old(trackers)
      ensures ScrollState(milestones, |milestones|, percent, env, enabled && consent, reached0, old(events),
                          old(sessionStore), id, after, reached, events, sessionStore)
    {
      ghost var store0, events0 := sessionStore, events;
      var on := enabled && consent;
      reached := reached0;
      var i := 0;
      assert milestones[..0] == [];
      while i < |milestones|
        invariant i <= |milestones|
        invariant enabled == old(enabled) && consent == old(consent) && localStore == old(localStore)
        invariant trackers == old(trackers)
        invariant ScrollState(milestones, i, percent, env, on, reached0, events0, store0, id, after,
                              reached, events, sessionStore)
      {
        ghost var r, e, st := reached, events, sessionStore;
        reached := PassMilestone(milestones[i], percent, env, reached, id, after);
        ScrollTurn(milestones, i, percent, env, on, reached0, events0, store0, id, after,
                   r, e, st, reached, events, sessionStore);
        i := i + 1;
      }
    }

    /** One turn of the handler's loop: a milestone reached and not reached
        before is marked and reported.  `id` and `after` are the session id
        and session store the next event records, which stay the same once
        the id is stored. */
    method PassMilestone(milestone: int, percent: int, env: Env, reached: set<int>,
                         ghost id: string, ghost after: map<string, string>)
      returns (reached': set<int>)
      requires SessionIdFor(sessionStore, env.random) == (id, after)
      requires Valid()
      modifies this
      ensures Valid()
      ensures enabled == old(enabled) && consent == old(consent) && localStore == old(localStore)
      ensures trackers == old(trackers)
      ensures var hit := percent >= milestone && milestone !in reached;
        && reached' == (if hit then reached + {milestone} else reached)
        && events == (if hit && enabled && consent then old(events) + [ScrollEvent(milestone, env, id)] else old(events))
        && sessionStore == StoreAfter(hit && enabled && consent, old(sessionStore), after)
      ensures SessionIdFor(sessionStore, env.random) == (id, after)
    {
      SessionIdStable(sessionStore, env.random, env.random);
      reached' := reached;
      if percent >= milestone && milestone !in reached {
        reached' := reached + {milestone};
        TrackEvent("scroll_depth", map["percentage" := Num(milestone)], env);
      }
    }
  }

  /** The milestones of a run, as a set. */
  function Elements(s: seq<int>): set<int>
  {
    if s == [] then {} else Elements(s[..|s| - 1]) + {s[|s| - 1]}
  }

  lemma ElementsAppend(s: seq<int>, x: int)
    ensures Elements(s + [x]) == Elements(s) + {x}
  {
    assert (s + [x])[..|s|] == s;
  }

  /** The set holds exactly the run's milestones. */
  lemma {:induction false} ElementsSpec(s: seq<int>)
    ensures forall x :: x in Elements(s) <==> x in s
  {
    if s != [] {
      ElementsSpec(s[..|s| - 1]);
      assert s == s[..|s| - 1] + [s[|s| - 1]];
    }
  }

  /** The session store after a run: the one holding the session id once an
      event has been recorded, the earlier one otherwise. */
  function StoreAfter(tracked: bool, before: map<string, string>, after: map<string, string>): map<string, string>
  {
    if tracked then after else before
  }

  /** The `scroll_depth` event for one milestone. */
  function ScrollEvent(milestone: int, env: Env, sessionId: string): TrackedEvent
  {
    EventFor("scroll_depth", map["percentage" := Num(milestone)], env, sessionId)
  }

  /** The events for a run of milestones, in the same order. */
  function ScrollEvents(milestones: seq<int>, env: Env, sessionId: string): (r: seq<TrackedEvent>)
    ensures |r| == |milestones|
  {
    if milestones == [] then []
    else ScrollEvents(milestones[..|milestones| - 1], env, sessionId)
         + [ScrollEvent(milestones[|milestones| - 1], env, sessionId)]
  }

  /** Each reported milestone is the one at the same position. */
  lemma {:induction false} ScrollEventsReport(milestones: seq<int>, env: Env, sessionId: string)
    ensures forall i :: 0 <= i < |milestones| ==>
              ScrollEvents(milestones, env, sessionId)[i] == ScrollEvent(milestones[i], env, sessionId)
  {
    if milestones != [] {
      ScrollEventsReport(milestones[..|milestones| - 1], env, sessionId);
    }
  }

  lemma ScrollEventsAppend(milestones: seq<int>, m: int, env: Env, sessionId: string)
    ensures ScrollEvents(milestones + [m], env, sessionId)
              == ScrollEvents(milestones, env, sessionId) + [ScrollEvent(m, env, sessionId)]
  {
    assert (milestones + [m])[..|milestones|] == milestones;
  }

  /** The events for two runs are those of the first, then of the second. */
  lemma {:induction false} ScrollEventsConcat(hits: seq<int>, more: seq<int>, env: Env, sessionId: string)
    ensures ScrollEvents(hits + more, env, sessionId) == ScrollEvents(hits, env, sessionId) + ScrollEvents(more, env, sessionId)
    decreases |more|
  {
    if more != [] {
      var init := more[..|more| - 1];
      var m := more[|more| - 1];
      assert more == init + [m];
      assert hits + more == (hits + init) + [m];
      ScrollEventsConcat(hits, init, env, sessionId);
      ScrollEventsAppend(hits + init, m, env, sessionId);
      ScrollEventsAppend(init, m, env, sessionId);
    } else {
      assert hits + more == hits;
    }
  }

  /** The state of the scroll handler's loop after the first `i` milestones:
      the hits so far are marked, reported when tracking is on, and the
      session store holds the id once an event has been recorded. */
  ghost predicate ScrollState(milestones: seq<int>, i: nat, percent: int, env: Env, on: bool,
                              reached0: set<int>, events0: seq<TrackedEvent>, store0: map<string, string>,
                              id: string, after: map<string, string>,
                              reached: set<int>, events: seq<TrackedEvent>, store: map<string, string>)
    requires i <= |milestones|
  {
    var hits := Hits(milestones[..i], percent, reached0);
    && reached == reached0 + Elements(hits)
    && events == events0 + (if on then ScrollEvents(hits, env, id) else [])
    && store == StoreAfter(on && hits != [], store0, after)
    && SessionIdFor(store, env.random) == (id, after)
  }

  /** One turn of the loop keeps its state. */
  lemma ScrollTurn(milestones: seq<int>, i: nat, percent: int, env: Env, on: bool,
                   reached0: set<int>, events0: seq<TrackedEvent>, store0: map<string, string>,
                   id: string, after: map<string, string>,
                   reached: set<int>, events: seq<TrackedEvent>, store: map<string, string>,
                   reached': set<int>, events': seq<TrackedEvent>, store': map<string, string>)
    requires NoDuplicates(milestones) && i < |milestones|
    requires ScrollState(milestones, i, percent, env, on, reached0, events0, store0, id, after, reached, events, store)
    requires var m := milestones[i];
      var hit := percent >= m && m !in reached;
      && reached' == (if hit then reached + {m} else reached)
      && events' == (if hit && on then events + [ScrollEvent(m, env, id)] else events)
      && store' == StoreAfter(hit && on, store, after)
      && SessionIdFor(store', env.random) == (id, after)
    ensures ScrollState(milestones, i + 1, percent, env, on, reached0, events0, store0, id, after, reached', events', store')
  {
    var m := milestones[i];
    MilestoneStep(milestones, i, percent, reached0);
    var before := Hits(milestones[..i], percent, reached0);
    ElementsSpec(before);
    var hit := percent >= m && m !in reached0;
    assert hit == (percent >= m && m !in reached);
    var hits := Hits(milestones[..i + 1], percent, reached0);
    if hit {
      assert hits == before + [m];
      ElementsAppend(before, m);
      assert reached' == reached0 + Elements(hits);
      if on {
        ScrollEventsAppend(before, m, env, id);
        var e := ScrollEvent(m, env, id);
        assert events' == (events0 + ScrollEvents(before, env, id)) + [e];
        assert events' == events0 + (ScrollEvents(before, env, id) + [e]);
        assert events' == events0 + ScrollEvents(hits, env, id);
      }
    } else {
      assert hits == before;
    }
  }

  /** One step of the scroll handler's loop: the i-th milestone is a new hit
      exactly when it is reached and was not reached before the loop. */
  lemma MilestoneStep(milestones: seq<int>, i: nat, percent: int, reached: set<int>)
    requires NoDuplicates(milestones) && i < |milestones|
    ensures var m := milestones[i];
      var before := Hits(milestones[..i], percent, reached);
      && m !in before
      && Hits(milestones[..i + 1], percent, reached)
           == before + (if percent >= m && m !in reached then [m] else [])
  {
    assert milestones[..i + 1][..i] == milestones[..i];
    HitsSpec(milestones[..i], percent, reached);
  }

}

=== FILE: breadcrumbs.dfy ===
/** The breadcrumb trail: which page a path names, the crumbs from the home page
    down to it, how the trail is rendered (links, then the current page) and the
    schema.org list it publishes. */
module Breadcrumbs {
  import opened Js

  datatype Crumb = Crumb(text: string, url: string)

  const HOME_URL := "index.html"
  const HOME_LABEL := "Home"
  const HOME := Crumb(HOME_LABEL, HOME_URL)

  // ---------------------------------------------------------------- pages

  /** The `pageMap` table: the page a file name stands for. */
  function PageOfFile(filename: string): Option<string>
  {
    if filename == "projects.html" then Some("projects")
    else if filename == "blog-index.html" then Some("blog")
    else if filename == "blog.html" then Some("blog")
    else if filename == "tutorials.html" then Some("tutorials")
    else if filename == "case-studies.html" then Some("case-studies")
    else if filename == "resume.html" then Some("resume")
    else if filename == "insights.html" then Some("insights")
    else if filename == "privacy.html" then Some("privacy")
    else if filename == "terms.html" then Some("terms")
    else if filename == "disclaimer.html" then Some("disclaimer")
    else None
  }

  /** `getCurrentPage()` for the location's path name: the home page is
      recognised by its file name alone, before any folder is looked at. */
  function CurrentPage(path: string): (page: string)
    ensures page != ""
  {
    var filename := LastSegment(path);
    if filename == "" || filename == "index.html" then "home"
    else InnerPage(path, filename)
  }

  /** The rest of `getCurrentPage()`, for a file name that is not the home
      page's: the folders first, then the table; never the home page. */
  function InnerPage(path: string, filename: string): (page: string)
    ensures page != "" && page != "home"
  {
    if StartsWith(filename, "blog/") || Contains(path, "/blog/") then "blog-post"
    else if StartsWith(filename, "tutorials/") || Contains(path, "/tutorials/") then "tutorial"
    else if PageOfFile(filename).Some? then PageOfFile(filename).value
    else "unknown"
  }

  /** The home page is recognised by its file name alone. */
  lemma HomeByFileName(path: string)
    ensures LastSegment(path) == "" || LastSegment(path) == "index.html" <==> CurrentPage(path) == "home"
  {
  }

  /** A page under `/blog/` is an article and one under `/tutorials/` a
      tutorial, whatever its file name, unless it is an index page; a file name
      the table does not know is `unknown`. */
  lemma FoldersBeforeTable(path: string)
    ensures var f := LastSegment(path);
      f != "" && f != "index.html" && Contains(path, "/blog/") ==> CurrentPage(path) == "blog-post"
    ensures var f := LastSegment(path);
      f != "" && f != "index.html" && !Contains(path, "/blog/") && Contains(path, "/tutorials/") ==>
        CurrentPage(path) == "tutorial"
    ensures var f := LastSegment(path);
      (f != "" && f != "index.html" && !Contains(path, "/blog/") && !Contains(path, "/tutorials/")
       && PageOfFile(f) == None) ==> CurrentPage(path) == "unknown"
  {
    var f := LastSegment(path);
    // a last segment holds no '/', so it never starts with a folder name
    assert !StartsWith(f, "blog/") by {
      if |f| >= 5 { assert f[..5][4] == f[4]; }
    }
    assert !StartsWith(f, "tutorials/") by {
      if |f| >= 10 { assert f[..10][9] == f[9]; }
    }
  }

  /** `getPageTitle(page)` */
  function PageTitle(page: string): (title: string)
    ensures title != ""
  {
    if page == "home" then "Home"
    else if page == "projects" then "Projects"
    else if page == "blog" then "Blog"
    else if page == "blog-post" then "Article"
    else if page == "tutorials" then "Tutorials"
    else if page == "tutorial" then "Tutorial"
    else if page == "case-studies" then "Case Studies"
    else if page == "resume" then "Resume"
    else if page == "insights" then "Insights"
    else if page == "privacy" then "Privacy Policy"
    else if page == "terms" then "Terms of Service"
    else if page == "disclaimer" then "Disclaimer"
    else "Page"
  }

  /** Every page the file-name table yields has a title of its own. */
  lemma TablePagesHaveTitles(filename: string)
    requires PageOfFile(filename).Some?
    ensures PageTitle(PageOfFile(filename).value) != "Page"
  {
  }

  /** `getCurrentPageUrl()`: the last path segment, or `index.html` for a path
      ending in `/`. */
  function CurrentPageUrl(path: string): (url: string)
    ensures url != "" && '/' !in url
    ensures LastSegment(path) != "" ==> url == LastSegment(path)
  {
    var f := LastSegment(path);
    if f != "" then f else HOME_URL
  }

  // ---------------------------------------------------------------- the trail

  /** `splice(pos, 0, x)`'s insertion index for a list of length `len`: a
      negative position counts from the end, and positions are clamped. */
  function SpliceIndex(pos: int, len: nat): (k: nat)
    ensures k <= len
  {
    if pos < 0 then (if len + pos < 0 then 0 else len + pos)
    else if pos > len then len
    else pos
  }

  function InsertAt<T>(xs: seq<T>, k: nat, x: T): (r: seq<T>)
    requires k <= |xs|
    ensures |r| == |xs| + 1 && r[k] == x
    ensures r[..k] == xs[..k] && r[k + 1..] == xs[k..]
  {
    xs[..k] + [x] + xs[k..]
  }

  /** `generateBreadcrumbs()` (with `addNestedBreadcrumbs`) for a path. */
  function Trail(path: string): (crumbs: seq<Crumb>)
    ensures |crumbs| >= 1 && crumbs[0] == HOME
  {
    var page := CurrentPage(path);
    var base := [HOME] + (if page != "home" then [Crumb(PageTitle(page), CurrentPageUrl(path))] else []);
    if page == "blog-post" then InsertAt(base, 1, Crumb("Blog", "blog-index.html"))
    else if page == "tutorial" then InsertAt(base, 1, Crumb("Tutorials", "tutorials.html"))
    else base
  }

  /** The trail has a single crumb exactly on the home page; every other page
      ends with its own crumb. */
  lemma TrailShape(path: string)
    ensures |Trail(path)| == 1 <==> CurrentPage(path) == "home"
    ensures CurrentPage(path) != "home" ==>
      Trail(path)[|Trail(path)| - 1] == Crumb(PageTitle(CurrentPage(path)), CurrentPageUrl(path))
  {
  }

  /** Articles and tutorials sit under their index page. */
  lemma NestedTrails(path: string)
    ensures CurrentPage(path) == "blog-post" ==>
      Trail(path) == [HOME, Crumb("Blog", "blog-index.html"), Crumb("Article", CurrentPageUrl(path))]
    ensures CurrentPage(path) == "tutorial" ==>
      Trail(path) == [HOME, Crumb("Tutorials", "tutorials.html"), Crumb("Tutorial", CurrentPageUrl(path))]
    ensures CurrentPage(path) != "blog-post" && CurrentPage(path) != "tutorial" && CurrentPage(path) != "home" ==>
      Trail(path) == [HOME, Crumb(PageTitle(CurrentPage(path)), CurrentPageUrl(path))]
  {
  }

  // ---------------------------------------------------------------- output

  /** A rendered list item: a link followed by a separator, or the current page. */
  datatype Item = Link(text: string, href: string) | Current(text: string)

  /** `renderBreadcrumbs()`: nothing for a trail of at most one crumb; otherwise
      one item per crumb, all links but the last. */
  function Render(crumbs: seq<Crumb>): (items: seq<Item>)
    ensures |crumbs| <= 1 ==> items == []
    ensures |crumbs| > 1 ==> |items| == |crumbs|
    ensures |crumbs| > 1 ==> forall i :: 0 <= i < |crumbs| - 1 ==> items[i] == Link(crumbs[i].text, crumbs[i].url)
    ensures |crumbs| > 1 ==> items[|crumbs| - 1] == Current(crumbs[|crumbs| - 1].text)
  {
    if |crumbs| <= 1 then []
    else
      seq(|crumbs|, i requires 0 <= i < |crumbs| =>
        if i == |crumbs| - 1 then Current(crumbs[i].text) else Link(crumbs[i].text, crumbs[i].url))
  }

  /** Exactly one item, the last, is the non-link current page. */
  lemma OneCurrentItem(crumbs: seq<Crumb>, i: nat)
    requires i < |Render(crumbs)|
    ensures Render(crumbs)[i].Current? <==> i == |crumbs| - 1
  {
  }

  /** One `ListItem` of the schema.org `BreadcrumbList`. */
  datatype ListItem = ListItem(position: nat, name: string, item: string)

  /** `itemListElement`: positions 1 to n in trail order; `absolute` stands for
      resolving a crumb's URL against the page's directory. */
  function StructuredItems(crumbs: seq<Crumb>, absolute: string -> string): (items: seq<ListItem>)
    ensures |items| == |crumbs|
    ensures forall i :: 0 <= i < |crumbs| ==> items[i] == ListItem(i + 1, crumbs[i].text, absolute(crumbs[i].url))
  {
    seq(|crumbs|, i requires 0 <= i < |crumbs| => ListItem(i + 1, crumbs[i].text, absolute(crumbs[i].url)))
  }

  class BreadcrumbManager {
    var breadcrumbs: seq<Crumb>
    /** The items of the rendered `nav.breadcrumbs` (empty when none is shown). */
    var rendered: seq<Item>
    /** The items of the breadcrumb JSON-LD script, once one has been written. */
    var structuredData: Option<seq<ListItem>>
    /** URL resolution against the page's directory. */
    const absolute: string -> string

    /** `renderBreadcrumbs()` followed by `setupStructuredData()`. */
    method Publish()
      modifies this
      ensures breadcrumbs == old(breadcrumbs)
      ensures rendered == Render(breadcrumbs)
      ensures |breadcrumbs| <= 1 ==> structuredData == old(structuredData)
      ensures |breadcrumbs| > 1 ==> structuredData == Some(StructuredItems(breadcrumbs, absolute))
    {
      rendered := Render(breadcrumbs);
      if |breadcrumbs| > 1 {
        structuredData := Some(StructuredItems(breadcrumbs, absolute));
      }
    }

    /** The constructor's `init()` for the page at `path`. */
    constructor(path: string, absolute: string -> string)
      ensures breadcrumbs == Trail(path)
      ensures rendered == Render(Trail(path))
      ensures structuredData == if CurrentPage(path) == "home" then None else Some(StructuredItems(Trail(path), absolute))
    {
      breadcrumbs := Trail(path);
      this.absolute := absolute;
      structuredData := None;
      new;
      TrailShape(path);
      Publish();
    }

    /** `updateBreadcrumbs(pageTitle, pageUrl)` */
    method UpdateBreadcrumbs(pageTitle: string, pageUrl: string)
      modifies this
      ensures breadcrumbs == [HOME, Crumb(pageTitle, pageUrl)]
      ensures rendered == [Link(HOME_LABEL, HOME_URL), Current(pageTitle)]
      ensures structuredData == Some([ListItem(1, HOME_LABEL, absolute(HOME_URL)), ListItem(2, pageTitle, absolute(pageUrl))])
    {
      breadcrumbs := [HOME, Crumb(pageTitle, pageUrl)];
      Publish();
      assert StructuredItems(breadcrumbs, absolute)
        == [ListItem(1, HOME_LABEL, absolute(HOME_URL)), ListItem(2, pageTitle, absolute(pageUrl))];
    }

    /** `addCustomBreadcrumb(text, url, position)`: position -1 appends, any
        other position inserts as `splice` does. */
    method AddCustomBreadcrumb(text: string, url: string, position: int)
      modifies this
      ensures |breadcrumbs| == |old(breadcrumbs)| + 1
      ensures position == -1 ==> breadcrumbs == old(breadcrumbs) + [Crumb(text, url)]
      ensures position != -1 ==>
        breadcrumbs == InsertAt(old(breadcrumbs), SpliceIndex(position, |old(breadcrumbs)|), Crumb(text, url))
      ensures var k := if position == -1 then |old(breadcrumbs)| else SpliceIndex(position, |old(breadcrumbs)|);
        k < |breadcrumbs| && breadcrumbs[k] == Crumb(text, url)
        && breadcrumbs[..k] + breadcrumbs[k + 1..] == old(breadcrumbs)
      ensures rendered == Render(breadcrumbs)
      ensures |breadcrumbs| <= 1 ==> structuredData == old(structuredData)
      ensures |breadcrumbs| > 1 ==> structuredData == Some(StructuredItems(breadcrumbs, absolute))
    {
      var crumb := Crumb(text, url);
      if position == -1 {
        breadcrumbs := breadcrumbs + [crumb];
        assert breadcrumbs[..|old(breadcrumbs)|] == old(breadcrumbs);
      } else {
        var k := SpliceIndex(position, |breadcrumbs|);
        breadcrumbs := InsertAt(breadcrumbs, k, crumb);
        assert old(breadcrumbs) == old(breadcrumbs)[..k] + old(breadcrumbs)[k..];
      }
      Publish();
    }
  }
}

=== FILE: contact.dfy ===
/** The contact page's handler: the field validator with its fixed messages, the
    form check over every required input and textarea, and the project
    suggestions drawn from keywords in the visitor's prompt. */
module Contact {
  import opened Js
  import opened Forms

  // ---------------------------------------------------------------- validation

  /** The message the contact page shows for a failed rule. */
  function Message(rule: Rule): string
  {
    match rule
    case Required => "This field is required"
    case Email => "Please enter a valid email address"
    case MinLength(n) => "Minimum " + NatToString(n) + " characters required"
  }

  /** The message left on a control after validation: that of the last rule
      it fails, or `''` when it passes, which clears the error. */
  function MessageOf(failure: Option<Rule>): string
  {
    match failure
    case None => ""
    case Some(rule) => Message(rule)
  }

  /** A message is shown exactly when a rule failed. */
  lemma MessageShownIffInvalid(failure: Option<Rule>)
    ensures MessageOf(failure) == "" <==> failure.None?
  {
    if failure.Some? && failure.value.MinLength? {
      assert MessageOf(failure)[0] == 'M';
    }
  }

  /** `validateField`: the rules checked one after another on the trimmed value,
      each failure overwriting the message of the one before.  The field is
      valid exactly when no rule fails, and the message left is the last
      failure's. */
  method ValidateField(c: Control) returns (valid: bool, message: string)
    ensures valid == Passes(c)
    ensures message == ShownMessage(c)
  {
    var value := Trim(c.value);
    valid := true;
    message := "";
    if c.required && value == "" {
      valid := false;
      message := "This field is required";
    }
    if c.controlType == "email" && value != "" {
      if !IsEmailAddress(value) {
        valid := false;
        message := "Please enter a valid email address";
      }
    }
    if c.minLength.Some? && value != "" {
      var minLength := c.minLength.value;
      if |value| < minLength {
        valid := false;
        message := "Minimum " + NatToString(minLength) + " characters required";
      }
    }
  }

  /** An empty required field reports that it is required. */
  lemma RequiredMessage(c: Control)
    requires c.required && Trim(c.value) == ""
    ensures MessageOf(LastFailure(c)) == "This field is required"
  {
    EmptyRequiredFailsOnlyRequired(c);
  }

  /** A non-empty e-mail field without a length rule is judged by the pattern. */
  lemma EmailVerdict(c: Control)
    requires c.controlType == "email" && Trim(c.value) != ""
    requires c.minLength.None?
    ensures Failures(c) == [] <==> EmailPatternMatches(Trim(c.value))
    ensures Failures(c) != [] ==> MessageOf(LastFailure(c)) == "Please enter a valid email address"
  {
    EmailPattern(Trim(c.value));
  }

  /** A failed length rule names the minimum, whatever failed before it. */
  lemma MinLengthMessageWins(c: Control)
    requires c.minLength.Some? && Trim(c.value) != "" && |Trim(c.value)| < c.minLength.value
    ensures MessageOf(LastFailure(c)) == "Minimum " + NatToString(c.minLength.value) + " characters required"
  {
    MinLengthFailsLast(c);
  }

  /** The controls `validateForm` selects: `input[required], textarea[required]`. */
  const FORM_TAGS: seq<string> := ["input", "textarea"]

  /** The message a control is left with. */
  function ShownMessage(c: Control): string
  {
    MessageOf(LastFailure(c))
  }

  /** The loop of `validateForm`: every control is validated in order, with
      no early exit. */
  method ValidateEach(inputs: seq<Control>) returns (isValid: bool, shown: seq<string>)
    ensures shown == Map(ShownMessage, inputs)
    ensures isValid == Every(Passes, inputs)
  {
    isValid := true;
    shown := [];
    var i := 0;
    while i < |inputs|
      invariant 0 <= i <= |inputs|
      invariant shown == Map(ShownMessage, inputs[..i])
      invariant isValid == Every(Passes, inputs[..i])
    {
      var valid, message := ValidateField(inputs[i]);
      assert inputs[..i + 1][..i] == inputs[..i];
      assert Map(ShownMessage, inputs[..i + 1]) == Map(ShownMessage, inputs[..i]) + [ShownMessage(inputs[i])];
      assert Every(Passes, inputs[..i + 1]) == (Every(Passes, inputs[..i]) && Passes(inputs[i]));
      if !valid {
        isValid := false;
      }
      shown := shown + [message];
      i := i + 1;
    }
    assert inputs[..i] == inputs;
  }

  /** `validateForm`: the check over `input[required], textarea[required]`;
      the k-th selected control shows the message of its own last failure, and
      the form is valid exactly when every selected control passes. */
  method ValidateForm(controls: seq<Control>) returns (isValid: bool, shown: seq<string>)
    ensures var selected := RequiredControls(controls, FORM_TAGS);
      && |shown| == |selected|
      && (forall k :: 0 <= k < |selected| ==> shown[k] == MessageOf(LastFailure(selected[k])))
      && (isValid <==> forall k :: 0 <= k < |selected| ==> LastFailure(selected[k]).None?)
  {
    var inputs := RequiredControls(controls, FORM_TAGS);
    isValid, shown := ValidateEach(inputs);
    MapPointwise(ShownMessage, inputs);
    EveryPointwise(Passes, inputs);
  }

  // ---------------------------------------------------------------- suggestions

  /** A row of a keyword table: the result chosen when the text contains any
      of the keywords. */
  datatype KeywordRule<T> = KeywordRule(keywords: seq<string>, result: T)

  predicate Matches<T>(rule: KeywordRule<T>, text: string)
  {
    exists w :: w in rule.keywords && Contains(text, w)
  }

  /** The result of the first row that matches, or the default: an
      `if … else if … else` chain over `includes` tests. */
  function FirstMatch<T>(rules: seq<KeywordRule<T>>, text: string, default: T): (r: T)
    ensures (exists i :: 0 <= i < |rules| && Matches(rules[i], text)
               && (forall j :: 0 <= j < i ==> !Matches(rules[j], text))
               && r == rules[i].result)
            || ((forall i :: 0 <= i < |rules| ==> !Matches(rules[i], text)) && r == default)
  {
    if rules == [] then default
    else if Matches(rules[0], text) then rules[0].result
    else
      var r := FirstMatch(rules[1..], text, default);
      assert forall i :: 1 <= i < |rules| ==> rules[1..][i - 1] == rules[i];
      r
  }

  /** The results of every row that matches, in table order: a run of `if`
      tests each pushing its group. */
  function AllMatches<T>(rules: seq<KeywordRule<seq<T>>>, text: string): (r: seq<T>)
  {
    if rules == [] then []
    else (if Matches(rules[0], text) then rules[0].result else []) + AllMatches(rules[1..], text)
  }

  lemma {:induction false} AllMatchesEmpty<T>(rules: seq<KeywordRule<seq<T>>>, text: string)
    requires forall i :: 0 <= i < |rules| ==> rules[i].result != []
    ensures AllMatches(rules, text) == [] <==> forall i :: 0 <= i < |rules| ==> !Matches(rules[i], text)
  {
    if rules != [] {
      assert forall i :: 1 <= i < |rules| ==> rules[1..][i - 1] == rules[i];
      AllMatchesEmpty(rules[1..], text);
    }
  }

  const MVP_SCOPE := "MVP Development - Focus on core functionality only"
  const ENTERPRISE_SCOPE := "Enterprise Solution - Comprehensive feature set with scalability"
  const STANDARD_SCOPE := "Standard Application - Balanced feature set for general use"

  const SCOPE_RULES: seq<KeywordRule<string>> := [
    KeywordRule(["mvp", "minimum"], MVP_SCOPE),
    KeywordRule(["enterprise", "large"], ENTERPRISE_SCOPE)]

  /** `analyzeScope` */
  function AnalyzeScope(prompt: string): string
  {
    FirstMatch(SCOPE_RULES, Lower(prompt), STANDARD_SCOPE)
  }

  /** A prompt mentioning an MVP is scoped as one, whatever else it says. */
  lemma MvpScopeFirst(prompt: string)
    requires Contains(Lower(prompt), "mvp") || Contains(Lower(prompt), "minimum")
    ensures AnalyzeScope(prompt) == MVP_SCOPE
  {
    assert Matches(SCOPE_RULES[0], Lower(prompt));
  }

  const TECH_RULES: seq<KeywordRule<seq<string>>> := [
    KeywordRule(["ecommerce", "shop"], ["React/Next.js", "Node.js", "PostgreSQL", "Stripe API", "Redis"]),
    KeywordRule(["mobile", "app"], ["React Native", "Firebase", "Redux", "TypeScript"]),
    KeywordRule(["dashboard", "analytics"], ["React", "D3.js", "Node.js", "MongoDB", "WebSocket"])]

  const DEFAULT_STACK: seq<string> := ["React", "Node.js", "Express", "MongoDB/PostgreSQL", "REST API"]

  /** `suggestTechStack` */
  function SuggestTechStack(prompt: string): seq<string>
  {
    FirstMatch(TECH_RULES, Lower(prompt), DEFAULT_STACK)
  }

  /** A shop prompt gets the shop stack even when it also mentions an app. */
  lemma ShopStackFirst(prompt: string)
    requires Contains(Lower(prompt), "ecommerce") || Contains(Lower(prompt), "shop")
    ensures SuggestTechStack(prompt) == TECH_RULES[0].result
  {
    assert Matches(TECH_RULES[0], Lower(prompt));
  }

  const TIMELINE_RULES: seq<KeywordRule<string>> := [
    KeywordRule(["mvp", "simple"], "4-6 weeks for MVP, 8-12 weeks for full version"),
    KeywordRule(["complex", "enterprise"], "12-16 weeks for MVP, 6+ months for full implementation")]

  /** `estimateTimeline` */
  function EstimateTimeline(prompt: string): string
  {
    FirstMatch(TIMELINE_RULES, Lower(prompt), "6-8 weeks for MVP, 12-16 weeks for full version")
  }

  /** A prompt asking for something simple or an MVP gets the short
      estimate, even when it also says enterprise. */
  lemma SimpleTimelineFirst(prompt: string)
    requires Contains(Lower(prompt), "mvp") || Contains(Lower(prompt), "simple")
    ensures EstimateTimeline(prompt) == TIMELINE_RULES[0].result
  {
    assert Matches(TIMELINE_RULES[0], Lower(prompt));
  }

  const FEATURE_RULES: seq<KeywordRule<seq<string>>> := [
    KeywordRule(["user", "account"], ["User Authentication", "Profile Management", "Role-based Access"]),
    KeywordRule(["payment", "ecommerce"], ["Payment Processing", "Order Management", "Inventory Tracking"]),
    KeywordRule(["notification", "alert"], ["Real-time Notifications", "Email Templates", "Push Notifications"])]

  const DEFAULT_FEATURES: seq<string> :=
    ["Core CRUD Operations", "User Authentication", "Data Analytics Dashboard", "API Documentation"]

  /** The features `suggestFeatures` proposes: every matching group in table
      order, or the default list when none matches. */
  function Features(prompt: string): seq<string>
  {
    var fs := AllMatches(FEATURE_RULES, Lower(prompt));
    if fs == [] then DEFAULT_FEATURES else fs
  }

  /** A row with two keywords matches when the text contains either. */
  lemma MatchesEither<T>(rule: KeywordRule<T>, text: string)
    requires |rule.keywords| == 2
    ensures Matches(rule, text) <==> Contains(text, rule.keywords[0]) || Contains(text, rule.keywords[1])
  {
    if Contains(text, rule.keywords[0]) {
      assert rule.keywords[0] in rule.keywords;
    }
    if Contains(text, rule.keywords[1]) {
      assert rule.keywords[1] in rule.keywords;
    }
  }

  /** The group of the i-th feature row, or nothing when it does not match. */
  function Group(i: nat, text: string): (r: seq<string>)
    requires i < |FEATURE_RULES|
    ensures |r| == 0 || |r| == 3
  {
    if Matches(FEATURE_RULES[i], text) then FEATURE_RULES[i].result else []
  }

  lemma FeatureGroups(text: string)
    ensures AllMatches(FEATURE_RULES, text) == Group(0, text) + Group(1, text) + Group(2, text)
  {
    var rules := FEATURE_RULES;
    assert rules[1..][0] == rules[1] && rules[1..][1..][0] == rules[2];
    assert rules[1..][1..][1..] == [];
    assert AllMatches(rules[1..][1..], text) == Group(2, text) + AllMatches(rules[1..][1..][1..], text);
  }

  /** `suggestFeatures`: three `if` tests pushing their groups, then the default. */
  method SuggestFeatures(prompt: string) returns (features: seq<string>)
    ensures features == Features(prompt)
  {
    var keywords := Lower(prompt);
    features := [];
    MatchesEither(FEATURE_RULES[0], keywords);
    if Contains(keywords, "user") || Contains(keywords, "account") {
      features := features + ["User Authentication", "Profile Management", "Role-based Access"];
    }
    assert features == Group(0, keywords);
    MatchesEither(FEATURE_RULES[1], keywords);
    if Contains(keywords, "payment") || Contains(keywords, "ecommerce") {
      features := features + ["Payment Processing", "Order Management", "Inventory Tracking"];
    }
    assert features == Group(0, keywords) + Group(1, keywords);
    MatchesEither(FEATURE_RULES[2], keywords);
    if Contains(keywords, "notification") || Contains(keywords, "alert") {
      features := features + ["Real-time Notifications", "Email Templates", "Push Notifications"];
    }
    FeatureGroups(keywords);
    if |features| == 0 {
      features := DEFAULT_FEATURES;
    }
  }

  /** The default list is proposed exactly when no group's keyword occurs. */
  lemma DefaultFeaturesWhenNoGroup(prompt: string)
    ensures Features(prompt) == DEFAULT_FEATURES
            <==> forall i :: 0 <= i < |FEATURE_RULES| ==> !Matches(FEATURE_RULES[i], Lower(prompt))
  {
    var text := Lower(prompt);
    AllMatchesEmpty(FEATURE_RULES, text);
    FeatureGroups(text);
    // every group has three entries, so no union of groups has the default's four
    assert |AllMatches(FEATURE_RULES, text)| != |DEFAULT_FEATURES|;
  }

  /** `suggestNextSteps`: a fixed plan, whatever the prompt. */
  function SuggestNextSteps(prompt: string): seq<string>
  {
    ["1. Define detailed user stories and acceptance criteria",
     "2. Create wireframes and UI/UX designs",
     "3. Set up development environment and CI/CD pipeline",
     "4. Implement core backend API and database schema",
     "5. Develop frontend components and integrate with API",
     "6. Set up testing framework and write test cases",
     "7. Deploy to staging environment for user testing",
     "8. Production deployment and monitoring setup"]
  }

  /** The advice `generateAISuggestions` returns for a prompt. */
  datatype Suggestions = Suggestions(scope: string, techStack: seq<string>, timeline: string,
                                     features: seq<string>, nextSteps: seq<string>)

  /** `generateAISuggestions`, without its simulated delay. */
  function GenerateSuggestions(prompt: string): Suggestions
  {
    Suggestions(AnalyzeScope(prompt), SuggestTechStack(prompt), EstimateTimeline(prompt),
                Features(prompt), SuggestNextSteps(prompt))
  }

  /** An MVP prompt is advised consistently: the MVP scope together with the
      short timeline. */
  lemma MvpAdviceConsistent(prompt: string)
    requires Contains(Lower(prompt), "mvp")
    ensures GenerateSuggestions(prompt).scope == MVP_SCOPE
    ensures GenerateSuggestions(prompt).timeline == TIMELINE_RULES[0].result
  {
    MvpScopeFirst(prompt);
    SimpleTimelineFirst(prompt);
  }
}

=== FILE: dom.dfy ===
/** The part of the document the image scripts touch: an `<img>` element
    with its attributes, classes and `data-*` attributes. */
module Dom {
  import opened Js

  /** A `data-*` attribute read through `dataset`: absent, or a string that
      counts only when it is not empty. */
  predicate Present(attribute: Option<string>)
  {
    attribute.Some? && attribute.value != ""
  }

  /** What assigning a possibly missing attribute to `src` writes:
      `undefined` becomes the text "undefined". */
  function AttributeText(attribute: Option<string>): string
  {
    if attribute.Some? then attribute.value else "undefined"
  }

  /** An `<img>`. */
  class Img {
    var src: string
    var srcset: string
    var alt: string
    var classes: set<string>
    var dataSrc: Option<string>
    var dataSrcset: Option<string>
    var dataFallback: Option<string>
    var dataSaver: Option<string>
    var decorative: Option<string>

    constructor(src: string, alt: string, dataSrc: Option<string>, dataSrcset: Option<string>,
                dataFallback: Option<string>, dataSaver: Option<string>, decorative: Option<string>)
      ensures this.src == src && srcset == "" && this.alt == alt && classes == {}
      ensures this.dataSrc == dataSrc && this.dataSrcset == dataSrcset && this.dataFallback == dataFallback
      ensures this.dataSaver == dataSaver && this.decorative == decorative
    {
      this.src := src;
      srcset := "";
      this.alt := alt;
      classes := {};
      this.dataSrc := dataSrc;
      this.dataSrcset := dataSrcset;
      this.dataFallback := dataFallback;
      this.dataSaver := dataSaver;
      this.decorative := decorative;
    }
  }

  /** The attributes and classes of an image at one moment. */
  datatype Snapshot = Snapshot(src: string, srcset: string, alt: string, classes: set<string>,
                               dataSrc: Option<string>, dataSrcset: Option<string>,
                               dataFallback: Option<string>, dataSaver: Option<string>,
                               decorative: Option<string>)

  ghost function Snap(img: Img): Snapshot
    reads img
  {
    Snapshot(img.src, img.srcset, img.alt, img.classes, img.dataSrc, img.dataSrcset, img.dataFallback,
             img.dataSaver, img.decorative)
  }
}

=== FILE: enhancements.dfy ===
/** The site-wide enhancements script: the animation class given to each
    animated element, the form validator with messages that name the field,
    the in-page search (the short-query rule, the case-insensitive filter and
    the anchor each hit links to) and the cookie reader. */
module Enhancements {
  import opened Js
  import opened Forms
  import Contact

  // ---------------------------------------------------------------- animations

  /** The animations handed out in turn to the animated elements. */
  const ANIMATIONS: seq<string> := ["fade-in-up", "fade-in", "slide-in-left", "slide-in-right"]

  /** The animation of the element at position `i` of the selection. */
  function AnimationOf(i: nat): string
  {
    ANIMATIONS[i % |ANIMATIONS|]
  }

  /** The four animations are different from one another. */
  lemma AnimationsDistinct(a: nat, b: nat)
    requires a < |ANIMATIONS| && b < |ANIMATIONS| && a != b
    ensures ANIMATIONS[a] != ANIMATIONS[b]
  {
    // the four names have four different lengths
    assert |ANIMATIONS[a]| != |ANIMATIONS[b]|;
  }

  /** The assignment repeats every four elements. */
  lemma AnimationPeriodic(i: nat)
    ensures AnimationOf(i + |ANIMATIONS|) == AnimationOf(i)
  {
  }

  /** Two neighbouring elements never get the same animation. */
  lemma NeighboursDiffer(i: nat)
    ensures AnimationOf(i) != AnimationOf(i + 1)
  {
    AnimationsDistinct(i % 4, (i + 1) % 4);
  }

  /** `addAnimationClasses`: the loop over the selected elements giving the
      element at position `i` the `data-animate` value `animations[i % 4]`. */
  method AddAnimationClasses(count: nat) returns (animate: seq<string>)
    ensures |animate| == count
    ensures forall i :: 0 <= i < count ==> animate[i] == AnimationOf(i)
  {
    animate := [];
    var index := 0;
    while index < count
      invariant index <= count && |animate| == index
      invariant forall i :: 0 <= i < index ==> animate[i] == AnimationOf(i)
    {
      animate := animate + [ANIMATIONS[index % |ANIMATIONS|]];
      index := index + 1;
    }
  }

  // ---------------------------------------------------------------- validation

  /** `field.name || field.id`: the name the messages use. */
  function FieldName(c: Control): string
  {
    if c.name != "" then c.name else c.id
  }

  /** The message this validator shows for a failed rule. */
  function Message(c: Control, rule: Rule): string
  {
    match rule
    case Required => FieldName(c) + " is required"
    case Email => "Please enter a valid email address"
    case MinLength(n) => FieldName(c) + " must be at least " + NatToString(n) + " characters"
  }

  /** The message left on a control: that of its last failure, or `''`. */
  function ShownMessage(c: Control): string
  {
    match LastFailure(c)
    case None => ""
    case Some(rule) => Message(c, rule)
  }

  /** An error is shown exactly when the control fails a rule, even for a
      control with neither a name nor an id. */
  lemma MessageShownIffInvalid(c: Control)
    ensures ShownMessage(c) == "" <==> Passes(c)
  {
    if LastFailure(c) == Some(Email) {
      assert ShownMessage(c)[0] == 'P';
    }
  }

  /** `validateField`: the three rules checked in turn on the trimmed value,
      each failure overwriting the message of the one before. */
  method ValidateField(c: Control) returns (valid: bool, message: string)
    ensures valid == Passes(c)
    ensures message == ShownMessage(c)
  {
    var value := Trim(c.value);
    var fieldName := if c.name != "" then c.name else c.id;
    valid := true;
    message := "";
    if c.required && value == "" {
      valid := false;
      message := fieldName + " is required";
    }
    if c.controlType == "email" && value != "" {
      if !IsEmailAddress(value) {
        valid := false;
        message := "Please enter a valid email address";
      }
    }
    if c.minLength.Some? && value != "" {
      var minLength := c.minLength.value;
      if |value| < minLength {
        valid := false;
        message := fieldName + " must be at least " + NatToString(minLength) + " characters";
      }
    }
  }

  /** An empty required field names itself in its message. */
  lemma RequiredMessageNamesField(c: Control)
    requires c.required && Trim(c.value) == ""
    ensures ShownMessage(c) == FieldName(c) + " is required"
  {
    EmptyRequiredFailsOnlyRequired(c);
  }

  /** A failed length rule names the field and the minimum, whatever failed
      before it. */
  lemma MinLengthMessageWins(c: Control)
    requires c.minLength.Some? && Trim(c.value) != "" && |Trim(c.value)| < c.minLength.value
    ensures ShownMessage(c) == FieldName(c) + " must be at least " + NatToString(c.minLength.value) + " characters"
  {
    MinLengthFailsLast(c);
  }

  /** This validator and the contact page's agree on every verdict and differ
      only in the words of their messages. */
  lemma SameVerdictAsContact(c: Control)
    ensures ShownMessage(c) == "" <==> Contact.ShownMessage(c) == ""
  {
    MessageShownIffInvalid(c);
    Contact.MessageShownIffInvalid(LastFailure(c));
  }

  /** The controls `validateForm` selects: `input[required],
      textarea[required], select[required]`. */
  const FORM_TAGS: seq<string> := ["input", "textarea", "select"]

  /** The loop of `validateForm`: every control is validated, with no early exit. */
  method ValidateEach(inputs: seq<Control>) returns (isValid: bool, shown: seq<string>)
    ensures shown == Map(ShownMessage, inputs)
    ensures isValid == Every(Passes, inputs)
  {
    isValid := true;
    shown := [];
    var i := 0;
    while i < |inputs|
      invariant 0 <= i <= |inputs|
      invariant shown == Map(ShownMessage, inputs[..i])
      invariant isValid == Every(Passes, inputs[..i])
    {
      var valid, message := ValidateField(inputs[i]);
      assert inputs[..i + 1][..i] == inputs[..i];
      if !valid {
        isValid := false;
      }
      shown := shown + [message];
      i := i + 1;
    }
    assert inputs[..i] == inputs;
  }

  /** `validateForm`: each selected control shows the message of its own last
      failure, and the form is valid exactly when every one of them passes. */
  method ValidateForm(controls: seq<Control>) returns (isValid: bool, shown: seq<string>)
    ensures var selected := RequiredControls(controls, FORM_TAGS);
      && |shown| == |selected|
      && (forall k :: 0 <= k < |selected| ==> shown[k] == ShownMessage(selected[k]))
      && (isValid <==> forall k :: 0 <= k < |selected| ==> Passes(selected[k]))
  {
    var inputs := RequiredControls(controls, FORM_TAGS);
    isValid, shown := ValidateEach(inputs);
    MapPointwise(ShownMessage, inputs);
    EveryPointwise(Passes, inputs);
  }

  /** The required `select` controls are the only ones this validator checks
      and the contact page's does not: without them both select the same
      controls. */
  lemma {:induction false} SelectIsTheOnlyDifference(controls: seq<Control>)
    requires forall k :: 0 <= k < |controls| && controls[k].required ==> controls[k].tag != "select"
    ensures RequiredControls(controls, FORM_TAGS) == RequiredControls(controls, Contact.FORM_TAGS)
  {
    if controls != [] {
      var c := controls[0];
      assert forall k :: 0 <= k < |controls| - 1 ==> controls[1..][k] == controls[k + 1];
      SelectIsTheOnlyDifference(controls[1..]);
      if c.required {
        assert c.tag in FORM_TAGS <==> c.tag in Contact.FORM_TAGS;
      }
    }
  }

  // ---------------------------------------------------------------- search

  /** What typing in the search box does: hide the results, or search for the
      trimmed query after the 300 ms pause. */
  datatype InputAction = HideResults | ScheduleSearch(query: string)

  /** The input handler of `setupSearch`. */
  function OnSearchInput(raw: string): InputAction
  {
    var query := Trim(raw);
    if |query| < 2 then HideResults else ScheduleSearch(query)
  }

  /** A trimmed query shorter than two characters hides the results and starts
      no search; a search is only ever started for a trimmed query of at least
      two characters. */
  lemma ShortQueryHides(raw: string)
    ensures OnSearchInput(raw) == HideResults <==> |Trim(raw)| < 2
    ensures OnSearchInput(raw).ScheduleSearch? ==>
              |OnSearchInput(raw).query| >= 2 && Trim(OnSearchInput(raw).query) == OnSearchInput(raw).query
  {
    TrimIdempotent(raw);
  }

  /** An element as `getElementUrl` sees it: its tag and its `id` attribute,
      if it has one. */
  datatype Element = Element(tag: string, id: Option<string>)

  predicate HasId(e: Element)
  {
    e.id.Some?
  }

  /** The selector `section[id]`. */
  predicate IsSectionWithId(e: Element)
  {
    e.tag == "section" && e.id.Some?
  }

  /** `element.closest(selector)` over the chain from the element itself up
      to the root: the position of the nearest element that matches. */
  function Closest(chain: seq<Element>, matches: Element -> bool): (r: Option<nat>)
    ensures r.Some? ==> r.value < |chain| && matches(chain[r.value])
                        && forall j :: 0 <= j < r.value ==> !matches(chain[j])
    ensures r.None? ==> forall j :: 0 <= j < |chain| ==> !matches(chain[j])
  {
    if chain == [] then None
    else if matches(chain[0]) then Some(0)
    else
      match Closest(chain[1..], matches)
      case None => None
      case Some(k) => Some(k + 1)
  }

  /** `getElementUrl`, given the chain from the element up to the root. */
  function ElementUrl(chain: seq<Element>): string
  {
    match Closest(chain, IsSectionWithId)
    case Some(k) => "#" + chain[k].id.value
    case None =>
      match Closest(chain, HasId)
      case Some(k) => "#" + chain[k].id.value
      case None => "#"
  }

  /** The nearest enclosing section with an id names the anchor, even when a
      nearer element has an id of its own. */
  lemma UrlFromNearestSection(chain: seq<Element>, k: nat)
    requires k < |chain| && IsSectionWithId(chain[k])
    requires forall j :: 0 <= j < k ==> !IsSectionWithId(chain[j])
    ensures ElementUrl(chain) == "#" + chain[k].id.value
  {
  }

  /** Outside every section with an id, the nearest element with an id names it. */
  lemma UrlFromNearestId(chain: seq<Element>, k: nat)
    requires forall j :: 0 <= j < |chain| ==> !IsSectionWithId(chain[j])
    requires k < |chain| && HasId(chain[k])
    requires forall j :: 0 <= j < k ==> !HasId(chain[j])
    ensures ElementUrl(chain) == "#" + chain[k].id.value
  {
  }

  /** Without any id up the chain, the anchor is the bare `#`. */
  lemma UrlWithoutId(chain: seq<Element>)
    requires forall j :: 0 <= j < |chain| ==> !HasId(chain[j])
    ensures ElementUrl(chain) == "#"
  {
  }

  /** A searchable element: its text content and the chain from it up to the root. */
  datatype Searchable = Searchable(text: string, chain: seq<Element>)

  /** A search result: the position of the element in the selection, its text
      and the anchor it links to. */
  datatype Hit = Hit(position: nat, text: string, url: string)

  /** `text.toLowerCase().includes(query.toLowerCase())` */
  predicate TextMatches(text: string, query: string)
  {
    Contains(Lower(text), Lower(query))
  }

  /** A match survives any change of case in the text or the query. */
  lemma MatchIgnoresCase(text: string, query: string)
    ensures TextMatches(text, query) <==> TextMatches(Lower(text), Lower(query))
  {
    LowerIdempotent(text);
    LowerIdempotent(query);
  }

  /** The result built for the element at position `i`: its text and anchor. */
  function HitAt(elements: seq<Searchable>, i: nat): (h: Hit)
    requires i < |elements|
    ensures h.position == i && h.text == elements[i].text && h.url == ElementUrl(elements[i].chain)
  {
    Hit(i, elements[i].text, ElementUrl(elements[i].chain))
  }

  /** A result for a matching element, built from that element. */
  predicate IsHitFor(elements: seq<Searchable>, query: string, h: Hit)
  {
    h.position < |elements| && TextMatches(elements[h.position].text, query)
    && h == HitAt(elements, h.position)
  }

  /** The results for the first `n` elements of the selection, in order. */
  function Found(elements: seq<Searchable>, query: string, n: nat): seq<Hit>
    requires n <= |elements|
  {
    if n == 0 then []
    else
      Found(elements, query, n - 1)
      + if TextMatches(elements[n - 1].text, query) then [HitAt(elements, n - 1)] else []
  }

  /** Every result is a matching element among the first `n`, with its own
      text and anchor. */
  lemma {:induction false} FoundAreHits(elements: seq<Searchable>, query: string, n: nat)
    requires n <= |elements|
    ensures var r := Found(elements, query, n);
      forall k :: 0 <= k < |r| ==> IsHitFor(elements, query, r[k]) && r[k].position < n
  {
    if n > 0 {
      FoundAreHits(elements, query, n - 1);
      if TextMatches(elements[n - 1].text, query) {
        var hit := HitAt(elements, n - 1);
        assert Found(elements, query, n) == Found(elements, query, n - 1) + [hit];
        assert IsHitFor(elements, query, hit);
      } else {
        assert Found(elements, query, n) == Found(elements, query, n - 1);
      }
    }
  }

  /** The results keep document order. */
  lemma {:induction false} FoundInOrder(elements: seq<Searchable>, query: string, n: nat)
    requires n <= |elements|
    ensures var r := Found(elements, query, n);
      forall k, l :: 0 <= k < l < |r| ==> r[k].position < r[l].position
  {
    if n > 0 {
      FoundInOrder(elements, query, n - 1);
      FoundAreHits(elements, query, n - 1);
      if TextMatches(elements[n - 1].text, query) {
        var hit := HitAt(elements, n - 1);
        assert Found(elements, query, n) == Found(elements, query, n - 1) + [hit];
      } else {
        assert Found(elements, query, n) == Found(elements, query, n - 1);
      }
    }
  }

  /** No matching element among the first `n` is missed. */
  lemma {:induction false} FoundComplete(elements: seq<Searchable>, query: string, n: nat, i: nat)
    requires i < n <= |elements| && TextMatches(elements[i].text, query)
    ensures exists k :: 0 <= k < |Found(elements, query, n)| && Found(elements, query, n)[k].position == i
  {
    var prev := Found(elements, query, n - 1);
    assert Found(elements, query, n)[..|prev|] == prev;
    if i < n - 1 {
      FoundComplete(elements, query, n - 1, i);
      var k :| 0 <= k < |prev| && prev[k].position == i;
      assert Found(elements, query, n)[k] == prev[k];
    } else {
      assert Found(elements, query, n)[|prev|].position == i;
    }
  }

  /** The results of a search: exactly the matching elements, in document order. */
  lemma SearchFindsExactlyTheMatches(elements: seq<Searchable>, query: string)
    ensures var r := Found(elements, query, |elements|);
      && (forall k :: 0 <= k < |r| ==> IsHitFor(elements, query, r[k]))
      && (forall k, l :: 0 <= k < l < |r| ==> r[k].position < r[l].position)
      && (forall i :: 0 <= i < |elements| && TextMatches(elements[i].text, query) ==>
            exists k :: 0 <= k < |r| && r[k].position == i)
  {
    FoundAreHits(elements, query, |elements|);
    FoundInOrder(elements, query, |elements|);
    forall i | 0 <= i < |elements| && TextMatches(elements[i].text, query)
      ensures exists k :: 0 <= k < |Found(elements, query, |elements|)|
                          && Found(elements, query, |elements|)[k].position == i
    {
      FoundComplete(elements, query, |elements|, i);
    }
  }

  /** `performSearch`: the loop pushing a result for each element whose text
      contains the query, ignoring case. */
  method PerformSearch(elements: seq<Searchable>, query: string) returns (results: seq<Hit>)
    ensures results == Found(elements, query, |elements|)
  {
    results := [];
    var i := 0;
    while i < |elements|
      invariant i <= |elements|
      invariant results == Found(elements, query, i)
    {
      var element := elements[i];
      var text := Lower(element.text);
      if Contains(text, Lower(query)) {
        results := results + [Hit(i, element.text, ElementUrl(element.chain))];
        assert results[|results| - 1] == HitAt(elements, i);
      }
      i := i + 1;
    }
  }

  // ---------------------------------------------------------------- cookies

  /** The text `getCookie` splits at: `'; ' + name + '='`. */
  function CookieKey(name: string): (key: string)
    ensures |key| > 0 && key[0] == ';'
  {
    "; " + name + "="
  }

  /** `getCookie`: the cookie string, with `'; '` put in front, split at the
      key; a value only when that gives exactly two parts, and then the
      second part up to its first `;`. */
  function GetCookie(cookie: string, name: string): Option<string>
  {
    var parts := Split("; " + cookie, CookieKey(name));
    if |parts| == 2 then Some(Split(parts[1], ";")[0]) else None
  }

  /** A value is returned exactly when the key occurs once. */
  lemma CookieFoundIffKeyOnce(cookie: string, name: string)
    ensures GetCookie(cookie, name).Some? <==> Occurrences("; " + cookie, CookieKey(name)) == 1
  {
    SplitCount("; " + cookie, CookieKey(name));
  }

  /** The value returned is what follows the one occurrence of the key, up to
      the next `;` or the end of the string. */
  lemma CookieValue(cookie: string, name: string)
    requires GetCookie(cookie, name).Some?
    ensures var s, key := "; " + cookie, CookieKey(name);
      var after := s[IndexOf(s, key) + |key|..];
      var v := GetCookie(cookie, name).value;
      IndexOf(s, key) >= 0 && IsPrefix(v, after) && ';' !in v && (|v| == |after| || after[|v|] == ';')
  {
    var s, key := "; " + cookie, CookieKey(name);
    SecondOfTwo(s, key);
    SplitFirstPiece(s[IndexOf(s, key) + |key|..], ';');
  }

  /** When a split gives two parts, the second is all that follows the one
      occurrence of the separator. */
  lemma SecondOfTwo(s: string, sep: string)
    requires |sep| > 0 && |Split(s, sep)| == 2
    ensures IndexOf(s, sep) >= 0 && Split(s, sep)[1] == s[IndexOf(s, sep) + |sep|..]
  {
    var i := IndexOf(s, sep);
    assert i >= 0;
    var after := s[i + |sep|..];
    var rest := Split(after, sep);
    assert Split(s, sep) == [s[..i]] + rest;
    assert |rest| == 1;
    assert IndexOf(after, sep) < 0;
    assert rest == [after];
  }

  /** A cookie written as `name=value`, alone in the cookie string, reads back
      as its value when the value holds no `;`. */
  lemma CookieRoundTrip(name: string, v: string)
    requires ';' !in v
    ensures GetCookie(name + "=" + v, name) == Some(v)
  {
    var key := CookieKey(name);
    var s := "; " + (name + "=" + v);
    assert s == key + v;
    assert IsPrefix(key, s[0..]);
    assert s[|key|..] == v;
    assert IndexOf(s, key) == 0;
    NoOccurrenceWithout(v, key);
    assert Split(v, key) == [v];
    assert Split(s, key) == ["", v];
    NoOccurrenceWithout(v, ";");
    assert Split(v, ";") == [v];
  }
}

=== FILE: forms.dfy ===
/** What the two form validators of the site share: the form control as the
    validators see it, the e-mail pattern `^[^\s@]+@[^\s@]+\.[^\s@]+$`, and the
    three ordered rules (required, e-mail, minimum length) applied to the trimmed
    value.  The validators differ only in the messages they show. */
module Forms {
  import opened Js

  /** A form control: its tag, `type`, `name` and `id` attributes, whether it
      carries `required`, its `minlength` attribute as `parseInt` reads it (None
      when the attribute is absent or not a number), and its current value. */
  datatype Control = Control(
    tag: string,
    controlType: string,
    name: string,
    id: string,
    required: bool,
    minLength: Option<int>,
    value: string)

  /** `form.querySelectorAll('input[required], textarea[required], ...')` for
      the given list of tags: the required controls with one of those tags, in
      document order. */
  function RequiredControls(controls: seq<Control>, tags: seq<string>): seq<Control>
  {
    if controls == [] then []
    else
      var rest := RequiredControls(controls[1..], tags);
      if controls[0].required && controls[0].tag in tags then [controls[0]] + rest else rest
  }

  /** The selection keeps exactly the required controls with a selected tag. */
  lemma {:induction false} RequiredControlsSelect(controls: seq<Control>, tags: seq<string>)
    ensures forall c :: c in RequiredControls(controls, tags)
                    <==> c in controls && c.required && c.tag in tags
  {
    if controls != [] {
      RequiredControlsSelect(controls[1..], tags);
      assert controls == [controls[0]] + controls[1..];
    }
  }

  // ---------------------------------------------------------------- e-mail pattern

  /** The regular-expression class `[^\s@]`, over a whole string. */
  predicate NoSpaceOrAt(s: string)
  {
    forall k :: 0 <= k < |s| ==> !IsSpace(s[k]) && s[k] != '@'
  }

  /** `^[^\s@]+@[^\s@]+\.[^\s@]+$` read as a concatenation: a non-empty local
      part, `@`, a non-empty label, `.`, a non-empty rest, none of the three
      parts holding white space or `@`. */
  ghost predicate EmailPatternMatches(s: string)
  {
    exists i, j :: 0 < i && i + 1 < j && j + 1 < |s| && s[i] == '@' && s[j] == '.'
      && NoSpaceOrAt(s[..i]) && NoSpaceOrAt(s[i + 1..j]) && NoSpaceOrAt(s[j + 1..])
  }

  /** The same test read as a check on the address: no white space anywhere, an
      `@` that is not the first character and is the only one, and after it a
      `.` that is neither the first nor the last character of the domain. */
  predicate IsEmailAddress(s: string)
  {
    var i := IndexOf(s, "@");
    0 < i && NoSpaceOrAt(s[..i]) && NoSpaceOrAt(s[i + 1..])
    && exists k :: i + 1 < k < |s| - 1 && s[k] == '.'
  }

  lemma AtPrefix(s: string, j: nat)
    requires j < |s|
    ensures IsPrefix("@", s[j..]) <==> s[j] == '@'
  {
    assert s[j..][..1] == [s[j]];
  }

  lemma NoSpaceOrAtConcat(x: string, y: string)
    ensures NoSpaceOrAt(x + y) <==> NoSpaceOrAt(x) && NoSpaceOrAt(y)
  {
    if NoSpaceOrAt(x) && NoSpaceOrAt(y) {
      forall k | 0 <= k < |x + y|
        ensures !IsSpace((x + y)[k]) && (x + y)[k] != '@'
      {
        if k < |x| {
          assert (x + y)[k] == x[k];
        } else {
          assert (x + y)[k] == y[k - |x|];
        }
      }
    }
    if NoSpaceOrAt(x + y) {
      forall k | 0 <= k < |x|
        ensures !IsSpace(x[k]) && x[k] != '@'
      {
        assert (x + y)[k] == x[k];
      }
      forall k | 0 <= k < |y|
        ensures !IsSpace(y[k]) && y[k] != '@'
      {
        assert (x + y)[|x| + k] == y[k];
      }
    }
  }

  /** `indexOf('@')` finds an `@` that no earlier `@` precedes. */
  lemma FirstAt(s: string, a: nat)
    requires a < |s| && s[a] == '@' && NoSpaceOrAt(s[..a])
    ensures IndexOf(s, "@") == a
  {
    AtPrefix(s, a);
    ContainsAt(s, "@", a);
    IndexOfFirst(s, "@");
    forall m | 0 <= m < a
      ensures !IsPrefix("@", s[m..])
    {
      AtPrefix(s, m);
      assert s[..a][m] == s[m];
    }
  }

  /** The only `@` of an address that passes the check is the one `indexOf` finds. */
  lemma CheckMatchesPattern(s: string)
    requires IsEmailAddress(s)
    ensures EmailPatternMatches(s)
  {
    var i := IndexOf(s, "@");
    var k :| i + 1 < k < |s| - 1 && s[k] == '.';
    assert s[i] == '@' by { AtPrefix(s, i); }
    var d := s[i + 1..];
    assert d == s[i + 1..k] + s[k..k + 1] + s[k + 1..];
    NoSpaceOrAtConcat(s[i + 1..k] + s[k..k + 1], s[k + 1..]);
    NoSpaceOrAtConcat(s[i + 1..k], s[k..k + 1]);
  }

  lemma PatternMatchesCheck(s: string)
    requires EmailPatternMatches(s)
    ensures IsEmailAddress(s)
  {
    var a, j :| 0 < a && a + 1 < j && j + 1 < |s| && s[a] == '@' && s[j] == '.'
      && NoSpaceOrAt(s[..a]) && NoSpaceOrAt(s[a + 1..j]) && NoSpaceOrAt(s[j + 1..]);
    FirstAt(s, a);
    var host, dot, rest := s[a + 1..j], s[j..j + 1], s[j + 1..];
    assert s[a + 1..] == host + dot + rest;
    assert NoSpaceOrAt(dot) by { assert dot[0] == '.'; }
    NoSpaceOrAtConcat(host, dot);
    NoSpaceOrAtConcat(host + dot, rest);
    assert a + 1 < j < |s| - 1 && s[j] == '.';
  }

  /** The check is exactly the pattern. */
  lemma EmailPattern(s: string)
    ensures IsEmailAddress(s) <==> EmailPatternMatches(s)
  {
    if IsEmailAddress(s) {
      CheckMatchesPattern(s);
    }
    if EmailPatternMatches(s) {
      PatternMatchesCheck(s);
    }
  }

  // ---------------------------------------------------------------- rules

  /** A rule a value can fail: `required` on an empty value, the e-mail pattern,
      or a minimum length `n`. */
  datatype Rule = Required | Email | MinLength(n: nat)

  /** The three checks, each on the trimmed value; the e-mail and length
      checks are skipped for an empty value. */
  predicate FailsRequired(c: Control)
  {
    c.required && Trim(c.value) == ""
  }

  predicate FailsEmail(c: Control)
  {
    var v := Trim(c.value);
    c.controlType == "email" && v != "" && !IsEmailAddress(v)
  }

  predicate FailsMinLength(c: Control)
  {
    var v := Trim(c.value);
    c.minLength.Some? && v != "" && |v| < c.minLength.value
  }

  /** The rules the value fails, in the order they are checked. */
  function Failures(c: Control): (r: seq<Rule>)
    ensures |r| <= 3
  {
    (if FailsRequired(c) then [Required] else [])
    + (if FailsEmail(c) then [Email] else [])
    + (if FailsMinLength(c) then [MinLength(c.minLength.value)] else [])
  }

  /** The rule whose message the validators leave on the field: the last one
      that fails, or None when the value passes. */
  function LastFailure(c: Control): Option<Rule>
  {
    if FailsMinLength(c) then Some(MinLength(c.minLength.value))
    else if FailsEmail(c) then Some(Email)
    else if FailsRequired(c) then Some(Required)
    else None
  }

  /** Whether a control passes every rule. */
  predicate Passes(c: Control)
  {
    LastFailure(c).None?
  }

  /** The value passes exactly when no rule fails, and otherwise the rule
      reported is the last of the failures. */
  lemma LastFailureIsLast(c: Control)
    ensures LastFailure(c).None? <==> Failures(c) == []
    ensures LastFailure(c).Some? ==> LastFailure(c).value == Failures(c)[|Failures(c)| - 1]
  {
  }

  /** An empty required value fails the required rule and nothing else. */
  lemma EmptyRequiredFailsOnlyRequired(c: Control)
    requires c.required && Trim(c.value) == ""
    ensures Failures(c) == [Required]
  {
  }

  /** An empty optional value passes: the other rules are skipped. */
  lemma EmptyOptionalPasses(c: Control)
    requires !c.required && Trim(c.value) == ""
    ensures Failures(c) == []
  {
  }

  /** Whether a rule fails depends on the value only through its trimmed form. */
  lemma FailuresSeeTrimmedValue(c: Control)
    ensures Failures(c) == Failures(c.(value := Trim(c.value)))
  {
    TrimIdempotent(c.value);
  }

  /** A failed length rule is the last failure, so its message is the one shown. */
  lemma MinLengthFailsLast(c: Control)
    requires c.minLength.Some? && Trim(c.value) != "" && |Trim(c.value)| < c.minLength.value
    ensures LastFailure(c) == Some(MinLength(c.minLength.value))
  {
  }
}

=== FILE: image_optimizer.dfy ===
/** The image optimiser: it loads each image source at most once, keeping
    the set of sources loaded so far, preloads the critical images, and
    lists the `<source>` entries of a responsive picture. */
module ImageOptimizer {
  import opened Js
  import opened Dom

  const LOADING := "loading"
  const LOADED := "loaded"
  const ERROR := "error"
  const ERROR_ALT := "Image failed to load"
  const ERROR_PLACEHOLDER :=
    "data:image/svg+xml;base64,PHN2ZyB3aWR0aD0iMjAwIiBoZWlnaHQ9IjIwMCIgdmlld0JveD0iMCAwIDIwMCAyMDAiIGZpbGw9Im5vbmUiIHhtbG5zPSJodHRwOi8vd3d3LnczLm9yZy8yMDAwL3N2ZyI+CjxyZWN0IHdpZHRoPSIyMDAiIGhlaWdodD0iMjAwIiBmaWxsPSIjMWEyQTNEIi8+CjxwYXRoIGQ9Ik04NSA4NUgxMTVWMTIwSDg1Vjg1WiIgZmlsbD0iIzM0NDI1NSIvPgo8cGF0aCBkPSJNODUgMTA1SDEwNUwxMTUgODVWMTA1SDg1WiIgZmlsbD0iIzM0NDI1NSIvPgo8L3N2Zz4K"

  // ---------------------------------------------------------------- responsive sources

  /** A `<source>` entry: its `srcset` and MIME type. */
  datatype Source = Source(srcset: string, mimeType: string)

  const DEFAULT_FORMATS := ["webp", "avif", "jpg"]

  /** The MIME type of an image format: `jpg` is `image/jpeg`, any other
      format names its own type. */
  function MimeType(format: string): (r: string)
    ensures IsPrefix("image/", r)
    ensures format == "jpg" ==> r == "image/jpeg"
    ensures format != "jpg" ==> r[6..] == format
  {
    "image/" + (if format == "jpg" then "jpeg" else format)
  }

  /** The formats a call names, or the default ones when it leaves them out. */
  function FormatsOrDefault(formats: Option<seq<string>>): (r: seq<string>)
    ensures formats.None? ==> r == DEFAULT_FORMATS
    ensures formats.Some? ==> r == formats.value
  {
    if formats.Some? then formats.value else DEFAULT_FORMATS
  }

  /** `generateResponsiveSources(baseSrc, formats)`: one entry per format,
      in the same order, each naming `<base>.<format>`; without formats, one
      entry each for WebP, AVIF and JPEG. */
  method GenerateResponsiveSources(baseSrc: string, formats: Option<seq<string>>) returns (sources: seq<Source>)
    ensures var fs := FormatsOrDefault(formats);
      && |sources| == |fs|
      && forall i :: 0 <= i < |fs| ==> sources[i] == Source(baseSrc + "." + fs[i], MimeType(fs[i]))
    ensures formats.None? ==> [sources[0].mimeType, sources[1].mimeType, sources[2].mimeType] == ["image/webp", "image/avif", "image/jpeg"]
  {
    var fs := FormatsOrDefault(formats);
    sources := [];
    var i := 0;
    while i < |fs|
      invariant i <= |fs| && |sources| == i
      invariant forall k :: 0 <= k < i ==> sources[k] == Source(baseSrc + "." + fs[k], MimeType(fs[k]))
    {
      var format := fs[i];
      sources := sources + [Source(baseSrc + "." + format, MimeType(format))];
      i := i + 1;
    }
    if formats.None? {
      assert MimeType("webp") == "image/webp" && MimeType("avif") == "image/avif";
    }
  }

  // ---------------------------------------------------------------- loading

  /** `img.dataset.src || img.src`: the source an image is loaded from. */
  function SourceOf(dataSrc: Option<string>, src: string): (r: string)
    ensures Present(dataSrc) ==> r == dataSrc.value
    ensures !Present(dataSrc) ==> r == src
  {
    if Present(dataSrc) then dataSrc.value else src
  }

  /** Whether `preloadCriticalImages` preloads a source: it is not empty,
      was not loaded when the preloading started, and the browser loads it. */
  predicate Preloads(source: string, loaded: set<string>, loads: string -> bool)
  {
    source != "" && source !in loaded && loads(source)
  }

  /** `ImageOptimizer`: the sources loaded so far and the images the
      intersection observer watches. */
  class ImageOptimizer {
    var loadedImages: set<string>
    var observed: set<Img>

    constructor()
      ensures loadedImages == {} && observed == {}
    {
      loadedImages := {};
      observed := {};
    }

    /** `optimizeExistingImages`: every image whose current source has not
        been loaded is observed. */
    method OptimizeExistingImages(images: seq<Img>)
      modifies this
      ensures loadedImages == old(loadedImages)
      ensures forall img :: img in observed <==>
        img in old(observed) || (img in images && img.src !in loadedImages)
    {
      var i := 0;
      while i < |images|
        invariant i <= |images| && loadedImages == old(loadedImages)
        invariant forall img :: img in observed <==>
          img in old(observed) || (img in images[..i] && img.src !in loadedImages)
      {
        var img := images[i];
        if img.src !in loadedImages {
          observed := observed + {img};
        }
        assert images[..i + 1] == images[..i] + [img];
        i := i + 1;
      }
      assert images[..i] == images;
    }

    /** `loadImage(img)`; `loads` says whether the browser manages to load
        the source. A source already loaded is not loaded again; a failed
        load keeps the `loading` class beside `error`. */
    method LoadImage(img: Img, loads: bool)
      modifies this, img
      ensures observed == old(observed)
      ensures var source := SourceOf(old(img.dataSrc), old(img.src));
        loadedImages == if source !in old(loadedImages) && loads then old(loadedImages) + {source} else old(loadedImages)
      ensures AfterLoad(img, old(Snap(img)), old(loadedImages), loads)
    {
      var source := SourceOf(img.dataSrc, img.src);
      if source in loadedImages {
        return;
      }
      img.classes := img.classes + {LOADING};
      if loads {
        img.src := source;
        img.classes := img.classes - {LOADING} + {LOADED};
        loadedImages := loadedImages + {source};
      } else {
        HandleImageError(img);
      }
    }

    /** `handleImageError`: the `error` class, the fixed placeholder and
        its alt text. */
    static method HandleImageError(img: Img)
      modifies img
      ensures Snap(img) == old(Snap(img)).(src := ERROR_PLACEHOLDER, alt := ERROR_ALT, classes := old(img.classes) + {ERROR})
    {
      img.classes := img.classes + {ERROR};
      img.src := ERROR_PLACEHOLDER;
      img.alt := ERROR_ALT;
    }

    /** `preloadCriticalImages` over the critical images. The sources are
        checked against the set as it was when preloading started, since
        the loads finish only after the loop; an empty or already loaded
        source is skipped. */
    method PreloadCriticalImages(images: seq<Img>, loads: string -> bool)
      modifies this, set img | img in images
      ensures observed == old(observed)
      ensures forall img :: img in images ==> Preloaded(img, old(Snap(img)), old(loadedImages), loads)
      ensures loadedImages == old(loadedImages) +
        set img | img in images && Preloads(SourceOf(old(img.dataSrc), old(img.src)), old(loadedImages), loads)
          :: SourceOf(old(img.dataSrc), old(img.src))
    {
      var added := PreloadAll(images, loadedImages, loads);
      loadedImages := loadedImages + added;
    }

    /** The loop of `preloadCriticalImages`: the sources it preloads, which
        are exactly the sources of the images that `Preloads` admits. */
    static method PreloadAll(images: seq<Img>, loaded: set<string>, loads: string -> bool) returns (added: set<string>)
      modifies set img | img in images
      ensures forall img :: img in images ==> Preloaded(img, old(Snap(img)), loaded, loads)
      ensures added == set img | img in images && Preloads(SourceOf(old(img.dataSrc), old(img.src)), loaded, loads)
        :: SourceOf(old(img.dataSrc), old(img.src))
    {
      ghost var before := map img | img in images :: Snap(img);
      ghost var done: set<Img> := {};
      added := {};
      var i := 0;
      while i < |images|
        invariant i <= |images|
        invariant forall img :: img in images ==> before[img] == old(Snap(img))
        invariant forall j :: 0 <= j < i ==> images[j] in done
        invariant forall img :: img in images ==>
          if img in done then Preloaded(img, before[img], loaded, loads) else Snap(img) == before[img]
        invariant forall img :: img in done ==> img in images
        invariant added == PreloadedSources(done, before, loaded, loads)
      {
        var img := images[i];
        var source := PreloadOne(img, loaded, loads);
        assert source == SourceOf(before[img].dataSrc, before[img].src);
        if Preloads(source, loaded, loads) {
          added := added + {source};
        }
        done := done + {img};
        i := i + 1;
      }
      assert done == set img | img in images;
    }

    /** One critical image: its source is set once it has loaded. Doing it
        twice is doing it once. */
    static method PreloadOne(img: Img, loaded: set<string>, loads: string -> bool) returns (source: string)
      modifies img
      ensures source == SourceOf(old(img.dataSrc), old(img.src))
      ensures Preloaded(img, old(Snap(img)), loaded, loads)
      ensures forall before :: old(Preloaded(img, before, loaded, loads)) ==> Preloaded(img, before, loaded, loads)
    {
      source := SourceOf(img.dataSrc, img.src);
      if Preloads(source, loaded, loads) {
        img.src := source;
      }
    }
  }

  /** An image after `loadImage`, given how it was before and the sources
      loaded so far: untouched when its source was loaded already; otherwise
      showing its source with the class `loaded`, or the error placeholder
      with the classes `loading` and `error`; nothing else changes. */
  ghost predicate AfterLoad(img: Img, before: Snapshot, loaded: set<string>, loads: bool)
    reads img
  {
    var source := SourceOf(before.dataSrc, before.src);
    if source in loaded then Snap(img) == before
    else if loads then Snap(img) == before.(src := source, classes := before.classes - {LOADING} + {LOADED})
    else Snap(img) == before.(src := ERROR_PLACEHOLDER, alt := ERROR_ALT, classes := before.classes + {LOADING, ERROR})
  }

  /** The sources preloaded from some images, given how each was before. */
  ghost function PreloadedSources(images: set<Img>, before: map<Img, Snapshot>, loaded: set<string>,
                                  loads: string -> bool): set<string>
    requires images <= before.Keys
  {
    set img | img in images && Preloads(SourceOf(before[img].dataSrc, before[img].src), loaded, loads)
      :: SourceOf(before[img].dataSrc, before[img].src)
  }

  /** An image as `preloadCriticalImages` leaves it, given how it was
      before: only its source may change, to the one it was preloaded from. */
  ghost predicate Preloaded(img: Img, before: Snapshot, loaded: set<string>, loads: string -> bool)
    reads img
  {
    var source := SourceOf(before.dataSrc, before.src);
    Snap(img) == before.(src := if Preloads(source, loaded, loads) then source else before.src)
  }
}

=== FILE: js.dfy ===
/** The parts of the JavaScript runtime that the site's scripts lean on, stated as
    functions over Dafny values: optional values, truthiness, and the String
    methods `includes`, `indexOf`, `startsWith`, `endsWith`, `toLowerCase`, `trim`,
    `split` and `join`.  Strings are `seq<char>`; `toLowerCase` is modelled on ASCII
    letters only. */
module Js {

  datatype Option<+T> = None | Some(value: T)

  /** A JSON-like value, as stored in the objects the scripts copy and filter. */
  datatype Value = Undefined | Null | Bool(b: bool) | Num(n: int) | Str(s: string)

  /** JavaScript truthiness: `undefined`, `null`, `false`, `0` and `''` are falsy. */
  predicate Truthy(v: Value)
  {
    match v
    case Undefined => false
    case Null => false
    case Bool(b) => b
    case Num(n) => n != 0
    case Str(s) => s != ""
  }

  // ---------------------------------------------------------------- substrings

  predicate IsPrefix(p: string, s: string)
  {
    |p| <= |s| && s[..|p|] == p
  }

  predicate IsSuffix(p: string, s: string)
  {
    |p| <= |s| && s[|s| - |p|..] == p
  }

  /** `s.includes(t)` */
  predicate Contains(s: string, t: string)
  {
    exists i :: 0 <= i <= |s| && IsPrefix(t, s[i..])
  }

  lemma ContainsAt(s: string, t: string, i: nat)
    requires i <= |s| && IsPrefix(t, s[i..])
    ensures Contains(s, t)
  {
  }

  lemma ContainsSelf(s: string)
    ensures Contains(s, s)
  {
    assert IsPrefix(s, s[0..]);
  }

  /** A string contains its suffix. */
  lemma ContainsSuffix(s: string, t: string)
    ensures Contains(s + t, t)
  {
    assert (s + t)[|s|..] == t;
    ContainsAt(s + t, t, |s|);
  }

  /** Whatever `s` contains, `s + u` and `u + s` contain too. */
  lemma ContainsGrows(s: string, t: string, u: string)
    requires Contains(s, t)
    ensures Contains(s + u, t) && Contains(u + s, t)
  {
    var i :| 0 <= i <= |s| && IsPrefix(t, s[i..]);
    assert (s + u)[i..][..|t|] == s[i..][..|t|];
    ContainsAt(s + u, t, i);
    assert (u + s)[|u| + i..] == s[i..];
    ContainsAt(u + s, t, |u| + i);
  }

  /** `s.indexOf(t, k)`: the first position at or after `k` where `t` occurs, or -1. */
  function IndexFrom(s: string, t: string, k: nat): (r: int)
    requires k <= |s|
    ensures r == -1 || k <= r <= |s|
    ensures r >= 0 ==> IsPrefix(t, s[r..])
    ensures forall j :: k <= j <= |s| && (r < 0 || j < r) ==> !IsPrefix(t, s[j..])
    decreases |s| - k
  {
    if IsPrefix(t, s[k..]) then k
    else if k == |s| then -1
    else IndexFrom(s, t, k + 1)
  }

  /** `s.indexOf(t)` */
  function IndexOf(s: string, t: string): (r: int)
    ensures r == -1 || 0 <= r <= |s| - |t|
    ensures r >= 0 ==> IsPrefix(t, s[r..])
  {
    IndexFrom(s, t, 0)
  }

  /** `indexOf` finds the first occurrence, and finds one exactly when there is one. */
  lemma IndexOfFirst(s: string, t: string)
    ensures IndexOf(s, t) == -1 <==> !Contains(s, t)
    ensures forall j :: 0 <= j < IndexOf(s, t) ==> !IsPrefix(t, s[j..])
  {
  }

  predicate StartsWith(s: string, p: string) { IsPrefix(p, s) }

  predicate EndsWith(s: string, p: string) { IsSuffix(p, s) }

  // ---------------------------------------------------------------- case

  function LowerChar(c: char): char
  {
    if 'A' <= c <= 'Z' then (c as int + 32) as char else c
  }

  function UpperChar(c: char): char
  {
    if 'a' <= c <= 'z' then (c as int - 32) as char else c
  }

  /** `s.toLowerCase()` on ASCII letters. */
  function Lower(s: string): (r: string)
    ensures |r| == |s|
    ensures forall i :: 0 <= i < |s| ==> r[i] == LowerChar(s[i])
  {
    if s == [] then [] else [LowerChar(s[0])] + Lower(s[1..])
  }

  lemma {:induction false} LowerIdempotent(s: string)
    ensures Lower(Lower(s)) == Lower(s)
  {
    if s != [] {
      LowerIdempotent(s[1..]);
    }
  }

  lemma LowerAppend(s: string, t: string)
    ensures Lower(s + t) == Lower(s) + Lower(t)
  {
    assert forall i :: 0 <= i < |s + t| ==> Lower(s + t)[i] == (Lower(s) + Lower(t))[i];
  }

  /** An occurrence of `t` starts with `t`'s first character. */
  lemma ContainsFirst(s: string, t: string)
    ensures Contains(s, t) && |t| > 0 ==> t[0] in s
  {
    if Contains(s, t) && |t| > 0 {
      var i :| 0 <= i <= |s| && IsPrefix(t, s[i..]);
      assert s[i..][0] == s[i];
    }
  }

  /** Lowercasing keeps every occurrence. */
  lemma ContainsLower(s: string, t: string)
    requires Contains(s, t)
    ensures Contains(Lower(s), Lower(t))
  {
    var i :| 0 <= i <= |s| && IsPrefix(t, s[i..]);
    assert s[i..i + |t|] == t;
    assert Lower(s)[i..][..|t|] == Lower(s[i..i + |t|]);
    ContainsAt(Lower(s), Lower(t), i);
  }

  // ---------------------------------------------------------------- whitespace

  /** The characters ECMAScript counts as white space or line terminators: what
      `trim` removes and what the regular-expression class `\s` matches. */
  predicate IsSpace(c: char)
  {
    c == ' ' || c == '\t' || c == '\n' || c == '\r' || c == '\U{000B}' || c == '\U{000C}'
    || c == '\U{00A0}' || c == '\U{1680}' || ('\U{2000}' <= c <= '\U{200A}')
    || c == '\U{2028}' || c == '\U{2029}' || c == '\U{202F}' || c == '\U{205F}'
    || c == '\U{3000}' || c == '\U{FEFF}'
  }

  /** The regular-expression class `\w`. */
  predicate IsWordChar(c: char)
  {
    ('a' <= c <= 'z') || ('A' <= c <= 'Z') || ('0' <= c <= '9') || c == '_'
  }

  /** `s.trimStart()` */
  function TrimStart(s: string): string
  {
    if s != [] && IsSpace(s[0]) then TrimStart(s[1..]) else s
  }

  /** `s.trimEnd()` */
  function TrimEnd(s: string): string
  {
    if s != [] && IsSpace(s[|s| - 1]) then TrimEnd(s[..|s| - 1]) else s
  }

  /** `s.trim()` */
  function Trim(s: string): string
  {
    TrimEnd(TrimStart(s))
  }

  /** `trimStart` drops exactly the leading white space. */
  lemma {:induction false} TrimStartSpec(s: string)
    ensures IsSuffix(TrimStart(s), s)
    ensures TrimStart(s) == [] || !IsSpace(TrimStart(s)[0])
    ensures forall i :: 0 <= i < |s| - |TrimStart(s)| ==> IsSpace(s[i])
  {
    if s != [] && IsSpace(s[0]) {
      var t := s[1..];
      TrimStartSpec(t);
      var r := TrimStart(t);
      assert TrimStart(s) == r;
      assert s[|s| - |r|..] == t[|t| - |r|..];
      forall i | 0 <= i < |s| - |r|
        ensures IsSpace(s[i])
      {
        if i > 0 {
          assert s[i] == t[i - 1];
        }
      }
    }
  }

  /** `trimEnd` drops exactly the trailing white space. */
  lemma {:induction false} TrimEndSpec(s: string)
    ensures IsPrefix(TrimEnd(s), s)
    ensures TrimEnd(s) == [] || !IsSpace(TrimEnd(s)[|TrimEnd(s)| - 1])
    ensures forall i :: |TrimEnd(s)| <= i < |s| ==> IsSpace(s[i])
  {
    if s != [] && IsSpace(s[|s| - 1]) {
      TrimEndSpec(s[..|s| - 1]);
    }
  }

  /** `trim` keeps a middle part that neither starts nor ends with white space,
      and is empty exactly when the whole string is white space. */
  lemma TrimSpec(s: string)
    ensures |Trim(s)| <= |s|
    ensures Trim(s) == [] || (!IsSpace(Trim(s)[0]) && !IsSpace(Trim(s)[|Trim(s)| - 1]))
    ensures Trim(s) == [] <==> forall i :: 0 <= i < |s| ==> IsSpace(s[i])
  {
    var t := TrimStart(s);
    TrimStartSpec(s);
    TrimEndSpec(t);
    var r := TrimEnd(t);
    // a non-empty `t` starts with a non-space, which `TrimEnd` keeps
    assert t != [] ==> r != [] && r[0] == t[0] == s[|s| - |t|];
  }

  lemma TrimIdempotent(s: string)
    ensures Trim(Trim(s)) == Trim(s)
  {
    var r := Trim(s);
    TrimSpec(s);
    if r != [] {
      assert TrimStart(r) == r;
      assert TrimEnd(r) == r;
    }
  }

  // ---------------------------------------------------------------- split / join

  /** `parts.join(sep)` */
  function Join(parts: seq<string>, sep: string): string
  {
    if |parts| == 0 then ""
    else if |parts| == 1 then parts[0]
    else parts[0] + sep + Join(parts[1..], sep)
  }

  /** `s.split(sep)` for a non-empty separator string: the pieces between the
      occurrences of `sep` found left to right without overlap. */
  function Split(s: string, sep: string): (r: seq<string>)
    requires |sep| > 0
    ensures |r| >= 1
    decreases |s|
  {
    var i := IndexOf(s, sep);
    if i < 0 then [s] else [s[..i]] + Split(s[i + |sep|..], sep)
  }

  /** `s.split(c)[0]` for a one-character separator: the longest prefix of
      `s` without `c`, which ends at the first `c` or at the end of `s`. */
  lemma SplitFirstPiece(s: string, c: char)
    ensures var p := Split(s, [c])[0];
      IsPrefix(p, s) && c !in p && (|p| == |s| || s[|p|] == c)
  {
    var i := IndexOf(s, [c]);
    IndexOfFirst(s, [c]);
    if i < 0 {
      forall j | 0 <= j < |s|
        ensures s[j] != c
      {
        assert s[j..][..1] == [s[j]];
      }
    } else {
      assert s[i..][..1] == [c];
      forall j | 0 <= j < i
        ensures s[..i][j] != c
      {
        assert s[j..][..1] == [s[j]];
      }
    }
  }

  /** The number of occurrences of a non-empty `q` in `s`, found left to right
      without overlap: the length of what a global match returns. */
  function Occurrences(s: string, q: string): nat
    requires |q| > 0
    decreases |s|
  {
    var i := IndexOf(s, q);
    if i < 0 then 0 else 1 + Occurrences(s[i + |q|..], q)
  }

  lemma OccurrencesZero(s: string, q: string)
    requires |q| > 0
    ensures Occurrences(s, q) == 0 <==> !Contains(s, q)
  {
    IndexOfFirst(s, q);
  }

  lemma {:induction false} SplitCount(s: string, sep: string)
    requires |sep| > 0
    ensures |Split(s, sep)| == Occurrences(s, sep) + 1
    decreases |s|
  {
    var i := IndexOf(s, sep);
    if i >= 0 {
      var rest := s[i + |sep|..];
      SplitCount(rest, sep);
      assert |Split(s, sep)| == 1 + |Split(rest, sep)|;
    }
  }

  /** No piece joined contains the separator's first character. */
  predicate FreeOf(parts: seq<string>, c: char)
  {
    forall k :: 0 <= k < |parts| ==> c !in parts[k]
  }

  lemma NoOccurrenceWithout(s: string, sep: string)
    requires |sep| > 0 && sep[0] !in s
    ensures IndexOf(s, sep) == -1
  {
  }

  /** Splitting a joined list at its separator gives the list back, provided no
      piece contains the separator's first character. */
  lemma {:induction false} SplitJoin(parts: seq<string>, sep: string)
    requires |sep| > 0 && |parts| > 0
    requires FreeOf(parts, sep[0])
    ensures Split(Join(parts, sep), sep) == parts
    decreases |parts|
  {
    if |parts| == 1 {
      NoOccurrenceWithout(parts[0], sep);
    } else {
      var s := Join(parts, sep);
      var p := parts[0];
      var tail := Join(parts[1..], sep);
      assert s == p + sep + tail;
      assert IsPrefix(sep, s[|p|..]) by {
        assert s[|p|..][..|sep|] == sep;
      }
      ContainsAt(s, sep, |p|);
      IndexOfFirst(s, sep);
      var i := IndexOf(s, sep);
      assert i == |p|;
      assert s[|p| + |sep|..] == tail;
      assert s[..|p|] == p;
      assert Split(s, sep) == [p] + Split(tail, sep);
      assert FreeOf(parts[1..], sep[0]);
      SplitJoin(parts[1..], sep);
    }
  }

  /** `path.split('/').pop()`: the text after the last '/'. */
  function LastSegment(path: string): (r: string)
    ensures '/' !in r
    ensures IsSuffix(r, path)
    ensures |r| < |path| ==> path[|path| - |r| - 1] == '/'
    decreases |path|
  {
    if path == [] then []
    else if path[|path| - 1] == '/' then []
    else LastSegment(path[..|path| - 1]) + [path[|path| - 1]]
  }

  // ---------------------------------------------------------------- numbers

  function DigitChar(d: nat): char
    requires d < 10
  {
    "0123456789"[d]
  }

  /** `String(n)` for a natural number. */
  function NatToString(n: nat): (r: string)
    ensures |r| >= 1
    ensures forall i :: 0 <= i < |r| ==> '0' <= r[i] <= '9'
  {
    if n < 10 then [DigitChar(n)] else NatToString(n / 10) + [DigitChar(n % 10)]
  }

  lemma ModBelow(a: int, n: int)
    requires 0 <= a < n
    ensures a % n == a
  {
  }

  lemma ModSelf(n: int)
    requires n > 0
    ensures n % n == 0
  {
  }

  lemma ModShift(a: int, n: int)
    requires 0 <= a < n
    ensures (a + n) % n == a
  {
  }

  /** `xs.map(f)`, built from the end so that a loop over a prefix extends it. */
  function Map<A, B>(f: A -> B, xs: seq<A>): (r: seq<B>)
    ensures |r| == |xs|
  {
    if xs == [] then [] else Map(f, xs[..|xs| - 1]) + [f(xs[|xs| - 1])]
  }

  lemma {:induction false} MapPointwise<A, B>(f: A -> B, xs: seq<A>)
    ensures forall k :: 0 <= k < |xs| ==> Map(f, xs)[k] == f(xs[k])
  {
    if xs != [] {
      var init := xs[..|xs| - 1];
      MapPointwise(f, init);
      assert forall k :: 0 <= k < |init| ==> init[k] == xs[k];
    }
  }

  /** `xs.every(p)`, built from the end. */
  predicate Every<A>(p: A -> bool, xs: seq<A>)
  {
    xs == [] || (Every(p, xs[..|xs| - 1]) && p(xs[|xs| - 1]))
  }

  lemma {:induction false} EveryPointwise<A>(p: A -> bool, xs: seq<A>)
    ensures Every(p, xs) <==> forall k :: 0 <= k < |xs| ==> p(xs[k])
  {
    if xs != [] {
      var init := xs[..|xs| - 1];
      EveryPointwise(p, init);
      assert forall k :: 0 <= k < |init| ==> init[k] == xs[k];
    }
  }

  /** `xs.slice(0, n)` */
  function Take<T>(xs: seq<T>, n: nat): (r: seq<T>)
    ensures |r| == if |xs| <= n then |xs| else n
    ensures r == xs[..|r|]
  {
    if |xs| <= n then xs else xs[..n]
  }
}

=== FILE: lazy_loading.dfy ===
/** The lazy-loading manager: images wait with a placeholder and the
    `lazy-loading` class until they come near the viewport, then take their
    `data-src` (and `data-srcset`) once loaded, or a fallback when loading
    fails. */
module LazyLoading {
  import opened Js
  import opened Dom

  const PLACEHOLDER :=
    "data:image/svg+xml;base64,PHN2ZyB3aWR0aD0iMSIgaGVpZ2h0PSIxIiB4bWxucz0iaHR0cDovL3d3dy53My5vcmcvMjAwMC9zdmciPjwvc3ZnPg=="
  const ERROR_IMAGE := "/img/image-error.jpg"
  const LOADING := "lazy-loading"
  const LOADED := "lazy-loaded"
  const FAILED := "lazy-error"
  const SKIPPED := "lazy-skipped"

  // ---------------------------------------------------------------- pure parts

  /** The source an image shows until it is loaded: its own, or the
      placeholder when it has none. */
  function Placeheld(src: string): (r: string)
    ensures r != ""
    ensures src != "" ==> r == src
  {
    if src == "" then PLACEHOLDER else src
  }

  /** Giving the placeholder twice changes nothing. */
  lemma PlaceheldIdempotent(src: string)
    ensures Placeheld(Placeheld(src)) == Placeheld(src)
  {
  }

  /** The source `handleImageError` switches to: the fallback when there is
      one that differs from `current`, else the error image. `current` is
      the image's `src` property, which is its `src` attribute resolved
      against the document's URL; the fallback is the `data-fallback` text
      as written. */
  function ErrorSource(current: string, fallback: Option<string>): string
  {
    if Present(fallback) && fallback.value != current then fallback.value else ERROR_IMAGE
  }

  /** The new source differs from the image's current `src` property unless
      it is the error image; a fallback equal to that property gives way to
      the error image. */
  lemma ErrorSourceSpec(current: string, fallback: Option<string>)
    ensures ErrorSource(current, fallback) == current ==> current == ERROR_IMAGE
    ensures ErrorSource(current, fallback) == ERROR_IMAGE || (Present(fallback) && ErrorSource(current, fallback) == fallback.value)
    ensures Present(fallback) && fallback.value == current ==> ErrorSource(current, fallback) == ERROR_IMAGE
    ensures !Present(fallback) ==> ErrorSource(current, fallback) == ERROR_IMAGE
  {
  }

  /** An image that had no source of its own still shows the placeholder
      when its lazy load fails, and the placeholder is a `data:` URL, which
      resolves to itself; so a fallback equal to the `data-src` that just
      failed is tried again. */
  lemma FailedDataSrcTriedAgain(dataSrc: string, resolve: string -> string)
    requires resolve(PLACEHOLDER) == PLACEHOLDER
    requires dataSrc != "" && dataSrc != PLACEHOLDER
    ensures ErrorSource(resolve(Placeheld("")), Some(dataSrc)) == dataSrc
  {
  }

  /** A relative fallback is compared with the resolved URL, so it is used
      even when it is the very text of the image's `src` attribute. */
  lemma RelativeFallbackKept(src: string, resolve: string -> string)
    requires src != "" && resolve(src) != src
    ensures ErrorSource(resolve(src), Some(src)) == src
  {
  }

  /** A box in viewport coordinates. */
  datatype Rect = Rect(top: int, left: int, bottom: int, right: int)

  /** Two boxes meet when they overlap or touch. */
  predicate Meets(a: Rect, b: Rect)
  {
    a.top <= b.bottom && b.top <= a.bottom && a.left <= b.right && b.left <= a.right
  }

  /** A box grown by `margin` on every side. */
  function Grown(b: Rect, margin: nat): Rect
  {
    Rect(b.top - margin, b.left - margin, b.bottom + margin, b.right + margin)
  }

  /** `isInViewport(element)` for the element's bounding box and the
      window's inner size. */
  function IsInViewport(rect: Rect, innerWidth: int, innerHeight: int): bool
  {
    rect.top <= innerHeight + 200 && rect.bottom >= -200 && rect.left <= innerWidth + 200 && rect.right >= -200
  }

  /** In view exactly when the box meets the window grown by 200 pixels on
      every side; the margin only widens what counts. */
  lemma IsInViewportSpec(rect: Rect, innerWidth: int, innerHeight: int)
    ensures IsInViewport(rect, innerWidth, innerHeight) <==> Meets(rect, Grown(Rect(0, 0, innerHeight, innerWidth), 200))
    ensures Meets(rect, Rect(0, 0, innerHeight, innerWidth)) ==> IsInViewport(rect, innerWidth, innerHeight)
  {
  }

  // ---------------------------------------------------------------- manager

  /** An image as `initializeImages` leaves it, given how it was before:
      only its source and classes change. */
  ghost predicate Prepared(img: Img, before: Snapshot)
    reads img
  {
    Snap(img) == before.(src := Placeheld(before.src), classes := before.classes + {LOADING})
  }

  /** An image as `enableDataSaver` leaves it, given how it was before. */
  ghost predicate Saving(img: Img, before: Snapshot)
    reads img
  {
    var decorative := Present(before.decorative);
    Snap(img) == before.(dataSrc := if Present(before.dataSaver) then before.dataSaver else before.dataSrc,
                         src := if decorative then PLACEHOLDER else before.src,
                         classes := if decorative then before.classes + {SKIPPED} else before.classes)
  }

  /** An image after `applyImage`, given how it was before: the loaded
      sources go in, the class becomes `lazy-loaded`, the `data-src` and
      `data-srcset` attributes are dropped, and nothing else changes. */
  ghost predicate Applied(img: Img, before: Snapshot, src: Option<string>, srcset: Option<string>)
    reads img
  {
    Snap(img) == before.(src := AttributeText(src),
                         srcset := if Present(srcset) then srcset.value else before.srcset,
                         classes := before.classes - {LOADING} + {LOADED},
                         dataSrc := None, dataSrcset := None)
  }

  /** An image after `handleImageError`, given how it was before: the
      fallback or the error image, the class `lazy-error` in place of
      `lazy-loading`, and nothing else changes. */
  ghost predicate Failed(img: Img, before: Snapshot, resolve: string -> string)
    reads img
  {
    Snap(img) == before.(src := ErrorSource(resolve(before.src), before.dataFallback),
                         classes := before.classes - {LOADING} + {FAILED})
  }

  /** An image after `loadImage`, given how it was before: untouched when it
      was loaded already, otherwise applied from its `data-*` attributes or
      failed. */
  ghost predicate AfterLoad(img: Img, before: Snapshot, wasLoaded: bool, loads: bool, resolve: string -> string)
    reads img
  {
    if wasLoaded then Snap(img) == before
    else if loads then Applied(img, before, before.dataSrc, before.dataSrcset)
    else Failed(img, before, resolve)
  }

  /** `LazyLoadingManager`: the images loaded so far and the images the
      intersection observer watches. */
  class LazyLoadingManager {
    var loadedImages: set<Img>
    var observed: set<Img>

    constructor()
      ensures loadedImages == {} && observed == {}
    {
      loadedImages := {};
      observed := {};
    }

    /** `initializeImages` over the `img[data-src]` elements: a placeholder
        for an image without a source, the loading class on every one, and
        every one observed. */
    method InitializeImages(images: seq<Img>)
      modifies this, set img | img in images
      ensures loadedImages == old(loadedImages)
      ensures forall img :: img in observed <==> img in old(observed) || img in images
      ensures forall img :: img in images ==> Prepared(img, old(Snap(img)))
    {
      ghost var before := map img | img in images :: Snap(img);
      ghost var done: set<Img> := {};
      var i := 0;
      while i < |images|
        invariant i <= |images|
        invariant loadedImages == old(loadedImages)
        invariant forall img :: img in images ==> before[img] == old(Snap(img))
        invariant forall j :: 0 <= j < i ==> images[j] in done
        invariant forall img :: img in observed <==> img in old(observed) || img in done
        invariant forall img :: img in images ==>
          if img in done then Prepared(img, before[img]) else Snap(img) == before[img]
        invariant forall img :: img in done ==> img in images
      {
        var img := images[i];
        Prepare(img);
        observed := observed + {img};
        done := done + {img};
        i := i + 1;
      }
    }

    /** One image of `initializeImages`; doing it twice is doing it once. */
    static method Prepare(img: Img)
      modifies img
      ensures Prepared(img, old(Snap(img)))
      ensures forall before :: old(Prepared(img, before)) ==> Prepared(img, before)
    {
      if img.src == "" {
        img.src := PLACEHOLDER;
      }
      img.classes := img.classes + {LOADING};
    }

    /** `loadImage(img)`; `loads` says whether the browser manages to load
        the image's `data-src`, and `resolve` is the document's URL
        resolution, through which the `src` property reads the attribute. */
    method LoadImage(img: Img, loads: bool, resolve: string -> string)
      modifies this, img
      ensures observed == old(observed)
      ensures loadedImages == if loads then old(loadedImages) + {img} else old(loadedImages)
      ensures AfterLoad(img, old(Snap(img)), old(img in loadedImages), loads, resolve)
    {
      if img in loadedImages {
        return;
      }
      var src := img.dataSrc;
      var srcset := img.dataSrcset;
      if loads {
        ApplyImage(img, src, srcset);
        loadedImages := loadedImages + {img};
      } else {
        HandleImageError(img, resolve);
      }
    }

    /** The observer's callback for an image that came into view: load it
        and stop watching it. */
    method OnIntersect(img: Img, loads: bool, resolve: string -> string)
      modifies this, img
      ensures observed == old(observed) - {img}
      ensures loadedImages == if loads then old(loadedImages) + {img} else old(loadedImages)
      ensures AfterLoad(img, old(Snap(img)), old(img in loadedImages), loads, resolve)
    {
      LoadImage(img, loads, resolve);
      observed := observed - {img};
    }

    /** `applyImage`. */
    static method ApplyImage(img: Img, src: Option<string>, srcset: Option<string>)
      modifies img
      ensures Applied(img, old(Snap(img)), src, srcset)
    {
      if Present(srcset) {
        img.srcset := srcset.value;
      }
      img.src := AttributeText(src);
      img.classes := img.classes - {LOADING} + {LOADED};
      img.dataSrc := None;
      img.dataSrcset := None;
    }

    /** `handleImageError`, which compares the fallback with the `src`
        property, `resolve(img.src)`. */
    static method HandleImageError(img: Img, resolve: string -> string)
      modifies img
      ensures Failed(img, old(Snap(img)), resolve)
    {
      img.classes := img.classes - {LOADING} + {FAILED};
      var fallback := img.dataFallback;
      if Present(fallback) && fallback.value != resolve(img.src) {
        img.src := fallback.value;
      } else {
        img.src := ERROR_IMAGE;
      }
    }

    /** `enableDataSaver`: the data-saver source replaces `data-src` where
        there is one, and decorative images get the placeholder and are
        marked skipped. */
    static method EnableDataSaver(images: seq<Img>)
      modifies set img | img in images
      ensures forall img :: img in images ==> Saving(img, old(Snap(img)))
    {
      ghost var before := map img | img in images :: Snap(img);
      ghost var done: set<Img> := {};
      var i := 0;
      while i < |images|
        invariant i <= |images|
        invariant forall img :: img in images ==> before[img] == old(Snap(img))
        invariant forall j :: 0 <= j < i ==> images[j] in done
        invariant forall img :: img in images ==>
          if img in done then Saving(img, before[img]) else Snap(img) == before[img]
        invariant forall img :: img in done ==> img in images
      {
        var img := images[i];
        SaveData(img);
        done := done + {img};
        i := i + 1;
      }
    }

    /** One image of `enableDataSaver`; doing it twice is doing it once. */
    static method SaveData(img: Img)
      modifies img
      ensures Saving(img, old(Snap(img)))
      ensures forall before :: old(Saving(img, before)) ==> Saving(img, before)
    {
      if Present(img.dataSaver) {
        img.dataSrc := img.dataSaver;
      }
      if Present(img.decorative) {
        img.src := PLACEHOLDER;
        img.classes := img.classes + {SKIPPED};
      }
    }

    /** `destroy`: the observer lets go of everything and the loaded set is
        emptied. */
    method Destroy()
      modifies this
      ensures loadedImages == {} && observed == {}
    {
      observed := {};
      loadedImages := {};
    }
  }
}

=== FILE: modern_core.dfy ===
/** The modern core: its theme manager (light, dark, or following the
    system), the registry of feature modules it loads at start-up, its
    error boundary and its navigation menu. */
module ModernCore {
  import opened Js

  // ---------------------------------------------------------------- themes

  const THEMES: seq<string> := ["light", "dark", "auto"]
  const THEME_KEY := "portfolio-theme"

  /** The position of a theme in `THEMES`, or -1 (`indexOf`). */
  function ThemeIndex(theme: string): (r: int)
    ensures -1 <= r < |THEMES|
    ensures r >= 0 ==> THEMES[r] == theme
    ensures r == -1 <==> theme !in THEMES
  {
    if theme == THEMES[0] then 0
    else if theme == THEMES[1] then 1
    else if theme == THEMES[2] then 2
    else -1
  }

  /** The theme `toggleTheme` moves to: the next one in the list, wrapping
      round, and the first for a theme not in the list. */
  function NextTheme(theme: string): string
  {
    THEMES[(ThemeIndex(theme) + 1) % |THEMES|]
  }

  /** Toggling cycles light, dark, auto, light; an unknown theme goes to
      light; three toggles come back to any listed theme. */
  lemma NextThemeCycles(theme: string)
    ensures NextTheme("light") == "dark" && NextTheme("dark") == "auto" && NextTheme("auto") == "light"
    ensures theme !in THEMES ==> NextTheme(theme) == "light"
    ensures NextTheme(theme) in THEMES
    ensures theme in THEMES ==> NextTheme(NextTheme(NextTheme(theme))) == theme
  {
  }

  /** The `data-theme` attribute a theme sets: `auto` follows the system's
      dark preference, any other theme is written as it is. */
  function DataTheme(theme: string, prefersDark: bool): string
  {
    if theme == "auto" then (if prefersDark then "dark" else "light") else theme
  }

  lemma DataThemeSpec(theme: string, prefersDark: bool)
    ensures theme == "auto" ==> (DataTheme(theme, prefersDark) == "dark" <==> prefersDark)
    ensures theme == "auto" ==> DataTheme(theme, prefersDark) in {"dark", "light"}
    ensures theme != "auto" ==> DataTheme(theme, prefersDark) == theme
  {
  }

  /** The theme a new manager starts from: the stored one when it is
      present and not empty, else `auto`. */
  function StartingTheme(store: map<string, string>): (r: string)
    ensures THEME_KEY in store && store[THEME_KEY] != "" ==> r == store[THEME_KEY]
    ensures (THEME_KEY !in store || store[THEME_KEY] == "") ==> r == "auto"
  {
    if THEME_KEY in store && store[THEME_KEY] != "" then store[THEME_KEY] else "auto"
  }

  /** `ModernThemeManager`: the current theme, the document's `data-theme`
      attribute, the local storage it persists to, and whether the system
      currently prefers a dark scheme. */
  class ThemeManager {
    var currentTheme: string
    var dataTheme: string
    var store: map<string, string>
    var prefersDark: bool

    /** The attribute always shows the current theme, and the current theme
        is always the stored one. */
    ghost predicate Valid()
      reads this
    {
      && dataTheme == DataTheme(currentTheme, prefersDark)
      && THEME_KEY in store && store[THEME_KEY] == currentTheme
    }

    constructor(store: map<string, string>, prefersDark: bool)
      ensures Valid()
      ensures currentTheme == StartingTheme(store) && this.prefersDark == prefersDark
      ensures this.store == store[THEME_KEY := StartingTheme(store)]
    {
      this.store := store;
      this.prefersDark := prefersDark;
      currentTheme := StartingTheme(store);
      dataTheme := DataTheme(StartingTheme(store), prefersDark);
      new;
      ApplyTheme(currentTheme);
    }

    /** `applyTheme`: sets the attribute, and always records and persists
        the theme. */
    method ApplyTheme(theme: string)
      modifies this
      ensures Valid()
      ensures currentTheme == theme && prefersDark == old(prefersDark)
      ensures dataTheme == DataTheme(theme, prefersDark)
      ensures store == old(store)[THEME_KEY := theme]
    {
      dataTheme := DataTheme(theme, prefersDark);
      currentTheme := theme;
      store := store[THEME_KEY := theme];
    }

    /** `toggleTheme`. */
    method ToggleTheme()
      modifies this
      ensures Valid()
      ensures currentTheme == NextTheme(old(currentTheme)) && prefersDark == old(prefersDark)
      ensures dataTheme == DataTheme(currentTheme, prefersDark)
      ensures store == old(store)[THEME_KEY := currentTheme]
    {
      var nextIndex := (ThemeIndex(currentTheme) + 1) % |THEMES|;
      ApplyTheme(THEMES[nextIndex]);
    }

    /** The media-query listener: the system preference changed; only an
        `auto` theme follows it. */
    method SystemThemeChanged(matches: bool)
      requires Valid()
      modifies this
      ensures Valid()
      ensures prefersDark == matches
      ensures currentTheme == old(currentTheme) && store == old(store)
      ensures old(currentTheme) != "auto" ==> dataTheme == old(dataTheme)
    {
      prefersDark := matches;
      if currentTheme == "auto" {
        dataTheme := if matches then "dark" else "light";
      }
    }
  }

  // ---------------------------------------------------------------- modules

  /** The modules `initializeModules` asks for, in order; they are also
      exactly the names `loadModule` knows. */
  const MODULE_NAMES: seq<string> :=
    ["animations", "lazyLoading", "analytics", "search", "contact", "portfolio", "blog", "pwa"]

  datatype LoadOutcome = Loaded | NotFound | ImportFailed

  /** `loadModule`: a name outside the module map throws `not found`; a
      known name loads unless its import fails (`imports` says which do). */
  function LoadModule(name: string, imports: string -> bool): (r: LoadOutcome)
    ensures r == NotFound <==> name !in MODULE_NAMES
    ensures r == Loaded <==> name in MODULE_NAMES && imports(name)
  {
    if name !in MODULE_NAMES then NotFound
    else if imports(name) then Loaded
    else ImportFailed
  }

  /** The names among the first `n` that load, in list order. */
  function LoadedNames(names: seq<string>, imports: string -> bool, n: nat): seq<string>
    requires n <= |names|
  {
    if n == 0 then []
    else LoadedNames(names, imports, n - 1)
         + (if LoadModule(names[n - 1], imports) == Loaded then [names[n - 1]] else [])
  }

  /** A name is kept exactly when it loads, and the kept names keep their
      relative order. */
  lemma {:induction false} LoadedNamesSpec(names: seq<string>, imports: string -> bool, n: nat)
    requires n <= |names|
    ensures forall x :: x in LoadedNames(names, imports, n) <==>
      x in names[..n] && LoadModule(x, imports) == Loaded
    ensures |LoadedNames(names, imports, n)| <= n
  {
    if n > 0 {
      LoadedNamesSpec(names, imports, n - 1);
      assert names[..n] == names[..n - 1] + [names[n - 1]];
    }
  }

  /** A module is registered exactly when its import succeeds; a failing
      one does not stop the others. */
  lemma ModulesRegistered(imports: string -> bool)
    ensures forall x :: x in LoadedNames(MODULE_NAMES, imports, |MODULE_NAMES|) <==>
      x in MODULE_NAMES && imports(x)
    ensures forall x :: x in MODULE_NAMES ==> LoadModule(x, imports) != NotFound
  {
    LoadedNamesSpec(MODULE_NAMES, imports, |MODULE_NAMES|);
    assert MODULE_NAMES[..|MODULE_NAMES|] == MODULE_NAMES;
  }

  /** `Map.set` on the keys in insertion order: a new key goes last, an
      existing one keeps its place. */
  function MapSet(keys: seq<string>, key: string): (r: seq<string>)
    ensures key in r && forall x :: x in r <==> x in keys || x == key
    ensures keys <= r
  {
    if key in keys then keys else keys + [key]
  }

  /** The module registry: the names in the `modules` map, in insertion
      order. */
  class Registry {
    var modules: seq<string>

    constructor()
      ensures modules == []
    {
      modules := [];
    }

    /** `initializeModules`: each listed module is loaded in turn, and the
        ones that load are set in the map. */
    method InitializeModules(imports: string -> bool)
      modifies this
      ensures forall x :: x in modules <==> x in old(modules) || (x in MODULE_NAMES && imports(x))
      ensures old(modules) == [] ==> modules == LoadedNames(MODULE_NAMES, imports, |MODULE_NAMES|)
    {
      ModulesRegistered(imports);
      ghost var start := modules;
      var i := 0;
      while i < |MODULE_NAMES|
        invariant i <= |MODULE_NAMES|
        invariant Registered(start, modules, imports, i)
      {
        var name := MODULE_NAMES[i];
        ghost var before := modules;
        if LoadModule(name, imports) == Loaded {
          modules := MapSet(modules, name);
        }
        RegisteredTurn(start, before, modules, imports, i);
        i := i + 1;
      }
    }
  }

  /** What the registry holds after the first `i` listed modules were
      tried, starting from the keys `start`. */
  ghost predicate Registered(start: seq<string>, modules: seq<string>, imports: string -> bool, i: nat)
    requires i <= |MODULE_NAMES|
  {
    && (forall x :: x in modules <==> x in start || x in LoadedNames(MODULE_NAMES, imports, i))
    && (start == [] ==> modules == LoadedNames(MODULE_NAMES, imports, i))
  }

  /** One turn of `initializeModules` keeps `Registered`. */
  lemma RegisteredTurn(start: seq<string>, before: seq<string>, after: seq<string>, imports: string -> bool, i: nat)
    requires i < |MODULE_NAMES| && Registered(start, before, imports, i)
    requires after == if LoadModule(MODULE_NAMES[i], imports) == Loaded then MapSet(before, MODULE_NAMES[i]) else before
    ensures Registered(start, after, imports, i + 1)
  {
    var name := MODULE_NAMES[i];
    var loaded := LoadModule(name, imports) == Loaded;
    assert LoadedNames(MODULE_NAMES, imports, i + 1)
      == LoadedNames(MODULE_NAMES, imports, i) + (if loaded then [name] else []);
    if loaded && start == [] {
      LoadedNamesSpec(MODULE_NAMES, imports, i);
      assert name !in MODULE_NAMES[..i];
    }
  }

  // ---------------------------------------------------------------- errors

  /** What a listener hands to `handleError`: `null` or `undefined` (a
      cross-origin "Script error." event, `Promise.reject()`), or a value
      whose `message` and `stack` properties may be absent. */
  datatype Thrown = Thrown(message: Option<string>, stack: Option<string>)

  /** The record `handleError` keeps; the clock and user agent are given. */
  datatype ErrorInfo = ErrorInfo(message: Option<string>, filename: string, lineno: int, colno: int,
                                 stack: Option<string>, timestamp: string, userAgent: string)

  /** `ErrorBoundary`: the errors caught so far. */
  class ErrorBoundary {
    var errors: seq<ErrorInfo>

    constructor()
      ensures errors == []
    {
      errors := [];
    }

    /** `handleError`: one record per call, appended, for any value that has
        properties; reading `message` of a missing value throws before the
        push, and `threw` says so. */
    method HandleError(error: Option<Thrown>, filename: string, lineno: int, colno: int,
                       timestamp: string, userAgent: string) returns (threw: bool)
      modifies this
      ensures threw <==> error == None
      ensures error == None ==> errors == old(errors)
      ensures error.Some? ==> errors == old(errors) + [ErrorInfo(error.value.message, filename, lineno, colno,
                                                                error.value.stack, timestamp, userAgent)]
      ensures old(errors) <= errors && |errors| <= |old(errors)| + 1
    {
      if error == None {
        return true;
      }
      errors := errors + [ErrorInfo(error.value.message, filename, lineno, colno, error.value.stack, timestamp, userAgent)];
      threw := false;
    }

    /** The `unhandledrejection` listener: the reason is recorded as from
        `Promise` at line and column 0. */
    method HandleRejection(reason: Option<Thrown>, timestamp: string, userAgent: string) returns (threw: bool)
      modifies this
      ensures threw <==> reason == None
      ensures reason == None ==> errors == old(errors)
      ensures reason.Some? ==> errors == old(errors) + [ErrorInfo(reason.value.message, "Promise", 0, 0,
                                                                 reason.value.stack, timestamp, userAgent)]
    {
      threw := HandleError(reason, "Promise", 0, 0, timestamp, userAgent);
    }
  }

  // ---------------------------------------------------------------- navigation

  /** `aria-expanded` as the string the attribute takes. */
  function BoolText(b: bool): string
  {
    if b then "true" else "false"
  }

  /** `ModernNavigation`: whether the menu is open, whether the nav carries
      `nav-open`, and the toggle's `aria-expanded`. */
  class Navigation {
    var isOpen: bool
    var navOpen: bool
    var ariaExpanded: string

    /** The page's own markup decides the class and attribute at start. */
    constructor(navOpen: bool, ariaExpanded: string)
      ensures !isOpen && this.navOpen == navOpen && this.ariaExpanded == ariaExpanded
    {
      isOpen := false;
      this.navOpen := navOpen;
      this.ariaExpanded := ariaExpanded;
    }

    /** Class and attribute agree with `isOpen`. */
    ghost predicate Shown()
      reads this
    {
      navOpen == isOpen && ariaExpanded == BoolText(isOpen)
    }

    /** `toggleMenu`. */
    method ToggleMenu()
      modifies this
      ensures isOpen == !old(isOpen) && Shown()
    {
      isOpen := !isOpen;
      navOpen := isOpen;
      ariaExpanded := BoolText(isOpen);
    }

    /** `closeMenu`: always closed afterwards. */
    method CloseMenu()
      modifies this
      ensures !isOpen && Shown()
    {
      isOpen := false;
      navOpen := false;
      ariaExpanded := "false";
    }

    /** The Escape listener: closes an open menu and leaves a closed one
        alone. */
    method OnEscape()
      modifies this
      ensures !isOpen
      ensures !old(isOpen) ==> navOpen == old(navOpen) && ariaExpanded == old(ariaExpanded)
      ensures old(isOpen) ==> Shown()
    {
      if isOpen {
        CloseMenu();
      }
    }
  }
}

=== FILE: ordering.dfy ===
/** The stable descending sort the scripts get from `Array.prototype.sort` with a
    comparator `(a, b) => key(b) - key(a)`, written as an insertion sort, together
    with the facts about permutations and duplicates the other modules need. */
module Ordering {

  predicate SortedDesc<T>(s: seq<T>, key: T -> int)
  {
    forall i, j :: 0 <= i < j < |s| ==> key(s[i]) >= key(s[j])
  }

  predicate NoDuplicates<T(==)>(s: seq<T>)
  {
    forall i, j :: 0 <= i < j < |s| ==> s[i] != s[j]
  }

  /** `x` placed after every element whose key is at least its own. */
  function Insert<T>(x: T, s: seq<T>, key: T -> int): (r: seq<T>)
    ensures |r| == |s| + 1
    ensures multiset(r) == multiset(s) + multiset{x}
  {
    if s == [] then [x]
    else if key(s[0]) >= key(x) then
      assert s == [s[0]] + s[1..];
      [s[0]] + Insert(x, s[1..], key)
    else
      [x] + s
  }

  /** Every element of `s` has a key of at most `k`. */
  predicate KeysAtMost<T>(s: seq<T>, k: int, key: T -> int)
  {
    forall i :: 0 <= i < |s| ==> key(s[i]) <= k
  }

  lemma {:induction false} InsertSorted<T>(x: T, s: seq<T>, key: T -> int)
    requires SortedDesc(s, key)
    ensures SortedDesc(Insert(x, s, key), key)
  {
    if s != [] && key(s[0]) >= key(x) {
      var tail := s[1..];
      var rest := Insert(x, tail, key);
      InsertSorted(x, tail, key);
      assert KeysAtMost(rest, key(s[0]), key) by {
        forall k | 0 <= k < |rest| ensures key(rest[k]) <= key(s[0]) {
          assert rest[k] in multiset(rest);
          if rest[k] != x {
            assert rest[k] in multiset(tail);
            var m :| 0 <= m < |tail| && tail[m] == rest[k];
            assert tail[m] == s[m + 1];
          }
        }
      }
      assert Insert(x, s, key) == [s[0]] + rest;
    }
  }

  /** A stable sort by non-increasing key: each element, taken in order, is
      inserted after the equal-keyed elements before it. */
  function SortDesc<T>(xs: seq<T>, key: T -> int): (r: seq<T>)
    ensures |r| == |xs|
    ensures multiset(r) == multiset(xs)
    ensures SortedDesc(r, key)
  {
    if xs == [] then []
    else
      var init := xs[..|xs| - 1];
      assert xs == init + [xs[|xs| - 1]];
      InsertSorted(xs[|xs| - 1], SortDesc(init, key), key);
      Insert(xs[|xs| - 1], SortDesc(init, key), key)
  }

  lemma {:induction false} NoDuplicatesCount<T>(s: seq<T>)
    requires NoDuplicates(s)
    ensures forall x :: multiset(s)[x] <= 1
  {
    if s != [] {
      var init := s[..|s| - 1];
      assert s == init + [s[|s| - 1]];
      NoDuplicatesCount(init);
      assert s[|s| - 1] !in init;
    }
  }

  /** A duplicate-free sequence has as many distinct elements as positions. */
  lemma {:induction false} DistinctCount<T>(s: seq<T>)
    requires NoDuplicates(s)
    ensures |set x | x in s| == |s|
  {
    if s != [] {
      var init := s[..|s| - 1];
      assert s == init + [s[|s| - 1]];
      DistinctCount(init);
      assert (set x | x in s) == (set x | x in init) + {s[|s| - 1]};
      assert s[|s| - 1] !in init;
    }
  }

  lemma RepeatCount<T>(s: seq<T>, i: nat, j: nat)
    requires i < j < |s| && s[i] == s[j]
    ensures multiset(s)[s[i]] >= 2
  {
    assert s == s[..i] + [s[i]] + s[i + 1..j] + [s[j]] + s[j + 1..];
  }

  /** A rearrangement of a duplicate-free sequence is duplicate-free. */
  lemma PermutationNoDuplicates<T>(a: seq<T>, b: seq<T>)
    requires multiset(a) == multiset(b) && NoDuplicates(a)
    ensures NoDuplicates(b)
  {
    NoDuplicatesCount(a);
    forall i, j | 0 <= i < j < |b| ensures b[i] != b[j] {
      if b[i] == b[j] {
        RepeatCount(b, i, j);
        assert false;
      }
    }
  }
}

=== FILE: performance.dfy ===
/** The performance monitor: classification of loaded resources, the
    thresholds it reports against, the per-type resource summary and the
    recommendations it derives from the Core Web Vitals.  Timings are
    milliseconds as `real`. */
module Performance {
  import opened Js

  // ---------------------------------------------------------------- thresholds

  datatype Vital = LCP | FID | CLS | FCP | TTFB

  /** The monitor's `thresholds` table. */
  function Threshold(v: Vital): real
  {
    match v
    case LCP => 2500.0
    case FID => 100.0
    case CLS => 0.1
    case FCP => 1800.0
    case TTFB => 600.0
  }

  /** What the monitor reports. */
  datatype Issue =
    | SlowVital(vital: Vital, value: real, threshold: real)
    | SlowServer(ttfb: real, threshold: real)
    | HighMemory(usage: int, limit: int)
    | SlowResources(resources: seq<Resource>)
    | LargeResources(resources: seq<Resource>)

  /** `checkVitalThreshold`: an issue exactly when the value is strictly
      above the vital's threshold. */
  function CheckVitalThreshold(v: Vital, value: real): (r: Option<Issue>)
    ensures r.Some? <==> value > Threshold(v)
    ensures r.Some? ==> r.value == SlowVital(v, value, Threshold(v))
  {
    if value > Threshold(v) then Some(SlowVital(v, value, Threshold(v))) else None
  }

  /** A value equal to the threshold is not reported; any value above it is. */
  lemma ThresholdIsStrict(v: Vital, value: real)
    ensures CheckVitalThreshold(v, Threshold(v)).None?
    ensures value > Threshold(v) ==> CheckVitalThreshold(v, value).Some?
  {
  }

  /** `checkThresholds`: the issues reported for the navigation timing, or
      `None` when the list is empty and nothing is reported. */
  function CheckThresholds(ttfb: real): (r: Option<seq<Issue>>)
    ensures r.Some? <==> ttfb > 600.0
    ensures r.Some? ==> r.value == [SlowServer(ttfb, Threshold(TTFB))]
  {
    var issues := if ttfb > Threshold(TTFB) then [SlowServer(ttfb, Threshold(TTFB))] else [];
    if |issues| > 0 then Some(issues) else None
  }

  /** `checkMemoryUsage`: used heap above 80% of the limit. */
  function CheckMemoryUsage(used: int, limit: int): (r: Option<Issue>)
    ensures r.Some? <==> 5 * used > 4 * limit
    ensures r.Some? ==> r.value == HighMemory(used, limit)
  {
    if used as real > limit as real * 0.8 then Some(HighMemory(used, limit)) else None
  }

  // ---------------------------------------------------------------- resources

  /** One entry of the resource timing list, as the monitor records it. */
  datatype Resource = Resource(name: string, kind: string, size: int, duration: real)

  const IMAGE_EXTENSIONS := [".jpg", ".jpeg", ".png", ".gif", ".webp", ".svg"]
  const FONT_EXTENSIONS := [".woff", ".woff2", ".ttf", ".eot"]

  /** Whether the URL ends with one of the extensions, ignoring case. */
  predicate EndsWithAny(url: string, extensions: seq<string>)
  {
    exists i :: 0 <= i < |extensions| && EndsWith(Lower(url), extensions[i])
  }

  /** `getResourceType`. */
  function ResourceType(url: string): string
  {
    if Contains(url, ".css") then "stylesheet"
    else if Contains(url, ".js") then "script"
    else if EndsWithAny(url, IMAGE_EXTENSIONS) then "image"
    else if EndsWithAny(url, FONT_EXTENSIONS) then "font"
    else if Contains(url, "/api/") then "api"
    else "other"
  }

  /** The first rule that applies decides, so `.css` anywhere wins, and a
      `.json` URL counts as a script. */
  lemma ResourceTypeSpec(url: string)
    ensures ResourceType(url) == "other" <==>
      !Contains(url, ".css") && !Contains(url, ".js") && !EndsWithAny(url, IMAGE_EXTENSIONS)
      && !EndsWithAny(url, FONT_EXTENSIONS) && !Contains(url, "/api/")
    ensures Contains(url, ".css") ==> ResourceType(url) == "stylesheet"
    ensures !Contains(url, ".css") && Contains(url, ".json") ==> ResourceType(url) == "script"
  {
    if Contains(url, ".json") {
      var i :| 0 <= i <= |url| && IsPrefix(".json", url[i..]);
      assert IsPrefix(".js", url[i..]) by {
        assert url[i..][..3] == url[i..][..5][..3];
      }
      ContainsAt(url, ".js", i);
    }
  }

  /** The resource recorded for an entry: its type from the URL, and a
      missing or zero transfer size counted as 0. */
  function ResourceOf(url: string, transferSize: Option<int>, duration: real): (r: Resource)
    ensures r.kind == ResourceType(url) && r.name == url && r.duration == duration
    ensures r.size == if transferSize.Some? then transferSize.value else 0
  {
    Resource(url, ResourceType(url), if transferSize.Some? && transferSize.value != 0 then transferSize.value else 0,
             duration)
  }

  /** `resources.filter(p)`, kept in order. */
  function Filter(rs: seq<Resource>, p: Resource -> bool): seq<Resource>
  {
    if rs == [] then [] else (if p(rs[0]) then [rs[0]] else []) + Filter(rs[1..], p)
  }

  /** The filter keeps exactly the resources that satisfy the predicate. */
  lemma {:induction false} FilterSpec(rs: seq<Resource>, p: Resource -> bool)
    ensures forall r :: r in Filter(rs, p) <==> r in rs && p(r)
    ensures |Filter(rs, p)| <= |rs|
  {
    if rs != [] {
      FilterSpec(rs[1..], p);
      assert rs == [rs[0]] + rs[1..];
    }
  }

  predicate IsSlow(r: Resource) { r.duration > 3000.0 }

  predicate IsLarge(r: Resource) { r.size > 1000000 }

  /** `checkPerformanceIssues`: a slow-resources issue when some resource
      took more than 3 s, a large-resources issue when some resource is over
      1 MB, in that order; `None` when there is neither. */
  function CheckPerformanceIssues(rs: seq<Resource>): Option<seq<Issue>>
  {
    var slow := Filter(rs, IsSlow);
    var large := Filter(rs, IsLarge);
    var issues := (if |slow| > 0 then [SlowResources(slow)] else [])
                  + (if |large| > 0 then [LargeResources(large)] else []);
    if |issues| > 0 then Some(issues) else None
  }

  /** Issues are reported exactly when some resource is slow or large. */
  lemma CheckPerformanceIssuesReported(rs: seq<Resource>)
    ensures CheckPerformanceIssues(rs).Some? <==> exists r :: r in rs && (IsSlow(r) || IsLarge(r))
  {
    FilterSpec(rs, IsSlow);
    FilterSpec(rs, IsLarge);
    var slow := Filter(rs, IsSlow);
    var large := Filter(rs, IsLarge);
    if |slow| > 0 {
      assert slow[0] in slow;
    } else if |large| > 0 {
      assert large[0] in large;
    } else if r :| r in rs && (IsSlow(r) || IsLarge(r)) {
      assert false;
    }
  }

  /** Each issue reported lists exactly the offending resources, slow ones
      before large ones. */
  lemma CheckPerformanceIssuesLists(rs: seq<Resource>)
    ensures var r := CheckPerformanceIssues(rs);
      r.Some? ==> 1 <= |r.value| <= 2 && forall k :: 0 <= k < |r.value| ==>
        (r.value[k].SlowResources? && k == 0 && forall x :: x in r.value[k].resources <==> x in rs && IsSlow(x))
        || (r.value[k].LargeResources? && k == |r.value| - 1 && forall x :: x in r.value[k].resources <==> x in rs && IsLarge(x))
  {
    FilterSpec(rs, IsSlow);
    FilterSpec(rs, IsLarge);
  }

  // ---------------------------------------------------------------- per-type summary

  /** The running totals `analyzeResourcePerformance` keeps for one type. */
  datatype Stats = Stats(count: nat, totalSize: int, totalDuration: real)

  /** The number of resources of type `t` among the first `n`. */
  function CountOf(rs: seq<Resource>, t: string, n: nat): nat
    requires n <= |rs|
  {
    if n == 0 then 0 else CountOf(rs, t, n - 1) + (if rs[n - 1].kind == t then 1 else 0)
  }

  /** Their total size. */
  function SizeOf(rs: seq<Resource>, t: string, n: nat): int
    requires n <= |rs|
  {
    if n == 0 then 0 else SizeOf(rs, t, n - 1) + (if rs[n - 1].kind == t then rs[n - 1].size else 0)
  }

  /** Their total duration. */
  function DurationOf(rs: seq<Resource>, t: string, n: nat): real
    requires n <= |rs|
  {
    if n == 0 then 0.0 else DurationOf(rs, t, n - 1) + (if rs[n - 1].kind == t then rs[n - 1].duration else 0.0)
  }

  /** The types among the first `n` resources. */
  function KindsOf(rs: seq<Resource>, n: nat): set<string>
    requires n <= |rs|
  {
    if n == 0 then {} else KindsOf(rs, n - 1) + {rs[n - 1].kind}
  }

  /** A type is listed exactly when some resource has it, and then it has a
      positive count, so the averages are well defined. */
  lemma {:induction false} KindsCounted(rs: seq<Resource>, n: nat)
    requires n <= |rs|
    ensures forall t :: t in KindsOf(rs, n) <==> exists i :: 0 <= i < n && rs[i].kind == t
    ensures forall t :: t in KindsOf(rs, n) <==> CountOf(rs, t, n) > 0
  {
    if n > 0 {
      KindsCounted(rs, n - 1);
    }
  }

  /** A type not present has nothing to add up. */
  lemma {:induction false} AbsentTotalsZero(rs: seq<Resource>, t: string, n: nat)
    requires n <= |rs| && t !in KindsOf(rs, n)
    ensures CountOf(rs, t, n) == 0 && SizeOf(rs, t, n) == 0 && DurationOf(rs, t, n) == 0.0
  {
    if n > 0 {
      AbsentTotalsZero(rs, t, n - 1);
    }
  }

  /** A type's count never exceeds the number of resources. */
  lemma {:induction false} CountBounded(rs: seq<Resource>, t: string, n: nat)
    requires n <= |rs|
    ensures CountOf(rs, t, n) <= n
  {
    if n > 0 {
      CountBounded(rs, t, n - 1);
    }
  }

  /** `analyzeResourcePerformance`, without the averages: one entry per
      type present, holding that type's count, total size and total
      duration. */
  method AnalyzeResourcePerformance(rs: seq<Resource>) returns (types: map<string, Stats>)
    ensures types.Keys == KindsOf(rs, |rs|)
    ensures forall t :: t in types ==>
      types[t] == Stats(CountOf(rs, t, |rs|), SizeOf(rs, t, |rs|), DurationOf(rs, t, |rs|))
  {
    types := map[];
    var i := 0;
    while i < |rs|
      invariant i <= |rs|
      invariant types.Keys == KindsOf(rs, i)
      invariant forall t :: t in types ==> types[t] == Stats(CountOf(rs, t, i), SizeOf(rs, t, i), DurationOf(rs, t, i))
    {
      var resource := rs[i];
      var stats := if resource.kind in types then types[resource.kind] else Stats(0, 0, 0.0);
      if resource.kind !in types {
        AbsentTotalsZero(rs, resource.kind, i);
      }
      var next := types[resource.kind := Stats(stats.count + 1, stats.totalSize + resource.size,
                                               stats.totalDuration + resource.duration)];
      forall t | t in next
        ensures next[t] == Stats(CountOf(rs, t, i + 1), SizeOf(rs, t, i + 1), DurationOf(rs, t, i + 1))
      {
        if t != resource.kind {
          assert next[t] == types[t];
        }
      }
      types := next;
      i := i + 1;
    }
  }

  // ---------------------------------------------------------------- recommendations

  /** The vitals measured so far; a vital not yet observed is `None`. */
  datatype Vitals = Vitals(lcp: Option<real>, fid: Option<real>, cls: Option<real>)

  datatype Recommendation = Recommendation(metric: string, issue: string, suggestions: seq<string>)

  const LCP_ADVICE := Recommendation("LCP", "Slow largest contentful paint",
    ["Optimize images (use WebP, lazy loading)", "Remove render-blocking resources", "Improve server response time"])
  const FID_ADVICE := Recommendation("FID", "Slow first input delay",
    ["Reduce JavaScript execution time", "Code split JavaScript", "Use web workers for heavy computations"])
  const CLS_ADVICE := Recommendation("CLS", "High cumulative layout shift",
    ["Include size attributes for images and videos", "Reserve space for dynamic content",
     "Avoid inserting content above existing content"])

  /** `vitals.x?.value > threshold`: false for a vital not observed. */
  predicate Over(value: Option<real>, v: Vital)
  {
    value.Some? && value.value > Threshold(v)
  }

  /** `getRecommendations`, as the list it builds with `push`. */
  method GetRecommendations(vitals: Vitals) returns (recommendations: seq<Recommendation>)
    ensures recommendations == Recommendations(vitals)
  {
    recommendations := [];
    if Over(vitals.lcp, LCP) {
      recommendations := recommendations + [LCP_ADVICE];
    }
    if Over(vitals.fid, FID) {
      recommendations := recommendations + [FID_ADVICE];
    }
    if Over(vitals.cls, CLS) {
      recommendations := recommendations + [CLS_ADVICE];
    }
  }

  /** The recommendations, one per vital over its threshold, in the order
      LCP, FID, CLS. */
  function Recommendations(vitals: Vitals): seq<Recommendation>
  {
    (if Over(vitals.lcp, LCP) then [LCP_ADVICE] else [])
    + (if Over(vitals.fid, FID) then [FID_ADVICE] else [])
    + (if Over(vitals.cls, CLS) then [CLS_ADVICE] else [])
  }

  /** Each vital yields its advice exactly when it was observed over its
      threshold; unobserved vitals yield none, and the order is fixed. */
  lemma RecommendationsSpec(vitals: Vitals)
    ensures var r := Recommendations(vitals);
      && (LCP_ADVICE in r <==> Over(vitals.lcp, LCP))
      && (FID_ADVICE in r <==> Over(vitals.fid, FID))
      && (CLS_ADVICE in r <==> Over(vitals.cls, CLS))
      && |r| <= 3
      && (Over(vitals.lcp, LCP) ==> r[0] == LCP_ADVICE)
      && (Over(vitals.cls, CLS) ==> r[|r| - 1] == CLS_ADVICE)
    ensures vitals.lcp.None? && vitals.fid.None? && vitals.cls.None? ==> Recommendations(vitals) == []
  {
    assert LCP_ADVICE != FID_ADVICE && LCP_ADVICE != CLS_ADVICE && FID_ADVICE != CLS_ADVICE by {
      assert LCP_ADVICE.metric[0] == 'L' && FID_ADVICE.metric[0] == 'F' && CLS_ADVICE.metric[0] == 'C';
    }
  }

  // ---------------------------------------------------------------- selectors

  /** The parts of an element `getElementSelector` reads. */
  datatype Element = Element(id: string, className: string, tagName: string)

  /** `getElementSelector`. */
  function ElementSelector(element: Option<Element>): string
  {
    if element.None? then "unknown"
    else if element.value.id != "" then "#" + element.value.id
    else if element.value.className != "" then "." + Split(element.value.className, " ")[0]
    else Lower(element.value.tagName)
  }

  /** The id is preferred, then the first class, then the tag name in lower
      case; a missing element is `unknown`. */
  lemma ElementSelectorSpec(element: Option<Element>)
    ensures element.None? ==> ElementSelector(element) == "unknown"
    ensures element.Some? && element.value.id != "" ==> ElementSelector(element) == "#" + element.value.id
    ensures element.Some? && element.value.id == "" && element.value.className != "" ==>
      var s := ElementSelector(element);
      var c := element.value.className;
      s[0] == '.' && IsPrefix(s[1..], c) && ' ' !in s[1..] && (|s| - 1 == |c| || c[|s| - 1] == ' ')
    ensures element.Some? && element.value.id == "" && element.value.className == "" ==>
      ElementSelector(element) == Lower(element.value.tagName)
  {
    if element.Some? && element.value.id == "" && element.value.className != "" {
      var c := element.value.className;
      SplitFirstPiece(c, ' ');
      var s := ElementSelector(element);
      assert s[1..] == Split(c, " ")[0];
    }
  }
}

=== FILE: privacy.dfy ===
/** The privacy-focused analytics of the site: consent from the banner or the
    settings dialog, the session record kept in the browser's local storage
    (pruned to the ten newest sessions), tracking that does nothing without
    consent, the stripping of personal fields from event data, and the
    scroll-depth events. */
module Privacy {
  import opened Js
  import opened Ordering

  // ---------------------------------------------------------------- event data

  /** A key that may hold a personal identifier. */
  predicate Sensitive(k: string)
  {
    k == "email" || k == "phone" || k == "name"
  }

  /** Deletes `k` from a copy of `data` when its value there is truthy. */
  function DropIfTruthy(data: map<string, Value>, k: string): map<string, Value>
  {
    if k in data && Truthy(data[k]) then data - {k} else data
  }

  /** `sanitizeData`: a copy of the data without the truthy `email`, `phone`
      and `name` entries; every other entry is kept with its value. */
  function SanitizeData(data: map<string, Value>): (r: map<string, Value>)
    ensures forall k :: k in r <==> k in data && !(Sensitive(k) && Truthy(data[k]))
    ensures forall k :: k in r ==> r[k] == data[k]
  {
    DropIfTruthy(DropIfTruthy(DropIfTruthy(data, "email"), "phone"), "name")
  }

  /** Sanitized data is left alone by a second pass. */
  lemma SanitizeIdempotent(data: map<string, Value>)
    ensures SanitizeData(SanitizeData(data)) == SanitizeData(data)
  {
    var once := SanitizeData(data);
    var twice := SanitizeData(once);
    assert forall k :: k in twice <==> k in once;
  }

  // ---------------------------------------------------------------- local storage

  /** What the script writes to a local-storage key: a plain string, the
      session record, or the saved privacy settings. */
  datatype Stored =
    | Text(s: string)
    | Record(data: SessionData)
    | SettingsRecord(anonymousAnalytics: bool, performanceMonitoring: bool, errorTracking: bool, timestamp: int)

  /** The browser and page facts a tracking call reads: the clock, the page
      address, title and referrer, and the browser and system names kept from
      the user-agent string. */
  datatype Env = Env(now: int, href: string, title: string, referrer: string, browser: string, os: string)

  datatype PageView = PageView(url: string, title: string, timestamp: int, referrer: string, browser: string, os: string)

  datatype Event = Event(name: string, data: map<string, Value>, timestamp: int, page: string)

  /** `sessionData`: the record of the current visit. */
  datatype SessionData = SessionData(
    sessionId: string,
    startTime: int,
    pageViews: seq<PageView>,
    events: seq<Event>,
    performance: map<string, Value>,
    duration: Option<int>)

  const CONSENT_KEY := "analytics_consent"
  const SETTINGS_KEY := "analytics_settings"
  const PREFIX := "analytics_"

  /** The key the session record is stored under. */
  function SessionKey(sessionId: string): string
  {
    PREFIX + sessionId
  }

  /** A session id as the script makes them, `session_<time>_<random>`,
      never collides with the consent or the settings key. */
  lemma SessionKeyIsOwn(sessionId: string)
    requires StartsWith(sessionId, "session_")
    ensures SessionKey(sessionId) != CONSENT_KEY && SessionKey(sessionId) != SETTINGS_KEY
  {
    var k := SessionKey(sessionId);
    assert k[10] == sessionId[0] == 's' && k[12] == sessionId[2] == 's';
    assert CONSENT_KEY[10] == 'c' && SETTINGS_KEY[12] == 't';
  }

  /** Whether the stored consent is `granted`. */
  predicate ConsentGranted(storage: map<string, Stored>)
  {
    CONSENT_KEY in storage && storage[CONSENT_KEY] == Text("granted")
  }

  /** The keys holding session records: the ones `cleanupOldData` sorts. */
  function Sessions(storage: map<string, Stored>): set<string>
  {
    set k | k in storage && StartsWith(k, PREFIX) && storage[k].Record?
  }

  /** The start time of the session stored under `k`. */
  function StartOf(storage: map<string, Stored>, k: string): int
  {
    if k in storage && storage[k].Record? then storage[k].data.startTime else 0
  }

  /** What `cleanupOldData` promises: nothing is added or changed, nothing but
      session records is removed, and when there were more than ten session
      records exactly ten remain, none older than a removed one. */
  ghost predicate CleanedUp(before: map<string, Stored>, after: map<string, Stored>)
  {
    && (forall k :: k in after ==> k in before && after[k] == before[k])
    && (forall k :: k in before && k !in Sessions(before) ==> k in after)
    && (|Sessions(before)| <= 10 ==> after == before)
    && (|Sessions(before)| > 10 ==>
          && |Sessions(after)| == 10
          && forall k, j :: k in Sessions(after) && j in before && j !in after ==>
               StartOf(before, k) >= StartOf(before, j))
  }

  /** The sessions sorted newest first, all but the first ten removed. */
  function Prune(storage: map<string, Stored>, keys: seq<string>): map<string, Stored>
  {
    var sorted := SortDesc(keys, k => StartOf(storage, k));
    storage - (set i | 10 <= i < |sorted| :: sorted[i])
  }

  /** The sessions left after removing all but the first ten of a
      duplicate-free listing of them are those first ten. */
  lemma KeptAreFirstTen(storage: map<string, Stored>, sorted: seq<string>)
    requires NoDuplicates(sorted) && (forall k :: k in sorted <==> k in Sessions(storage))
    requires |sorted| > 10
    ensures Sessions(storage - (set i | 10 <= i < |sorted| :: sorted[i])) == set x | x in sorted[..10]
  {
    var removed := set i | 10 <= i < |sorted| :: sorted[i];
    var after := storage - removed;
    forall k | k in Sessions(after)
      ensures k in sorted[..10]
    {
      assert k in Sessions(storage) && k !in removed;
      var i :| 0 <= i < |sorted| && sorted[i] == k;
      assert forall m :: 10 <= m < |sorted| ==> sorted[m] in removed;
      assert sorted[..10][i] == k;
    }
    forall k | k in sorted[..10]
      ensures k in Sessions(after)
    {
      var i :| 0 <= i < 10 && sorted[..10][i] == k;
      assert sorted[i] == k;
      assert forall m :: 10 <= m < |sorted| ==> sorted[m] != sorted[i];
      assert k !in removed;
      assert k in Sessions(storage);
    }
  }

  /** Pruning an enumeration of more than ten session keys keeps the ten newest. */
  lemma PruneKeepsNewest(storage: map<string, Stored>, keys: seq<string>)
    requires NoDuplicates(keys) && (forall k :: k in keys <==> k in Sessions(storage))
    requires |keys| > 10
    ensures CleanedUp(storage, Prune(storage, keys))
  {
    var key := k => StartOf(storage, k);
    var sorted := SortDesc(keys, key);
    var removed := set i | 10 <= i < |sorted| :: sorted[i];
    var after := storage - removed;
    PermutationNoDuplicates(keys, sorted);
    forall k
      ensures k in sorted <==> k in Sessions(storage)
    {
      assert k in sorted <==> k in multiset(sorted);
      assert k in keys <==> k in multiset(keys);
    }
    KeptAreFirstTen(storage, sorted);
    DistinctCount(sorted[..10]);
    forall k, j | k in Sessions(after) && j in storage && j !in after
      ensures StartOf(storage, k) >= StartOf(storage, j)
    {
      var i :| 0 <= i < 10 && sorted[..10][i] == k;
      var m :| 10 <= m < |sorted| && sorted[m] == j;
      assert key(sorted[i]) >= key(sorted[m]);
    }
    assert |Sessions(storage)| == |keys| by {
      assert Sessions(storage) == set x | x in keys;
      DistinctCount(keys);
    }
  }

  /** The keys of a set in an order the model does not fix: the order in
      which the browser happens to list its local-storage keys. */
  method Enumerate(s: set<string>) returns (xs: seq<string>)
    ensures NoDuplicates(xs)
    ensures forall x :: x in xs <==> x in s
  {
    xs := [];
    var rest := s;
    while rest != {}
      invariant rest <= s && NoDuplicates(xs)
      invariant forall x :: x in xs <==> x in s && x !in rest
      decreases rest
    {
      var x :| x in rest;
      xs := xs + [x];
      rest := rest - {x};
    }
  }

  /** `cleanupOldData`: with more than ten session records, the records are
      sorted newest first and all but the first ten are removed. */
  method CleanupOldData(storage: map<string, Stored>) returns (kept: map<string, Stored>)
    ensures CleanedUp(storage, kept)
  {
    var sessions := Sessions(storage);
    var keys := Enumerate(sessions);
    assert sessions == set x | x in keys;
    DistinctCount(keys);
    if |keys| > 10 {
      PruneKeepsNewest(storage, keys);
      kept := Prune(storage, keys);
    } else {
      kept := storage;
    }
  }

  /** The keys `cleanupOldData` as written sorts: every key that starts with
      `analytics_`, the consent and the settings key among them. */
  function AnalyticsKeys(storage: map<string, Stored>): set<string>
  {
    set k | k in storage && StartsWith(k, PREFIX)
  }

  /** Whether `cleanupOldData` as written throws: with more than ten such keys
      it sorts them by the start time parsed out of each stored value, and a
      plain string such as `granted` or `denied` is not JSON, so the parse
      throws before anything is removed. */
  predicate CleanupThrows(storage: map<string, Stored>)
  {
    |AnalyticsKeys(storage)| > 10 && exists k :: k in AnalyticsKeys(storage) && storage[k].Text?
  }

  /** While tracking is on the stored consent is `granted`, which is one of
      the keys sorted; so from the tenth session record on, every save throws
      in the clean-up, after the record is written and before any is
      removed, and the records are never pruned. */
  lemma CleanupAsWrittenThrows(storage: map<string, Stored>)
    requires ConsentGranted(storage) && |Sessions(storage)| >= 10
    ensures CleanupThrows(storage)
  {
    var keys := AnalyticsKeys(storage);
    var others := keys - Sessions(storage);
    assert CONSENT_KEY[..|PREFIX|] == PREFIX;
    assert CONSENT_KEY in others;
    assert keys == Sessions(storage) + others;
    assert |keys| == |Sessions(storage)| + |others|;
  }

  /** What one or more saves of the same session leave behind: every entry
      that is not a session record kept as it was, nothing new but the
      session's own record, and that record, when still there, the last one
      written. */
  ghost predicate SavedOver(before: map<string, Stored>, after: map<string, Stored>, key: string, data: SessionData)
  {
    && (forall k :: k in before && k != key && k !in Sessions(before) ==> k in after && after[k] == before[k])
    && (forall k :: k in after && k != key ==> k in before && after[k] == before[k])
    && (key in after ==> after[key] == Record(data))
  }

  /** Writing a session record and cleaning up is one such save. */
  lemma SaveKeepsOthers(before: map<string, Stored>, after: map<string, Stored>, key: string, data: SessionData)
    requires CleanedUp(before[key := Record(data)], after)
    ensures SavedOver(before, after, key, data)
  {
    var written := before[key := Record(data)];
    forall k | k in before && k != key && k !in Sessions(before)
      ensures k in after && after[k] == before[k]
    {
      assert written[k] == before[k];
      assert k !in Sessions(written);
    }
  }

  /** A further save of the same session after earlier ones is again a run
      of saves from the first state. */
  lemma SavedOverStep(before: map<string, Stored>, mid: map<string, Stored>, after: map<string, Stored>,
                      key: string, earlier: SessionData, data: SessionData)
    requires SavedOver(before, mid, key, earlier)
    requires CleanedUp(mid[key := Record(data)], after)
    ensures SavedOver(before, after, key, data)
  {
    SaveKeepsOthers(mid, after, key, data);
    forall k | k in before && k != key && k !in Sessions(before)
      ensures k in after && after[k] == before[k]
    {
      assert k in mid && mid[k] == before[k];
      assert k !in Sessions(mid);
    }
  }

  /** Saving the session keeps the stored consent, so it keeps `Valid`. */
  lemma SaveKeepsConsent(before: map<string, Stored>, after: map<string, Stored>, sessionId: string, data: SessionData)
    requires StartsWith(sessionId, "session_")
    requires CleanedUp(before[SessionKey(sessionId) := Record(data)], after)
    ensures ConsentGranted(after) <==> ConsentGranted(before)
  {
    SessionKeyIsOwn(sessionId);
    SaveKeepsOthers(before, after, SessionKey(sessionId), data);
    if ConsentGranted(before) {
      assert CONSENT_KEY !in Sessions(before);
    }
  }

  // ---------------------------------------------------------------- scroll depth

  /** One scroll event: the new maximum percentage, and the percentage
      reported when it is a new maximum that is a multiple of 25. */
  function ScrollStep(maxScroll: int, percent: int): (int, Option<int>)
  {
    if percent > maxScroll then (percent, if percent % 25 == 0 then Some(percent) else None)
    else (maxScroll, None)
  }

  /** The percentages reported over a run of scroll events. */
  function ScrollReports(maxScroll: int, percents: seq<int>): seq<int>
    decreases |percents|
  {
    if percents == [] then []
    else if percents[0] > maxScroll then
      (if percents[0] % 25 == 0 then [percents[0]] else []) + ScrollReports(percents[0], percents[1..])
    else ScrollReports(maxScroll, percents[1..])
  }

  /** A run of events reports what its first event reports, then what the
      rest report from the maximum the first leaves. */
  lemma ScrollReportsStep(maxScroll: int, percent: int, rest: seq<int>)
    ensures var step := ScrollStep(maxScroll, percent);
      ScrollReports(maxScroll, [percent] + rest)
        == (if step.1.Some? then [step.1.value] else []) + ScrollReports(step.0, rest)
  {
    assert ([percent] + rest)[1..] == rest;
  }

  /** Every report is a multiple of 25 above the maximum before the run. */
  lemma {:induction false} ScrollReportsAbove(maxScroll: int, percents: seq<int>)
    ensures forall x :: x in ScrollReports(maxScroll, percents) ==> x > maxScroll && x % 25 == 0
    decreases |percents|
  {
    if percents != [] {
      if percents[0] > maxScroll {
        ScrollReportsAbove(percents[0], percents[1..]);
      } else {
        ScrollReportsAbove(maxScroll, percents[1..]);
      }
    }
  }

  /** The reports strictly increase, so no percentage is reported twice. */
  lemma {:induction false} ScrollReportsIncrease(maxScroll: int, percents: seq<int>)
    ensures forall i, j :: 0 <= i < j < |ScrollReports(maxScroll, percents)| ==>
              ScrollReports(maxScroll, percents)[i] < ScrollReports(maxScroll, percents)[j]
    decreases |percents|
  {
    if percents != [] {
      if percents[0] > maxScroll {
        var p := percents[0];
        ScrollReportsIncrease(p, percents[1..]);
        ScrollReportsAbove(p, percents[1..]);
        var tail := ScrollReports(p, percents[1..]);
        if p % 25 == 0 {
          var r := ScrollReports(maxScroll, percents);
          assert r == [p] + tail;
          forall i, j | 0 <= i < j < |r|
            ensures r[i] < r[j]
          {
            assert r[j] == tail[j - 1] && r[j] in tail;
            if i > 0 {
              assert r[i] == tail[i - 1];
            }
          }
        }
      } else {
        ScrollReportsIncrease(maxScroll, percents[1..]);
      }
    }
  }

  /** Every report is one of the percentages scrolled to. */
  lemma {:induction false} ReportsComeFromInput(maxScroll: int, percents: seq<int>)
    ensures forall x :: x in ScrollReports(maxScroll, percents) ==> x in percents
    decreases |percents|
  {
    if percents != [] {
      assert percents == [percents[0]] + percents[1..];
      if percents[0] > maxScroll {
        ReportsComeFromInput(percents[0], percents[1..]);
      } else {
        ReportsComeFromInput(maxScroll, percents[1..]);
      }
    }
  }

  /** Scrolling that never passes the deepest point reached reports nothing. */
  lemma {:induction false} NoReportBelowMaximum(maxScroll: int, percents: seq<int>)
    requires forall i :: 0 <= i < |percents| ==> percents[i] <= maxScroll
    ensures ScrollReports(maxScroll, percents) == []
    decreases |percents|
  {
    if percents != [] {
      assert forall i :: 0 <= i < |percents| - 1 ==> percents[1..][i] == percents[i + 1];
      NoReportBelowMaximum(maxScroll, percents[1..]);
    }
  }

  /** Each call of `setupEventTracking` adds a scroll listener with its own
      maximum, starting at 0; one scroll event reaches them all, oldest first,
      and each one moves its own maximum. */
  function ScrollAll(listeners: seq<int>, percent: int): seq<int>
    decreases |listeners|
  {
    if listeners == [] then []
    else ScrollAll(listeners[..|listeners| - 1], percent) + [ScrollStep(listeners[|listeners| - 1], percent).0]
  }

  /** How many of the listeners report one scroll event. */
  function ScrollAllReports(listeners: seq<int>, percent: int): nat
    decreases |listeners|
  {
    if listeners == [] then 0
    else ScrollAllReports(listeners[..|listeners| - 1], percent)
         + (if ScrollStep(listeners[|listeners| - 1], percent).1.Some? then 1 else 0)
  }

  /** Every listener moves on its own: its new maximum is what it alone would
      record. */
  lemma {:induction false} ScrollAllPointwise(listeners: seq<int>, percent: int)
    ensures |ScrollAll(listeners, percent)| == |listeners|
    ensures forall i :: 0 <= i < |listeners| ==> ScrollAll(listeners, percent)[i] == ScrollStep(listeners[i], percent).0
    decreases |listeners|
  {
    if listeners != [] {
      var init := listeners[..|listeners| - 1];
      ScrollAllPointwise(init, percent);
      assert forall i :: 0 <= i < |init| ==> init[i] == listeners[i];
    }
  }

  /** A scroll event part-way through the listeners: the first `i` have
      seen it and `n` of them reported, the rest are as they were. */
  ghost predicate ScrollLoop(all: seq<int>, i: nat, n: nat, percent: int, listeners: seq<int>)
  {
    && i <= |all| && |listeners| == |all|
    && listeners == ScrollAll(all[..i], percent) + all[i..]
    && n == ScrollAllReports(all[..i], percent)
  }

  /** The listener at `i` seeing the event moves the loop on by one. */
  lemma ScrollLoopTurn(all: seq<int>, i: nat, n: nat, percent: int, listeners: seq<int>)
    requires ScrollLoop(all, i, n, percent, listeners) && i < |all|
    ensures listeners[i] == all[i]
    ensures var step := ScrollStep(all[i], percent);
      ScrollLoop(all, i + 1, if step.1.Some? then n + 1 else n, percent, listeners[i := step.0])
  {
    ScrollAllPointwise(all[..i], percent);
    assert all[..i + 1][..i] == all[..i];
    var step := ScrollStep(all[i], percent);
    assert ScrollAll(all[..i + 1], percent) == ScrollAll(all[..i], percent) + [step.0];
    assert listeners[i := step.0] == ScrollAll(all[..i + 1], percent) + all[i + 1..];
  }

  /** Once every listener has seen the event, the listeners and the count are
      those of the whole run. */
  lemma ScrollLoopDone(all: seq<int>, n: nat, percent: int, listeners: seq<int>)
    requires ScrollLoop(all, |all|, n, percent, listeners)
    ensures listeners == ScrollAll(all, percent) && n == ScrollAllReports(all, percent)
  {
    assert all[..|all|] == all;
  }

  /** A scroll to a multiple of 25 is reported once by every listener whose
      maximum lies below it, so after several enables the same depth is
      reported several times; any other scroll is reported by none. */
  lemma {:induction false} ScrollAllReportsCount(listeners: seq<int>, percent: int)
    ensures ScrollAllReports(listeners, percent)
            == if percent % 25 == 0 then |set i | 0 <= i < |listeners| && listeners[i] < percent| else 0
    decreases |listeners|
  {
    if listeners != [] {
      var n := |listeners| - 1;
      var init := listeners[..n];
      ScrollAllReportsCount(init, percent);
      var below := set i | 0 <= i < |listeners| && listeners[i] < percent;
      var belowInit := set i | 0 <= i < n && init[i] < percent;
      assert forall i :: 0 <= i < n ==> init[i] == listeners[i];
      if listeners[n] < percent {
        assert below == belowInit + {n};
      } else {
        assert below == belowInit;
      }
    }
  }

  /** The `scroll_depth` event one listener tracks. */
  function ScrollEvent(percent: int, env: Env): Event
  {
    Event("scroll_depth", map["percent" := Num(percent)], env.now, env.href)
  }

  /** The session and storage after `n` listeners have reported a scroll to
      `percent`: with tracking on, `n` more `scroll_depth` events and the
      session saved each time; otherwise both as they were. */
  ghost predicate ScrollSaved(n: nat, percent: int, env: Env, on: bool, s0: SessionData, st0: map<string, Stored>,
                              s: SessionData, st: map<string, Stored>)
  {
    if n > 0 && on then
      && s == s0.(events := s0.events + seq(n, _ => ScrollEvent(percent, env)))
      && SavedOver(st0, st, SessionKey(s.sessionId), s)
    else s == s0 && st == st0
  }

  /** One more listener reporting adds one more event and one more save. */
  lemma ScrollSavedStep(n: nat, percent: int, env: Env, on: bool, s0: SessionData, st0: map<string, Stored>,
                        s: SessionData, st: map<string, Stored>, s': SessionData, st': map<string, Stored>)
    requires ScrollSaved(n, percent, env, on, s0, st0, s, st)
    requires !on ==> s' == s && st' == st
    requires on ==> s' == s.(events := s.events + [ScrollEvent(percent, env)])
                    && CleanedUp(st[SessionKey(s'.sessionId) := Record(s')], st')
    ensures ScrollSaved(n + 1, percent, env, on, s0, st0, s', st')
  {
    if on {
      assert seq(n + 1, _ => ScrollEvent(percent, env)) == seq(n, _ => ScrollEvent(percent, env)) + [ScrollEvent(percent, env)];
      if n == 0 {
        SaveKeepsOthers(st, st', SessionKey(s'.sessionId), s');
      } else {
        SavedOverStep(st0, st, st', SessionKey(s'.sessionId), s, s');
      }
    }
  }

  // ---------------------------------------------------------------- the start-up

  /** The page view `trackPageView` records for the current page. */
  function PageViewOf(env: Env): PageView
  {
    PageView(env.href, env.title, env.now, env.referrer, env.browser, env.os)
  }

  /** How the script's start-up ends: whether `init` runs to its end, the
      page views recorded, whether the consent banner is added, and how many
      scroll listeners are set up. */
  datatype StartUp = StartUp(completes: bool, pageViews: nat, bannerAdded: bool, listeners: nat)

  /** The start-up as written.  `checkConsent` calls `showConsentBanner` when
      no choice is stored, and `enableAnalytics` calls
      `setupPerformanceTracking` after its page view and its listeners; the
      class defines neither method, so each call throws and ends the
      constructor there.  Only a stored `denied` lets `init` go on to
      `setupConsentManager`, which adds the banner, and to
      `setupLocalAnalytics`, whose page view does nothing while tracking is
      off. */
  function StartUpAsWritten(stored: map<string, Stored>): StartUp
  {
    if ConsentGranted(stored) then StartUp(false, 1, false, 1)
    else if CONSENT_KEY in stored && stored[CONSENT_KEY] == Text("denied") then StartUp(true, 0, true, 0)
    else StartUp(false, 0, false, 0)
  }

  /** As written, only a visitor who declined gets through the start-up; a
      first visit never gets the banner, so consent can never be given
      through it, and a visitor who consented gets one page view, not two. */
  lemma StartUpAsWrittenFails(stored: map<string, Stored>)
    ensures StartUpAsWritten(stored).completes <==> CONSENT_KEY in stored && stored[CONSENT_KEY] == Text("denied")
    ensures CONSENT_KEY !in stored ==> !StartUpAsWritten(stored).bannerAdded
    ensures ConsentGranted(stored) ==> StartUpAsWritten(stored).pageViews == 1
  {
  }

  // ---------------------------------------------------------------- the tracker

  /** `PrivacyAnalytics`: the consent flags, the session record, the local
      storage it writes, and the maximum of each scroll listener set up so
      far, oldest first. */
  class PrivacyAnalytics {
    var consentGiven: bool
    var analyticsEnabled: bool
    var session: SessionData
    var storage: map<string, Stored>
    var listeners: seq<int>

    /** Tracking is on exactly when consent is given, and exactly when the
        stored consent says `granted`. */
    ghost predicate Valid()
      reads this
    {
      && consentGiven == analyticsEnabled
      && (analyticsEnabled <==> ConsentGranted(storage))
      && StartsWith(session.sessionId, "session_")
    }

    /** `saveLocalData`: the session record written under its key, then the
        old sessions cleaned up. */
    method SaveLocalData()
      modifies this
      ensures CleanedUp(old(storage)[SessionKey(session.sessionId) := Record(session)], storage)
      ensures consentGiven == old(consentGiven) && analyticsEnabled == old(analyticsEnabled)
      ensures session == old(session) && listeners == old(listeners)
    {
      var written := storage[SessionKey(session.sessionId) := Record(session)];
      storage := CleanupOldData(written);
    }

    /** `trackPageView`: nothing while tracking is off; otherwise one page
        view appended and the session saved. */
    method TrackPageView(env: Env)
      requires Valid()
      modifies this
      ensures Valid()
      ensures consentGiven == old(consentGiven) && analyticsEnabled == old(analyticsEnabled)
      ensures listeners == old(listeners)
      ensures !old(analyticsEnabled) ==> session == old(session) && storage == old(storage)
      ensures old(analyticsEnabled) ==>
        && session == old(session).(pageViews := old(session.pageViews) + [PageViewOf(env)])
        && CleanedUp(old(storage)[SessionKey(session.sessionId) := Record(session)], storage)
    {
      if !analyticsEnabled {
        return;
      }
      session := session.(pageViews := session.pageViews + [PageViewOf(env)]);
      var before := storage;
      SaveLocalData();
      SaveKeepsConsent(before, storage, session.sessionId, session);
    }

    /** `trackEvent`: nothing while tracking is off; otherwise exactly one
        event appended, its data sanitized, and the session saved. */
    method TrackEvent(name: string, data: map<string, Value>, env: Env)
      requires Valid()
      modifies this
      ensures Valid()
      ensures consentGiven == old(consentGiven) && analyticsEnabled == old(analyticsEnabled)
      ensures listeners == old(listeners)
      ensures !old(analyticsEnabled) ==> session == old(session) && storage == old(storage)
      ensures old(analyticsEnabled) ==>
        && session == old(session).(events := old(session.events)
             + [Event(name, SanitizeData(data), env.now, env.href)])
        && CleanedUp(old(storage)[SessionKey(session.sessionId) := Record(session)], storage)
    {
      if !analyticsEnabled {
        return;
      }
      var event := Event(name, SanitizeData(data), env.now, env.href);
      session := session.(events := session.events + [event]);
      var before := storage;
      SaveLocalData();
      SaveKeepsConsent(before, storage, session.sessionId, session);
    }

    /** `trackPerformance`: the measured timings merged under the figures the
        observers already recorded, which win on a shared name. */
    method TrackPerformance(measured: map<string, Value>)
      requires Valid()
      modifies this
      ensures Valid()
      ensures consentGiven == old(consentGiven) && analyticsEnabled == old(analyticsEnabled)
      ensures listeners == old(listeners)
      ensures !old(analyticsEnabled) ==> session == old(session) && storage == old(storage)
      ensures old(analyticsEnabled) ==>
        && session == old(session).(performance := measured + old(session.performance))
        && CleanedUp(old(storage)[SessionKey(session.sessionId) := Record(session)], storage)
    {
      if !analyticsEnabled {
        return;
      }
      session := session.(performance := measured + session.performance);
      var before := storage;
      SaveLocalData();
      SaveKeepsConsent(before, storage, session.sessionId, session);
    }

    /** `trackSessionEnd`: the visit's duration recorded and the session saved. */
    method TrackSessionEnd(env: Env)
      requires Valid()
      modifies this
      ensures Valid()
      ensures consentGiven == old(consentGiven) && analyticsEnabled == old(analyticsEnabled)
      ensures listeners == old(listeners)
      ensures !old(analyticsEnabled) ==> session == old(session) && storage == old(storage)
      ensures old(analyticsEnabled) ==>
        && session == old(session).(duration := Some(env.now - old(session.startTime)))
        && CleanedUp(old(storage)[SessionKey(session.sessionId) := Record(session)], storage)
    {
      if !analyticsEnabled {
        return;
      }
      session := session.(duration := Some(env.now - session.startTime));
      var before := storage;
      SaveLocalData();
      SaveKeepsConsent(before, storage, session.sessionId, session);
    }

    /** One scroll event, seen by every scroll listener in turn: each records
        its own new maximum and, when that is a multiple of 25, tracks a
        `scroll_depth` event, so the session gains one event for each
        listener that reports. */
    method OnScroll(percent: int, env: Env)
      requires Valid()
      modifies this
      ensures Valid()
      ensures listeners == ScrollAll(old(listeners), percent)
      ensures consentGiven == old(consentGiven) && analyticsEnabled == old(analyticsEnabled)
      ensures ScrollSaved(ScrollAllReports(old(listeners), percent), percent, env, analyticsEnabled,
                          old(session), old(storage), session, storage)
    {
      ghost var all, s0, st0 := listeners, session, storage;
      ghost var given, on := consentGiven, analyticsEnabled;
      var i := 0;
      ghost var n := 0;
      assert all[..0] == [];
      while i < |listeners|
        invariant ScrollLoop(all, i, n, percent, listeners)
        invariant Valid() && consentGiven == given && analyticsEnabled == on
        invariant ScrollSaved(n, percent, env, on, s0, st0, session, storage)
      {
        ScrollLoopTurn(all, i, n, percent, listeners);
        var reported := ListenerStep(i, percent, env, n, s0, st0);
        if reported {
          n := n + 1;
        }
        i := i + 1;
      }
      ScrollLoopDone(all, n, percent, listeners);
    }

    /** The scroll event reaching the listener at `i`: its maximum moved and,
        when it reports, one more `scroll_depth` event tracked. */
    method ListenerStep(i: nat, percent: int, env: Env, ghost n: nat, ghost s0: SessionData, ghost st0: map<string, Stored>)
      returns (reported: bool)
      requires Valid() && i < |listeners|
      requires ScrollSaved(n, percent, env, analyticsEnabled, s0, st0, session, storage)
      modifies this
      ensures Valid() && consentGiven == old(consentGiven) && analyticsEnabled == old(analyticsEnabled)
      ensures listeners == old(listeners)[i := ScrollStep(old(listeners)[i], percent).0]
      ensures reported == ScrollStep(old(listeners)[i], percent).1.Some?
      ensures ScrollSaved(if reported then n + 1 else n, percent, env, analyticsEnabled, s0, st0, session, storage)
    {
      reported := false;
      if percent > listeners[i] {
        listeners := listeners[i := percent];
        if percent % 25 == 0 {
          ghost var before, earlier := storage, session;
          var data := map["percent" := Num(percent)];
          assert SanitizeData(data) == data;
          TrackEvent("scroll_depth", data, env);
          reported := true;
          ScrollSavedStep(n, percent, env, analyticsEnabled, s0, st0, earlier, before, session, storage);
        }
      }
    }

    /** `enableAnalytics`: tracking turned on, a page view recorded at once,
        and a new scroll listener set up from 0. */
    method EnableAnalytics(env: Env)
      requires consentGiven && ConsentGranted(storage) && StartsWith(session.sessionId, "session_")
      modifies this
      ensures Valid() && analyticsEnabled && consentGiven == old(consentGiven)
      ensures listeners == old(listeners) + [0]
      ensures session == old(session).(pageViews := old(session.pageViews) + [PageViewOf(env)])
      ensures CleanedUp(old(storage)[SessionKey(session.sessionId) := Record(session)], storage)
    {
      analyticsEnabled := true;
      TrackPageView(env);
      listeners := listeners + [0];
    }

    /** The script's start-up, with the two calls to methods the class does
        not define taken as doing nothing: a new session, then
        `checkConsent` (a stored `granted` turns tracking on, which records a
        page view) and then the page view `setupLocalAnalytics` tracks
        itself. */
    constructor(stored: map<string, Stored>, randomPart: string, env: Env)
      ensures Valid()
      ensures consentGiven == analyticsEnabled == ConsentGranted(stored)
      ensures session.sessionId == "session_" + randomPart && session.startTime == env.now
      ensures session.events == [] && session.performance == map[] && session.duration == None
      ensures session.pageViews == if ConsentGranted(stored) then [PageViewOf(env), PageViewOf(env)] else []
      ensures listeners == if ConsentGranted(stored) then [0] else []
      ensures !ConsentGranted(stored) ==> storage == stored
      ensures ConsentGranted(stored) ==> SavedOver(stored, storage, SessionKey(session.sessionId), session)
    {
      consentGiven := false;
      analyticsEnabled := false;
      session := SessionData("session_" + randomPart, env.now, [], [], map[], None);
      storage := stored;
      listeners := [];
      new;
      assert session.sessionId[..8] == "session_";
      var key := SessionKey(session.sessionId);
      if CONSENT_KEY in storage && storage[CONSENT_KEY] == Text("granted") {
        consentGiven := true;
        EnableAnalytics(env);
        SaveKeepsOthers(stored, storage, key, session);
      }
      ghost var mid, earlier := storage, session;
      TrackPageView(env);
      if analyticsEnabled {
        SavedOverStep(stored, mid, storage, key, earlier, session);
      }
    }

    /** `handleConsent`: `accept` turns tracking on and stores `granted`,
        `deny` turns it off and stores `denied`, `settings` only opens the
        settings dialog. */
    method HandleConsent(action: string, env: Env)
      requires Valid()
      modifies this
      ensures Valid()
      ensures action == "accept" ==>
        && consentGiven && analyticsEnabled && listeners == old(listeners) + [0]
        && session == old(session).(pageViews := old(session.pageViews) + [PageViewOf(env)])
        && CleanedUp(old(storage)[CONSENT_KEY := Text("granted")][SessionKey(session.sessionId) := Record(session)], storage)
      ensures action == "deny" ==>
        && !consentGiven && !analyticsEnabled && storage == old(storage)[CONSENT_KEY := Text("denied")]
        && session == old(session) && listeners == old(listeners)
      ensures action != "accept" && action != "deny" ==> unchanged(this)
    {
      if action == "accept" {
        consentGiven := true;
        storage := storage[CONSENT_KEY := Text("granted")];
        EnableAnalytics(env);
      } else if action == "deny" {
        consentGiven := false;
        storage := storage[CONSENT_KEY := Text("denied")];
        analyticsEnabled := false;
      }
    }

    /** `saveConsentSettings`: the three choices stored, then consent given or
        withdrawn to match the anonymous-analytics box. */
    method SaveConsentSettings(anonymousAnalytics: bool, performanceMonitoring: bool, errorTracking: bool, env: Env)
      requires Valid()
      modifies this
      ensures Valid()
      ensures consentGiven == analyticsEnabled == anonymousAnalytics
      ensures SETTINGS_KEY in storage
              && storage[SETTINGS_KEY] == SettingsRecord(anonymousAnalytics, performanceMonitoring, errorTracking, env.now)
      ensures anonymousAnalytics ==>
        && listeners == old(listeners) + [0]
        && session == old(session).(pageViews := old(session.pageViews) + [PageViewOf(env)])
        && CleanedUp(old(storage)[SETTINGS_KEY := SettingsRecord(true, performanceMonitoring, errorTracking, env.now)]
                                 [CONSENT_KEY := Text("granted")][SessionKey(session.sessionId) := Record(session)], storage)
      ensures !anonymousAnalytics ==>
        && storage == old(storage)[SETTINGS_KEY := SettingsRecord(false, performanceMonitoring, errorTracking, env.now)]
                                  [CONSENT_KEY := Text("denied")]
        && session == old(session) && listeners == old(listeners)
    {
      storage := storage[SETTINGS_KEY := SettingsRecord(anonymousAnalytics, performanceMonitoring, errorTracking, env.now)];
      if anonymousAnalytics {
        consentGiven := true;
        storage := storage[CONSENT_KEY := Text("granted")];
        var before := storage;
        EnableAnalytics(env);
        SessionKeyIsOwn(session.sessionId);
        SaveKeepsOthers(before, storage, SessionKey(session.sessionId), session);
        assert SETTINGS_KEY !in Sessions(before);
      } else {
        consentGiven := false;
        storage := storage[CONSENT_KEY := Text("denied")];
        analyticsEnabled := false;
      }
    }

    /** `resetConsent`: both stored choices removed and both flags cleared. */
    method ResetConsent()
      requires Valid()
      modifies this
      ensures Valid()
      ensures !consentGiven && !analyticsEnabled
      ensures storage == old(storage) - {CONSENT_KEY, SETTINGS_KEY}
      ensures session == old(session) && listeners == old(listeners)
    {
      storage := storage - {CONSENT_KEY, SETTINGS_KEY};
      consentGiven := false;
      analyticsEnabled := false;
    }
  }
}

=== FILE: search.dfy ===
/** The site search: an index of pages with a lowercased searchable text and the
    ten most frequent meaningful words of each page, a substring search over it,
    ranking by a relevance score, excerpts around the first match with the
    matches marked, keyboard navigation through the results, and a short
    most-recent-first history of queries.

    Queries are matched as literal text: the scripts build regular expressions
    from the query, which agree with literal matching for queries without
    regular-expression syntax. */
module Search {
  import opened Js
  import opened Ordering

  const STOP_WORDS: seq<string> := [
    "the", "and", "or", "but", "in", "on", "at", "to", "for", "of", "with", "by",
    "is", "are", "was", "were", "be", "been", "have", "has", "had", "do", "does",
    "did", "will", "would", "could", "should", "may", "might", "can", "this",
    "that", "these", "those", "i", "you", "he", "she", "it", "we", "they"
  ]

  const MAX_KEYWORDS: nat := 10
  const MAX_HISTORY: nat := 10
  /** Characters shown when there is no match to centre the excerpt on. */
  const EXCERPT_HEAD: nat := 150
  const CONTEXT_BEFORE: nat := 50
  const CONTEXT_AFTER: nat := 100

  /** `list.includes(w)`, unfolded one entry at a time. */
  predicate Listed(w: string, list: seq<string>)
  {
    list != [] && (list[0] == w || Listed(w, list[1..]))
  }

  lemma {:induction false} ListedIsIn(w: string, list: seq<string>)
    ensures Listed(w, list) <==> w in list
  {
    if list != [] {
      ListedIsIn(w, list[1..]);
      assert list == [list[0]] + list[1..];
    }
  }

  /** `isStopWord(word)` */
  predicate IsStopWord(w: string)
  {
    Listed(w, STOP_WORDS)
  }

  // ---------------------------------------------------------------- keywords

  predicate AllWordChars(w: string)
  {
    forall i :: 0 <= i < |w| ==> IsWordChar(w[i])
  }

  /** The maximal runs of word characters of `s`, the first one prefixed by
      `cur`.  Replacing every character that is neither a word character nor
      white space by a space and splitting at runs of white space yields exactly
      these runs, plus empty strings at the ends. */
  function Runs(s: string, cur: string): (ws: seq<string>)
    requires AllWordChars(cur)
    ensures forall k :: 0 <= k < |ws| ==> |ws[k]| > 0 && AllWordChars(ws[k])
    decreases |s|
  {
    if s == [] then (if cur == [] then [] else [cur])
    else if IsWordChar(s[0]) then Runs(s[1..], cur + [s[0]])
    else (if cur == [] then [] else [cur]) + Runs(s[1..], [])
  }

  /** A word `extractKeywords` counts: longer than two characters, not a stop word. */
  predicate Counted(w: string)
  {
    |w| > 2 && !IsStopWord(w)
  }

  /** The words of `ws` that are counted, in order. */
  function Meaningful(ws: seq<string>): (r: seq<string>)
    ensures forall k :: 0 <= k < |r| ==> Counted(r[k])
    ensures forall w :: w in r <==> w in ws && Counted(w)
  {
    if ws == [] then []
    else (if Counted(ws[0]) then [ws[0]] else []) + Meaningful(ws[1..])
  }

  /** The words of `text` that `extractKeywords` counts, in text order. */
  function Candidates(text: string): (r: seq<string>)
    ensures forall k :: 0 <= k < |r| ==> Counted(r[k]) && AllWordChars(r[k])
  {
    var runs := Runs(Lower(text), []);
    var r := Meaningful(runs);
    assert forall k :: 0 <= k < |r| ==> r[k] in runs;
    r
  }

  /** The distinct words of `ws` in order of first occurrence: the order in which
      `Object.entries` lists the keys of the frequency table. */
  function Dedup<K(==,!new)>(ws: seq<K>): (r: seq<K>)
    ensures NoDuplicates(r)
    ensures forall w :: w in r <==> w in ws
  {
    if ws == [] then []
    else
      var init := ws[..|ws| - 1];
      var last := ws[|ws| - 1];
      assert ws == init + [last];
      if last in init then Dedup(init) else Dedup(init) + [last]
  }

  /** How often `w` occurs among the counted words. */
  function Frequency(e: (string, int)): int
  {
    e.1
  }

  /** The frequency table's entries `[word, count]`, in key order. */
  function Entries(words: seq<string>): (es: seq<(string, int)>)
    ensures |es| == |Dedup(words)|
    ensures forall i :: 0 <= i < |es| ==> es[i] == (Dedup(words)[i], multiset(words)[Dedup(words)[i]])
  {
    var d := Dedup(words);
    seq(|d|, i requires 0 <= i < |d| => (d[i], multiset(words)[d[i]]))
  }

  function Firsts(es: seq<(string, int)>): (r: seq<string>)
    ensures |r| == |es|
    ensures forall i :: 0 <= i < |es| ==> r[i] == es[i].0
  {
    seq(|es|, i requires 0 <= i < |es| => es[i].0)
  }

  /** The counted words of `text`, most frequent first. */
  function Ranked(text: string): seq<(string, int)>
  {
    SortDesc(Entries(Candidates(text)), Frequency)
  }

  /** `extractKeywords(text)`: the ten most frequent counted words. */
  function Keywords(text: string): (r: seq<string>)
    ensures |r| <= MAX_KEYWORDS
  {
    Take(Firsts(Ranked(text)), MAX_KEYWORDS)
  }

  /** The frequency table, filled one word at a time, and its key order. */
  method CountWords<K(==,!new)>(words: seq<K>) returns (order: seq<K>, count: map<K, int>)
    ensures order == Dedup(words)
    ensures forall w :: w in count <==> w in words
    ensures forall w :: w in count ==> count[w] == multiset(words)[w]
  {
    order := [];
    count := map[];
    var i := 0;
    while i < |words|
      invariant 0 <= i <= |words|
      invariant Tallied(words[..i], order, count)
    {
      order, count := CountWord(words, i, order, count);
      i := i + 1;
    }
    assert words[..i] == words;
  }

  /** `order` and `count` are the key order and the frequency table of `words`. */
  ghost predicate Tallied<K(!new)>(words: seq<K>, order: seq<K>, count: map<K, int>)
  {
    && order == Dedup(words)
    && (forall w :: w in count <==> w in words)
    && (forall w :: w in count ==> count[w] == multiset(words)[w])
  }

  /** One word counted: a new key goes at the end of the key order, and only
      that word's count changes. */
  method CountWord<K(==,!new)>(words: seq<K>, i: nat, order: seq<K>, count: map<K, int>)
    returns (order': seq<K>, count': map<K, int>)
    requires i < |words| && Tallied(words[..i], order, count)
    ensures Tallied(words[..i + 1], order', count')
  {
    var w := words[i];
    ghost var pre := words[..i];
    assert words[..i + 1] == pre + [w];
    assert (pre + [w])[..|pre|] == pre;
    assert multiset(pre + [w]) == multiset(pre) + multiset{w};
    if w in count {
      count' := count[w := count[w] + 1];
      order' := order;
    } else {
      count' := count[w := 1];
      order' := order + [w];
    }
  }

  /** `extractKeywords`: count the meaningful words, sort the table by count
      (ties keep key order) and keep the first ten words. */
  method ExtractKeywords(text: string) returns (keywords: seq<string>)
    ensures keywords == Keywords(text)
  {
    var words := Candidates(text);
    var order, count := CountWords(words);
    var entries := seq(|order|, i requires 0 <= i < |order| => (order[i], count[order[i]]));
    SameEntries(words, entries);
    keywords := Take(Firsts(SortDesc(entries, Frequency)), MAX_KEYWORDS);
  }

  /** A list with the entries of `Entries(words)`, position by position, is that list. */
  lemma SameEntries(words: seq<string>, entries: seq<(string, int)>)
    requires |entries| == |Dedup(words)|
    requires forall i :: 0 <= i < |entries| ==> entries[i] == (Dedup(words)[i], multiset(words)[Dedup(words)[i]])
    ensures entries == Entries(words)
  {
  }

  /** Each ranked entry is a counted word paired with its number of occurrences,
      and every counted word has its entry. */
  lemma RankedEntries(text: string)
    ensures forall e :: e in Ranked(text) <==>
              e.0 in Candidates(text) && e.1 == multiset(Candidates(text))[e.0]
  {
    var words := Candidates(text);
    var es := Entries(words);
    var d := Dedup(words);
    forall e ensures e in Ranked(text) <==> e.0 in words && e.1 == multiset(words)[e.0] {
      assert e in Ranked(text) <==> e in multiset(es);
      if e.0 in words && e.1 == multiset(words)[e.0] {
        var i :| 0 <= i < |d| && d[i] == e.0;
        assert es[i] == e;
      }
    }
  }

  /** Every keyword is a counted word: longer than two characters and not a stop word. */
  lemma KeywordsAreMeaningful(text: string)
    ensures forall k :: k in Keywords(text) ==> k in Candidates(text) && Counted(k)
  {
    RankedEntries(text);
    var ranked := Ranked(text);
    forall k | k in Keywords(text) ensures k in Candidates(text) {
      var i :| 0 <= i < |Keywords(text)| && Keywords(text)[i] == k;
      assert ranked[i] in ranked;
    }
  }

  /** No word is a keyword twice. */
  lemma KeywordsNoDuplicates(text: string)
    ensures NoDuplicates(Keywords(text))
  {
    var words := Candidates(text);
    var es := Entries(words);
    var ranked := Ranked(text);
    assert NoDuplicates(es) by {
      forall i, j | 0 <= i < j < |es| ensures es[i] != es[j] {
        assert es[i].0 == Dedup(words)[i] != Dedup(words)[j] == es[j].0;
      }
    }
    PermutationNoDuplicates(es, ranked);
    RankedEntries(text);
    var fs := Firsts(ranked);
    forall i, j | 0 <= i < j < |fs| ensures fs[i] != fs[j] {
      assert ranked[i] in ranked && ranked[j] in ranked;
    }
  }

  /** Keywords come in order of non-increasing frequency in the text. */
  lemma KeywordsByFrequency(text: string)
    ensures forall i, j :: 0 <= i < j < |Keywords(text)| ==>
              multiset(Candidates(text))[Keywords(text)[i]] >= multiset(Candidates(text))[Keywords(text)[j]]
  {
    RankedEntries(text);
    var ranked := Ranked(text);
    forall i, j | 0 <= i < j < |Keywords(text)|
      ensures multiset(Candidates(text))[Keywords(text)[i]] >= multiset(Candidates(text))[Keywords(text)[j]]
    {
      assert ranked[i] in ranked && ranked[j] in ranked;
      assert Frequency(ranked[i]) >= Frequency(ranked[j]);
    }
  }

  /** A counted word left out of the keywords occurs no more often than any keyword. */
  lemma KeywordsAreMostFrequent(text: string, w: string)
    requires w in Candidates(text) && w !in Keywords(text)
    ensures forall k :: k in Keywords(text) ==> multiset(Candidates(text))[k] >= multiset(Candidates(text))[w]
  {
    RankedEntries(text);
    var ranked := Ranked(text);
    var kw := Keywords(text);
    var e := (w, multiset(Candidates(text))[w]);
    assert e in ranked;
    var j :| 0 <= j < |ranked| && ranked[j] == e;
    forall k | k in kw ensures multiset(Candidates(text))[k] >= multiset(Candidates(text))[w] {
      var i :| 0 <= i < |kw| && kw[i] == k;
      assert ranked[i] in ranked;
      assert Frequency(ranked[i]) >= Frequency(ranked[j]);
    }
  }

  // ---------------------------------------------------------------- index and search

  datatype Page = Page(url: string, title: string, content: string, category: Option<string>)

  datatype Entry = Entry(page: Page, searchableText: string, keywords: seq<string>)

  datatype Result = Result(entry: Entry, score: int)

  /** The index record `buildSearchIndex` makes for one page. */
  function IndexEntry(p: Page): Entry
  {
    Entry(p, Lower(p.title + " " + p.content), Keywords(p.title + " " + p.content))
  }

  function BuildSearchIndex(pages: seq<Page>): (index: seq<Entry>)
    ensures |index| == |pages|
    ensures forall i :: 0 <= i < |pages| ==> index[i] == IndexEntry(pages[i])
  {
    seq(|pages|, i requires 0 <= i < |pages| => IndexEntry(pages[i]))
  }

  /** The `performSearch` filter: the searchable text or some keyword contains the query. */
  predicate Matches(e: Entry, q: string)
  {
    Contains(e.searchableText, q) || exists k :: k in e.keywords && Contains(k, q)
  }

  /** Every indexed page is found by any part of its lowercased title. */
  lemma IndexedTitleIsFound(p: Page, q: string)
    requires Contains(Lower(p.title), q)
    ensures Matches(IndexEntry(p), q)
  {
    LowerAppend(p.title, " " + p.content);
    assert p.title + " " + p.content == p.title + (" " + p.content);
    ContainsGrows(Lower(p.title), q, Lower(" " + p.content));
  }

  /** The entries of `index` that match `q`, in index order. */
  function Found(index: seq<Entry>, q: string): (r: seq<Entry>)
    ensures |r| <= |index|
    ensures forall e :: e in r <==> e in index && Matches(e, q)
  {
    if index == [] then []
    else (if Matches(index[0], q) then [index[0]] else []) + Found(index[1..], q)
  }

  /** The number of keywords that contain `q`. */
  function KeywordHits(keywords: seq<string>, q: string): (n: nat)
    ensures n <= |keywords|
    ensures n == 0 <==> forall k :: k in keywords ==> !Contains(k, q)
  {
    if keywords == [] then 0
    else (if Contains(keywords[0], q) then 1 else 0) + KeywordHits(keywords[1..], q)
  }

  /** The length of `s.match(new RegExp(q, 'g'))`: an empty pattern matches at
      every position, otherwise the non-overlapping occurrences. */
  function MatchCount(s: string, q: string): (n: nat)
    ensures q != "" ==> (n == 0 <==> !Contains(s, q))
    ensures q == "" ==> n == |s| + 1
  {
    if q == "" then |s| + 1 else OccurrencesZero(s, q); Occurrences(s, q)
  }

  /** The relevance score of `rankResults`. */
  function Score(e: Entry, q: string): int
  {
    (if Contains(Lower(e.page.title), q) then 10 else 0)
    + (if e.searchableText == q then 20 else 0)
    + 5 * KeywordHits(e.keywords, q)
    + MatchCount(e.searchableText, q)
  }

  /** Every entry the search keeps scores at least 1. */
  lemma FoundScoresPositive(e: Entry, q: string)
    requires Matches(e, q)
    ensures Score(e, q) >= 1
  {
    if q != "" && !Contains(e.searchableText, q) {
      var k :| k in e.keywords && Contains(k, q);
    }
  }

  function ResultScore(r: Result): int
  {
    r.score
  }

  function Scored(results: seq<Entry>, q: string): (rs: seq<Result>)
    ensures |rs| == |results|
    ensures forall i :: 0 <= i < |rs| ==> rs[i] == Result(results[i], Score(results[i], q))
  {
    seq(|results|, i requires 0 <= i < |results| => Result(results[i], Score(results[i], q)))
  }

  /** `rankResults`: every result with its score, highest score first. */
  function RankResults(results: seq<Entry>, q: string): (ranked: seq<Result>)
    ensures |ranked| == |results|
    ensures multiset(ranked) == multiset(Scored(results, q))
    ensures SortedDesc(ranked, ResultScore)
  {
    SortDesc(Scored(results, q), ResultScore)
  }

  /** Ranking keeps every result, each carrying its own score. */
  lemma RankedResultsAreScored(results: seq<Entry>, q: string)
    ensures forall r :: r in RankResults(results, q) <==> r.entry in results && r.score == Score(r.entry, q)
  {
    var s := Scored(results, q);
    forall r ensures r in RankResults(results, q) <==> r.entry in results && r.score == Score(r.entry, q) {
      assert r in RankResults(results, q) <==> r in multiset(s);
      if r.entry in results && r.score == Score(r.entry, q) {
        var i :| 0 <= i < |results| && results[i] == r.entry;
        assert s[i] == r;
      }
    }
  }

  // ---------------------------------------------------------------- excerpts

  /** One piece of highlighted text: a character shown as is, or a match wrapped
      in `<mark>`. */
  datatype Piece = Plain(c: char) | Marked(text: string)

  /** The pieces `text.replace(new RegExp('(' + q + ')', 'gi'), '<mark>$1</mark>')`
      produces: case-insensitive matches found left to right without overlap. */
  function Marks(text: string, q: string): (ps: seq<Piece>)
    requires q != ""
    ensures Unmarked(ps) == text
    ensures forall k :: 0 <= k < |ps| && ps[k].Marked? ==> Lower(ps[k].text) == Lower(q)
    decreases |text|
  {
    if text == [] then []
    else if |q| <= |text| && Lower(text[..|q|]) == Lower(q) then
      assert text == text[..|q|] + text[|q|..];
      [Marked(text[..|q|])] + Marks(text[|q|..], q)
    else
      assert text == [text[0]] + text[1..];
      [Plain(text[0])] + Marks(text[1..], q)
  }

  /** The text of the pieces with the marks taken off. */
  function Unmarked(ps: seq<Piece>): string
  {
    if ps == [] then []
    else (match ps[0] case Plain(c) => [c] case Marked(t) => t) + Unmarked(ps[1..])
  }

  function Render(ps: seq<Piece>): string
  {
    if ps == [] then []
    else (match ps[0] case Plain(c) => [c] case Marked(t) => "<mark>" + t + "</mark>") + Render(ps[1..])
  }

  /** `highlightMatch(text, query)`; an absent or empty query leaves the text as is. */
  function Highlight(text: string, query: Option<string>): string
  {
    if query.None? || query.value == "" then text else Render(Marks(text, query.value))
  }

  lemma LowerSlice(s: string, a: nat, b: nat)
    requires a <= b <= |s|
    ensures Lower(s[a..b]) == Lower(s)[a..b]
  {
  }

  /** A window around an occurrence of `q` in the lowercased content contains it. */
  lemma WindowHasMatch(content: string, q: string, i: nat, start: nat, end: nat)
    requires start <= i && i + |q| <= end <= |content|
    requires IsPrefix(Lower(q), Lower(content)[i..])
    ensures Contains(Lower(content[start..end]), Lower(q))
  {
    LowerSlice(content, start, end);
    var whole, lq := Lower(content), Lower(q);
    var lw := whole[start..end];
    assert lw[i - start..] == whole[i..end];
    assert whole[i..end][..|lq|] == whole[i..][..|lq|];
    ContainsAt(lw, lq, i - start);
  }

  /** Where the excerpt is cut: from 50 characters before the first
      case-insensitive match to 100 characters after it; `None` when there is no match. */
  function Window(content: string, q: string): (w: Option<(nat, nat)>)
    ensures w.None? <==> !Contains(Lower(content), Lower(q))
    ensures w.Some? ==> w.value.0 <= w.value.1 <= |content|
    ensures w.Some? ==> w.value.1 - w.value.0 <= |q| + CONTEXT_BEFORE + CONTEXT_AFTER
    ensures w.Some? ==> Contains(Lower(content[w.value.0..w.value.1]), Lower(q))
  {
    IndexOfFirst(Lower(content), Lower(q));
    var i := IndexOf(Lower(content), Lower(q));
    if i < 0 then None
    else
      var start: nat := if i > CONTEXT_BEFORE then i - CONTEXT_BEFORE else 0;
      var end: nat := if |content| < i + |q| + CONTEXT_AFTER then |content| else i + |q| + CONTEXT_AFTER;
      WindowHasMatch(content, q, i, start, end);
      Some((start, end))
  }

  function Dots(cut: bool): string
  {
    if cut then "..." else ""
  }

  /** The cut-out text, with an ellipsis on each side that was cut. */
  function Cut(content: string, start: nat, end: nat): string
    requires start <= end <= |content|
  {
    Dots(start > 0) + content[start..end] + Dots(end < |content|)
  }

  /** `getExcerpt(content, query)` */
  function GetExcerpt(content: string, query: Option<string>): string
  {
    if query.None? || query.value == "" then Take(content, EXCERPT_HEAD) + "..."
    else
      match Window(content, query.value)
      case None => Take(content, EXCERPT_HEAD) + "..."
      case Some((start, end)) => Highlight(Cut(content, start, end), query)
  }

  /** Without a query, or when the query does not occur, the excerpt is the first
      150 characters and an ellipsis. */
  lemma ExcerptWithoutMatch(content: string, query: Option<string>)
    requires query.None? || query.value == "" || !Contains(Lower(content), Lower(query.value))
    ensures GetExcerpt(content, query) == Take(content, EXCERPT_HEAD) + "..."
  {
  }

  /** With a match, the excerpt is the highlighted cut, which shows the match and
      holds at most 156 characters more than the query. */
  lemma ExcerptShowsMatch(content: string, q: string)
    requires q != "" && Contains(Lower(content), Lower(q))
    ensures var w := Window(content, q).value;
            var text := Cut(content, w.0, w.1);
            && GetExcerpt(content, Some(q)) == Render(Marks(text, q))
            && Unmarked(Marks(text, q)) == text
            && Contains(Lower(text), Lower(q))
            && |text| <= |q| + CONTEXT_BEFORE + CONTEXT_AFTER + 6
  {
    var w := Window(content, q).value;
    var mid := content[w.0..w.1];
    var pre, post := Dots(w.0 > 0), Dots(w.1 < |content|);
    LowerAppend(pre + mid, post);
    LowerAppend(pre, mid);
    ContainsGrows(Lower(mid), Lower(q), Lower(pre));
    ContainsGrows(Lower(pre) + Lower(mid), Lower(q), Lower(post));
  }

  /** Some piece of a highlighted text that contains `q` is a mark. */
  lemma {:induction false} MarksFindMatch(text: string, q: string)
    requires q != "" && Contains(Lower(text), Lower(q))
    ensures exists k :: 0 <= k < |Marks(text, q)| && Marks(text, q)[k].Marked?
    decreases |text|
  {
    var ps := Marks(text, q);
    if |q| <= |text| && Lower(text[..|q|]) == Lower(q) {
      assert ps[0].Marked?;
    } else {
      var i :| 0 <= i <= |Lower(text)| && IsPrefix(Lower(q), Lower(text)[i..]);
      if i == 0 {
        LowerSlice(text, 0, |q|);
      }
      assert Lower(text)[1..] == Lower(text[1..]);
      assert Lower(text)[i..] == Lower(text[1..])[i - 1..];
      ContainsAt(Lower(text[1..]), Lower(q), i - 1);
      MarksFindMatch(text[1..], q);
      var k :| 0 <= k < |Marks(text[1..], q)| && Marks(text[1..], q)[k].Marked?;
      assert ps[k + 1] == Marks(text[1..], q)[k];
    }
  }

  /** The rendered text shows the text of each of its marks. */
  lemma {:induction false} RenderShowsMarked(ps: seq<Piece>, k: nat)
    requires k < |ps| && ps[k].Marked?
    ensures Contains(Render(ps), ps[k].text)
  {
    var head := match ps[0] case Plain(c) => [c] case Marked(t) => "<mark>" + t + "</mark>";
    assert Render(ps) == head + Render(ps[1..]);
    if k == 0 {
      ContainsSuffix("<mark>", ps[0].text);
      ContainsGrows("<mark>" + ps[0].text, ps[0].text, "</mark>" + Render(ps[1..]));
      assert head + Render(ps[1..]) == ("<mark>" + ps[0].text) + ("</mark>" + Render(ps[1..]));
    } else {
      RenderShowsMarked(ps[1..], k - 1);
      ContainsGrows(Render(ps[1..]), ps[k].text, head);
    }
  }

  /** What `displayResults` shows as a result's excerpt: it passes
      `this.currentQuery`, which nothing assigns, so the query is always absent. */
  function DisplayedExcerpt(content: string): (r: string)
    ensures r == Take(content, EXCERPT_HEAD) + "..."
  {
    GetExcerpt(content, None)
  }

  /** A page whose only mention of the query lies past the first 150 characters
      is shown without it. */
  lemma DisplayedExcerptMissesMatch()
    ensures var content := seq(160, _ => 'a') + "needle";
            && Contains(Lower(content), Lower("needle"))
            && !Contains(DisplayedExcerpt(content), "needle")
  {
    var content := seq(160, _ => 'a') + "needle";
    LowerAppend(seq(160, _ => 'a'), "needle");
    ContainsSuffix(Lower(seq(160, _ => 'a')), Lower("needle"));
    var shown := DisplayedExcerpt(content);
    assert forall i :: 0 <= i < |shown| ==> shown[i] == 'a' || shown[i] == '.';
    ContainsFirst(shown, "needle");
  }

  /** The excerpt with the search query passed in, as evidently intended: when
      the content mentions the query, so does the excerpt. */
  function ResultExcerpt(content: string, q: string): (r: string)
    ensures q != "" && Contains(Lower(content), Lower(q)) ==> Contains(Lower(r), Lower(q))
  {
    var r := GetExcerpt(content, Some(q));
    if q != "" && Contains(Lower(content), Lower(q)) then
      ExcerptShowsMatch(content, q);
      var w := Window(content, q).value;
      var text := Cut(content, w.0, w.1);
      MarksFindMatch(text, q);
      var k :| 0 <= k < |Marks(text, q)| && Marks(text, q)[k].Marked?;
      RenderShowsMarked(Marks(text, q), k);
      ContainsLower(r, Marks(text, q)[k].text);
      r
    else
      r
  }

  // ---------------------------------------------------------------- navigation and history

  /** `navigateResults`: the newly selected result among `count`, from `current`
      (-1 when none is selected); `None` when there are no results. */
  function Navigate(count: nat, current: int, down: bool): (r: Option<nat>)
    requires -1 <= current < count
    ensures r.None? <==> count == 0
    ensures r.Some? ==> r.value < count
  {
    if count == 0 then None
    else if down then Some(if current < count - 1 then current + 1 else 0)
    else Some(if current > 0 then current - 1 else count - 1)
  }

  /** Down moves one step forward cyclically, starting at the first result; up
      moves one step back cyclically, starting at the last. */
  lemma NavigateIsCyclic(count: nat, current: int)
    requires count > 0 && -1 <= current < count
    ensures Navigate(count, current, true) == Some((current + 1) % count)
    ensures current >= 0 ==> Navigate(count, current, false) == Some((current - 1 + count) % count)
    ensures current == -1 ==> Navigate(count, current, false) == Some(count - 1)
  {
    if current + 1 < count {
      ModBelow(current + 1, count);
    } else {
      ModSelf(count);
    }
    if current > 0 {
      ModBelow(current - 1, count);
      assert current - 1 + count == (current - 1) + count;
      ModShift(current - 1, count);
    } else if current == 0 {
      ModBelow(count - 1, count);
    }
  }

  /** Up undoes down and down undoes up. */
  lemma NavigateUpUndoesDown(count: nat, current: nat)
    requires current < count
    ensures Navigate(count, Navigate(count, current, true).value, false) == Some(current)
    ensures Navigate(count, Navigate(count, current, false).value, true) == Some(current)
  {
  }

  /** `h` without any entry equal to `q`, order kept. */
  function Remove(h: seq<string>, q: string): (r: seq<string>)
    ensures q !in r
    ensures |r| <= |h|
    ensures forall x :: x in r <==> x in h && x != q
    ensures NoDuplicates(h) ==> NoDuplicates(r)
  {
    if h == [] then []
    else
      var rest := Remove(h[1..], q);
      assert NoDuplicates(h) ==> h[0] !in h[1..];
      if h[0] == q then rest else [h[0]] + rest
  }

  /** The history after `addToSearchHistory(q)`. */
  function PushHistory(h: seq<string>, q: string): (r: seq<string>)
  {
    if Trim(q) == "" then h else Take([q] + Remove(h, q), MAX_HISTORY)
  }

  /** A blank query leaves the history alone; any other query ends up first and
      only once, the history stays at most ten long, and the remaining entries
      are the earlier history without `q`, in their old order. */
  lemma PushHistoryFacts(h: seq<string>, q: string)
    ensures Trim(q) == "" ==> PushHistory(h, q) == h
    ensures Trim(q) != "" ==> |PushHistory(h, q)| <= MAX_HISTORY
    ensures Trim(q) != "" ==> PushHistory(h, q)[0] == q && q !in PushHistory(h, q)[1..]
    ensures Trim(q) != "" ==> IsPrefix'(PushHistory(h, q)[1..], Remove(h, q))
    ensures Trim(q) != "" && NoDuplicates(h) ==> NoDuplicates(PushHistory(h, q))
  {
    if Trim(q) != "" {
      var r := PushHistory(h, q);
      var full := [q] + Remove(h, q);
      assert r == full[..|r|];
      assert r[1..] == Remove(h, q)[..|r| - 1];
      if NoDuplicates(h) {
        forall i, j | 0 <= i < j < |r| ensures r[i] != r[j] {
          if i == 0 {
            assert r[j] in Remove(h, q);
          } else {
            assert r[i] == Remove(h, q)[i - 1] && r[j] == Remove(h, q)[j - 1];
          }
        }
      }
    }
  }

  predicate IsPrefix'<T(==)>(p: seq<T>, s: seq<T>)
  {
    |p| <= |s| && s[..|p|] == p
  }

  /** The `filterResults` predicate: `all` keeps everything, `page` keeps results
      without a category, any other filter keeps its own category. */
  predicate KeptByFilter(r: Result, filter: string)
  {
    filter == "all"
    || (r.entry.page.category.Some? && r.entry.page.category.value == filter)
    || (filter == "page" && (r.entry.page.category.None? || r.entry.page.category.value == ""))
  }

  function FilterResults(results: seq<Result>, filter: string): (r: seq<Result>)
    ensures forall x :: x in r <==> x in results && KeptByFilter(x, filter)
    ensures filter == "all" ==> r == results
  {
    if results == [] then []
    else (if KeptByFilter(results[0], filter) then [results[0]] else []) + FilterResults(results[1..], filter)
  }

  /** The search box: the index, the shown results, the selected result (-1 for
      none) and the query history. */
  class SearchBox {
    var index: seq<Entry>
    var results: seq<Result>
    var selected: int
    var history: seq<string>

    ghost predicate Valid()
      reads this
    {
      -1 <= selected < |results|
    }

    /** The constructor builds the index and loads the stored history. */
    constructor(pages: seq<Page>, storedHistory: seq<string>)
      ensures Valid()
      ensures index == BuildSearchIndex(pages) && results == [] && selected == -1 && history == storedHistory
    {
      index := BuildSearchIndex(pages);
      results := [];
      selected := -1;
      history := storedHistory;
    }

    /** `handleSearch(query)`: a blank query shows the placeholder in place
        of the shown results; any other is lowercased and searched.  Returns
        whether a search ran. */
    method HandleSearch(query: string) returns (searched: bool)
      requires Valid()
      modifies this
      ensures Valid()
      ensures searched <==> Trim(query) != ""
      ensures !searched ==> results == [] && selected == -1 && history == old(history)
      ensures searched ==> results == RankResults(Found(index, Lower(query)), Lower(query))
      ensures searched ==> history == PushHistory(old(history), Lower(query))
      ensures index == old(index)
    {
      if Trim(query) == "" {
        results := [];
        selected := -1;
        return false;
      }
      PerformSearch(Lower(query));
      searched := true;
    }

    /** `performSearch(q)`: the matching entries, ranked; the shown list is
        rebuilt with nothing selected, and the query is added to the history. */
    method PerformSearch(q: string)
      requires Valid()
      modifies this
      ensures Valid()
      ensures results == RankResults(Found(index, q), q)
      ensures selected == -1
      ensures history == PushHistory(old(history), q)
      ensures index == old(index)
    {
      results := RankResults(Found(index, q), q);
      selected := -1;
      history := PushHistory(history, q);
    }

    /** `navigateResults(direction)` over the shown results. */
    method NavigateResults(down: bool)
      requires Valid()
      modifies this
      ensures Valid()
      ensures results == old(results) && history == old(history) && index == old(index)
      ensures |results| == 0 ==> selected == old(selected)
      ensures |results| > 0 ==> selected == Navigate(|results|, old(selected), down).value
    {
      var next := Navigate(|results|, selected, down);
      if next.Some? {
        selected := next.value;
      }
    }
  }
}

=== FILE: security.dfy ===
/** The decision logic of the security manager: the Content-Security-Policy
    string, the hexadecimal CSRF token, the form-action allow-list, the SameSite
    cookie rewrite, the crypto-miner URL check and the newest-first event log. */
module Security {
  import opened Js

  // ---------------------------------------------------------------- CSP

  /** One directive of the policy: its name and its source list. */
  datatype Directive = Directive(name: string, sources: seq<string>)

  /** The policy of the security configuration, in declaration order. */
  const CSP_CONFIG: seq<Directive> := [
    Directive("default-src", ["'self'"]),
    Directive("script-src", ["'self'", "'unsafe-inline'", "'unsafe-eval'", "https://www.googletagmanager.com",
                             "https://www.google-analytics.com", "https://pagead2.googlesyndication.com"]),
    Directive("style-src", ["'self'", "'unsafe-inline'", "https://fonts.googleapis.com", "https://cdnjs.cloudflare.com"]),
    Directive("img-src", ["'self'", "data:", "https:", "blob:"]),
    Directive("font-src", ["'self'", "https://fonts.gstatic.com", "https://cdnjs.cloudflare.com"]),
    Directive("connect-src", ["'self'", "https://www.google-analytics.com", "https://api.github.com"]),
    Directive("media-src", ["'self'"]),
    Directive("object-src", ["'none'"]),
    Directive("base-uri", ["'self'"]),
    Directive("form-action", ["'self'"]),
    Directive("frame-ancestors", ["'none'"]),
    Directive("upgrade-insecure-requests", [])
  ]

  /** A directive as it appears in the header: the name, then a space and the
      space-separated sources when there are any. */
  function DirectiveText(d: Directive): (r: string)
    ensures IsPrefix(d.name, r)
    ensures d.sources == [] <==> r == d.name
  {
    d.name + (if |d.sources| > 0 then " " + Join(d.sources, " ") else "")
  }

  function Texts(ds: seq<Directive>): (r: seq<string>)
    ensures |r| == |ds|
    ensures forall k :: 0 <= k < |ds| ==> r[k] == DirectiveText(ds[k])
  {
    if ds == [] then [] else [DirectiveText(ds[0])] + Texts(ds[1..])
  }

  /** The header value: the directives in order, separated by `"; "`. */
  function Csp(ds: seq<Directive>): string
  {
    Join(Texts(ds), "; ")
  }

  /** No name or source holds the character `c`. */
  predicate DirectivesFreeOf(ds: seq<Directive>, c: char)
  {
    forall k :: 0 <= k < |ds| ==> c !in ds[k].name && FreeOf(ds[k].sources, c)
  }

  lemma {:induction false} JoinFreeOf(parts: seq<string>, sep: string, c: char)
    requires FreeOf(parts, c) && c !in sep
    ensures c !in Join(parts, sep)
    decreases |parts|
  {
    if |parts| > 1 {
      JoinFreeOf(parts[1..], sep, c);
      assert Join(parts, sep) == parts[0] + sep + Join(parts[1..], sep);
    }
  }

  lemma DirectiveTextFreeOf(d: Directive, c: char)
    requires c !in d.name && FreeOf(d.sources, c) && c != ' '
    ensures c !in DirectiveText(d)
  {
    JoinFreeOf(d.sources, " ", c);
  }

  /** Cutting the header at `"; "` gives back each directive's text, in
      configuration order, provided no name or source holds a `;`. */
  lemma CspSplitsIntoDirectives(ds: seq<Directive>)
    requires |ds| > 0 && DirectivesFreeOf(ds, ';')
    ensures Split(Csp(ds), "; ") == Texts(ds)
  {
    var texts := Texts(ds);
    forall k | 0 <= k < |texts| ensures ';' !in texts[k] {
      DirectiveTextFreeOf(ds[k], ';');
    }
    SplitJoin(texts, "; ");
  }

  /** Cutting one directive at its spaces gives its name followed by its sources,
      provided none of them holds a space. */
  lemma DirectiveSplitsIntoWords(d: Directive)
    requires ' ' !in d.name && FreeOf(d.sources, ' ')
    ensures Split(DirectiveText(d), " ") == [d.name] + d.sources
  {
    NoOccurrenceWithout(d.name, " ");
    if |d.sources| == 0 {
      assert DirectiveText(d) == d.name;
    } else {
      var words := [d.name] + d.sources;
      assert FreeOf(words, ' ');
      assert Join(words, " ") == DirectiveText(d) by {
        assert words[1..] == d.sources;
      }
      SplitJoin(words, " ");
    }
  }

  // ---------------------------------------------------------------- CSRF token

  type Byte = b: nat | b < 256

  const HEX_DIGITS := "0123456789abcdef"

  function HexDigit(d: nat): (c: char)
    requires d < 16
    ensures c in HEX_DIGITS
  {
    HEX_DIGITS[d]
  }

  /** `byte.toString(16)`: base-16 digits without leading zeros. */
  function ToHex(b: Byte): (r: string)
    ensures 1 <= |r| <= 2
  {
    if b < 16 then [HexDigit(b)] else [HexDigit(b / 16), HexDigit(b % 16)]
  }

  /** `s.padStart(n, c)` */
  function PadStart(s: string, n: nat, c: char): (r: string)
    ensures |r| == if |s| < n then n else |s|
    ensures IsSuffix(s, r)
  {
    if |s| < n then seq(n - |s|, _ => c) + s else s
  }

  /** The two characters one byte contributes to the token. */
  function ByteHex(b: Byte): (r: string)
    ensures |r| == 2
    ensures r[0] == HexDigit(b / 16) && r[1] == HexDigit(b % 16)
  {
    PadStart(ToHex(b), 2, '0')
  }

  /** `Array.from(bytes, byte => byte.toString(16).padStart(2, '0')).join('')` */
  function Token(bytes: seq<Byte>): (r: string)
    ensures |r| == 2 * |bytes|
    ensures forall i :: 0 <= i < |r| ==> r[i] in HEX_DIGITS
  {
    if bytes == [] then "" else ByteHex(bytes[0]) + Token(bytes[1..])
  }

  /** The token made from 32 random bytes. */
  function GenerateCsrfToken(random: seq<Byte>): (r: string)
    requires |random| == 32
    ensures |r| == 64
  {
    Token(random)
  }

  /** The value of a lowercase hexadecimal digit. */
  function HexValue(c: char): (r: Option<nat>)
    ensures r.Some? ==> r.value < 16
  {
    if '0' <= c <= '9' then Some(c as int - '0' as int)
    else if 'a' <= c <= 'f' then Some(c as int - 'a' as int + 10)
    else None
  }

  lemma HexValueDigit(d: nat)
    requires d < 16
    ensures HexValue(HexDigit(d)) == Some(d)
  {
  }

  /** Reads a token back into bytes; `None` for an odd length or a character that
      is not a lowercase hexadecimal digit. */
  function DecodeToken(s: string): Option<seq<Byte>>
    decreases |s|
  {
    if s == [] then Some([])
    else if |s| == 1 then None
    else
      var hi := HexValue(s[0]);
      var lo := HexValue(s[1]);
      var rest := DecodeToken(s[2..]);
      if hi.Some? && lo.Some? && rest.Some? then Some([hi.value * 16 + lo.value] + rest.value) else None
  }

  lemma DigitsOfByte(b: Byte)
    ensures (b / 16) * 16 + b % 16 == b
  {
  }

  /** Two digits in front of a readable tail read as one more byte. */
  lemma DecodeTwo(t: string, hi: nat, lo: nat, rest: seq<Byte>)
    requires |t| >= 2 && HexValue(t[0]) == Some(hi) && HexValue(t[1]) == Some(lo)
    requires DecodeToken(t[2..]) == Some(rest)
    ensures hi * 16 + lo < 256
    ensures DecodeToken(t) == Some([hi * 16 + lo] + rest)
  {
  }

  /** Reading one byte's two digits in front of a readable tail. */
  lemma DecodeStep(b: Byte, tail: string, rest: seq<Byte>)
    requires DecodeToken(tail) == Some(rest)
    ensures DecodeToken(ByteHex(b) + tail) == Some([b] + rest)
  {
    var t := ByteHex(b) + tail;
    var hi, lo := b / 16, b % 16;
    DigitsOfByte(b);
    HexValueDigit(hi);
    HexValueDigit(lo);
    assert t[0] == HexDigit(hi) && t[1] == HexDigit(lo) && t[2..] == tail;
    DecodeTwo(t, hi, lo, rest);
  }

  /** Every token reads back as the bytes it was made from. */
  lemma {:induction false} TokenRoundTrip(bytes: seq<Byte>)
    ensures DecodeToken(Token(bytes)) == Some(bytes)
  {
    if bytes != [] {
      TokenRoundTrip(bytes[1..]);
      DecodeStep(bytes[0], Token(bytes[1..]), bytes[1..]);
      assert bytes == [bytes[0]] + bytes[1..];
    }
  }

  /** Different random bytes give different tokens. */
  lemma TokenInjective(a: seq<Byte>, b: seq<Byte>)
    requires Token(a) == Token(b)
    ensures a == b
  {
    TokenRoundTrip(a);
    TokenRoundTrip(b);
  }

  // ---------------------------------------------------------------- domains

  /** `isAllowedDomain(url)`, given the host name `new URL(url)` yields (`None`
      when the URL does not parse) and the page's own host name. */
  predicate IsAllowedDomain(host: Option<string>, pageHost: string)
  {
    host.Some? && host.value in [pageHost, "netlify.com", "forms.netlify.com"]
  }

  /** Exactly three host names pass, and an unparsable URL never does. */
  lemma AllowedDomains(host: Option<string>, pageHost: string)
    ensures IsAllowedDomain(host, pageHost) <==>
      host == Some(pageHost) || host == Some("netlify.com") || host == Some("forms.netlify.com")
    ensures host == None ==> !IsAllowedDomain(host, pageHost)
  {
  }

  /** The match is exact: another subdomain of `netlify.com` is refused unless it
      is the page's own host. */
  lemma OtherSubdomainsRefused(sub: string, pageHost: string)
    requires sub != "" && sub != "forms"
    requires sub + ".netlify.com" != pageHost
    ensures !IsAllowedDomain(Some(sub + ".netlify.com"), pageHost)
  {
    var h := sub + ".netlify.com";
    assert h != "forms.netlify.com" by {
      if |sub| == 5 {
        assert h[..5] == sub;
      }
    }
  }

  /** The submit guard of `secureForm`: the target is the form's action, or the
      page address when the action is empty; submission is blocked when that
      target is non-empty and not on an allowed domain. `hostOf` stands for
      `new URL(..).hostname`. */
  predicate SubmitBlocked(action: string, href: string, hostOf: string -> Option<string>, pageHost: string)
  {
    var target := if action != "" then action else href;
    target != "" && !IsAllowedDomain(hostOf(target), pageHost)
  }

  /** A form without an action posts to the page itself and is never blocked. */
  lemma SelfSubmitAllowed(href: string, hostOf: string -> Option<string>, pageHost: string)
    requires hostOf(href) == Some(pageHost)
    ensures !SubmitBlocked("", href, hostOf, pageHost)
  {
  }

  /** A form whose action does not parse is blocked. */
  lemma UnparsableActionBlocked(action: string, href: string, hostOf: string -> Option<string>, pageHost: string)
    requires action != "" && hostOf(action) == None
    ensures SubmitBlocked(action, href, hostOf, pageHost)
  {
  }

  // ---------------------------------------------------------------- forms

  datatype Input = Input(inputType: string, name: string, value: string)

  /** The inputs of a form element. */
  class FormElement {
    var action: string
    var inputs: seq<Input>

    constructor(action: string, inputs: seq<Input>)
      ensures this.action == action && this.inputs == inputs
    {
      this.action := action;
      this.inputs := inputs;
    }
  }

  predicate HasCsrfInput(inputs: seq<Input>)
  {
    exists k :: 0 <= k < |inputs| && inputs[k].name == "csrf_token"
  }

  /** `addCSRFToken(form)`: a form that already has a `csrf_token` input is left
      alone; otherwise a hidden input carrying a fresh token is appended. */
  method AddCsrfToken(form: FormElement, random: seq<Byte>)
    requires |random| == 32
    modifies form
    ensures form.action == old(form.action)
    ensures HasCsrfInput(old(form.inputs)) ==> form.inputs == old(form.inputs)
    ensures !HasCsrfInput(old(form.inputs)) ==>
      form.inputs == old(form.inputs) + [Input("hidden", "csrf_token", GenerateCsrfToken(random))]
    ensures HasCsrfInput(form.inputs)
  {
    if HasCsrfInput(form.inputs) {
      return;
    }
    var token := GenerateCsrfToken(random);
    form.inputs := form.inputs + [Input("hidden", "csrf_token", token)];
    assert form.inputs[|form.inputs| - 1].name == "csrf_token";
  }

  // ---------------------------------------------------------------- cookies

  /** The rewrite the `document.cookie` setter applies before storing `value`. */
  function WithSameSite(value: string): (r: string)
    ensures Contains(r, "SameSite")
    ensures Contains(value, "SameSite") ==> r == value
    ensures !Contains(value, "SameSite") ==> r == value + "; SameSite=Strict"
  {
    if !Contains(value, "SameSite") then
      var r := value + "; SameSite=Strict";
      assert r[|value| + 2..][..8] == "SameSite";
      ContainsAt(r, "SameSite", |value| + 2);
      r
    else value
  }

  /** Setting a cookie through the rewrite twice is the same as once. */
  lemma WithSameSiteIdempotent(value: string)
    ensures WithSameSite(WithSameSite(value)) == WithSameSite(value)
  {
  }

  // ---------------------------------------------------------------- scripts

  const MINER_NAMES: seq<string> := ["coinhive", "cryptoloot", "jsecoin", "minergate", "crypto-loot"]

  function AnyContained(s: string, names: seq<string>): (r: bool)
    ensures r <==> exists k :: 0 <= k < |names| && Contains(s, names[k])
  {
    if names == [] then false
    else Contains(s, names[0]) || AnyContained(s, names[1..])
  }

  /** `isCryptoMiningScript(url)`: the five case-insensitive patterns are plain
      lowercase words, so a match is an occurrence in the lowercased URL. */
  predicate IsCryptoMiningScript(url: string)
  {
    AnyContained(Lower(url), MINER_NAMES)
  }

  /** The check ignores letter case. */
  lemma CryptoMiningIgnoresCase(url: string)
    ensures IsCryptoMiningScript(Lower(url)) == IsCryptoMiningScript(url)
  {
    LowerIdempotent(url);
  }

  /** A URL carrying any of the names, in any mix of letter case, is flagged. */
  lemma CryptoMiningFlagsEveryName(url: string, written: string, k: nat)
    requires k < |MINER_NAMES| && Lower(written) == MINER_NAMES[k]
    requires Contains(url, written)
    ensures IsCryptoMiningScript(url)
  {
    ContainsLower(url, written);
  }

  // ---------------------------------------------------------------- event log

  datatype Event = Event(eventType: string, timestamp: string, data: map<string, Value>)

  const MAX_EVENTS := 50

  /** The stored list after one event: the event first, then the older events,
      cut to 50. */
  function Logged(events: seq<Event>, e: Event): (r: seq<Event>)
    ensures |r| <= MAX_EVENTS && |r| >= 1 && r[0] == e
    ensures r[1..] == Take(events, MAX_EVENTS - 1)
  {
    Take([e] + events, MAX_EVENTS)
  }

  /** The list after logging `es` in order, starting from `events`. */
  function LoggedAll(events: seq<Event>, es: seq<Event>): seq<Event>
    decreases |es|
  {
    if es == [] then events else LoggedAll(Logged(events, es[0]), es[1..])
  }

  function Reversed<T>(s: seq<T>): (r: seq<T>)
    ensures |r| == |s|
    ensures forall i :: 0 <= i < |s| ==> r[i] == s[|s| - 1 - i]
  {
    if s == [] then [] else Reversed(s[1..]) + [s[0]]
  }

  lemma TakeTwice<T>(e: T, xs: seq<T>)
    ensures Take([e] + Take(xs, MAX_EVENTS), MAX_EVENTS) == Take([e] + xs, MAX_EVENTS)
  {
  }

  /** After a burst of events the list holds the newest first: the burst in
      reverse, then the earlier list, at most 50 in all. */
  lemma {:induction false} LoggedAllNewestFirst(events: seq<Event>, es: seq<Event>)
    requires es != []
    ensures LoggedAll(events, es) == Take(Reversed(es) + events, MAX_EVENTS)
    decreases |es|
  {
    var e := es[0];
    var rest := es[1..];
    if rest == [] {
      assert Reversed(es) == [e];
    } else {
      LoggedAllNewestFirst(Logged(events, e), rest);
      assert Reversed(es) == Reversed(rest) + [e];
      var front := Reversed(rest);
      // Take(front + Take([e] + events, 50), 50) == Take(front + [e] + events, 50)
      assert Take(front + Logged(events, e), MAX_EVENTS) == Take(front + [e] + events, MAX_EVENTS) by {
        var long := front + ([e] + events);
        var cut := front + Take([e] + events, MAX_EVENTS);
        assert forall i :: 0 <= i < |cut| && i < MAX_EVENTS ==> cut[i] == long[i];
        assert front + [e] + events == long;
      }
    }
  }

  /** The `security_events` entry of local storage. */
  class SecurityLog {
    var events: seq<Event>

    constructor(stored: seq<Event>)
      ensures events == stored
    {
      events := stored;
    }

    /** `logSecurityEvent`: unshift the event, then cut the list to 50. */
    method LogSecurityEvent(eventType: string, timestamp: string, data: map<string, Value>)
      modifies this
      ensures events == Logged(old(events), Event(eventType, timestamp, data))
      ensures |events| <= MAX_EVENTS && events[0] == Event(eventType, timestamp, data)
      ensures events[1..] == Take(old(events), MAX_EVENTS - 1)
    {
      var e := Event(eventType, timestamp, data);
      var list := [e] + events;
      if |list| > MAX_EVENTS {
        list := list[..MAX_EVENTS];
      }
      events := list;
    }
  }
}

=== FILE: service_worker.dfy ===
/** The site's service worker: one named cache filled at install time from a fixed
    asset list, stale caches deleted at activation, and a cache-first fetch handler
    that stores fresh 200 responses and falls back to the cached start page when a
    page request cannot reach the network.

    The browser's Cache Storage is modelled as a class holding the cache names in
    creation order and a map from each name to its cache, which maps a request URL
    to the stored response.  The network outcome of each fetch is a parameter. */
module ServiceWorker {
  import opened Js

  const CACHE_NAME: string := "klaus-portfolio-v1"

  /** The page served when a document request finds neither cache nor network. */
  const OFFLINE_PAGE: string := "/index.html"

  const ASSETS: seq<string> := [
    "/",
    "/index.html",
    "/styles.css",
    "/script.js",
    "/ad-styles.css",
    "/ads.txt",
    "/img/favicon-optimized.png",
    "/img/apple-touch-icon.png",
    "https://fonts.googleapis.com/css2?family=Inter:wght@300;400;500;600;700;800&display=swap",
    "https://pagead2.googlesyndication.com/pagead/js/adsbygoogle.js?client=ca-pub-2396098605485959"
  ]

  datatype Request = Request(httpMethod: string, url: string, destination: string)

  datatype Response = Response(status: int, body: string)

  /** What `fetch` settles with: a response (of any status) or a network failure. */
  datatype NetResult = Delivered(response: Response) | NetworkError

  /** One cache: request URL to stored response. */
  type Cache = map<string, Response>

  /** `response.ok` */
  predicate Ok(r: Response)
  {
    200 <= r.status <= 299
  }

  /** The request `caches.match` builds from a bare URL string. */
  function GetRequest(url: string): Request
  {
    Request("GET", url, "")
  }

  predicate Distinct(xs: seq<string>)
  {
    forall i, j :: 0 <= i < j < |xs| ==> xs[i] != xs[j]
  }

  /** `caches.match(url)`: the response stored for `url` in the first cache, in
      creation order, that has one. */
  function FirstMatch(names: seq<string>, caches: map<string, Cache>, url: string): Option<Response>
  {
    if names == [] then None
    else if names[0] in caches && url in caches[names[0]] then Some(caches[names[0]][url])
    else FirstMatch(names[1..], caches, url)
  }

  /** The lookup finds nothing exactly when no listed cache holds the URL, and
      otherwise the response of the first listed cache that does. */
  lemma {:induction false} FirstMatchSpec(names: seq<string>, caches: map<string, Cache>, url: string)
    ensures var r := FirstMatch(names, caches, url);
      (r.None? <==> forall i :: 0 <= i < |names| && names[i] in caches ==> url !in caches[names[i]])
      && (r.Some? ==> exists i :: 0 <= i < |names| && names[i] in caches && url in caches[names[i]]
                        && caches[names[i]][url] == r.value
                        && forall j :: 0 <= j < i && names[j] in caches ==> url !in caches[names[j]])
  {
    if names != [] {
      FirstMatchSpec(names[1..], caches, url);
      if !(names[0] in caches && url in caches[names[0]]) {
        var r := FirstMatch(names, caches, url);
        if r.Some? {
          var k :| 0 <= k < |names[1..]| && names[1..][k] in caches && url in caches[names[1..][k]]
                   && caches[names[1..][k]][url] == r.value
                   && forall j :: 0 <= j < k && names[1..][j] in caches ==> url !in caches[names[1..][j]];
          assert names[k + 1] == names[1..][k];
          forall j | 0 <= j < k + 1 && names[j] in caches
            ensures url !in caches[names[j]]
          {
            if j > 0 { assert names[j] == names[1..][j - 1]; }
          }
        } else {
          forall i | 0 <= i < |names| && names[i] in caches
            ensures url !in caches[names[i]]
          {
            if i > 0 { assert names[i] == names[1..][i - 1]; }
          }
        }
      }
    }
  }

  /** A URL no cache holds is, once stored in one of the listed caches, what
      `caches.match` finds for it. */
  lemma {:induction false} FirstMatchAfterStore(names: seq<string>, caches: map<string, Cache>,
                                                name: string, url: string, r: Response)
    requires FirstMatch(names, caches, url).None?
    requires name in names && name in caches
    ensures FirstMatch(names, caches[name := caches[name][url := r]], url) == Some(r)
  {
    var after := caches[name := caches[name][url := r]];
    if names[0] != name {
      assert names[0] in after ==> after[names[0]] == caches[names[0]];
      FirstMatchAfterStore(names[1..], caches, name, url, r);
    }
  }

  /** Opening a new, empty cache changes nothing `caches.match` finds. */
  lemma {:induction false} FirstMatchAfterOpen(names: seq<string>, caches: map<string, Cache>,
                                               name: string, url: string)
    requires name !in caches
    ensures FirstMatch(names + [name], caches[name := map[]], url) == FirstMatch(names, caches, url)
  {
    if names != [] {
      assert (names + [name])[1..] == names[1..] + [name];
      FirstMatchAfterOpen(names[1..], caches, name, url);
    }
  }

  /** Storing under one URL leaves what `caches.match` finds for other URLs as it was. */
  lemma {:induction false} FirstMatchOtherUrl(names: seq<string>, caches: map<string, Cache>,
                                              name: string, url: string, other: string, r: Response)
    requires name in caches && other != url
    ensures FirstMatch(names, caches[name := caches[name][url := r]], other) == FirstMatch(names, caches, other)
  {
    if names != [] {
      FirstMatchOtherUrl(names[1..], caches, name, url, other, r);
    }
  }

  /** `cache.put` of each URL with its response, in list order. */
  function PutEach(cache: Cache, urls: seq<string>, responses: seq<Response>): (c: Cache)
    requires |urls| == |responses|
    ensures c.Keys == cache.Keys + set u | u in urls
    ensures forall u :: u in cache && u !in urls ==> c[u] == cache[u]
    ensures Distinct(urls) ==> forall i :: 0 <= i < |urls| ==> c[urls[i]] == responses[i]
    decreases |urls|
  {
    if urls == [] then cache
    else
      var c := PutEach(cache[urls[0] := responses[0]], urls[1..], responses[1..]);
      assert forall i :: 1 <= i < |urls| ==> urls[i] == urls[1..][i - 1];
      c
  }

  /** Every fetch in an `addAll` delivered an ok response that is not a
      `206 Partial Content`, which `addAll` also rejects. */
  predicate AllOk(results: seq<NetResult>)
  {
    forall i :: 0 <= i < |results| ==>
      results[i].Delivered? && Ok(results[i].response) && results[i].response.status != 206
  }

  function Responses(results: seq<NetResult>): (rs: seq<Response>)
    requires AllOk(results)
    ensures |rs| == |results|
    ensures forall i :: 0 <= i < |rs| ==> rs[i] == results[i].response
  {
    seq(|results|, i requires 0 <= i < |results| => results[i].response)
  }

  /** `cache.addAll(urls)`: all of them stored, or (when any fetch failed, was
      not ok or was partial) none of them and the call rejects. */
  function AddAll(cache: Cache, urls: seq<string>, results: seq<NetResult>): (r: Option<Cache>)
    requires |urls| == |results|
    ensures r.Some? <==> AllOk(results)
    ensures r.Some? ==> r.value.Keys == cache.Keys + set u | u in urls
    ensures r.Some? && Distinct(urls) ==>
              forall i :: 0 <= i < |urls| ==> r.value[urls[i]] == results[i].response
  {
    if AllOk(results) then Some(PutEach(cache, urls, Responses(results))) else None
  }

  /** One partial response among the fetches makes the whole `addAll` reject,
      although its status counts as ok. */
  lemma PartialContentRejected(cache: Cache, urls: seq<string>, results: seq<NetResult>, k: nat)
    requires |urls| == |results| && k < |results|
    requires results[k].Delivered? && results[k].response.status == 206
    ensures Ok(results[k].response)
    ensures AddAll(cache, urls, results) == None
  {
  }

  /** `xs` with the names in `doomed` removed, order kept. */
  function Without(xs: seq<string>, doomed: set<string>): (r: seq<string>)
    ensures forall x :: x in r <==> x in xs && x !in doomed
    ensures Distinct(xs) ==> Distinct(r)
  {
    if xs == [] then []
    else
      var rest := Without(xs[1..], doomed);
      assert Distinct(xs) ==> xs[0] !in xs[1..];
      if xs[0] in doomed then rest else [xs[0]] + rest
  }

  lemma {:induction false} WithoutNothing(xs: seq<string>)
    ensures Without(xs, {}) == xs
  {
    if xs != [] {
      WithoutNothing(xs[1..]);
    }
  }

  lemma {:induction false} WithoutTwice(xs: seq<string>, a: set<string>, b: set<string>)
    ensures Without(Without(xs, a), b) == Without(xs, a + b)
  {
    if xs != [] {
      WithoutTwice(xs[1..], a, b);
      if xs[0] !in a {
        assert Without(xs, a) == [xs[0]] + Without(xs[1..], a);
        assert Without(xs, a)[1..] == Without(xs[1..], a);
      }
    }
  }

  /** The names activation deletes among those in `xs`. */
  function Stale(xs: seq<string>): set<string>
  {
    set n | n in xs && n != CACHE_NAME
  }

  /** Deleting a set of names that covers every name but `CACHE_NAME` leaves
      `CACHE_NAME` alone, if it was there. */
  lemma {:induction false} OnlyCurrentName(keys: seq<string>, doomed: set<string>)
    requires Distinct(keys)
    requires CACHE_NAME !in doomed
    requires forall x :: x in keys && x != CACHE_NAME ==> x in doomed
    ensures Without(keys, doomed) == if CACHE_NAME in keys then [CACHE_NAME] else []
  {
    if keys != [] {
      OnlyCurrentName(keys[1..], doomed);
      assert keys[0] !in keys[1..];
    }
  }

  lemma StaleStep(keys: seq<string>, i: nat)
    requires i < |keys|
    ensures Stale(keys[..i + 1]) == Stale(keys[..i]) + if keys[i] != CACHE_NAME then {keys[i]} else {}
  {
    assert keys[..i + 1] == keys[..i] + [keys[i]];
  }

  lemma RemoveTwice(m: map<string, Cache>, a: set<string>, b: set<string>)
    ensures (m - a) - b == m - (a + b)
  {
  }

  lemma OnlyCurrentCache(start: map<string, Cache>, keys: seq<string>)
    requires forall n :: n in keys <==> n in start
    ensures start - Stale(keys) == if CACHE_NAME in start then map[CACHE_NAME := start[CACHE_NAME]] else map[]
  {
  }

  class CacheStorage {
    /** Cache names in creation order (`caches.keys()`). */
    var names: seq<string>
    var caches: map<string, Cache>

    ghost predicate Valid()
      reads this
    {
      Distinct(names) && (forall n :: n in names <==> n in caches)
    }

    constructor()
      ensures Valid() && names == [] && caches == map[]
    {
      names := [];
      caches := map[];
    }

    /** `caches.match(request)`: only GET requests match. */
    function Match(req: Request): Option<Response>
      reads this
    {
      if req.httpMethod != "GET" then None else FirstMatch(names, caches, req.url)
    }

    /** `caches.open(name)`: an existing cache, or a new empty one created last. */
    method Open(name: string)
      requires Valid()
      modifies this
      ensures Valid()
      ensures name in caches
      ensures names == if name in old(names) then old(names) else old(names) + [name]
      ensures caches == if name in old(caches) then old(caches) else old(caches)[name := map[]]
    {
      if name !in caches {
        names := names + [name];
        caches := caches[name := map[]];
      }
    }

    /** `caches.delete(name)` */
    method Delete(name: string)
      requires Valid()
      modifies this
      ensures Valid()
      ensures names == Without(old(names), {name})
      ensures caches == old(caches) - {name}
    {
      names := Without(names, {name});
      caches := caches - {name};
    }

    /** The install handler: open `CACHE_NAME` and `addAll(ASSETS)`, where
        `results[i]` is how the fetch of `ASSETS[i]` settled.  The cache is
        created even when `addAll` rejects; `completed` says whether it resolved. */
    method Install(results: seq<NetResult>) returns (completed: bool)
      requires Valid()
      requires |results| == |ASSETS|
      modifies this
      ensures Valid()
      ensures completed <==> AllOk(results)
      ensures names == if CACHE_NAME in old(names) then old(names) else old(names) + [CACHE_NAME]
      ensures CACHE_NAME in caches
      ensures forall n :: n in old(caches) && n != CACHE_NAME ==> n in caches && caches[n] == old(caches)[n]
      ensures !completed ==> caches[CACHE_NAME] == if CACHE_NAME in old(caches) then old(caches)[CACHE_NAME] else map[]
      ensures completed ==> forall u :: u in ASSETS ==> u in caches[CACHE_NAME]
      ensures completed ==>
        caches[CACHE_NAME] == AddAll(if CACHE_NAME in old(caches) then old(caches)[CACHE_NAME] else map[], ASSETS, results).value
    {
      completed := OpenAndAddAll(CACHE_NAME, ASSETS, results);
    }

    /** `caches.open(name).then(cache => cache.addAll(urls))` */
    method OpenAndAddAll(name: string, urls: seq<string>, results: seq<NetResult>) returns (completed: bool)
      requires Valid()
      requires |results| == |urls|
      modifies this
      ensures Valid()
      ensures completed <==> AllOk(results)
      ensures names == if name in old(names) then old(names) else old(names) + [name]
      ensures name in caches
      ensures forall n :: n in old(caches) && n != name ==> n in caches && caches[n] == old(caches)[n]
      ensures !completed ==> caches[name] == if name in old(caches) then old(caches)[name] else map[]
      ensures completed ==> forall u :: u in urls ==> u in caches[name]
      ensures completed ==>
        caches[name] == AddAll(if name in old(caches) then old(caches)[name] else map[], urls, results).value
    {
      Open(name);
      var added := AddAll(caches[name], urls, results);
      if added.Some? {
        caches := caches[name := added.value];
        completed := true;
      } else {
        completed := false;
      }
    }

    /** The activate handler: delete every cache whose name is not `CACHE_NAME`,
        one name of `caches.keys()` at a time. */
    method Activate()
      requires Valid()
      modifies this
      ensures Valid()
      ensures names == if CACHE_NAME in old(names) then [CACHE_NAME] else []
      ensures caches == if CACHE_NAME in old(caches) then map[CACHE_NAME := old(caches)[CACHE_NAME]] else map[]
    {
      var keys := names;
      ghost var start := caches;
      ghost var gone: set<string> := {};
      var i := 0;
      WithoutNothing(keys);
      while i < |keys|
        invariant 0 <= i <= |keys|
        invariant Valid()
        invariant gone == Stale(keys[..i])
        invariant names == Without(keys, gone)
        invariant caches == start - gone
      {
        StaleStep(keys, i);
        if keys[i] != CACHE_NAME {
          WithoutTwice(keys, gone, {keys[i]});
          RemoveTwice(start, gone, {keys[i]});
          Delete(keys[i]);
          gone := gone + {keys[i]};
        }
        i := i + 1;
      }
      assert keys[..i] == keys;
      OnlyCurrentName(keys, gone);
      OnlyCurrentCache(start, keys);
    }

    /** The fetch handler for `req`, where `net` is how the network fetch would
        settle.  Returns the response handed to the page (`None` for a handler
        that settles with nothing) and whether the network was used. */
    method Fetch(req: Request, net: NetResult) returns (resp: Option<Response>, usedNetwork: bool)
      requires Valid()
      modifies this
      ensures Valid()
      // a cache hit is served as stored, without touching the network or the caches
      ensures old(Match(req)).Some? ==>
                resp == old(Match(req)) && !usedNetwork && names == old(names) && caches == old(caches)
      ensures old(Match(req)).None? ==> usedNetwork
      // a miss answered by the network: that response is returned unchanged
      ensures old(Match(req)).None? && net.Delivered? ==> resp == Some(net.response)
      // ... and stored under the request's URL only when its status is exactly 200
      ensures old(Match(req)).None? && net.Delivered? && net.response.status != 200 ==>
                names == old(names) && caches == old(caches)
      ensures old(Match(req)).None? && net.Delivered? && net.response.status == 200 ==>
                names == (if CACHE_NAME in old(names) then old(names) else old(names) + [CACHE_NAME])
                && CACHE_NAME in caches
                && caches == old(caches)[CACHE_NAME := Stored(old(caches), req, net.response)]
      // a stored response is what the next lookup of that request finds
      ensures old(Match(req)).None? && net.Delivered? && net.response.status == 200 && req.httpMethod == "GET" ==>
                Match(req) == Some(net.response)
      // a miss with no network: pages fall back to the cached start page, other requests get nothing
      ensures old(Match(req)).None? && net.NetworkError? ==> names == old(names) && caches == old(caches)
      ensures old(Match(req)).None? && net.NetworkError? && req.destination == "document" ==>
                resp == Match(GetRequest(OFFLINE_PAGE))
      ensures old(Match(req)).None? && net.NetworkError? && req.destination != "document" ==> resp.None?
    {
      var hit := Match(req);
      if hit.Some? {
        return hit, false;
      }
      usedNetwork := true;
      match net {
        case Delivered(response) =>
          if response.status == 200 {
            Store(req, response);
          }
          resp := Some(response);
        case NetworkError =>
          if req.destination == "document" {
            resp := Match(GetRequest(OFFLINE_PAGE));
          } else {
            resp := None;
          }
      }
    }

    /** `caches.open(CACHE_NAME)` then `cache.put(req, response)`; `put` rejects a
        non-GET request, leaving the opened cache as it was. */
    method Store(req: Request, response: Response)
      requires Valid()
      requires Match(req).None?
      modifies this
      ensures Valid()
      ensures names == if CACHE_NAME in old(names) then old(names) else old(names) + [CACHE_NAME]
      ensures CACHE_NAME in caches
      ensures caches == old(caches)[CACHE_NAME := Stored(old(caches), req, response)]
      ensures req.httpMethod == "GET" ==> Match(req) == Some(response)
    {
      ghost var oldNames, oldCaches := names, caches;
      Open(CACHE_NAME);
      if req.httpMethod == "GET" {
        if CACHE_NAME !in oldCaches {
          FirstMatchAfterOpen(oldNames, oldCaches, CACHE_NAME, req.url);
        }
        FirstMatchAfterStore(names, caches, CACHE_NAME, req.url, response);
        caches := caches[CACHE_NAME := caches[CACHE_NAME][req.url := response]];
      }
    }
  }

  /** The contents of `CACHE_NAME` after a store of `response` for `req`: the
      entry for that URL set (GET requests only), every other entry kept. */
  function Stored(caches: map<string, Cache>, req: Request, response: Response): (c: Cache)
    ensures req.httpMethod == "GET" ==> req.url in c && c[req.url] == response
    ensures forall u :: CACHE_NAME in caches && u in caches[CACHE_NAME] && (u != req.url || req.httpMethod != "GET") ==>
              u in c && c[u] == caches[CACHE_NAME][u]
    ensures c.Keys <= (if CACHE_NAME in caches then caches[CACHE_NAME].Keys else {}) + {req.url}
  {
    var base := if CACHE_NAME in caches then caches[CACHE_NAME] else map[];
    if req.httpMethod == "GET" then base[req.url := response] else base
  }
}

=== FILE: structured_data.dfy ===
/** The structured-data manager: which page the location names, the title
    and description it publishes for it, which schema builder the page
    gets, and the `application/ld+json` scripts in the document head, kept
    one per id. */
module StructuredData {
  import opened Js
  import Breadcrumbs

  const SITE_NAME := "Klaus Portfolio"
  const SITE_DESCRIPTION :=
    "Computer Science graduate specializing in scalable web applications, AI integration, and user-centered product development"

  // ---------------------------------------------------------------- pages

  /** `getCurrentPage()`: the file name alone decides. */
  function CurrentPage(path: string): string
  {
    PageOfFilename(LastSegment(path))
  }

  /** The page a file name stands for: an empty name or `index.html` is the
      home page, otherwise the file-name table (the same table the
      breadcrumbs use), else `unknown`. */
  function PageOfFilename(filename: string): string
  {
    if filename == "" || filename == "index.html" then "home"
    else if Breadcrumbs.PageOfFile(filename).Some? then Breadcrumbs.PageOfFile(filename).value
    else "unknown"
  }

  /** Only an empty file name or `index.html` is the home page. */
  lemma HomeFilenames(filename: string)
    ensures PageOfFilename(filename) == "home" <==> filename in {"", "index.html"}
  {
  }

  /** A name is `unknown` exactly when it is neither a home name nor in the
      table; a name in the table gives its page; `blog-index.html` is the
      blog. */
  lemma UnknownPage(filename: string)
    ensures PageOfFilename(filename) == "unknown" <==>
      filename !in {"", "index.html"} && Breadcrumbs.PageOfFile(filename).None?
    ensures filename !in {"", "index.html"} && Breadcrumbs.PageOfFile(filename).Some? ==>
      PageOfFilename(filename) == Breadcrumbs.PageOfFile(filename).value
    ensures PageOfFilename("blog-index.html") == "blog"
  {
  }

  /** `getPageTitle(page)`. */
  function PageTitle(page: string): string
  {
    if page == "home" then "Home"
    else if page == "projects" then "Projects"
    else if page == "blog" then "Blog"
    else if page == "tutorials" then "Tutorials"
    else if page == "case-studies" then "Case Studies"
    else if page == "resume" then "Resume"
    else if page == "insights" then "Insights"
    else if page == "privacy" then "Privacy Policy"
    else if page == "terms" then "Terms of Service"
    else if page == "disclaimer" then "Disclaimer"
    else "Page"
  }

  /** The pages the title table knows. */
  predicate Titled(page: string)
  {
    || page == "home" || page == "projects" || page == "blog" || page == "tutorials"
    || page == "case-studies" || page == "resume" || page == "insights" || page == "privacy"
    || page == "terms" || page == "disclaimer"
  }

  /** A page in the table has a title of its own; any other gets `Page`. */
  lemma PageTitleSpec(page: string)
    ensures !Titled(page) <==> PageTitle(page) == "Page"
    ensures PageTitle(page) != ""
  {
  }

  /** `getPageDescription(page)`. */
  function PageDescription(page: string): string
  {
    var own := OwnDescription(page);
    if own.Some? then own.value else SITE_DESCRIPTION
  }

  /** The `descriptions` table, without the home page's entry, which is the
      site description itself. */
  function OwnDescription(page: string): Option<string>
  {
    if page == "projects" then Some(PROJECTS_DESCRIPTION)
    else if page == "blog" then Some(BLOG_DESCRIPTION)
    else if page == "tutorials" then Some(TUTORIALS_DESCRIPTION)
    else if page == "case-studies" then Some(CASE_STUDIES_DESCRIPTION)
    else if page == "resume" then Some(RESUME_DESCRIPTION)
    else if page == "privacy" then Some(PRIVACY_DESCRIPTION)
    else if page == "terms" then Some(TERMS_DESCRIPTION)
    else if page == "disclaimer" then Some(DISCLAIMER_DESCRIPTION)
    else None
  }

  const PROJECTS_DESCRIPTION :=
    "Explore my portfolio of software development projects, including web applications, APIs, and machine learning solutions."

  const BLOG_DESCRIPTION :=
    "Technical insights, tutorials, and best practices in web development, machine learning, and software engineering."

  const TUTORIALS_DESCRIPTION :=
    "Step-by-step tutorials covering web development, React, Node.js, CSS, performance optimization, and modern development practices."

  const CASE_STUDIES_DESCRIPTION :=
    "Detailed case studies showcasing problem-solving, technical solutions, and measurable outcomes in software development projects."

  const RESUME_DESCRIPTION :=
    "Professional resume and CV showcasing skills, experience, and qualifications in software development."

  const PRIVACY_DESCRIPTION :=
    "Privacy policy for Klaus portfolio website, describing data collection and usage practices."

  const TERMS_DESCRIPTION :=
    "Terms of service for Klaus portfolio website, outlining usage rights and limitations."

  const DISCLAIMER_DESCRIPTION :=
    "Disclaimer for Klaus portfolio website, limiting liability for content and services."

  /** Exactly the titled pages other than the home page and `insights` have
      a description of their own; those two and every untitled page fall
      back to the site's. */
  lemma PageDescriptionSpec(page: string)
    ensures OwnDescription(page).Some? <==> Titled(page) && page != "home" && page != "insights"
    ensures !Titled(page) ==> PageDescription(page) == SITE_DESCRIPTION
    ensures PageDescription("insights") == SITE_DESCRIPTION && PageDescription("home") == SITE_DESCRIPTION
  {
  }

  // ---------------------------------------------------------------- schemas

  /** The schema builders `setupPageSpecificData` chooses between. */
  datatype Builder =
    | HomePage | ProjectsPage | BlogPage | TutorialsPage | CaseStudiesPage | ResumePage
    | DefaultPage(page: string)

  /** The `switch` in `setupPageSpecificData`. */
  function BuilderFor(page: string): Builder
  {
    match page
    case "home" => HomePage
    case "projects" => ProjectsPage
    case "blog" => BlogPage
    case "blog-index" => BlogPage
    case "tutorials" => TutorialsPage
    case "case-studies" => CaseStudiesPage
    case "resume" => ResumePage
    case _ => DefaultPage(page)
  }

  /** The id each builder registers its script under. */
  function SchemaId(b: Builder): string
  {
    match b
    case HomePage => "homepage"
    case ProjectsPage => "projects"
    case BlogPage => "blog"
    case TutorialsPage => "tutorials"
    case CaseStudiesPage => "case-studies"
    case ResumePage => "resume"
    case DefaultPage(page) => "page-" + page
  }

  /** The pages the switch names. */
  predicate Specific(page: string)
  {
    || page == "home" || page == "projects" || page == "blog" || page == "blog-index"
    || page == "tutorials" || page == "case-studies" || page == "resume"
  }

  /** Each page gets exactly one builder: the two blog pages share one, and
      every other page not in the switch gets the default builder under the
      id `page-<name>`. */
  lemma BuilderForSpec(page: string)
    ensures BuilderFor("blog") == BuilderFor("blog-index") == BlogPage
    ensures BuilderFor(page).DefaultPage? <==> !Specific(page)
    ensures BuilderFor(page).DefaultPage? ==> SchemaId(BuilderFor(page)) == "page-" + page
    ensures !BuilderFor(page).DefaultPage? ==> Specific(page)
  {
  }

  /** The ids the constructor's `init()` registers, in order: the person,
      the page's own schema, the organisation and the web site. */
  function InitIds(path: string): seq<string>
  {
    ["person", SchemaId(BuilderFor(CurrentPage(path))), "organization", "website"]
  }

  /** No two of them clash, so each survives initialisation. */
  lemma InitIdsDistinct(path: string)
    ensures forall i, j :: 0 <= i < j < |InitIds(path)| ==> InitIds(path)[i] != InitIds(path)[j]
  {
    var b := BuilderFor(CurrentPage(path));
    if b.DefaultPage? {
      assert SchemaId(b)[0] == 'p' && SchemaId(b)[1] == 'a';
    }
  }

  /** The parts of the default `WebPage` schema that depend on the page. */
  datatype WebPage = WebPage(name: string, description: string, url: string, siteName: string)

  /** `setupDefaultPageData(page)`: named `<title> - <site name>`. */
  function DefaultSchema(page: string, url: string): (s: WebPage)
    ensures IsPrefix(PageTitle(page), s.name) && IsSuffix(" - " + SITE_NAME, s.name)
    ensures |s.name| == |PageTitle(page)| + 3 + |SITE_NAME|
    ensures s.description == PageDescription(page) && s.url == url && s.siteName == SITE_NAME
  {
    WebPage(PageTitle(page) + " - " + SITE_NAME, PageDescription(page), url, SITE_NAME)
  }

  // ---------------------------------------------------------------- scripts

  /** A `<script type="application/ld+json">` with its `data-structured`
      id and its serialised data. */
  datatype Script = Script(id: string, data: string)

  /** How many scripts carry `id`. */
  function CountId(scripts: seq<Script>, id: string): nat
  {
    if scripts == [] then 0 else (if scripts[0].id == id then 1 else 0) + CountId(scripts[1..], id)
  }

  /** The scripts without `id`, in order. */
  function Others(scripts: seq<Script>, id: string): seq<Script>
  {
    if scripts == [] then [] else (if scripts[0].id == id then [] else [scripts[0]]) + Others(scripts[1..], id)
  }

  /** `querySelector(...)` then `remove()`: the first script with `id`
      leaves the document. */
  function RemoveFirst(scripts: seq<Script>, id: string): seq<Script>
  {
    if scripts == [] then []
    else if scripts[0].id == id then scripts[1..]
    else [scripts[0]] + RemoveFirst(scripts[1..], id)
  }

  /** Removing the first script with `id` drops one such script when there
      is one, and keeps every other script in order. */
  lemma {:induction false} RemoveFirstSpec(scripts: seq<Script>, id: string)
    ensures CountId(RemoveFirst(scripts, id), id) == if CountId(scripts, id) > 0 then CountId(scripts, id) - 1 else 0
    ensures forall x :: x != id ==> CountId(RemoveFirst(scripts, id), x) == CountId(scripts, x)
    ensures Others(RemoveFirst(scripts, id), id) == Others(scripts, id)
  {
    if scripts != [] {
      RemoveFirstSpec(scripts[1..], id);
      if scripts[0].id != id {
        var r := RemoveFirst(scripts, id);
        assert r[0] == scripts[0] && r[1..] == RemoveFirst(scripts[1..], id);
      }
    }
  }

  lemma {:induction false} CountAppend(scripts: seq<Script>, s: Script, id: string)
    ensures CountId(scripts + [s], id) == CountId(scripts, id) + (if s.id == id then 1 else 0)
    ensures Others(scripts + [s], id) == Others(scripts, id) + (if s.id == id then [] else [s])
  {
    if scripts != [] {
      CountAppend(scripts[1..], s, id);
      assert (scripts + [s])[1..] == scripts[1..] + [s];
    }
  }

  /** No script found for the id: none of them carries it. */
  lemma {:induction false} CountZero(scripts: seq<Script>, id: string)
    ensures CountId(scripts, id) == 0 <==> forall i :: 0 <= i < |scripts| ==> scripts[i].id != id
  {
    if scripts != [] {
      CountZero(scripts[1..], id);
      assert forall i :: 1 <= i < |scripts| ==> scripts[i] == scripts[1..][i - 1];
    }
  }

  /** The head after `addStructuredData(data, id)`. */
  function Added(scripts: seq<Script>, id: string, data: string): seq<Script>
  {
    RemoveFirst(scripts, id) + [Script(id, data)]
  }

  /** When at most one script carried `id`, afterwards exactly one does,
      the last, holding `data`; the scripts with other ids are kept in
      order. */
  lemma AddedSpec(scripts: seq<Script>, id: string, data: string)
    requires CountId(scripts, id) <= 1
    ensures var r := Added(scripts, id, data);
      && CountId(r, id) == 1
      && r[|r| - 1] == Script(id, data)
      && (forall i :: 0 <= i < |r| - 1 ==> r[i].id != id)
      && Others(r, id) == Others(scripts, id)
      && (forall x :: x != id ==> CountId(r, x) == CountId(scripts, x))
  {
    RemoveFirstSpec(scripts, id);
    CountAppend(RemoveFirst(scripts, id), Script(id, data), id);
    CountZero(RemoveFirst(scripts, id), id);
    forall x | x != id
      ensures CountId(Added(scripts, id, data), x) == CountId(scripts, x)
    {
      CountAppend(RemoveFirst(scripts, id), Script(id, data), x);
    }
  }

  /** The document head's structured-data scripts. */
  class Head {
    var scripts: seq<Script>

    /** No id is carried by two scripts. */
    ghost predicate Valid()
      reads this
    {
      forall id :: CountId(scripts, id) <= 1
    }

    constructor()
      ensures Valid() && scripts == []
    {
      scripts := [];
    }

    /** `addStructuredData(data, id)`. */
    method AddStructuredData(data: string, id: string)
      requires Valid()
      modifies this
      ensures Valid()
      ensures scripts == Added(old(scripts), id, data)
      ensures CountId(scripts, id) == 1 && scripts[|scripts| - 1] == Script(id, data)
    {
      AddedSpec(scripts, id, data);
      scripts := RemoveFirst(scripts, id) + [Script(id, data)];
    }

    /** `updateStructuredData(id, data)`: the same as adding. */
    method UpdateStructuredData(id: string, data: string)
      requires Valid()
      modifies this
      ensures Valid()
      ensures scripts == Added(old(scripts), id, data)
    {
      AddStructuredData(data, id);
    }
  }
}

=== FILE: theme.dfy ===
/** The enhanced theme manager: five built-in themes plus user-made custom
    themes, the stored preference, cycling, the dark-mode toggle and custom
    theme deletion. The system colour-scheme preference and the confirmation
    dialog are parameters; the CSS colour properties a theme applies are not
    modelled. */
module Themes {
  import opened Js

  /** A theme's display name and icon class; a custom theme's name is also its key. */
  datatype Theme = Theme(name: string, icon: string)

  /** The keys of the built-in table, in declaration order. */
  const BUILTIN_NAMES: seq<string> := ["light", "dark", "auto", "sepia", "highContrast"]

  /** `this.themes[key]` */
  function Builtin(key: string): Option<Theme>
  {
    if key == "light" then Some(Theme("Light", "fa-sun"))
    else if key == "dark" then Some(Theme("Dark", "fa-moon"))
    else if key == "auto" then Some(Theme("Auto", "fa-adjust"))
    else if key == "sepia" then Some(Theme("Sepia", "fa-coffee"))
    else if key == "highContrast" then Some(Theme("High Contrast", "fa-eye"))
    else None
  }

  lemma BuiltinKeys(key: string)
    ensures Builtin(key).Some? <==> key in BUILTIN_NAMES
  {
  }

  /** `customThemes.find(t => t.name === name)` succeeds. */
  predicate HasCustom(custom: seq<Theme>, name: string)
  {
    exists i :: 0 <= i < |custom| && custom[i].name == name
  }

  /** The names `setTheme` accepts. */
  predicate IsKnown(name: string, custom: seq<Theme>)
  {
    Builtin(name).Some? || HasCustom(custom, name)
  }

  /** `loadThemePreference()`: a stored built-in name, otherwise `auto`. */
  function PreferredTheme(saved: Option<string>): (r: string)
    ensures Builtin(r).Some?
    ensures saved.Some? && Builtin(saved.value).Some? ==> r == saved.value
    ensures (saved.None? || Builtin(saved.value).None?) ==> r == "auto"
  {
    if saved.Some? && saved.value != "" && Builtin(saved.value).Some? then saved.value else "auto"
  }

  /** `getThemeIcon(name)`: the built-in icon, or the palette for any other name. */
  function ThemeIcon(name: string): (icon: string)
    ensures Builtin(name).Some? ==> icon == Builtin(name).value.icon
    ensures Builtin(name).None? ==> icon == "fa-palette"
  {
    match Builtin(name)
    case Some(t) => t.icon
    case None => "fa-palette"
  }

  /** `names.indexOf(x)` */
  function IndexOfName(names: seq<string>, x: string): int
  {
    if names == [] then -1
    else if names[0] == x then 0
    else
      var j := IndexOfName(names[1..], x);
      if j == -1 then -1 else j + 1
  }

  /** The first position holding `x`, or -1 exactly when there is none. */
  lemma {:induction false} IndexOfNameSpec(names: seq<string>, x: string)
    ensures var i := IndexOfName(names, x);
      -1 <= i < |names|
      && (i >= 0 ==> names[i] == x && forall j :: 0 <= j < i ==> names[j] != x)
      && (i == -1 <==> x !in names)
  {
    if names != [] && names[0] != x {
      IndexOfNameSpec(names[1..], x);
      assert names == [names[0]] + names[1..];
    }
  }

  /** No name is listed twice. */
  predicate Distinct(names: seq<string>)
  {
    forall i, j :: 0 <= i < j < |names| ==> names[i] != names[j]
  }

  /** `(index + 1) % length` for an `indexOf` result, written as the wrap it
      performs: -1 goes to 0 and the last position back to 0. */
  function NextIndex(i: int, n: nat): (j: nat)
    requires -1 <= i < n && n > 0
    ensures j < n
  {
    if i + 1 == n then 0 else i + 1
  }

  lemma NextIndexIsMod(i: int, n: nat)
    requires -1 <= i < n && n > 0
    ensures NextIndex(i, n) == (i + 1) % n
  {
    if i + 1 == n {
      ModSelf(n);
    } else {
      ModBelow(i + 1, n);
    }
  }

  /** The name after `current` in `names`, wrapping, and the first name when
      `current` is not listed. */
  function NextIn(names: seq<string>, current: string): string
    requires names != []
  {
    var i := IndexOfName(names, current);
    IndexOfNameSpec(names, current);
    names[NextIndex(i, |names|)]
  }

  /** Each listed name is followed by the next one, the last by the first. */
  lemma NextInOrder(names: seq<string>, i: nat)
    requires Distinct(names) && i < |names|
    ensures NextIn(names, names[i]) == names[(i + 1) % |names|]
  {
    IndexOfNameSpec(names, names[i]);
    NextIndexIsMod(i, |names|);
  }

  /** A name that is not listed is followed by the first one. */
  lemma NextInOutside(names: seq<string>, x: string)
    requires names != [] && x !in names
    ensures NextIn(names, x) == names[0]
  {
    IndexOfNameSpec(names, x);
  }

  /** No built-in name is listed twice. */
  lemma BuiltinNamesDistinct()
    ensures Distinct(BUILTIN_NAMES)
  {
    var n := BUILTIN_NAMES;
    assert n[0] == "light" && n[1] == "dark" && n[2] == "auto" && n[3] == "sepia" && n[4] == "highContrast";
    assert "light" != "dark" && "light" != "auto" && "light" != "sepia" && "light" != "highContrast";
    assert "dark" != "auto" && "dark" != "sepia" && "dark" != "highContrast";
    assert "auto" != "sepia" && "auto" != "highContrast" && "sepia" != "highContrast";
  }

  /** `cycleTheme()`'s target: the built-in after the current one, wrapping, and
      `light` from any theme that is not built in. */
  function NextTheme(current: string): string
  {
    NextIn(BUILTIN_NAMES, current)
  }

  /** Cycling always lands on a built-in theme. */
  lemma NextThemeBuiltin(current: string)
    ensures Builtin(NextTheme(current)).Some?
  {
    IndexOfNameSpec(BUILTIN_NAMES, current);
    BuiltinKeys(NextTheme(current));
  }

  /** Cycling moves from each built-in to the next in table order, and from
      the last (`highContrast`) back to the first. */
  lemma CycleOrder(i: nat)
    requires i < |BUILTIN_NAMES|
    ensures NextTheme(BUILTIN_NAMES[i]) == BUILTIN_NAMES[(i + 1) % |BUILTIN_NAMES|]
  {
    BuiltinNamesDistinct();
    NextInOrder(BUILTIN_NAMES, i);
  }

  /** Cycling from a theme that is not built in goes to the first, `light`. */
  lemma CycleFromCustom(current: string)
    requires current !in BUILTIN_NAMES
    ensures NextTheme(current) == "light"
  {
    NextInOutside(BUILTIN_NAMES, current);
  }

  /** `toggleDarkMode()`'s target: `light` when the page is dark now, `dark`
      otherwise. */
  function DarkToggleTarget(current: string, prefersDark: bool): (r: string)
    ensures r == "light" <==> current == "dark" || (current == "auto" && prefersDark)
    ensures r == "light" || r == "dark"
  {
    if current == "dark" || (current == "auto" && prefersDark) then "light" else "dark"
  }

  /** Toggling twice from an explicit light or dark theme comes back. */
  lemma DarkToggleTwice(current: string, prefersDark: bool)
    requires current == "light" || current == "dark"
    ensures DarkToggleTarget(DarkToggleTarget(current, prefersDark), prefersDark) == current
  {
  }

  /** The characters `classList.add` refuses in a class token. */
  predicate IsAsciiWhitespace(c: char)
  {
    c == ' ' || c == '\t' || c == '\n' || c == '\U{000C}' || c == '\r'
  }

  predicate HasSpace(s: string)
  {
    exists i :: 0 <= i < |s| && IsAsciiWhitespace(s[i])
  }

  /** The theme class `applyTheme` leaves on the body: `theme-` and the
      lowercased name, for `auto` too, since the system theme's class is
      replaced straight after; the empty string, for no theme class, when the
      name holds white space, because `classList.add` then throws after the
      old theme class is gone. */
  function BodyClass(name: string): (c: string)
  {
    var token := "theme-" + Lower(name);
    if HasSpace(token) then "" else token
  }

  /** Lowercasing keeps white space where it was. */
  lemma LowerKeepsSpace(s: string)
    ensures HasSpace(Lower(s)) <==> HasSpace(s)
  {
    if HasSpace(s) {
      var i :| 0 <= i < |s| && IsAsciiWhitespace(s[i]);
      assert IsAsciiWhitespace(Lower(s)[i]);
    }
    if HasSpace(Lower(s)) {
      var i :| 0 <= i < |s| && IsAsciiWhitespace(Lower(s)[i]);
      assert IsAsciiWhitespace(s[i]);
    }
  }

  /** White space after a prefix without any is white space in the tail. */
  lemma SpaceAfter(p: string, x: string)
    requires !HasSpace(p)
    ensures HasSpace(p + x) <==> HasSpace(x)
  {
    var t := p + x;
    if HasSpace(x) {
      var i :| 0 <= i < |x| && IsAsciiWhitespace(x[i]);
      assert t[|p| + i] == x[i];
    }
    if HasSpace(t) {
      var i :| 0 <= i < |t| && IsAsciiWhitespace(t[i]);
      if i < |p| {
        assert false;
      } else {
        assert t[i] == x[i - |p|];
      }
    }
  }

  /** A name without white space gets the class `theme-` and its lowercased
      self; a name with white space gets none. */
  lemma BodyClassSpec(name: string)
    ensures !HasSpace(name) ==> BodyClass(name) == "theme-" + Lower(name)
    ensures HasSpace(name) ==> BodyClass(name) == ""
  {
    assert !HasSpace("theme-");
    SpaceAfter("theme-", Lower(name));
    LowerKeepsSpace(name);
  }

  /** `auto` keeps its own class: the system theme's class is replaced by
      `theme-auto`. */
  lemma BodyClassAuto()
    ensures BodyClass("auto") == "theme-auto"
  {
    var l := Lower("auto");
    assert l[0] == 'a' && l[1] == 'u' && l[2] == 't' && l[3] == 'o';
    assert l == "auto";
    assert !HasSpace("theme-");
    SpaceAfter("theme-", "auto");
  }

  /** Two names without white space get the same class exactly when they
      agree up to case. */
  lemma BodyClassNamesTheme(a: string, b: string)
    requires !HasSpace(a) && !HasSpace(b)
    ensures BodyClass(a) == BodyClass(b) <==> Lower(a) == Lower(b)
  {
    BodyClassSpec(a);
    BodyClassSpec(b);
    if BodyClass(a) == BodyClass(b) {
      assert ("theme-" + Lower(a))[6..] == Lower(a);
      assert ("theme-" + Lower(b))[6..] == Lower(b);
    }
  }

  /** `customThemes.filter(t => t.name !== name)` */
  function WithoutTheme(custom: seq<Theme>, name: string): (r: seq<Theme>)
    ensures !HasCustom(r, name)
    ensures |r| <= |custom|
    ensures forall t :: t in r <==> t in custom && t.name != name
  {
    if custom == [] then []
    else (if custom[0].name != name then [custom[0]] else []) + WithoutTheme(custom[1..], name)
  }

  /** `getAvailableThemes()`: the built-in table, then each custom theme in
      order stored under its name, so a later entry overrides an earlier one
      and a custom theme overrides a built-in. */
  function AvailableThemes(custom: seq<Theme>): map<string, Theme>
  {
    if custom == [] then
      map k | k in BUILTIN_NAMES :: Builtin(k).value
    else
      var last := custom[|custom| - 1];
      AvailableThemes(custom[..|custom| - 1])[last.name := last]
  }

  /** The available names are the built-in keys and the custom names; a custom
      name maps to the last custom theme carrying it, and a built-in key no
      custom theme uses keeps its built-in theme. */
  lemma {:induction false} AvailableThemesContents(custom: seq<Theme>, key: string)
    ensures key in AvailableThemes(custom) <==> Builtin(key).Some? || HasCustom(custom, key)
    ensures !HasCustom(custom, key) && Builtin(key).Some? ==> AvailableThemes(custom)[key] == Builtin(key).value
    ensures forall i ::
      (0 <= i < |custom| && custom[i].name == key && forall j :: i < j < |custom| ==> custom[j].name != key)
      ==> AvailableThemes(custom)[key] == custom[i]
    decreases |custom|
  {
    BuiltinKeys(key);
    if custom != [] {
      var init := custom[..|custom| - 1];
      AvailableThemesContents(init, key);
      assert custom == init + [custom[|custom| - 1]];
      assert HasCustom(custom, key) <==> HasCustom(init, key) || custom[|custom| - 1].name == key by {
        if HasCustom(custom, key) && custom[|custom| - 1].name != key {
          var i :| 0 <= i < |custom| && custom[i].name == key;
          assert init[i] == custom[i];
        }
      }
    }
  }

  class ThemeManager {
    var currentTheme: string
    var customThemes: seq<Theme>
    /** The `theme-preference` entry of local storage. */
    var storedPreference: Option<string>
    /** The `custom-themes` entry of local storage. */
    var storedCustomThemes: Option<seq<Theme>>
    /** The theme class on the body element, empty for none. */
    var bodyClass: string

    /** `applyTheme(name)`: sets the body class when the name is a theme. */
    method ApplyTheme(name: string)
      modifies this
      ensures currentTheme == old(currentTheme) && customThemes == old(customThemes)
      ensures storedPreference == old(storedPreference) && storedCustomThemes == old(storedCustomThemes)
      ensures IsKnown(name, customThemes) ==> bodyClass == BodyClass(name)
      ensures !IsKnown(name, customThemes) ==> bodyClass == old(bodyClass)
    {
      if IsKnown(name, customThemes) {
        bodyClass := BodyClass(name);
      }
    }

    /** The constructor's `init()`: restore the preference, apply it, then load
        the stored custom themes. */
    constructor(savedPreference: Option<string>, savedCustom: Option<seq<Theme>>)
      ensures currentTheme == PreferredTheme(savedPreference)
      ensures customThemes == if savedCustom.Some? then savedCustom.value else []
      ensures bodyClass == BodyClass(PreferredTheme(savedPreference))
      ensures storedPreference == savedPreference && storedCustomThemes == savedCustom
    {
      currentTheme := PreferredTheme(savedPreference);
      customThemes := [];
      storedPreference := savedPreference;
      storedCustomThemes := savedCustom;
      bodyClass := "";
      new;
      ApplyTheme(currentTheme);
      if savedCustom.Some? {
        customThemes := savedCustom.value;
      }
    }

    /** `setTheme(name)`: an unknown name changes nothing; a known one becomes
        current, is stored and is applied. */
    method SetTheme(name: string)
      modifies this
      ensures customThemes == old(customThemes) && storedCustomThemes == old(storedCustomThemes)
      ensures !IsKnown(name, old(customThemes)) ==>
        currentTheme == old(currentTheme) && storedPreference == old(storedPreference) && bodyClass == old(bodyClass)
      ensures IsKnown(name, old(customThemes)) ==>
        currentTheme == name && storedPreference == Some(name) && bodyClass == BodyClass(name)
    {
      if !IsKnown(name, customThemes) {
        return;
      }
      currentTheme := name;
      storedPreference := Some(name);
      ApplyTheme(name);
    }

    /** `cycleTheme()` */
    method CycleTheme()
      modifies this
      ensures customThemes == old(customThemes) && storedCustomThemes == old(storedCustomThemes)
      ensures currentTheme == NextTheme(old(currentTheme)) && storedPreference == Some(currentTheme)
      ensures bodyClass == BodyClass(currentTheme)
    {
      var next := NextTheme(currentTheme);
      NextThemeBuiltin(currentTheme);
      SetTheme(next);
    }

    /** `toggleDarkMode()` */
    method ToggleDarkMode(prefersDark: bool)
      modifies this
      ensures customThemes == old(customThemes) && storedCustomThemes == old(storedCustomThemes)
      ensures currentTheme == DarkToggleTarget(old(currentTheme), prefersDark)
      ensures storedPreference == Some(currentTheme)
      ensures bodyClass == BodyClass(currentTheme)
    {
      SetTheme(DarkToggleTarget(currentTheme, prefersDark));
    }

    /** `deleteCustomTheme(name)` after the confirmation dialog answered
        `confirmed`. */
    method DeleteCustomTheme(name: string, confirmed: bool)
      modifies this
      ensures !confirmed ==> unchanged(this)
      ensures confirmed ==> customThemes == WithoutTheme(old(customThemes), name) && storedCustomThemes == Some(customThemes)
      ensures confirmed && old(currentTheme) == name ==>
        currentTheme == "light" && storedPreference == Some("light") && bodyClass == BodyClass("light")
      ensures confirmed && old(currentTheme) != name ==>
        currentTheme == old(currentTheme) && storedPreference == old(storedPreference) && bodyClass == old(bodyClass)
    {
      if !confirmed {
        return;
      }
      customThemes := WithoutTheme(customThemes, name);
      storedCustomThemes := Some(customThemes);
      if currentTheme == name {
        SetTheme("light");
      }
    }

    /** `addCustomTheme(theme)` */
    method AddCustomTheme(theme: Theme)
      modifies this
      ensures customThemes == old(customThemes) + [theme] && storedCustomThemes == Some(customThemes)
      ensures currentTheme == old(currentTheme) && storedPreference == old(storedPreference) && bodyClass == old(bodyClass)
      ensures IsKnown(theme.name, customThemes)
    {
      customThemes := customThemes + [theme];
      storedCustomThemes := Some(customThemes);
      assert customThemes[|customThemes| - 1] == theme;
    }
  }
}
